=== FILE: README.md ===
# java-data-structures in Dafny

A model of the sequential data structures and graph algorithms of the
`io.github.marioluan.datastructures` library, with proofs of what each of them
promises. The model covers:

- **Linear containers.** The array helpers of `Util` and `ArrayResizable`. The
  array stack `DynamicArray`, which doubles when full and halves at a quarter.
  The linked stack `LinkedList`, the `Deque`, the prepend-only `Bag` and the
  node iterator `LinkedListIterator`. The `RandomizedQueue`.
- **Priority queue.** The fixed-capacity `MaxBinaryHeap` and its iterator.
- **Symbol tables.** The `BinarySearchTree` with its ordered operations, and
  `OneDRangeCount` on top of it. The sorted-array `ArraySymbolTable`, the
  unordered `LinkedListSymbolTable` and the `IntervalSearchTree`. The hash
  tables `LinearProbingHashTable` and `SeparateChainingHashTable`.
- **Graphs.** The undirected `AdjacencyListGraph` and the `Digraph` with
  `reverse()`. The degree functions of `GraphProcessor`. `DepthFirstSearch`
  and `BreadthFirstSearch`, and the paths read back from them (`PathDecorator`,
  `DFSPaths`, `BFSPaths`). `ConnectedComponents`, the Kosaraju-Sharir
  `StronglyConnectedComponents`, and the reverse-postorder `TopologicalSort`.

Every class is a value: an immutable datatype with pure functions, or methods
where the source runs a loop. Java's `null` is `Option.None`. An exception is
`Result.Err` naming its class (`wrappers.dfy`). Adjacency lists are sequences
built by prepending, so `adj(v)` yields the neighbour added last first, as the
`Bag` does.

Where the code does not do what its documentation promises, the model does
both. A member suffixed `AsWritten` follows the code. A corrected member does
what was evidently intended and carries the proofs. A lemma with a concrete
input shows the two apart. These are listed under "## Findings".

## Model

| member | source | states |
|---|---|---|
| Util.CompareTo | src/main/java/io/github/marioluan/datastructures/Util.java:17-20 | the `compareTo` sign that `less` and `lessOrEqual` test: -1, 0 or 1, negative exactly when `a < b` and zero exactly when `a == b` |
| Util.Less | src/main/java/io/github/marioluan/datastructures/Util.java:17-20 | `less(a, b)` holds exactly when `a` is strictly less than `b` |
| Util.LessOrEqual | src/main/java/io/github/marioluan/datastructures/Util.java:31-33 | `lessOrEqual(a, b)` holds exactly when `a` is strictly less than `b` or equal to it |
| Util.Swap | src/main/java/io/github/marioluan/datastructures/Util.java:43-47 | swapping two slots exchanges their contents, leaves every other slot as it was, and keeps the multiset of items |
| Util.FindMin | src/main/java/io/github/marioluan/datastructures/Util.java:59-67 | `findMin` returns an index within the array that holds a smallest item: no item is less than it |
| Util.Copy | src/main/java/io/github/marioluan/datastructures/Util.java:78-82 | `copy(a, aux, lo, hi)` succeeds exactly when `hi < lo` or `lo..hi` lies inside both arrays; then `aux` keeps its length, its slots `lo..hi` hold `a`'s and every other slot is unchanged; otherwise it is IndexOutOfBounds |
| ArrayResizable.Resize | src/main/java/io/github/marioluan/datastructures/wrappers/ArrayResizable.java:16-24 | resizing gives an array of the new capacity that keeps the first `n` slots and nulls the rest; a negative capacity is NegativeArraySizeException |
| ArrayResizable.ResizedItems | src/main/java/io/github/marioluan/datastructures/wrappers/ArrayResizable.java:16-24 | a resize to a capacity of at least `n` keeps the `n` stored items in order |
| ArrayResizable.GrowBalanced | src/main/java/io/github/marioluan/datastructures/stack/DynamicArray.java:64-67 | doubling a full array and then pushing keeps the sizing policy (power-of-two length, more than a quarter full) |
| ArrayResizable.ShrinkBalanced | src/main/java/io/github/marioluan/datastructures/stack/DynamicArray.java:78-82 | halving an array left a quarter full and non-empty keeps the sizing policy |
| DynamicArrays.NewSpec | src/main/java/io/github/marioluan/datastructures/stack/DynamicArray.java:36-40 | a new stack is empty, has two slots and meets the sizing policy |
| DynamicArrays.IsEmpty | src/main/java/io/github/marioluan/datastructures/stack/DynamicArray.java:49-51 | true exactly when the stack holds no item |
| DynamicArrays.Size | src/main/java/io/github/marioluan/datastructures/stack/DynamicArray.java:54-56 | the number of items on the stack |
| DynamicArrays.Push | src/main/java/io/github/marioluan/datastructures/stack/DynamicArray.java:59-68 | a null item is IllegalArgumentException; otherwise the item goes on top of the others, the array doubles exactly when it was full, and the sizing policy is kept |
| DynamicArrays.Pop | src/main/java/io/github/marioluan/datastructures/stack/DynamicArray.java:71-85 | an empty stack is NoSuchElementException; otherwise the top item comes off and the rest stay in order; the array halves exactly when left a quarter full and non-empty; the sizing policy is kept |
| DynamicArrays.Peek | src/main/java/io/github/marioluan/datastructures/stack/DynamicArray.java:88-93 | fails exactly when the stack is empty, and otherwise returns the item `pop()` would return |
| DynamicArrays.Iterator | src/main/java/io/github/marioluan/datastructures/stack/DynamicArray.java:96-110 | the iterator's private copy holds the same items as the stack |
| DynamicArrays.DrainReversed | src/main/java/io/github/marioluan/datastructures/stack/DynamicArray.java:113-128 | calling `next()` until `hasNext()` is false yields the copied items from the last slot down |
| DynamicArrays.IteratorLastInFirstOut | src/main/java/io/github/marioluan/datastructures/stack/DynamicArray.java:96-128 | iteration yields the stack's items top first, the order in which `pop()` would return them |
| DynamicArrays.PushAllCapacity | src/main/java/io/github/marioluan/datastructures/stack/DynamicArray.java:59-68 | after any run of pushes the items are appended in order and the array holds at most twice the items it needs (or its initial two slots) |
| LinkedStacks.NewSpec | src/main/java/io/github/marioluan/datastructures/stack/LinkedList.java:33-36 | a new stack is empty |
| LinkedStacks.IsEmpty | src/main/java/io/github/marioluan/datastructures/stack/LinkedList.java:38-41 | true exactly when the size is zero |
| LinkedStacks.Push | src/main/java/io/github/marioluan/datastructures/stack/LinkedList.java:48-55 | a null item is IllegalArgumentException; otherwise the size grows by one and the new item is on top |
| LinkedStacks.Pop | src/main/java/io/github/marioluan/datastructures/stack/LinkedList.java:57-67 | an empty stack is NoSuchElementException; otherwise it returns the head item and the remaining chain |
| LinkedStacks.Peek | src/main/java/io/github/marioluan/datastructures/stack/LinkedList.java:69-75 | an empty stack is NoSuchElementException; otherwise the head item |
| LinkedStacks.Iterator | src/main/java/io/github/marioluan/datastructures/stack/LinkedList.java:77-111 | the iterator yields the chain's items from the top down |
| LinkedStacks.PushPop | src/main/java/io/github/marioluan/datastructures/stack/LinkedList.java:48-67 | `pop()` after `push(x)` returns `x` and restores the stack |
| LinkedStacks.PeekPop | src/main/java/io/github/marioluan/datastructures/stack/LinkedList.java:57-75 | `peek()` fails exactly when `pop()` does and returns the same item |
| LinkedStacks.LastInFirstOut | src/main/java/io/github/marioluan/datastructures/stack/LinkedList.java:48-67 | after pushing a sequence, popping everything (or iterating) yields it reversed, followed by what was there before |
| LinkedListIterators.Start | src/main/java/io/github/marioluan/datastructures/priority/queue/LinkedListIterator.java:20-22 | the cursor starts at the head node |
| LinkedListIterators.HasNext | src/main/java/io/github/marioluan/datastructures/priority/queue/LinkedListIterator.java:27-29 | true exactly when items remain after the cursor |
| LinkedListIterators.Next | src/main/java/io/github/marioluan/datastructures/priority/queue/LinkedListIterator.java:43-51 | an exhausted iterator is NoSuchElementException; otherwise the cursor's item, with the cursor moved one node on |
| LinkedListIterators.Remove | src/main/java/io/github/marioluan/datastructures/priority/queue/LinkedListIterator.java:36-38 | always UnsupportedOperationException |
| LinkedListIterators.DrainYieldsChain | src/main/java/io/github/marioluan/datastructures/priority/queue/LinkedListIterator.java:20-51 | iterating from a head yields every node's item once, in link order |
| Deques.NewSpec | src/main/java/io/github/marioluan/datastructures/Deque.java:24-28 | a new deque is empty |
| Deques.IsEmpty | src/main/java/io/github/marioluan/datastructures/Deque.java:35-37 | true exactly when the size is zero |
| Deques.AddFirst | src/main/java/io/github/marioluan/datastructures/Deque.java:54-71 | a null item is NullPointerException; otherwise it becomes the head in front of the old items |
| Deques.AddLast | src/main/java/io/github/marioluan/datastructures/Deque.java:79-95 | a null item is NullPointerException; otherwise it becomes the tail behind the old items |
| Deques.RemoveFirst | src/main/java/io/github/marioluan/datastructures/Deque.java:103-120 | an empty deque is NoSuchElementException; otherwise the head item comes off and the rest stay in order |
| Deques.RemoveLast | src/main/java/io/github/marioluan/datastructures/Deque.java:128-145 | an empty deque is NoSuchElementException; otherwise the tail item comes off and the rest stay in order |
| Deques.Iterator | src/main/java/io/github/marioluan/datastructures/Deque.java:152-155 | iteration yields the items from head to tail |
| Deques.AddFirstRemoveFirst | src/main/java/io/github/marioluan/datastructures/Deque.java:54-120 | `removeFirst()` undoes `addFirst(x)` and returns `x` |
| Deques.AddLastRemoveLast | src/main/java/io/github/marioluan/datastructures/Deque.java:79-145 | `removeLast()` undoes `addLast(x)` and returns `x` |
| Deques.Singleton | src/main/java/io/github/marioluan/datastructures/Deque.java:62-67 | with one item head and tail coincide: removing from either end returns it and leaves an empty deque |
| Deques.FirstInFirstOut | src/main/java/io/github/marioluan/datastructures/Deque.java:54-145 | `addFirst` paired with `removeLast` is first in, first out: the items already held come out first, then the added ones in the order they were added |
| Bags.NewSpec | src/main/java/io/github/marioluan/datastructures/multiset/Bag.java:13-16 | a new bag is empty and its counter agrees with its chain |
| Bags.Add | src/main/java/io/github/marioluan/datastructures/multiset/Bag.java:24-37 | a null item is IllegalArgumentException; otherwise the item becomes the head in front of the old chain and the counter grows by one |
| Bags.IsEmpty | src/main/java/io/github/marioluan/datastructures/multiset/Bag.java:44-46 | true exactly when the chain is empty |
| Bags.Size | src/main/java/io/github/marioluan/datastructures/multiset/Bag.java:53-55 | the number of items in the chain |
| Bags.Iterator | src/main/java/io/github/marioluan/datastructures/multiset/Bag.java:57-60 | the iterator starts at the head of the chain |
| Bags.AddAllIteratesReversed | src/main/java/io/github/marioluan/datastructures/multiset/Bag.java:24-60 | a bag filled from a sequence iterates it most recent first, keeps every duplicate, and counts every add |
| RandomizedQueues.NewSpec | src/main/java/io/github/marioluan/datastructures/queue/RandomizedQueue.java:31-36 | a new queue has two null slots and no items |
| RandomizedQueues.IsEmpty | src/main/java/io/github/marioluan/datastructures/queue/RandomizedQueue.java:43-45 | true exactly when no item is queued |
| RandomizedQueues.Size | src/main/java/io/github/marioluan/datastructures/queue/RandomizedQueue.java:52-54 | the number of queued items |
| RandomizedQueues.Enqueue | src/main/java/io/github/marioluan/datastructures/queue/RandomizedQueue.java:62-71 | a null item is NullPointerException; otherwise the item is appended and the array doubles exactly when it was full |
| RandomizedQueues.Dequeue | src/main/java/io/github/marioluan/datastructures/queue/RandomizedQueue.java:79-98 | an empty queue is NoSuchElementException; otherwise the drawn item is returned, the last item fills its slot, and the array halves exactly when left a quarter full and non-empty |
| RandomizedQueues.DequeueRemovesOne | src/main/java/io/github/marioluan/datastructures/queue/RandomizedQueue.java:79-98 | `dequeue()` takes out exactly the item it returns and keeps every other item |
| RandomizedQueues.Unlink | src/main/java/io/github/marioluan/datastructures/queue/RandomizedQueue.java:85-95 | the array after a dequeue stays packed, meets the sizing policy, and holds the items with the last moved into the vacated slot |
| RandomizedQueues.Sample | src/main/java/io/github/marioluan/datastructures/queue/RandomizedQueue.java:106-113 | an empty queue is NoSuchElementException; otherwise the queued item `dequeue()` would return for the same draw, without removing it |
| RandomizedQueues.Shuffle | src/main/java/io/github/marioluan/datastructures/queue/RandomizedQueue.java:138-142 | shuffling the iterator's copy with any draws keeps its length and its multiset of items |
| RandomizedQueues.Iterator | src/main/java/io/github/marioluan/datastructures/queue/RandomizedQueue.java:120-181 | iteration yields every queued item exactly as often as it is stored, whatever the draws |
| SymbolTables.Hash | src/main/java/io/github/marioluan/datastructures/symboltable/hash/LinearProbingHashTable.java:53-57 | clearing the sign bit of the 32-bit hash code and reducing modulo `m` gives an index in `[0, m)` for every hash code, negative ones included |
| SymbolTables.FindLookup | src/main/java/io/github/marioluan/datastructures/symboltable/LinkedListSymbolTable.java:99-106 | the linear scan stops at a node exactly when the key is in the chain, and that node's value is what the key maps to |
| LinkedListSymbolTables.EmptySpec | src/main/java/io/github/marioluan/datastructures/symboltable/LinkedListSymbolTable.java:39-40 | a new table is consistent and holds no key |
| LinkedListSymbolTables.PutAsWritten | src/main/java/io/github/marioluan/datastructures/symboltable/LinkedListSymbolTable.java:44-88 | the code as written: a null key is NullPointerException; the counter moves by at most one; the only other failure is a non-zero counter over an empty chain |
| LinkedListSymbolTables.Put | src/main/java/io/github/marioluan/datastructures/symboltable/LinkedListSymbolTable.java:44-88 | the corrected `put`: fails exactly for a null key on a consistent table |
| LinkedListSymbolTables.PutSpec | src/main/java/io/github/marioluan/datastructures/symboltable/LinkedListSymbolTable.java:44-88 | `put(k, v)` changes the table only at `k`: `k` then finds `v` (null meaning absent), every other key finds what it found before, the key set gains or loses `k`, and the counter counts the keys |
| LinkedListSymbolTables.PutRemoves | src/main/java/io/github/marioluan/datastructures/symboltable/LinkedListSymbolTable.java:65-73 | a null value for a present key unlinks exactly that key's node |
| LinkedListSymbolTables.PutOverwrites | src/main/java/io/github/marioluan/datastructures/symboltable/LinkedListSymbolTable.java:74-79 | a non-null value for a present key overwrites that node in place and changes nothing else |
| LinkedListSymbolTables.PutPrepends | src/main/java/io/github/marioluan/datastructures/symboltable/LinkedListSymbolTable.java:82-87 | a non-null value for an absent key adds it at the head and changes nothing else |
| LinkedListSymbolTables.PutAsWrittenNonNull | src/main/java/io/github/marioluan/datastructures/symboltable/LinkedListSymbolTable.java:44-88 | with a non-null value the code as written and the corrected `put` agree |
| LinkedListSymbolTables.DeleteHeadAgrees | src/main/java/io/github/marioluan/datastructures/symboltable/LinkedListSymbolTable.java:68-71 | deleting the key at the head agrees with the corrected `delete` |
| LinkedListSymbolTables.Get | src/main/java/io/github/marioluan/datastructures/symboltable/LinkedListSymbolTable.java:92-107 | a null key is NullPointerException; otherwise the key's value, or null when absent |
| LinkedListSymbolTables.Delete | src/main/java/io/github/marioluan/datastructures/symboltable/LinkedListSymbolTable.java:110-112 | a null key is NullPointerException; otherwise the key set loses exactly the key and stays consistent |
| LinkedListSymbolTables.DeleteAsWritten | src/main/java/io/github/marioluan/datastructures/symboltable/LinkedListSymbolTable.java:110-112 | as written `delete(null)` is NullPointerException |
| LinkedListSymbolTables.Contains | src/main/java/io/github/marioluan/datastructures/symboltable/LinkedListSymbolTable.java:115-117 | a null key is NullPointerException; otherwise true exactly when the key is present |
| LinkedListSymbolTables.IsEmpty | src/main/java/io/github/marioluan/datastructures/symboltable/LinkedListSymbolTable.java:120-122 | on a consistent table, true exactly when no key is present |
| LinkedListSymbolTables.Size | src/main/java/io/github/marioluan/datastructures/symboltable/LinkedListSymbolTable.java:125-127 | on a consistent table, the number of keys present |
| LinkedListSymbolTables.Keys | src/main/java/io/github/marioluan/datastructures/symboltable/LinkedListSymbolTable.java:130-147 | an empty table gives no keys; a non-zero counter over an empty chain is NullPointerException; otherwise the keys pushed from head to tail, listing exactly the keys present |
| LinkedListSymbolTables.PutNewKeyLast | src/main/java/io/github/marioluan/datastructures/symboltable/LinkedListSymbolTable.java:82-87 | a new key joins the end of the `keys()` order, so iteration lists keys oldest first |
| LinkedListSymbolTables.DeleteAsWrittenDropsPrefix | src/main/java/io/github/marioluan/datastructures/symboltable/LinkedListSymbolTable.java:68-72 | as written, deleting the middle of three keys also drops the newer key in front of it: the counter says two keys, but `get` of the dropped one finds nothing |
| LinkedListSymbolTables.DeleteKeepsOthers | src/main/java/io/github/marioluan/datastructures/symboltable/LinkedListSymbolTable.java:110-112 | the corrected `delete` of the middle key keeps the other two |
| LinkedListSymbolTables.DeleteAsWrittenInserts | src/main/java/io/github/marioluan/datastructures/symboltable/LinkedListSymbolTable.java:82-87 | as written, deleting an absent key from a non-empty table adds it with a null value and counts it |
| LinkedListSymbolTables.DeleteAbsentUnchanged | src/main/java/io/github/marioluan/datastructures/symboltable/LinkedListSymbolTable.java:110-112 | the corrected `delete` of an absent key changes nothing |
| ArraySymbolTables.NewSpec | src/main/java/io/github/marioluan/datastructures/symboltable/ArraySymbolTable.java:28-33 | both arrays get `capacity + 1` slots, so the constructor fails with NegativeArraySizeException exactly when `capacity < -1`; otherwise an empty, sorted table |
| ArraySymbolTables.Search | src/main/java/io/github/marioluan/datastructures/symboltable/ArraySymbolTable.java:155-171 | the binary search answers an index within `[lo, hi + 1]` |
| ArraySymbolTables.SearchSplits | src/main/java/io/github/marioluan/datastructures/symboltable/ArraySymbolTable.java:159-170 | over sorted keys the binary search answers the index that splits the keys into those below `k` and the rest |
| ArraySymbolTables.SortedAt | src/main/java/io/github/marioluan/datastructures/symboltable/ArraySymbolTable.java:166-167 | the slot where the search meets `k` splits the keys into those below `k` and the rest |
| ArraySymbolTables.Rank | src/main/java/io/github/marioluan/datastructures/symboltable/ArraySymbolTable.java:155-171 | `rank(k)` is within `[0, n]`, and over sorted keys every key before it is below `k` and every key from it on is at least `k` |
| ArraySymbolTables.RankFinds | src/main/java/io/github/marioluan/datastructures/symboltable/ArraySymbolTable.java:44 | the slot `rank(k)` names holds `k` exactly when `k` is one of the keys |
| ArraySymbolTables.ShiftIn | src/main/java/io/github/marioluan/datastructures/symboltable/ArraySymbolTable.java:127-133 | `shift(lo, hi)` keeps the array length and touches only the slots in `[lo, hi]` |
| ArraySymbolTables.ShiftInRotates | src/main/java/io/github/marioluan/datastructures/symboltable/ArraySymbolTable.java:127-133 | when the slots before `hi` ascend and lie above the new pair, `shift(lo, hi)` moves the pair down to `lo` and the others up by one |
| ArraySymbolTables.ShiftOut | src/main/java/io/github/marioluan/datastructures/symboltable/ArraySymbolTable.java:141-147 | `shift(i)` keeps the array length and touches only the slots in `[i, n)` |
| ArraySymbolTables.ShiftOutMoves | src/main/java/io/github/marioluan/datastructures/symboltable/ArraySymbolTable.java:141-147 | `shift(i)` carries the pair at `i` to slot `n - 1` and closes the gap it leaves |
| ArraySymbolTables.Insert | src/main/java/io/github/marioluan/datastructures/symboltable/ArraySymbolTable.java:61-69 | inserting a new pair counts it and, when the array was full, resizes it to twice its length plus the extra slot `resize` allocates |
| ArraySymbolTables.Remove | src/main/java/io/github/marioluan/datastructures/symboltable/ArraySymbolTable.java:48-55 | removing a pair uncounts it and halves the array (plus the extra slot) exactly when the count falls to a quarter of the length and is not zero |
| ArraySymbolTables.Update | src/main/java/io/github/marioluan/datastructures/symboltable/ArraySymbolTable.java:45-46 | overwriting a value in place keeps the count and the array |
| ArraySymbolTables.InsertSlots | src/main/java/io/github/marioluan/datastructures/symboltable/ArraySymbolTable.java:61-69 | slot by slot, an insert keeps the pairs before `i`, puts the new pair at `i`, moves the rest up one and leaves the tail null |
| ArraySymbolTables.InsertEntries | src/main/java/io/github/marioluan/datastructures/symboltable/ArraySymbolTable.java:61-69 | inserting at the rank keeps the keys sorted and places the new pair between the smaller and the larger ones |
| ArraySymbolTables.RemoveSlots | src/main/java/io/github/marioluan/datastructures/symboltable/ArraySymbolTable.java:49-51 | slot by slot, a removal keeps the pairs before `i`, moves the rest down one and nulls the slots from `n - 1` on |
| ArraySymbolTables.RemoveEntries | src/main/java/io/github/marioluan/datastructures/symboltable/ArraySymbolTable.java:48-55 | removing pair `i` keeps the keys sorted and leaves exactly the other pairs, in order |
| ArraySymbolTables.UpdateEntries | src/main/java/io/github/marioluan/datastructures/symboltable/ArraySymbolTable.java:45-46 | overwriting a value keeps the keys sorted and changes only that pair's value |
| ArraySymbolTables.PutAsWritten | src/main/java/io/github/marioluan/datastructures/symboltable/ArraySymbolTable.java:37-70 | the code as written: a null key is NullPointerException; a present key keeps the count (or loses one for a null value), and an absent key is always counted in, even with a null value |
| ArraySymbolTables.Put | src/main/java/io/github/marioluan/datastructures/symboltable/ArraySymbolTable.java:37-70 | the corrected `put`: a null key is NullPointerException, and a null value for an absent key changes nothing |
| ArraySymbolTables.PutPresent | src/main/java/io/github/marioluan/datastructures/symboltable/ArraySymbolTable.java:44-58 | on a present key `put` overwrites its value, or removes it for a null value, and changes nothing else |
| ArraySymbolTables.PutAbsent | src/main/java/io/github/marioluan/datastructures/symboltable/ArraySymbolTable.java:61-69 | on an absent key `put` inserts it at its rank, or changes nothing for a null value |
| ArraySymbolTables.PutNoNulls | src/main/java/io/github/marioluan/datastructures/symboltable/ArraySymbolTable.java:37-70 | the corrected `put` never stores a null value |
| ArraySymbolTables.PutSpec | src/main/java/io/github/marioluan/datastructures/symboltable/ArraySymbolTable.java:37-70 | `put(k, v)` keeps the keys sorted and changes the table only at `k`: `k` then finds `v` (null meaning absent), every other key finds what it found before; no null value is stored |
| ArraySymbolTables.Get | src/main/java/io/github/marioluan/datastructures/symboltable/ArraySymbolTable.java:74-86 | a null key is NullPointerException; over sorted keys, the key's value or null when absent |
| ArraySymbolTables.Delete | src/main/java/io/github/marioluan/datastructures/symboltable/ArraySymbolTable.java:90-92 | a null key is NullPointerException; otherwise the keys stay sorted and lose exactly the key |
| ArraySymbolTables.DeleteAsWritten | src/main/java/io/github/marioluan/datastructures/symboltable/ArraySymbolTable.java:90-92 | as written, `delete` fails exactly for a null key |
| ArraySymbolTables.Contains | src/main/java/io/github/marioluan/datastructures/symboltable/ArraySymbolTable.java:96-98 | a null key is NullPointerException; with no null values stored, true exactly when the key is present |
| ArraySymbolTables.IsEmpty | src/main/java/io/github/marioluan/datastructures/symboltable/ArraySymbolTable.java:101-103 | over sorted keys, true exactly when no key is present |
| ArraySymbolTables.Size | src/main/java/io/github/marioluan/datastructures/symboltable/ArraySymbolTable.java:106-108 | over sorted keys, the number of distinct keys |
| ArraySymbolTables.Keys | src/main/java/io/github/marioluan/datastructures/symboltable/ArraySymbolTable.java:112-119 | the stack lists the `n` keys from slot 0 up, in ascending order over sorted keys, and holds exactly the keys present |
| ArraySymbolTables.DeleteAsWrittenInserts | src/main/java/io/github/marioluan/datastructures/symboltable/ArraySymbolTable.java:62-69 | as written, deleting a key from an empty table inserts it with a null value: the size becomes 1 and `keys()` lists it while `get` denies it |
| ArraySymbolTables.DeleteLeavesEmpty | src/main/java/io/github/marioluan/datastructures/symboltable/ArraySymbolTable.java:90-92 | the corrected `delete` leaves an empty table empty |
| BinarySearchTrees.Map | src/main/java/io/github/marioluan/datastructures/symboltable/BinarySearchTree.java:30-40 | the key-to-value table a tree stands for has exactly the tree's keys |
| BinarySearchTrees.Size | src/main/java/io/github/marioluan/datastructures/symboltable/BinarySearchTree.java:294-325 | the node count of the breadth-first walk is the number of keys of an ordered tree, and zero exactly for the empty tree |
| BinarySearchTrees.IsEmpty | src/main/java/io/github/marioluan/datastructures/symboltable/BinarySearchTree.java:289-291 | true exactly when the tree holds no key |
| BinarySearchTrees.Find | src/main/java/io/github/marioluan/datastructures/symboltable/BinarySearchTree.java:269-280 | over an ordered tree the search finds a value exactly when the key is present, and it is the key's value |
| BinarySearchTrees.Get | src/main/java/io/github/marioluan/datastructures/symboltable/BinarySearchTree.java:265-281 | a null key is NullPointerException; over an ordered tree, the key's value or null when absent |
| BinarySearchTrees.Contains | src/main/java/io/github/marioluan/datastructures/symboltable/BinarySearchTree.java:284-286 | a null key is NullPointerException; over an ordered tree, true exactly when the key is present |
| BinarySearchTrees.Insert | src/main/java/io/github/marioluan/datastructures/symboltable/BinarySearchTree.java:52-84 | the insertion loop adds the key to the key set and, over an ordered tree, keeps the order and maps the key to the new value, leaving every other key alone |
| BinarySearchTrees.PutAsWritten | src/main/java/io/github/marioluan/datastructures/symboltable/BinarySearchTree.java:43-85 | the code as written: a null key is NullPointerException; a null value (routed to the as-written `delete`) keeps the order and removes the key but can lose others; a non-null value maps the key to it and changes nothing else |
| BinarySearchTrees.Put | src/main/java/io/github/marioluan/datastructures/symboltable/BinarySearchTree.java:43-85 | the corrected `put`: a null key is NullPointerException; over an ordered tree the order is kept, a non-null value maps the key to it, and a null value removes exactly that key |
| BinarySearchTrees.Leftmost | src/main/java/io/github/marioluan/datastructures/symboltable/BinarySearchTree.java:392-397 | the leftmost node holds a least key of an ordered tree, with its value |
| BinarySearchTrees.Rightmost | src/main/java/io/github/marioluan/datastructures/symboltable/BinarySearchTree.java:414-419 | the rightmost node holds a greatest key of an ordered tree, with its value |
| BinarySearchTrees.Min | src/main/java/io/github/marioluan/datastructures/symboltable/BinarySearchTree.java:378-383 | null exactly on an empty tree, otherwise a key of the tree no greater than any other |
| BinarySearchTrees.Max | src/main/java/io/github/marioluan/datastructures/symboltable/BinarySearchTree.java:400-405 | null exactly on an empty tree, otherwise a key of the tree no less than any other |
| BinarySearchTrees.RemoveLeftmost | src/main/java/io/github/marioluan/datastructures/symboltable/BinarySearchTree.java:133-147 | replacing the leftmost node by its right subtree keeps the order and removes exactly the least key, leaving only greater keys |
| BinarySearchTrees.RemoveRightmost | src/main/java/io/github/marioluan/datastructures/symboltable/BinarySearchTree.java:162-176 | replacing the rightmost node by its left subtree keeps the order and removes exactly the greatest key |
| BinarySearchTrees.DeleteMin | src/main/java/io/github/marioluan/datastructures/symboltable/BinarySearchTree.java:122-148 | `deleteMin()` keeps the order and removes exactly the least key; an empty tree stays empty |
| BinarySearchTrees.DeleteMax | src/main/java/io/github/marioluan/datastructures/symboltable/BinarySearchTree.java:151-177 | `deleteMax()` keeps the order and removes exactly the greatest key; an empty tree stays empty |
| BinarySearchTrees.CutMinAsWritten | src/main/java/io/github/marioluan/datastructures/symboltable/BinarySearchTree.java:192-215 | unlinking the successor as written never adds keys and keeps the order, and every key left lies above the successor's |
| BinarySearchTrees.RemoveAsWritten | src/main/java/io/github/marioluan/datastructures/symboltable/BinarySearchTree.java:185-240 | the node removal as written never adds keys, keeps the order and removes the node's key |
| BinarySearchTrees.DeleteFromAsWritten | src/main/java/io/github/marioluan/datastructures/symboltable/BinarySearchTree.java:102-118 | the search-and-remove loop as written never adds keys, keeps the order and removes the key |
| BinarySearchTrees.DeleteAsWritten | src/main/java/io/github/marioluan/datastructures/symboltable/BinarySearchTree.java:88-119 | the code as written: a null key is NullPointerException; otherwise no key is added, the order is kept and the key is gone, but other keys can go with it |
| BinarySearchTrees.Remove | src/main/java/io/github/marioluan/datastructures/symboltable/BinarySearchTree.java:185-240 | Hibbard deletion of a node keeps the order and removes exactly its key |
| BinarySearchTrees.DeleteFrom | src/main/java/io/github/marioluan/datastructures/symboltable/BinarySearchTree.java:102-118 | the corrected search-and-remove keeps the order and removes exactly the key |
| BinarySearchTrees.Delete | src/main/java/io/github/marioluan/datastructures/symboltable/BinarySearchTree.java:88-119 | the corrected `delete`: a null key is NullPointerException; otherwise the order is kept and only the given key leaves the table |
| BinarySearchTrees.PutAsWrittenNonNull | src/main/java/io/github/marioluan/datastructures/symboltable/BinarySearchTree.java:52-84 | with a non-null value the code as written and the corrected `put` agree |
| BinarySearchTrees.PutAsWrittenNullSingle | src/main/java/io/github/marioluan/datastructures/symboltable/BinarySearchTree.java:47-50 | as written, `put(7, null)` on a one-node tree of 5 empties it; the corrected `put` leaves it alone |
| BinarySearchTrees.PutAsWrittenNullLosesSubtree | src/main/java/io/github/marioluan/datastructures/symboltable/BinarySearchTree.java:47-50 | as written, `put(2, null)` on the tree 2(1, 3(-, 4)) loses 4 as well |
| BinarySearchTrees.DeleteAsWrittenSingle | src/main/java/io/github/marioluan/datastructures/symboltable/BinarySearchTree.java:97-100 | as written, deleting an absent key from a one-node tree empties it; the corrected `delete` leaves it alone |
| BinarySearchTrees.DeleteFromAsWrittenFourKeys | src/main/java/io/github/marioluan/datastructures/symboltable/BinarySearchTree.java:192-212 | in the tree 2(1, 3(-, 4)) the successor 3 of the root is cut out together with 4 below it |
| BinarySearchTrees.DeleteAsWrittenLosesSubtree | src/main/java/io/github/marioluan/datastructures/symboltable/BinarySearchTree.java:209-212 | as written, deleting 2 from the tree 2(1, 3(-, 4)) leaves only {1, 3} |
| BinarySearchTrees.DeleteKeepsSubtree | src/main/java/io/github/marioluan/datastructures/symboltable/BinarySearchTree.java:88-119 | the corrected deletion of 2 from the same tree leaves {1, 3, 4} |
| BinarySearchTrees.FloorFrom | src/main/java/io/github/marioluan/datastructures/symboltable/BinarySearchTree.java:426-437 | the `floor` loop answers the largest key not above `k` when one exists, otherwise the last key it passed on the way right |
| BinarySearchTrees.Floor | src/main/java/io/github/marioluan/datastructures/symboltable/BinarySearchTree.java:422-438 | over an ordered tree, `floor(k)` is the largest key not above `k`, or null when there is none |
| BinarySearchTrees.CeilingFrom | src/main/java/io/github/marioluan/datastructures/symboltable/BinarySearchTree.java:445-456 | the `ceiling` loop answers the smallest key not below `k` when one exists, otherwise the last key it passed on the way left |
| BinarySearchTrees.Ceiling | src/main/java/io/github/marioluan/datastructures/symboltable/BinarySearchTree.java:441-457 | over an ordered tree, `ceiling(k)` is the smallest key not below `k`, or null when there is none |
| BinarySearchTrees.BelowNode | src/main/java/io/github/marioluan/datastructures/symboltable/BinarySearchTree.java:464-478 | at the root of an ordered tree, the keys below `k` are those of the left subtree below `k`, or the whole left subtree, the root and those of the right subtree below `k` |
| BinarySearchTrees.Rank | src/main/java/io/github/marioluan/datastructures/symboltable/BinarySearchTree.java:460-481 | over an ordered tree, `rank(k)` is the number of keys strictly below `k` |
| BinarySearchTrees.Range | src/main/java/io/github/marioluan/datastructures/symboltable/BinarySearchTree.java:333-375 | `keys(lo, hi)` lists only keys of the tree within `[lo, hi]` and, over an ordered tree, all of them in ascending order |
| BinarySearchTrees.AllKeys | src/main/java/io/github/marioluan/datastructures/symboltable/BinarySearchTree.java:328-330 | over an ordered tree `keys()` lists exactly the tree's keys in ascending order |
| BinarySearchTrees.PutThenGet | src/main/java/io/github/marioluan/datastructures/symboltable/BinarySearchTree.java:43-85 | after `put(k, v)` with non-null `v`, `get(k)` is `v`, and the size grows exactly when `k` was absent |
| BinarySearchTrees.PutNullDeletes | src/main/java/io/github/marioluan/datastructures/symboltable/BinarySearchTree.java:47-50 | the corrected `put(k, null)` is `delete(k)`: afterwards `get(k)` is null and the size shrinks exactly when `k` was present |
| IntervalSearchTrees.Map | src/main/java/io/github/marioluan/datastructures/symboltable/IntervalSearchTree.java:70-83 | the table a tree stands for maps each stored left endpoint (a key) to its right endpoint and value |
| IntervalSearchTrees.StoredBound | src/main/java/io/github/marioluan/datastructures/symboltable/IntervalSearchTree.java:117-119 | every stored right endpoint is at most the largest stored right endpoint (`HiMax`, which reads the intervals and ignores the `max` fields), and every stored left endpoint is a key |
| IntervalSearchTrees.HiMaxWitness | src/main/java/io/github/marioluan/datastructures/symboltable/IntervalSearchTree.java:117-119 | some stored interval reaches the tree's largest right endpoint |
| IntervalSearchTrees.StoredMap | src/main/java/io/github/marioluan/datastructures/symboltable/IntervalSearchTree.java:70-83 | on an ordered tree the stored intervals are exactly the entries of the table |
| IntervalSearchTrees.IsEmpty | src/main/java/io/github/marioluan/datastructures/symboltable/IntervalSearchTree.java:318-320 | true exactly when no interval is stored |
| IntervalSearchTrees.Insert | src/main/java/io/github/marioluan/datastructures/symboltable/IntervalSearchTree.java:113-131 | the recursive `put` fails only with IllegalArgumentException for a left endpoint already stored, always does so on an ordered tree, and otherwise adds exactly `lo` to the keys |
| IntervalSearchTrees.InsertMap | src/main/java/io/github/marioluan/datastructures/symboltable/IntervalSearchTree.java:113-131 | on an ordered tree the recursive `put` keeps the order and maps `lo` to `(hi, value)`, leaving every other key alone |
| IntervalSearchTrees.InsertMax | src/main/java/io/github/marioluan/datastructures/symboltable/IntervalSearchTree.java:117-119 | `put` raises `max` along its path, so the tree's largest right endpoint becomes the larger of the old one and `hi`, and exact or covering `max` fields stay so |
| IntervalSearchTrees.Put | src/main/java/io/github/marioluan/datastructures/symboltable/IntervalSearchTree.java:96-101 | a null endpoint is NullPointerException; on an ordered tree IllegalArgumentException exactly when `lo` is already a key; otherwise the order is kept, `lo` maps to `(hi, value)`, and exact `max` fields stay exact |
| IntervalSearchTrees.Find | src/main/java/io/github/marioluan/datastructures/symboltable/IntervalSearchTree.java:145-158 | over an ordered tree the search returns the value stored with exactly `[lo, hi]`, or null |
| IntervalSearchTrees.Get | src/main/java/io/github/marioluan/datastructures/symboltable/IntervalSearchTree.java:141-159 | a null endpoint is NullPointerException; over an ordered tree, the value paired with exactly `[lo, hi]`, or null |
| IntervalSearchTrees.PutThenGet | src/main/java/io/github/marioluan/datastructures/symboltable/IntervalSearchTree.java:96-159 | `get` of an interval just put gives back its value |
| IntervalSearchTrees.OverlapsMissesContainment | src/main/java/io/github/marioluan/datastructures/symboltable/IntervalSearchTree.java:44-50 | for a well-formed query, `overlaps` as written (`OverlapsAsWritten`) is intersection except when the query strictly contains the stored interval |
| IntervalSearchTrees.OverlapsAsWrittenContained | src/main/java/io/github/marioluan/datastructures/symboltable/IntervalSearchTree.java:44-50 | `[2, 3]` lies inside `[0, 10]`, yet as written they do not overlap |
| IntervalSearchTrees.AnyAsWritten | src/main/java/io/github/marioluan/datastructures/symboltable/IntervalSearchTree.java:170-188 | whatever `getAnyIntersection` as written returns is a stored interval that `overlaps` accepts |
| IntervalSearchTrees.Any | src/main/java/io/github/marioluan/datastructures/symboltable/IntervalSearchTree.java:170-188 | whatever the corrected search returns is a stored interval that intersects the query |
| IntervalSearchTrees.AnyComplete | src/main/java/io/github/marioluan/datastructures/symboltable/IntervalSearchTree.java:170-188 | on an ordered tree with exact `max` fields the corrected search returns null exactly when no stored interval intersects the query |
| IntervalSearchTrees.GetAnyIntersection | src/main/java/io/github/marioluan/datastructures/symboltable/IntervalSearchTree.java:170-188 | a null endpoint is NullPointerException; otherwise any interval returned is stored and intersects the query |
| IntervalSearchTrees.AnyAsWrittenMisses | src/main/java/io/github/marioluan/datastructures/symboltable/IntervalSearchTree.java:181-182 | as written, the query `[2, 3]` turns right at `[5, 6]` and misses the stored `[1, 10]`, which the corrected search finds |
| IntervalSearchTrees.IntersectsAsWritten | src/main/java/io/github/marioluan/datastructures/symboltable/IntervalSearchTree.java:289-311 | the single-path walk as written reports at most as many values as the tree stores |
| IntervalSearchTrees.IntersectsAsWrittenReports | src/main/java/io/github/marioluan/datastructures/symboltable/IntervalSearchTree.java:289-311 | every value the single-path walk as written reports is stored in the tree, and no more often than it is stored |
| IntervalSearchTrees.Search | src/main/java/io/github/marioluan/datastructures/symboltable/IntervalSearchTree.java:289-311 | the corrected `intersects` reports only values of stored intervals that meet the query, each at most as often as such intervals store it |
| IntervalSearchTrees.NoneIntersecting | src/main/java/io/github/marioluan/datastructures/symboltable/IntervalSearchTree.java:302-307 | a subtree lying wholly left of `lo` or wholly right of `hi` meets nothing |
| IntervalSearchTrees.SearchComplete | src/main/java/io/github/marioluan/datastructures/symboltable/IntervalSearchTree.java:289-311 | on an ordered tree whose `max` fields cover their subtrees, the pruned search (`Search`) reports every stored interval meeting the query, in order |
| IntervalSearchTrees.Intersects | src/main/java/io/github/marioluan/datastructures/symboltable/IntervalSearchTree.java:289-311 | a null endpoint is NullPointerException; otherwise, on an ordered, covered tree, exactly the values of the stored intervals meeting the query |
| IntervalSearchTrees.IntersectsAsWrittenMisses | src/main/java/io/github/marioluan/datastructures/symboltable/IntervalSearchTree.java:302-307 | as written, the query `[2, 7]` goes left at the root and never reports the stored `[7, 8]` |
| IntervalSearchTrees.MinNode | src/main/java/io/github/marioluan/datastructures/symboltable/IntervalSearchTree.java:274-279 | `min(cursor)` is a leftmost stored node, holding the smallest key of an ordered tree |
| IntervalSearchTrees.Relink | src/main/java/io/github/marioluan/datastructures/symboltable/IntervalSearchTree.java:237-240 | relinking a node keeps its interval and takes the given children; as written `max` is left as it was, corrected it is recomputed and exact when the children's are |
| IntervalSearchTrees.DeleteMinWith | src/main/java/io/github/marioluan/datastructures/symboltable/IntervalSearchTree.java:257-264 | `deleteMin` never adds keys |
| IntervalSearchTrees.DeleteMinMap | src/main/java/io/github/marioluan/datastructures/symboltable/IntervalSearchTree.java:257-264 | `deleteMin` removes exactly the smallest key and keeps the order |
| IntervalSearchTrees.DeleteMinExact | src/main/java/io/github/marioluan/datastructures/symboltable/IntervalSearchTree.java:257-264 | the corrected `deleteMin` keeps every `max` exact |
| IntervalSearchTrees.DeleteMinCovers | src/main/java/io/github/marioluan/datastructures/symboltable/IntervalSearchTree.java:257-264 | relinking without recomputing is harmless in `deleteMin`: covering `max` fields still cover and the largest right endpoint can only fall |
| IntervalSearchTrees.RemoveWith | src/main/java/io/github/marioluan/datastructures/symboltable/IntervalSearchTree.java:222-240 | unlinking the found node never adds keys |
| IntervalSearchTrees.RemoveMap | src/main/java/io/github/marioluan/datastructures/symboltable/IntervalSearchTree.java:222-240 | unlinking the found node removes exactly its key and keeps the order |
| IntervalSearchTrees.RemoveExact | src/main/java/io/github/marioluan/datastructures/symboltable/IntervalSearchTree.java:222-240 | the corrected unlinking keeps every `max` exact |
| IntervalSearchTrees.DeleteFromWith | src/main/java/io/github/marioluan/datastructures/symboltable/IntervalSearchTree.java:215-247 | the recursive `delete` fails only with NoSuchElementException and never adds keys |
| IntervalSearchTrees.DeleteFromMap | src/main/java/io/github/marioluan/datastructures/symboltable/IntervalSearchTree.java:215-247 | on an ordered tree `delete` fails exactly when `lo` is not a key, removes `lo` when it holds `[lo, hi]`, and otherwise keeps the table; as written it then returns the very same tree |
| IntervalSearchTrees.DeleteFromFound | src/main/java/io/github/marioluan/datastructures/symboltable/IntervalSearchTree.java:215-218 | `delete` fails exactly when no node has left endpoint `lo` |
| IntervalSearchTrees.DeleteFromOk | src/main/java/io/github/marioluan/datastructures/symboltable/IntervalSearchTree.java:220-246 | a successful `delete` keeps the order, removes `lo` when it holds `[lo, hi]`, and otherwise keeps the table |
| IntervalSearchTrees.DeleteFromSame | src/main/java/io/github/marioluan/datastructures/symboltable/IntervalSearchTree.java:220-246 | as written, a `delete` that finds `lo` holding another `hi` returns the very same tree |
| IntervalSearchTrees.DeleteFromExact | src/main/java/io/github/marioluan/datastructures/symboltable/IntervalSearchTree.java:215-247 | the corrected `delete` keeps every `max` exact |
| IntervalSearchTrees.DeleteWith | src/main/java/io/github/marioluan/datastructures/symboltable/IntervalSearchTree.java:197-205 | a null endpoint is NullPointerException and any other failure is NoSuchElementException, exactly when `lo` is not a key of an ordered tree; a success keeps the order and removes `lo` when it holds `[lo, hi]`; corrected, exact `max` fields stay exact |
| IntervalSearchTrees.PutThenDelete | src/main/java/io/github/marioluan/datastructures/symboltable/IntervalSearchTree.java:96-247 | `delete` of an interval just put gives back the table, as written or corrected |
| IntervalSearchTrees.DeleteAsWrittenStaleMax | src/main/java/io/github/marioluan/datastructures/symboltable/IntervalSearchTree.java:222-264 | as written, deleting `[5, 6]` leaves `[8, 9]` with a stale `max` above `[1, 20]`, and the search for `[15, 16]` then misses `[1, 20]` |
| IntervalSearchTrees.DeleteAsWrittenFourNodes | src/main/java/io/github/marioluan/datastructures/symboltable/IntervalSearchTree.java:222-240 | the tree left by the as-written deletion of `[5, 6]` |
| IntervalSearchTrees.StaleThreeMisses | src/main/java/io/github/marioluan/datastructures/symboltable/IntervalSearchTree.java:170-188 | in that tree the `max` fields no longer cover their subtrees and the query `[15, 16]` finds nothing although `[1, 20]` is stored |
| IntervalSearchTrees.DeleteKeepsMax | src/main/java/io/github/marioluan/datastructures/symboltable/IntervalSearchTree.java:215-247 | the corrected deletion of `[5, 6]` keeps `max` exact and `[15, 16]` then finds `[1, 20]` |
| LinearProbingHashTables.Next | src/main/java/io/github/marioluan/datastructures/symboltable/hash/LinearProbingHashTable.java:76 | the wrapped step from slot `i` stays within the `m` slots |
| LinearProbingHashTables.StepAsWritten | src/main/java/io/github/marioluan/datastructures/symboltable/hash/LinearProbingHashTable.java:76 | the step as written, `i + 1 % m`, parses as `i + (1 % m)`: it moves one slot on without wrapping, and does not move at all when `m == 1` |
| LinearProbingHashTables.Step | src/main/java/io/github/marioluan/datastructures/symboltable/hash/LinearProbingHashTable.java:76 | a probe step is the wrapped step or the step as written |
| LinearProbingHashTables.ProbeFrom | src/main/java/io/github/marioluan/datastructures/symboltable/hash/LinearProbingHashTable.java:76-82 | the wrapped probe stops at a slot that is null or holds the key, never before its starting distance |
| LinearProbingHashTables.ProbeFromSpec | src/main/java/io/github/marioluan/datastructures/symboltable/hash/LinearProbingHashTable.java:76-82 | every slot the wrapped probe passes holds another key, and when it stops nowhere every slot holds another key |
| LinearProbingHashTables.ProbeAsWritten | src/main/java/io/github/marioluan/datastructures/symboltable/hash/LinearProbingHashTable.java:76-82 | the probe as written stops at the first slot from `i` that is null or holds the key; it runs past the end exactly when every slot from `i` on holds another key, and never ends only on a single slot |
| LinearProbingHashTables.Probe | src/main/java/io/github/marioluan/datastructures/symboltable/hash/LinearProbingHashTable.java:92-94 | a probe from the key's hash that succeeds stops at a slot that is null or holds the key; a wrapped probe fails only by never ending |
| LinearProbingHashTables.ProbeSpec | src/main/java/io/github/marioluan/datastructures/symboltable/hash/LinearProbingHashTable.java:76-82 | the wrapped probe passes only slots holding other keys on its way from the hash, and fails only when no slot is null |
| LinearProbingHashTables.FreshSpec | src/main/java/io/github/marioluan/datastructures/symboltable/hash/LinearProbingHashTable.java:40-45 | a table of the given capacity has every slot null and a zero count |
| LinearProbingHashTables.NewSpec | src/main/java/io/github/marioluan/datastructures/symboltable/hash/LinearProbingHashTable.java:40-45 | a negative capacity is NegativeArraySizeException; otherwise `capacity` null slots and a zero count |
| LinearProbingHashTables.Place | src/main/java/io/github/marioluan/datastructures/symboltable/hash/LinearProbingHashTable.java:74-87 | the probe-and-store part of `put` fails with ArithmeticException exactly on zero slots (`% 0`); otherwise it keeps the capacity and counts at most one new pair |
| LinearProbingHashTables.ResizeFrom | src/main/java/io/github/marioluan/datastructures/symboltable/hash/LinearProbingHashTable.java:173-175 | `resize`'s re-insertion loop keeps the capacity of the new table |
| LinearProbingHashTables.Resize | src/main/java/io/github/marioluan/datastructures/symboltable/hash/LinearProbingHashTable.java:168-181 | `resize(capacity)` yields that capacity and keeps the count `n` |
| LinearProbingHashTables.Rehash | src/main/java/io/github/marioluan/datastructures/symboltable/hash/LinearProbingHashTable.java:121-133 | `delete`'s re-insertion loop keeps the capacity |
| LinearProbingHashTables.ResizePeak | src/main/java/io/github/marioluan/datastructures/symboltable/hash/LinearProbingHashTable.java:71-72 | the count each of `resize`'s re-insertions sees is below the number of pairs it has already placed plus the starting count |
| LinearProbingHashTables.ResizeCheckIdle | src/main/java/io/github/marioluan/datastructures/symboltable/hash/LinearProbingHashTable.java:71-72 | `put`'s doubling check never fires inside `resize`: growing a table at most half full to twice its size, or shrinking one at most an eighth full to half its size, each re-insertion sees a count below half the new capacity |
| LinearProbingHashTables.RehashPeak | src/main/java/io/github/marioluan/datastructures/symboltable/hash/LinearProbingHashTable.java:128-131 | the count each of `delete`'s re-insertions sees is below the count it started with |
| LinearProbingHashTables.RehashCheckIdle | src/main/java/io/github/marioluan/datastructures/symboltable/hash/LinearProbingHashTable.java:71-72 | `put`'s doubling check never fires inside `delete`: starting from a table at most half full with one pair taken out, every re-insertion sees a count below half the capacity |
| LinearProbingHashTables.DeleteWith | src/main/java/io/github/marioluan/datastructures/symboltable/hash/LinearProbingHashTable.java:100-140 | a null key is NullPointerException |
| LinearProbingHashTables.PutWith | src/main/java/io/github/marioluan/datastructures/symboltable/hash/LinearProbingHashTable.java:60-88 | a null key is NullPointerException |
| LinearProbingHashTables.GetWith | src/main/java/io/github/marioluan/datastructures/symboltable/hash/LinearProbingHashTable.java:91-97 | a null key is NullPointerException (from `hashCode()`) |
| LinearProbingHashTables.ProbeFinds | src/main/java/io/github/marioluan/datastructures/symboltable/hash/LinearProbingHashTable.java:76-82 | with a free slot somewhere and every key reachable from its hash, the wrapped probe stops at the slot holding the key if there is one, and at a free slot otherwise |
| LinearProbingHashTables.Fill | src/main/java/io/github/marioluan/datastructures/symboltable/hash/LinearProbingHashTable.java:84-87 | filling a free slot with a new key counts it, adds that key and changes nothing else |
| LinearProbingHashTables.PlaceNew | src/main/java/io/github/marioluan/datastructures/symboltable/hash/LinearProbingHashTable.java:74-87 | `put` of a new key lands in a free slot reachable from its hash and counts it |
| LinearProbingHashTables.Overwrite | src/main/java/io/github/marioluan/datastructures/symboltable/hash/LinearProbingHashTable.java:78-80 | overwriting the value of a stored key changes only what that key finds |
| LinearProbingHashTables.PlaceOld | src/main/java/io/github/marioluan/datastructures/symboltable/hash/LinearProbingHashTable.java:78-80 | `put` of a stored key overwrites its value in place |
| LinearProbingHashTables.ResizeStep | src/main/java/io/github/marioluan/datastructures/symboltable/hash/LinearProbingHashTable.java:173-175 | one round of `resize`'s loop keeps its invariant |
| LinearProbingHashTables.ResizeFromSpec | src/main/java/io/github/marioluan/datastructures/symboltable/hash/LinearProbingHashTable.java:173-175 | `resize`'s loop re-inserts exactly the pairs it passes, each reachable from its hash, and every key finds what it found before |
| LinearProbingHashTables.ResizeSpec | src/main/java/io/github/marioluan/datastructures/symboltable/hash/LinearProbingHashTable.java:168-181 | resizing to a capacity above the pair count keeps every pair and the count and leaves every key reachable |
| LinearProbingHashTables.GetSpec | src/main/java/io/github/marioluan/datastructures/symboltable/hash/LinearProbingHashTable.java:91-97 | on a valid table `get` returns the key's value, or null when no slot holds it |
| LinearProbingHashTables.RehashMove | src/main/java/io/github/marioluan/datastructures/symboltable/hash/LinearProbingHashTable.java:122-131 | one round of `delete`'s second loop moves the pair at `i` to the free slot its probe reaches, keeping every pair and the table distinct |
| LinearProbingHashTables.RehashStep | src/main/java/io/github/marioluan/datastructures/symboltable/hash/LinearProbingHashTable.java:122-132 | one round of `delete`'s second loop keeps its invariant, the count and every stored pair |
| LinearProbingHashTables.RehashDone | src/main/java/io/github/marioluan/datastructures/symboltable/hash/LinearProbingHashTable.java:122 | when the loop reaches a free slot, every key is reachable from its hash |
| LinearProbingHashTables.RehashSpec | src/main/java/io/github/marioluan/datastructures/symboltable/hash/LinearProbingHashTable.java:121-133 | `delete`'s second loop ends on a table holding the same pairs with every key reachable from its hash |
| LinearProbingHashTables.StartReachable | src/main/java/io/github/marioluan/datastructures/symboltable/hash/LinearProbingHashTable.java:117-118 | freeing the deleted key's slot leaves every key outside the following cluster reachable |
| LinearProbingHashTables.FreeSlot | src/main/java/io/github/marioluan/datastructures/symboltable/hash/LinearProbingHashTable.java:113-133 | freeing the key's slot and re-inserting the rest of its cluster removes that key, keeps every other pair, and leaves every key reachable |
| LinearProbingHashTables.DeleteSpec | src/main/java/io/github/marioluan/datastructures/symboltable/hash/LinearProbingHashTable.java:100-140 | on a valid table `delete(k)` leaves `k` without a value, keeps what every other key finds, counts one fewer exactly when `k` was present, and keeps the table valid |
| LinearProbingHashTables.PlaceSpec | src/main/java/io/github/marioluan/datastructures/symboltable/hash/LinearProbingHashTable.java:74-87 | inserting into a table with room lands the key where it is found, changes nothing else, and counts it exactly when new |
| LinearProbingHashTables.PutSpec | src/main/java/io/github/marioluan/datastructures/symboltable/hash/LinearProbingHashTable.java:60-88 | on a valid table `put(k, v)` makes `k` find `v` (null deletes it), keeps what every other key finds, moves the count by the key's arrival or departure, and keeps the table valid |
| LinearProbingHashTables.Contains | src/main/java/io/github/marioluan/datastructures/symboltable/hash/LinearProbingHashTable.java:142-145 | a null key is NullPointerException; on a valid table, true exactly when some slot holds the key |
| LinearProbingHashTables.IsEmpty | src/main/java/io/github/marioluan/datastructures/symboltable/hash/LinearProbingHashTable.java:147-150 | on a valid table, true exactly when no key finds a value |
| LinearProbingHashTables.KeysToSpec | src/main/java/io/github/marioluan/datastructures/symboltable/hash/LinearProbingHashTable.java:161-163 | the walk lists a key exactly when a visited slot holds it, and no key twice |
| LinearProbingHashTables.Size | src/main/java/io/github/marioluan/datastructures/symboltable/hash/LinearProbingHashTable.java:152-155 | on a valid table the count is the number of keys `keys()` lists |
| LinearProbingHashTables.Keys | src/main/java/io/github/marioluan/datastructures/symboltable/hash/LinearProbingHashTable.java:157-166 | the stack holds one key per occupied slot, last slot on top, and exactly the keys stored |
| LinearProbingHashTables.ThreeStored | src/main/java/io/github/marioluan/datastructures/symboltable/hash/LinearProbingHashTable.java:40-88 | a table of 4 slots after `put(3, 30)` holds key 3 in slot 3, with either step |
| LinearProbingHashTables.PutAsWrittenRunsOff | src/main/java/io/github/marioluan/datastructures/symboltable/hash/LinearProbingHashTable.java:76 | as written, `put(7, 70)` on that table hashes to the occupied slot 3, steps to slot 4 and reads past the end of the arrays |
| LinearProbingHashTables.PutWraps | src/main/java/io/github/marioluan/datastructures/symboltable/hash/LinearProbingHashTable.java:76 | with the wrapped step, the same `put(7, 70)` goes round to slot 0 |
| LinearProbingHashTables.GetAsWrittenOneSlot | src/main/java/io/github/marioluan/datastructures/symboltable/hash/LinearProbingHashTable.java:92 | on a single slot holding another key, the probe for a new key never moves, as written or wrapped |
| SeparateChainingHashTables.ComputeM | src/main/java/io/github/marioluan/datastructures/symboltable/hash/SeparateChainingHashTable.java:207-209 | `computeM()` is the number of chains divided by five, rounded up |
| SeparateChainingHashTables.Slot | src/main/java/io/github/marioluan/datastructures/symboltable/hash/SeparateChainingHashTable.java:63-67 | a key's chain index lies within the array |
| SeparateChainingHashTables.FlattenLookup | src/main/java/io/github/marioluan/datastructures/symboltable/hash/SeparateChainingHashTable.java:100-108 | looking a key up among all pairs finds what its own chain gives |
| SeparateChainingHashTables.FreshSpec | src/main/java/io/github/marioluan/datastructures/symboltable/hash/SeparateChainingHashTable.java:185-186 | a fresh array has the requested number of empty chains and a zero count |
| SeparateChainingHashTables.FreshValid | src/main/java/io/github/marioluan/datastructures/symboltable/hash/SeparateChainingHashTable.java:185-186 | a fresh array is valid and no key finds a value in it |
| SeparateChainingHashTables.NewSpec | src/main/java/io/github/marioluan/datastructures/symboltable/hash/SeparateChainingHashTable.java:51-55 | `capacity + 1` empty chains, so the constructor fails with NegativeArraySizeException exactly when `capacity < -1` |
| SeparateChainingHashTables.Place | src/main/java/io/github/marioluan/datastructures/symboltable/hash/SeparateChainingHashTable.java:84-95 | the insertion part of `put` keeps the number of chains and counts at most one new pair |
| SeparateChainingHashTables.PlaceSpec | src/main/java/io/github/marioluan/datastructures/symboltable/hash/SeparateChainingHashTable.java:84-95 | a placed pair is what its key finds, nothing else changes, the table stays valid, and the count grows exactly when the key is new |
| SeparateChainingHashTables.PlaceUpdate | src/main/java/io/github/marioluan/datastructures/symboltable/hash/SeparateChainingHashTable.java:86-91 | a key already in its chain has its value overwritten in place and nothing else changes |
| SeparateChainingHashTables.PlacePush | src/main/java/io/github/marioluan/datastructures/symboltable/hash/SeparateChainingHashTable.java:93-95 | a new key goes on top of its chain and nothing else changes |
| SeparateChainingHashTables.ReplaceChain | src/main/java/io/github/marioluan/datastructures/symboltable/hash/SeparateChainingHashTable.java:94 | replacing one chain by a well-formed one keeps the table valid and changes only what that chain's keys find |
| SeparateChainingHashTables.InsertAll | src/main/java/io/github/marioluan/datastructures/symboltable/hash/SeparateChainingHashTable.java:190-198 | `resize`'s re-insertions keep the number of chains and count at most one pair each |
| SeparateChainingHashTables.ResizeCheckIdle | src/main/java/io/github/marioluan/datastructures/symboltable/hash/SeparateChainingHashTable.java:81-82 | `put`'s doubling check never fires inside `resize`: before each re-insertion the count is below the new array's length |
| SeparateChainingHashTables.InsertAllSpec | src/main/java/io/github/marioluan/datastructures/symboltable/hash/SeparateChainingHashTable.java:190-198 | re-inserting distinct pairs counts each, keeps the table valid, and makes each key find its pair |
| SeparateChainingHashTables.Resize | src/main/java/io/github/marioluan/datastructures/symboltable/hash/SeparateChainingHashTable.java:181-200 | `resize(capacity)` yields `capacity + 1` chains |
| SeparateChainingHashTables.ResizeSpec | src/main/java/io/github/marioluan/datastructures/symboltable/hash/SeparateChainingHashTable.java:181-200 | resizing keeps every pair, the count and validity, whatever the new length |
| SeparateChainingHashTables.Store | src/main/java/io/github/marioluan/datastructures/symboltable/hash/SeparateChainingHashTable.java:80-95 | storing a non-null value fails only on an array of no chains (`% 0`), and never on a valid table |
| SeparateChainingHashTables.StoreSpec | src/main/java/io/github/marioluan/datastructures/symboltable/hash/SeparateChainingHashTable.java:80-95 | on a valid table, storing `v` at `k` makes `k` find `v`, keeps what every other key finds, counts a new key, and keeps the table valid |
| SeparateChainingHashTables.SpliceSpec | src/main/java/io/github/marioluan/datastructures/symboltable/hash/SeparateChainingHashTable.java:118-141 | splicing the key's pair out of its chain removes that key and changes nothing else |
| SeparateChainingHashTables.SpliceAt | src/main/java/io/github/marioluan/datastructures/symboltable/hash/SeparateChainingHashTable.java:135-141 | splicing a pair out of a chain removes its key and changes nothing else |
| SeparateChainingHashTables.UnlinkSpec | src/main/java/io/github/marioluan/datastructures/symboltable/hash/SeparateChainingHashTable.java:132-145 | unlinking a present key (`Unlink`), with the shrink, counts one fewer, keeps the table valid and removes only that key |
| SeparateChainingHashTables.DeleteAsWritten | src/main/java/io/github/marioluan/datastructures/symboltable/hash/SeparateChainingHashTable.java:111-146 | the code as written: a null key is NullPointerException and an empty table is left alone; on a valid non-empty table it fails with NullPointerException exactly when the key is absent |
| SeparateChainingHashTables.Delete | src/main/java/io/github/marioluan/datastructures/symboltable/hash/SeparateChainingHashTable.java:111-146 | the corrected `delete`: a null key is NullPointerException; on a valid table the key is removed, nothing else changes, and the count drops exactly when it was present |
| SeparateChainingHashTables.PutAsWritten | src/main/java/io/github/marioluan/datastructures/symboltable/hash/SeparateChainingHashTable.java:70-96 | as written, a null key is NullPointerException |
| SeparateChainingHashTables.Put | src/main/java/io/github/marioluan/datastructures/symboltable/hash/SeparateChainingHashTable.java:70-96 | over the corrected `delete`, a null key is NullPointerException |
| SeparateChainingHashTables.PutSpec | src/main/java/io/github/marioluan/datastructures/symboltable/hash/SeparateChainingHashTable.java:70-96 | on a valid table `put(k, v)` makes `k` find `v` (null deletes it), keeps what every other key finds, moves the count by the key's arrival or departure, and keeps the table valid |
| SeparateChainingHashTables.PutAsWrittenNonNull | src/main/java/io/github/marioluan/datastructures/symboltable/hash/SeparateChainingHashTable.java:80-95 | with a non-null value the code as written and the corrected `put` agree |
| SeparateChainingHashTables.Get | src/main/java/io/github/marioluan/datastructures/symboltable/hash/SeparateChainingHashTable.java:100-108 | a null key is NullPointerException and an array of no chains is ArithmeticException; on a valid table, the key's value or null |
| SeparateChainingHashTables.PutThenGet | src/main/java/io/github/marioluan/datastructures/symboltable/hash/SeparateChainingHashTable.java:70-108 | after `put(k, v)`, `get(k)` gives `v` |
| SeparateChainingHashTables.Contains | src/main/java/io/github/marioluan/datastructures/symboltable/hash/SeparateChainingHashTable.java:148-151 | a null key is NullPointerException; on a valid table, true exactly when the key is present |
| SeparateChainingHashTables.IsEmpty | src/main/java/io/github/marioluan/datastructures/symboltable/hash/SeparateChainingHashTable.java:153-156 | on a valid table, true exactly when no key is present |
| SeparateChainingHashTables.Size | src/main/java/io/github/marioluan/datastructures/symboltable/hash/SeparateChainingHashTable.java:158-161 | on a valid table, the number of keys present |
| SeparateChainingHashTables.Keys | src/main/java/io/github/marioluan/datastructures/symboltable/hash/SeparateChainingHashTable.java:163-178 | the stack holds every pair's key, chain by chain, last one on top, and exactly the keys present |
| SeparateChainingHashTables.OneKeyBuilt | src/main/java/io/github/marioluan/datastructures/symboltable/hash/SeparateChainingHashTable.java:51-96 | `new SeparateChainingHashTable(4)` then `put(1, 10)` leaves key 1 alone in chain 0 of five |
| SeparateChainingHashTables.DeleteAsWrittenMissing | src/main/java/io/github/marioluan/datastructures/symboltable/hash/SeparateChainingHashTable.java:123 | as written, deleting the absent key 2 walks off the end of chain 0 and dereferences null |
| SeparateChainingHashTables.DeleteMissingUnchanged | src/main/java/io/github/marioluan/datastructures/symboltable/hash/SeparateChainingHashTable.java:111-146 | the corrected `delete` of the absent key 2 changes nothing |
| MaxBinaryHeaps.Vals | src/main/java/io/github/marioluan/datastructures/priority/queue/MaxBinaryHeap.java:19-20 | the stored keys are those of slots `1..n`, in slot order |
| MaxBinaryHeaps.Exchange | src/main/java/io/github/marioluan/datastructures/priority/queue/MaxBinaryHeap.java:86 | exchanging two occupied slots swaps their keys, leaves every other slot, and keeps the stored keys |
| MaxBinaryHeaps.New | src/main/java/io/github/marioluan/datastructures/priority/queue/MaxBinaryHeap.java:27-31 | `capacity + 1` null slots, so the constructor fails with NegativeArraySizeException exactly when `capacity < -1`; otherwise an empty, ordered heap |
| MaxBinaryHeaps.IsEmpty | src/main/java/io/github/marioluan/datastructures/priority/queue/MaxBinaryHeap.java:38-40 | true exactly when no key is stored |
| MaxBinaryHeaps.Size | src/main/java/io/github/marioluan/datastructures/priority/queue/MaxBinaryHeap.java:47-49 | the number of stored keys, counting duplicates |
| MaxBinaryHeaps.Max | src/main/java/io/github/marioluan/datastructures/priority/queue/MaxBinaryHeap.java:56-58 | `max()` reads slot 1: IndexOutOfBounds exactly when the array has fewer than two slots, null on an empty tidy heap, otherwise a stored key that no stored key exceeds on an ordered heap |
| MaxBinaryHeaps.RootIsMax | src/main/java/io/github/marioluan/datastructures/priority/queue/MaxBinaryHeap.java:56-58 | on an ordered, non-empty heap slot 1 holds a stored key that no other key exceeds |
| MaxBinaryHeaps.SwimAsWritten | src/main/java/io/github/marioluan/datastructures/priority/queue/MaxBinaryHeap.java:103-111 | the `swim` loop as written only rearranges the stored keys and touches no slot outside `1..n` |
| MaxBinaryHeaps.Swim | src/main/java/io/github/marioluan/datastructures/priority/queue/MaxBinaryHeap.java:103-111 | the corrected `swim` only rearranges the stored keys, touches no slot outside `1..n`, and keeps the unused slots null |
| MaxBinaryHeaps.SwimOrdered | src/main/java/io/github/marioluan/datastructures/priority/queue/MaxBinaryHeap.java:103-111 | the corrected `swim(k)` restores heap order when slot `k` is the only one out of place |
| MaxBinaryHeaps.Sink | src/main/java/io/github/marioluan/datastructures/priority/queue/MaxBinaryHeap.java:121-156 | `sink` only rearranges the stored keys, touches no slot outside `1..n`, and keeps the unused slots null |
| MaxBinaryHeaps.GreaterChild | src/main/java/io/github/marioluan/datastructures/priority/queue/MaxBinaryHeap.java:134-141 | the child `sink` compares with is a child of `k` within `1..n` holding a key no smaller than any child's |
| MaxBinaryHeaps.SinkOrdered | src/main/java/io/github/marioluan/datastructures/priority/queue/MaxBinaryHeap.java:121-156 | `sink(k)` restores heap order when slot `k` is the only one out of place |
| MaxBinaryHeaps.SinkStep | src/main/java/io/github/marioluan/datastructures/priority/queue/MaxBinaryHeap.java:144-154 | one exchange of `sink` moves the only misplaced slot one level down |
| MaxBinaryHeaps.Place | src/main/java/io/github/marioluan/datastructures/priority/queue/MaxBinaryHeap.java:70 | writing the key into slot `n + 1` stores one more copy of it |
| MaxBinaryHeaps.PushAsWritten | src/main/java/io/github/marioluan/datastructures/priority/queue/MaxBinaryHeap.java:70-71 | storing and swimming as written counts one more key and keeps the array |
| MaxBinaryHeaps.PushAsWrittenContents | src/main/java/io/github/marioluan/datastructures/priority/queue/MaxBinaryHeap.java:70-71 | even the one-step swim stores exactly one more copy of the key |
| MaxBinaryHeaps.Push | src/main/java/io/github/marioluan/datastructures/priority/queue/MaxBinaryHeap.java:70-71 | storing and the corrected swim count one more key and keep the array |
| MaxBinaryHeaps.PushContents | src/main/java/io/github/marioluan/datastructures/priority/queue/MaxBinaryHeap.java:70-71 | the corrected push stores exactly one more copy of the key |
| MaxBinaryHeaps.PushOrdered | src/main/java/io/github/marioluan/datastructures/priority/queue/MaxBinaryHeap.java:70-71 | the corrected push keeps heap order |
| MaxBinaryHeaps.PushTidy | src/main/java/io/github/marioluan/datastructures/priority/queue/MaxBinaryHeap.java:70-71 | the corrected push keeps slot 0 and the slots after the last key null |
| MaxBinaryHeaps.InsertAsWritten | src/main/java/io/github/marioluan/datastructures/priority/queue/MaxBinaryHeap.java:66-72 | the code as written: a null key is NullPointerException, a full array IndexOutOfBounds; otherwise exactly one more copy of the key is stored |
| MaxBinaryHeaps.Insert | src/main/java/io/github/marioluan/datastructures/priority/queue/MaxBinaryHeap.java:66-72 | the corrected `insert`: the same failures; otherwise one more copy of the key is stored, and heap order and null unused slots are kept |
| MaxBinaryHeaps.DelMax | src/main/java/io/github/marioluan/datastructures/priority/queue/MaxBinaryHeap.java:81-94 | an empty heap is NoSuchElementException; otherwise it returns slot 1's key and removes exactly one copy of it; on an ordered heap that key is the greatest and heap order is kept |
| MaxBinaryHeaps.Detach | src/main/java/io/github/marioluan/datastructures/priority/queue/MaxBinaryHeap.java:85-91 | exchanging slot 1 with slot `n` and nulling slot `n` takes the root out and keeps the rest |
| MaxBinaryHeaps.DetachSink | src/main/java/io/github/marioluan/datastructures/priority/queue/MaxBinaryHeap.java:85-91 | sinking slot 1 after the root is out keeps the remaining keys and the null slots |
| MaxBinaryHeaps.RemoveRootOrdered | src/main/java/io/github/marioluan/datastructures/priority/queue/MaxBinaryHeap.java:86-88 | moving the last key to slot 1 of an ordered heap and sinking it restores heap order |
| MaxBinaryHeaps.DrainSorted | src/main/java/io/github/marioluan/datastructures/priority/queue/MaxBinaryHeap.java:205-210 | repeated `delMax()` on an ordered heap yields every key once, greatest first |
| MaxBinaryHeaps.IteratorAsWritten | src/main/java/io/github/marioluan/datastructures/priority/queue/MaxBinaryHeap.java:180-184 | the iterator as written copies the keys into a heap whose count stays 0; a heap with no slots fails the copy with IndexOutOfBounds |
| MaxBinaryHeaps.Iterator | src/main/java/io/github/marioluan/datastructures/priority/queue/MaxBinaryHeap.java:180-184 | the corrected iterator's copy holds the same keys, in heap order when the heap is ordered |
| MaxBinaryHeaps.IteratorAsWrittenEmpty | src/main/java/io/github/marioluan/datastructures/priority/queue/MaxBinaryHeap.java:181-184 | the iterator as written yields nothing, however many keys the heap holds |
| MaxBinaryHeaps.IteratorDescending | src/main/java/io/github/marioluan/datastructures/priority/queue/MaxBinaryHeap.java:158-211 | the corrected iterator yields every key once, in descending order |
| MaxBinaryHeaps.ThreeTwoOneBuilt | src/main/java/io/github/marioluan/datastructures/priority/queue/MaxBinaryHeap.java:66-72 | inserting 3, 2 and 1 into a heap of capacity 4 moves nothing |
| MaxBinaryHeaps.SwimCounterexample | src/main/java/io/github/marioluan/datastructures/priority/queue/MaxBinaryHeap.java:103-111 | as written, inserting 4 after 3, 2, 1 leaves 4 below 3: heap order is broken and `max()` reports 3 although 4 is stored |
| MaxBinaryHeaps.SwimLiftsFour | src/main/java/io/github/marioluan/datastructures/priority/queue/MaxBinaryHeap.java:103-111 | the corrected swim lifts the same 4 to the top and `max()` reports it |
| OneDRangeCounts.Count | src/main/java/io/github/marioluan/datastructures/symboltable/OneDRangeCount.java:25-30 | over an ordered tree and `lo <= hi`, `count(lo, hi)` is the number of keys within `[lo, hi]`; for `hi < lo` it is minus the number of keys strictly between `hi` and `lo` |
| OneDRangeCounts.WithinByRank | src/main/java/io/github/marioluan/datastructures/symboltable/OneDRangeCount.java:25-30 | the keys in `[lo, hi]` number the keys below `hi` less those below `lo`, plus one when `hi` is a key |
| OneDRangeCounts.WithinByRankReversed | src/main/java/io/github/marioluan/datastructures/symboltable/OneDRangeCount.java:25-30 | for `hi < lo`, the keys strictly between the bounds number those below `lo` less those below `hi`, less one when `hi` is a key |
| OneDRangeCounts.CountSwappedNegative | src/main/java/io/github/marioluan/datastructures/symboltable/OneDRangeCount.java:25-30 | `count(3, 1)` over the keys 1, 2 and 3 is -1 |
| OneDRangeCounts.RangeOf | src/main/java/io/github/marioluan/datastructures/symboltable/OneDRangeCount.java:40-42 | `range(lo, hi)` lists only keys within the bounds and, over an ordered tree, all of them in ascending order |
| OneDRangeCounts.CountMatchesRange | src/main/java/io/github/marioluan/datastructures/symboltable/OneDRangeCount.java:25-42 | for `lo <= hi`, `count(lo, hi)` is the number of keys `range(lo, hi)` yields |
| OneDRangeCounts.LettersBuilt | src/test/java/io/github/marioluan/datastructures/symboltable/OneDRangeCountTest.java:38-47 | putting S, X, E, R, A, C, H, M, L, P builds an ordered tree of that shape |
| OneDRangeCounts.LettersRange | src/test/java/io/github/marioluan/datastructures/symboltable/OneDRangeCountTest.java:55-84 | `range(F, T)` lists H, L, M, P, R, S in that order |
| OneDRangeCounts.LettersCount | src/test/java/io/github/marioluan/datastructures/symboltable/OneDRangeCountTest.java:36-52 | `count(F, T)` is 6 |
| Graphs.Empty | src/main/java/io/github/marioluan/datastructures/graph/AdjacencyListGraph.java:23-28 | the constructors build `n` isolated vertices with a zero edge counter |
| Graphs.ClosedReach | src/main/java/io/github/marioluan/datastructures/graph/search/DepthFirstSearch.java:27-40 | a set of vertices closed under the adjacency lists holds everything reachable from its members |
| AdjacencyListGraphs.New | src/main/java/io/github/marioluan/datastructures/graph/AdjacencyListGraph.java:23-28 | a negative vertex count is NegativeArraySizeException; otherwise `n` empty bags and a zero counter |
| AdjacencyListGraphs.NewUndirected | src/main/java/io/github/marioluan/datastructures/graph/AdjacencyListGraph.java:23-28 | a new graph is undirected: each edge is listed at both ends |
| AdjacencyListGraphs.AddEdge | src/main/java/io/github/marioluan/datastructures/graph/AdjacencyListGraph.java:32-36 | an endpoint outside `[0, V)` is an index error; otherwise `w` goes to the front of `adj(v)`, then `v` to the front of `adj(w)`, the counter grows by one and no other list changes |
| AdjacencyListGraphs.Adj | src/main/java/io/github/marioluan/datastructures/graph/AdjacencyListGraph.java:40-42 | `adj(v)` is the bag of `v`, or an index error outside `[0, V)` |
| AdjacencyListGraphs.AddEdgeUndirected | src/main/java/io/github/marioluan/datastructures/graph/AdjacencyListGraph.java:32-36 | adding an edge keeps the graph undirected, with the counter half the number of entries |
| AdjacencyListGraphs.AddEdgeValid | src/main/java/io/github/marioluan/datastructures/graph/AdjacencyListGraph.java:32-36 | `addEdge` stores only range-checked vertices, so every neighbour stays a vertex |
| AdjacencyListGraphs.AddEdgeCountOne | src/main/java/io/github/marioluan/datastructures/graph/AdjacencyListGraph.java:32-36 | after `addEdge(v, w)`, `b` appears in `adj(a)` once more for each of `v -> w` and `w -> v` that `(a, b)` matches |
| AdjacencyListGraphs.SelfLoopDegree | src/main/java/io/github/marioluan/datastructures/graph/AdjacencyListGraph.java:32-36 | a self-loop puts `v` twice into its own list |
| Digraphs.New | src/main/java/io/github/marioluan/datastructures/graph/Digraph.java:23-28 | a negative vertex count is NegativeArraySizeException; otherwise `n` empty bags, a zero counter, and a counter equal to the entries |
| Digraphs.AddEdge | src/main/java/io/github/marioluan/datastructures/graph/Digraph.java:32-35 | only `v` is checked: outside `[0, V)` an index error; otherwise `w` goes to the front of `adj(v)`, the counter grows by one and no other list changes |
| Digraphs.Adj | src/main/java/io/github/marioluan/datastructures/graph/Digraph.java:39-41 | `adj(v)` is the bag of `v`, or an index error outside `[0, V)` |
| Digraphs.AddEdgesTo | src/main/java/io/github/marioluan/datastructures/graph/Digraph.java:60-61 | the inner loop of `reverse()` keeps the vertex count |
| Digraphs.AddEdgesToSpec | src/main/java/io/github/marioluan/datastructures/graph/Digraph.java:60-61 | adding `s -> i` for each `s` of a bag succeeds exactly when every `s` is a vertex, keeps the graph valid, counts each edge, and adds `i` to each source's list once per occurrence |
| Digraphs.ReverseStep | src/main/java/io/github/marioluan/datastructures/graph/Digraph.java:59-61 | turning round the edges out of vertex `i` extends the reversed part by one vertex |
| Digraphs.ReverseFromSpec | src/main/java/io/github/marioluan/datastructures/graph/Digraph.java:59-61 | the outer loop from vertex `i` succeeds exactly when every neighbour stored from `i` on is a vertex, and then the result reverses those edges |
| Digraphs.ReverseSpec | src/main/java/io/github/marioluan/datastructures/graph/Digraph.java:55-64 | `reverse()` (`Reverse`) succeeds exactly when every stored neighbour is a vertex; then it has the same vertices, counts the receiver's edges, and holds `u` in `adj(w)` exactly as often as the receiver holds `w` in `adj(u)` |
| Digraphs.ReverseEdges | src/main/java/io/github/marioluan/datastructures/graph/Digraph.java:55-64 | in the reverse, `u -> w` is an edge exactly when `w -> u` is one in the receiver |
| Digraphs.ReverseReach | src/main/java/io/github/marioluan/datastructures/graph/Digraph.java:55-64 | reachability in the reverse is reachability in the receiver read backwards |
| GraphProcessor.Degree | src/main/java/io/github/marioluan/datastructures/graph/GraphProcessor.java:21-26 | `degree(G, v)` is an index error outside `[0, V)`, otherwise the length of `adj(v)` |
| GraphProcessor.MaxDegree | src/main/java/io/github/marioluan/datastructures/graph/GraphProcessor.java:34-43 | `maxDegree(G)` is at least every vertex's degree and is 0 or the degree of some vertex |
| GraphProcessor.NumberOfSelfLoops | src/main/java/io/github/marioluan/datastructures/graph/GraphProcessor.java:65-73 | the loop counts the entries `v` of each `adj(v)` and halves the total |
| GraphProcessor.AddEdgeSelfEntries | src/main/java/io/github/marioluan/datastructures/graph/AdjacencyListGraph.java:32-36 | adding an edge adds two self entries when it is a self-loop and none otherwise |
| GraphProcessor.AddEdges | src/main/java/io/github/marioluan/datastructures/graph/AdjacencyListGraph.java:32-36 | adding edges one by one keeps the vertex count |
| GraphProcessor.AddEdgesSelfLoops | src/main/java/io/github/marioluan/datastructures/graph/GraphProcessor.java:71-72 | in a graph built with `addEdge`, the self entries are twice the self-loops |
| GraphProcessor.SelfLoopsFromScratch | src/main/java/io/github/marioluan/datastructures/graph/GraphProcessor.java:65-73 | on a graph built from scratch, `numberOfSelfLoops` is exactly the number of self-loops added |
| GraphProcessor.AddEdgesDegree | src/main/java/io/github/marioluan/datastructures/graph/AdjacencyListGraph.java:32-36 | each `addEdge` lengthens a vertex's list by the number of edge ends it has there |
| GraphProcessor.DegreeFromScratch | src/main/java/io/github/marioluan/datastructures/graph/GraphProcessor.java:21-26 | on a graph built from scratch, `degree(G, x)` is the number of edge ends at `x`, a self-loop counting twice; it fails exactly outside `[0, V)` |
| Paths.HasPathTo | src/main/java/io/github/marioluan/datastructures/graph/search/PathDecorator.java:17-20 | `hasPathTo(v)` is `marked[v]`, or an index error outside the array |
| Paths.PathTo | src/main/java/io/github/marioluan/datastructures/graph/search/PathDecorator.java:22-44 | `pathTo(v)` is null exactly for an unmarked `v`; otherwise the vertices from the root of `v`'s tree down to `v`, each linked to the one before, none twice; an index error arises only from `v` or a link leaving the array |
| Paths.ChainUnique | src/main/java/io/github/marioluan/datastructures/graph/search/PathDecorator.java:33-41 | a chain of links from a root to `v` is unique, so `pathTo(v)` returns the only path the links describe |
| DepthFirst.Fresh | src/main/java/io/github/marioluan/datastructures/graph/search/DepthFirstSearch.java:20-21 | the freshly allocated arrays mark nothing and hold null links |
| DepthFirst.Visit | src/main/java/io/github/marioluan/datastructures/graph/search/DepthFirstSearch.java:27-40 | `search(v)` on an unmarked vertex marks `v`, unmarks nothing, and marks at least one more vertex, so the recursion enters each vertex at most once |
| DepthFirst.VisitAll | src/main/java/io/github/marioluan/datastructures/graph/search/DepthFirstSearch.java:30-39 | the loop over `adj(v)` marks every neighbour it looks at and unmarks nothing |
| DepthFirst.EnterSound | src/main/java/io/github/marioluan/datastructures/graph/search/DepthFirstSearch.java:28 | marking an unmarked vertex keeps the search invariant |
| DepthFirst.LinkSound | src/main/java/io/github/marioluan/datastructures/graph/search/DepthFirstSearch.java:37-38 | recording the tree edge `v -> w` after `search(w)` returns keeps the invariant |
| DepthFirst.LeaveSound | src/main/java/io/github/marioluan/datastructures/graph/search/DepthFirstSearch.java:27-40 | returning from `search(v)` once all its neighbours are marked keeps the invariant |
| DepthFirst.LeaveSettled | src/main/java/io/github/marioluan/datastructures/graph/search/DepthFirstSearch.java:27-40 | what the vertex just left reaches is settled: left before it, or in its strong component on the call stack |
| DepthFirst.VisitStep | src/main/java/io/github/marioluan/datastructures/graph/search/DepthFirstSearch.java:34-38 | one unmarked neighbour `w` of `v`: after `search(w)` and the link `edgeTo[w] = v` the state is sound again, the call stack is unchanged, and the neighbours up to `w` are marked |
| DepthFirst.VisitAllSpec | src/main/java/io/github/marioluan/datastructures/graph/search/DepthFirstSearch.java:30-39 | the loop of `search(v)` leaves every neighbour of `v` marked and forms a sound stretch of `v`'s call |
| DepthFirst.VisitSpec | src/main/java/io/github/marioluan/datastructures/graph/search/DepthFirstSearch.java:27-40 | `search(v)` enters `v` first and leaves it last, marks only vertices reachable from `v`, leaves every vertex it enters, and links every newly marked vertex but `v` |
| DepthFirst.IdleClosed | src/main/java/io/github/marioluan/datastructures/graph/search/DepthFirstSearch.java:27-40 | between top-level calls the marked set is closed under edges |
| DepthFirst.DepthFirstSearch | src/main/java/io/github/marioluan/datastructures/graph/search/DepthFirstSearch.java:18-24 | a source outside `[0, V)` is an index error; otherwise the arrays are sized to the graph and `s` is marked |
| DepthFirst.DepthFirstSearchSound | src/main/java/io/github/marioluan/datastructures/graph/search/DepthFirstSearch.java:18-24 | a finished search is sound and idle, entered `s` first, entered only vertices reachable from `s`, and linked exactly the entered vertices other than `s` |
| DepthFirst.DepthFirstSearchSpec | src/main/java/io/github/marioluan/datastructures/graph/search/DepthFirstSearch.java:18-40 | `marked[x]` exactly when `x` is reachable from `s`; `edgeTo` is null at `s` and at every unreached vertex and set at every other reached one, always along an edge of the graph |
| DepthFirstPaths.EntryRanked | src/main/java/io/github/marioluan/datastructures/graph/search/DepthFirstSearch.java:37-38 | each tree link points to a vertex entered earlier, so following links ends |
| DepthFirstPaths.HasPathTo | src/main/java/io/github/marioluan/datastructures/graph/DFSPaths.java:19-27 | an index error for a source or target outside `[0, V)`; otherwise true exactly when `v` is reachable from `s` |
| DepthFirstPaths.PathTo | src/main/java/io/github/marioluan/datastructures/graph/DFSPaths.java:30-52 | an index error outside `[0, V)`; null exactly when `v` is unreachable; otherwise a walk of the graph from `s` to `v` that repeats no vertex |
| BreadthFirst.DiscoverSound | src/main/java/io/github/marioluan/datastructures/graph/search/BreadthFirstSearch.java:47-56 | discovering an unmarked neighbour `v` of `w` keeps every search fact and places `v` one level below `w` |
| BreadthFirst.FinishedClosed | src/main/java/io/github/marioluan/datastructures/graph/search/BreadthFirstSearch.java:38-58 | when the queue empties the marked set is closed under edges, and no edge goes down more than one level |
| BreadthFirst.EnqueuedMarked | src/main/java/io/github/marioluan/datastructures/graph/search/BreadthFirstSearch.java:51-56 | every vertex that was put in the queue is marked |
| BreadthFirst.ScanDiscover | src/main/java/io/github/marioluan/datastructures/graph/search/BreadthFirstSearch.java:50-56 | the loop body for an unmarked `adj(w)[i]` marks it, sets its distance and link, and adds it at the front of the queue |
| BreadthFirst.ScanSkip | src/main/java/io/github/marioluan/datastructures/graph/search/BreadthFirstSearch.java:47-48 | the loop body for a marked `adj(w)[i]` changes nothing |
| BreadthFirst.Expand | src/main/java/io/github/marioluan/datastructures/graph/search/BreadthFirstSearch.java:45-57 | after the loop over `adj(w)`, every unmarked neighbour of `w` is discovered one level below `w` and queued, and `w` is expanded |
| BreadthFirst.Visit | src/main/java/io/github/marioluan/datastructures/graph/search/BreadthFirstSearch.java:45-57 | one pass of the loop over `adj(w)` keeps the loop invariant |
| BreadthFirst.BreadthFirstSearch | src/main/java/io/github/marioluan/datastructures/graph/search/BreadthFirstSearch.java:20-59 | a source outside `[0, V)` is an index error; otherwise the search finishes with every search fact in place |
| BreadthFirst.Dequeue | src/main/java/io/github/marioluan/datastructures/graph/search/BreadthFirstSearch.java:38-57 | one pass of the main loop keeps the frontier invariant and makes the termination measure fall |
| BreadthFirst.ShortestWalk | src/main/java/io/github/marioluan/datastructures/graph/search/BreadthFirstSearch.java:31-59 | a walk of `k` edges from `s` ends at a marked vertex whose distance is at most `k` |
| BreadthFirst.WalkReachIn | src/main/java/io/github/marioluan/datastructures/graph/search/BreadthFirstSearch.java:31-59 | a walk with `n` vertices reaches its last vertex in `n - 1` edges |
| BreadthFirst.FinishedSpec | src/main/java/io/github/marioluan/datastructures/graph/search/BreadthFirstSearch.java:31-59 | after the search exactly the vertices reachable from `s` are marked, and `disTo[x]` is the length of a shortest walk from `s` to `x`: one of that length exists and none is shorter |
| BreadthFirstPaths.DistanceRanked | src/main/java/io/github/marioluan/datastructures/graph/search/BreadthFirstSearch.java:52-53 | each link of a finished search leads one level up, toward `s` |
| BreadthFirstPaths.ChainLevels | src/main/java/io/github/marioluan/datastructures/graph/search/BreadthFirstSearch.java:52-53 | along a chain of links from `s`, the `i`-th vertex lies at distance `i` |
| BreadthFirstPaths.HasPathTo | src/main/java/io/github/marioluan/datastructures/graph/BFSPaths.java:19-27 | an index error for a source or target outside `[0, V)`; otherwise true exactly when `v` is reachable from `s` |
| BreadthFirstPaths.DistTo | src/main/java/io/github/marioluan/datastructures/graph/search/BreadthFirstSearch.java:20-59 | `disTo[v]` is null for a vertex unreachable from `s`, otherwise the number of edges on a shortest walk from `s` to `v` |
| BreadthFirstPaths.PathTo | src/main/java/io/github/marioluan/datastructures/graph/BFSPaths.java:30-52 | an index error outside `[0, V)`; null exactly when `v` is unreachable; otherwise a walk from `s` to `v` repeating no vertex, with no shorter walk between them |
| Sweeps.Start | src/main/java/io/github/marioluan/datastructures/graph/search/ConnectedComponents.java:22-23 | the fresh arrays mark nothing and label every vertex 0, with no components counted |
| Sweeps.Step | src/main/java/io/github/marioluan/datastructures/graph/search/ConnectedComponents.java:32-36 | one turn of the loop leaves its root marked, whether or not it started a search |
| Sweeps.VisitMarks | src/main/java/io/github/marioluan/datastructures/graph/search/ConnectedComponents.java:45-52 | `search(r)` from an unmarked root marks exactly the unmarked vertices reachable from `r`, and keeps the traversal sound and idle |
| Sweeps.LabelSkip | src/main/java/io/github/marioluan/datastructures/graph/search/ConnectedComponents.java:33 | a root that is already marked changes no label |
| Sweeps.LabelVisit | src/main/java/io/github/marioluan/datastructures/graph/search/ConnectedComponents.java:33-35 | `search(r)` from an unmarked root labels `count` exactly the newly marked vertices, which form one new strong component, and `count` grows by one |
| Sweeps.SweepStep | src/main/java/io/github/marioluan/datastructures/graph/search/ConnectedComponents.java:32-36 | one turn of the loop keeps the sweep invariant: labels in `[0, count)`, a shared label exactly for one strong component, roots that start a search get increasing labels |
| Sweeps.SweepFromSpec | src/main/java/io/github/marioluan/datastructures/graph/search/ConnectedComponents.java:31-37 | the rest of the loop keeps the sweep invariant |
| Sweeps.SweepSpec | src/main/java/io/github/marioluan/datastructures/graph/search/ConnectedComponents.java:20-37 | after a sweep whose roots come in a valid order, two marked vertices share a label exactly when they lie in one strong component, every label is below `count`, and the `j`-th root's label is at most `j` |
| Sweeps.SweepFromSound | src/main/java/io/github/marioluan/datastructures/graph/sort/TopologicalSort.java:32-37 | whatever the root order, the loop keeps the traversal sound and idle and marks every root it has passed |
| Sweeps.SweepSound | src/main/java/io/github/marioluan/datastructures/graph/sort/TopologicalSort.java:20-37 | a full sweep over any roots leaves the traversal sound and idle with every root marked |
| ConnectedComponents.Components | src/main/java/io/github/marioluan/datastructures/graph/search/ConnectedComponents.java:20-26 | the constructor sizes `marked` and `id` to the graph |
| ConnectedComponents.SymmetricRootOrder | src/main/java/io/github/marioluan/datastructures/graph/search/ConnectedComponents.java:32 | in an undirected graph any order of roots, so `0, 1, ..., V-1`, is a valid order |
| ConnectedComponents.ComponentsLabelled | src/main/java/io/github/marioluan/datastructures/graph/search/ConnectedComponents.java:20-52 | the constructor ends in the sweep invariant over the roots `0, 1, ..., V-1` |
| ConnectedComponents.ComponentsCover | src/main/java/io/github/marioluan/datastructures/graph/search/ConnectedComponents.java:20-52 | every vertex is marked with an id in `[0, count)`, `count` is at most V, and every id below `count` labels some vertex |
| ConnectedComponents.ComponentsConnected | src/main/java/io/github/marioluan/datastructures/graph/search/ConnectedComponents.java:20-52 | two vertices share an id exactly when one reaches the other |
| ConnectedComponents.ComponentsOrder | src/main/java/io/github/marioluan/datastructures/graph/search/ConnectedComponents.java:32-36 | ids follow the smallest vertex of each component: a smaller such vertex has a smaller id, every id is at most its vertex, and vertex 0 has id 0 |
| ConnectedComponents.Id | src/main/java/io/github/marioluan/datastructures/graph/search/ConnectedComponents.java:69-71 | `id(v)` is an index error exactly when `v` is outside `[0, V)` |
| ConnectedComponents.Connected | src/main/java/io/github/marioluan/datastructures/graph/search/ConnectedComponents.java:81-83 | `connected(s, v)` is an index error exactly when `s` or `v` is outside `[0, V)` |
| ConnectedComponents.QueriesSpec | src/main/java/io/github/marioluan/datastructures/graph/search/ConnectedComponents.java:59-83 | `getCount()` (`GetCount`) is at most V, `id(v)` lies in `[0, getCount())` and is at most `v`, and `connected(s, v)` holds exactly when `v` is reachable from `s` |
| TopologicalSort.ReversePost | src/main/java/io/github/marioluan/datastructures/graph/sort/TopologicalSort.java:56-66 | iterating the stack yields the finishing order read backwards |
| TopologicalSort.SweepDone | src/main/java/io/github/marioluan/datastructures/graph/sort/TopologicalSort.java:32-37 | after the constructor every vertex has been left, and the traversal is sound and idle |
| TopologicalSort.ReversePostVertices | src/main/java/io/github/marioluan/datastructures/graph/sort/TopologicalSort.java:20-66 | `reversePost()` holds every vertex exactly once: V entries, all in `[0, V)`, none repeated |
| TopologicalSort.PostOrderEdge | src/main/java/io/github/marioluan/datastructures/graph/sort/TopologicalSort.java:44-57 | on an acyclic graph the head of every edge is left before its tail |
| TopologicalSort.ReversePostTopological | src/main/java/io/github/marioluan/datastructures/graph/sort/TopologicalSort.java:20-66 | on an acyclic graph `reversePost()` is a topological order: for every edge `u -> w`, `u` comes before `w` |
| TopologicalSort.AcyclicMutReach | src/main/java/io/github/marioluan/datastructures/graph/sort/TopologicalSort.java:21 | in an acyclic graph no vertex shares its strong component with another |
| StronglyConnectedComponents.Order | src/main/java/io/github/marioluan/datastructures/graph/search/StronglyConnectedComponents.java:45-48 | the second pass takes its roots from the reverse postorder of the reversed graph, one per vertex |
| StronglyConnectedComponents.Kosaraju | src/main/java/io/github/marioluan/datastructures/graph/search/StronglyConnectedComponents.java:39-52 | the constructor is an index error exactly when some stored neighbour is not a vertex, since `reverse()` passes it to `addEdge`; otherwise the arrays are sized to the graph |
| StronglyConnectedComponents.LeftAfter | src/main/java/io/github/marioluan/datastructures/graph/search/StronglyConnectedComponents.java:45-48 | in the reversed graph, when `y` reaches `x` but not back, some vertex of `y`'s strong component is left after `x` |
| StronglyConnectedComponents.OrderRootOrder | src/main/java/io/github/marioluan/datastructures/graph/search/StronglyConnectedComponents.java:57-63 | the reverse postorder of the reversed graph is a valid order of roots for the second pass |
| StronglyConnectedComponents.KosarajuLabelled | src/main/java/io/github/marioluan/datastructures/graph/search/StronglyConnectedComponents.java:39-78 | the constructor ends in the sweep invariant over that order |
| StronglyConnectedComponents.KosarajuCover | src/main/java/io/github/marioluan/datastructures/graph/search/StronglyConnectedComponents.java:39-78 | every vertex is marked with an id in `[0, count)`, `count` is at most V, and every id below `count` labels some vertex |
| StronglyConnectedComponents.KosarajuComponents | src/main/java/io/github/marioluan/datastructures/graph/search/StronglyConnectedComponents.java:39-78 | two vertices share an id exactly when each reaches the other |
| StronglyConnectedComponents.Id | src/main/java/io/github/marioluan/datastructures/graph/search/StronglyConnectedComponents.java:95-97 | `id(v)` is an index error exactly when `v` is outside `[0, V)` |
| StronglyConnectedComponents.StronglyConnected | src/main/java/io/github/marioluan/datastructures/graph/search/StronglyConnectedComponents.java:107-109 | `stronglyConnected(s, v)` is an index error exactly when `s` or `v` is outside `[0, V)` |
| StronglyConnectedComponents.QueriesSpec | src/main/java/io/github/marioluan/datastructures/graph/search/StronglyConnectedComponents.java:85-109 | `getCount()` (`GetCount`) is at most V, `id(v)` lies in `[0, getCount())`, and `stronglyConnected(s, v)` holds exactly when `s` and `v` reach each other |

## Left out

- Keys of the ordered structures (`BinarySearchTree`, `OneDRangeCount`, `ArraySymbolTable`, `IntervalSearchTree`, `MaxBinaryHeap`) are `int`. `compareTo` is the integer order. Any total order behaves the same, and a `Comparable` that breaks the order laws is not modelled.
- Keys of `LinkedListSymbolTable` and both hash tables are `int` too, through `SymbolTables.Entry`. Java's `equals` becomes integer equality, so a key type whose `equals` is not an equivalence relation is not modelled.
- The hash tables take `hashCode` as a function parameter `hc` (`SymbolTables.Hash`). Nothing is assumed of it beyond being a function of the key. Java's own hash codes and `equals` are not modelled.
- Random draws (`StdRandom.uniform` in `dequeue`/`sample`, `StdRandom.shuffle` in the iterator of `RandomizedQueue`) are parameters. Their distribution is not modelled.
- `averageDegree` (`GraphProcessor.java:51-57`) divides in floating point and is not modelled.
- `toString()` of `AdjacencyListGraph` and `Digraph` returns `null` as a placeholder and is not modelled.
- `select()` of `BinarySearchTree` is a placeholder returning `null` and is not modelled.
- The interfaces (`Graph`, `Paths`, `Stack`, `SymbolTable`, `OrderedSymbolTable`, `Resizable`) are not modelled as separate members. Their documented promises appear in the contracts of the classes that implement them.
- `MinOrderedLinkedListPriorityQueue`, `MinUnorderedLinkedListPriorityQueue` and the test-only `Undirected` factory are not part of this model. The test graphs are built with `AdjacencyListGraphs.AddEdge`.
- Recursion depth is unbounded. Java's `StackOverflowError` on deep trees or long graph paths is not modelled.
- Object identity and aliasing are not modelled: every operation returns a new value. `reverse()` leaves its receiver unchanged because values cannot change.
- AdjacencyListGraphs.AddEdge: an out-of-range `w` with a valid `v` returns `Err` and no graph. Java first adds `w` to `adj[v]` (`AdjacencyListGraph.java:33-34`) and then throws, leaving that half-edge behind.
- Util.Copy: an index outside either array returns `Err` and leaves `aux` as it was. Java's loop (`Util.java:80-81`) has already written `aux[lo..]` up to the first bad index before it throws.
- LinearProbingHashTables.DeleteWith: a probe that runs off the array returns `Err` and no table. Java's `delete` has already nulled the found slot (`LinearProbingHashTable.java:117-118`) and re-put part of the cluster (`LinearProbingHashTable.java:122-131`) before the index error at line 121 or 132. The same holds for `LinearProbingHashTables.PutWith`, whose Java `put` has already doubled the arrays (`LinearProbingHashTable.java:71-72`) before the probe at line 76 runs off.
- MaxBinaryHeaps.InsertAsWritten: a full heap returns `Err` and no heap. Java's `keys[++n]` (`MaxBinaryHeap.java:70`) raises `n` before it throws. The same holds for `MaxBinaryHeaps.Insert`.
- IntervalSearchTrees.Insert: a duplicate left endpoint returns `Err` and no tree. Java raises `max` along the search path first (`IntervalSearchTree.java:118-128`) and keeps those raised values after it throws.
- DepthFirst.DepthFirstSearch: requires every stored neighbour to be a vertex (`Valid`). `Digraph.addEdge` checks only `v`, so a digraph may hold an out-of-range `w`, and Java's search then throws at `marked[w]`. The model does not cover that graph. The same requirement holds for `BreadthFirst.BreadthFirstSearch`, `DepthFirstPaths.HasPathTo`, `DepthFirstPaths.PathTo`, `BreadthFirstPaths.HasPathTo`, `BreadthFirstPaths.DistTo`, `BreadthFirstPaths.PathTo`, `ConnectedComponents.Components` and `TopologicalSort.ReversePost`. `StronglyConnectedComponents.Kosaraju` does model the failure, as the index error that `reverse()` throws.
- BinarySearchTrees.Floor: takes a non-null `int` key. Java throws `NullPointerException` for a `null` key, and only on a non-empty tree. The same holds for `BinarySearchTrees.Ceiling`, `BinarySearchTrees.Rank` and `BinarySearchTrees.Range`.
- OneDRangeCounts.Count: takes non-null `int` bounds, and so does `OneDRangeCounts.RangeOf`. In Java, `count(lo, null)` always throws `NullPointerException`: `contains(null)` calls `get(null)`, which throws even on an empty tree (`BinarySearchTree.java:266-267`). `count(null, hi)` throws at `rank`'s `compareTo` (`BinarySearchTree.java:465`) on a non-empty tree, and `range` with a null bound throws as `BinarySearchTrees.Range` does. Swapped bounds are modelled: `count(lo, hi)` with `hi < lo` is minus the number of keys strictly between them, so it can be negative.
- DynamicArrays.Push: Java takes the resizer as an injected `Resizable<T[]>` (`DynamicArray.java:24,36-37`, `RandomizedQueue.java:20,32-35`), and its tests inject a mock. The model fixes that resizer to `ArrayResizable.Resized`, and every ordering and packing promise of `DynamicArrays.Push`, `DynamicArrays.Pop`, `RandomizedQueues.Enqueue` and `RandomizedQueues.Dequeue` rests on that choice. A resizer that does not keep the first `n` items is not modelled.
- BreadthFirst.BreadthFirstSearch: Java's queue is `io.github.marioluan.datastructures.queue.Deque` (`BreadthFirstSearch.java:4`), a class that is not part of this model. The model assumes it behaves like the modelled `Deque`: `addFirst` followed by `removeLast` is first in, first out (`Deques.FirstInFirstOut`). `BreadthFirst.FinishedSpec`'s shortest-distance result rests on that assumption.
- LinearProbingHashTables.Rehash: takes a `fuel` bound on the rounds of `delete`'s re-insertion loop. Running out is reported as `Diverges`. `delete` passes the capacity as fuel, and `LinearProbingHashTables.FreeSlot` shows that with the wrapping step this suffices on every valid table.
- LinearProbingHashTables.ProbeAsWritten: the never-ending probe of a one-slot table full of other keys is reported as `Diverges` and not as a hang.
- SeparateChainingHashTables.InsertAll: re-inserts during `resize` without `put`'s doubling check. `ResizeCheckIdle` proves that check cannot fire there. `LinearProbingHashTables.ResizeFrom` and `LinearProbingHashTables.Rehash` do the same, justified by `LinearProbingHashTables.ResizeCheckIdle` and `LinearProbingHashTables.RehashCheckIdle`.
- ArrayResizable.Resize: the `assert capacity >= n` in `resize` is disabled by default in Java and is not modelled as a check. A too-small capacity fails at the copy instead.
- `int` overflow is not modelled. Sizes, counts and capacities are unbounded, so a table or heap past 2^31 - 1 entries does not wrap.

## Findings

| source | as written | input that shows it | evidently intended | confidence | as-written member | corrected member |
|---|---|---|---|---|---|---|
| src/main/java/io/github/marioluan/datastructures/symboltable/hash/LinearProbingHashTable.java:76 | the step `i = i + 1 % m` parses as `i + 1`, so the probe never wraps to slot 0 (the same expression is at lines 92, 110, 121 and 132) | identity hash, capacity 4, `put(3, 30)` then `put(7, 70)`: the probe steps from slot 3 to slot 4 and reads past the end | `i = (i + 1) % m`, wrapping round the array | not executed | LinearProbingHashTables.PutAsWrittenRunsOff | LinearProbingHashTables.PutWraps |
| src/main/java/io/github/marioluan/datastructures/symboltable/hash/SeparateChainingHashTable.java:123 | the loop reads `cursor.key` before it tests `cursor != null` | identity hash, 5 chains, key 1 stored, `delete(2)`: the walk falls off chain 0 and dereferences null | an absent key leaves the table unchanged | not executed | SeparateChainingHashTables.DeleteAsWrittenMissing | SeparateChainingHashTables.DeleteMissingUnchanged |
| src/main/java/io/github/marioluan/datastructures/symboltable/BinarySearchTree.java:97-100 | a tree of one node is emptied whatever key is deleted | the tree holding only 5, `delete(7)`: the tree becomes empty | only the matching key is removed | not executed | BinarySearchTrees.DeleteAsWrittenSingle | BinarySearchTrees.Delete |
| src/main/java/io/github/marioluan/datastructures/symboltable/BinarySearchTree.java:47-50 | `put(key, null)` calls the `delete` above | the tree holding only 5, `put(7, null)`: the tree becomes empty | `put(key, null)` removes only `key` | not executed | BinarySearchTrees.PutAsWrittenNullSingle | BinarySearchTrees.Put |
| src/main/java/io/github/marioluan/datastructures/symboltable/BinarySearchTree.java:209-212 | deleting a node with two children nulls the link to its successor, which drops the successor's right subtree | keys 2, 1, 3, 4 inserted in that order, `delete(2)`: the keys left are 1 and 3 | the successor's right subtree takes its place, so 1, 3 and 4 remain | not executed | BinarySearchTrees.DeleteAsWrittenLosesSubtree | BinarySearchTrees.DeleteKeepsSubtree |
| src/main/java/io/github/marioluan/datastructures/symboltable/LinkedListSymbolTable.java:68-71 | `prev` is never assigned, so deletion sets `head` to the node after the deleted one and drops every node before it | `put` of 1, 2 and 3, which leaves 3 first, `delete(2)`: `get(3)` returns null while the size says 2 | only the deleted node is unlinked | not executed | LinkedListSymbolTables.DeleteAsWrittenDropsPrefix | LinkedListSymbolTables.DeleteKeepsOthers |
| src/main/java/io/github/marioluan/datastructures/symboltable/LinkedListSymbolTable.java:83-87 | `put(key, null)` for an absent key prepends a node with a null value and counts it | `put` of 1, 2 and 3, then `delete(7)`: the size becomes 4 and `keys()` lists 7 | deleting an absent key changes nothing | not executed | LinkedListSymbolTables.DeleteAsWrittenInserts | LinkedListSymbolTables.DeleteAbsentUnchanged |
| src/main/java/io/github/marioluan/datastructures/symboltable/ArraySymbolTable.java:62-69 | `put(key, null)` for an absent key inserts the key with a null value | an empty table, `delete(7)`: the size becomes 1 and `keys()` lists 7, while `get(7)` is null | deleting an absent key changes nothing | not executed | ArraySymbolTables.DeleteAsWrittenInserts | ArraySymbolTables.PutSpec |
| src/main/java/io/github/marioluan/datastructures/priority/queue/MaxBinaryHeap.java:103-111 | `swim` never recomputes `parent`, so it makes at most one exchange | insert 3, 2, 1, then 4: 4 stops below 3 and `max()` returns 3 | the key rises until its parent is not smaller | not executed | MaxBinaryHeaps.SwimCounterexample | MaxBinaryHeaps.SwimOrdered |
| src/main/java/io/github/marioluan/datastructures/priority/queue/MaxBinaryHeap.java:181-184 | the iterator copies the keys into a new heap but leaves that heap's `n` at 0 | any non-empty heap: the iterator yields nothing | the iterator yields every key, largest first | not executed | MaxBinaryHeaps.IteratorAsWrittenEmpty | MaxBinaryHeaps.IteratorDescending |
| src/main/java/io/github/marioluan/datastructures/symboltable/IntervalSearchTree.java:44-50 | `overlaps` tests only whether an endpoint of the query lies in the interval | interval `[2, 3]`, query `[0, 10]`: not reported as overlapping | two closed intervals overlap when each starts no later than the other ends | not executed | IntervalSearchTrees.OverlapsAsWrittenContained | IntervalSearchTrees.OverlapsMissesContainment |
| src/main/java/io/github/marioluan/datastructures/symboltable/IntervalSearchTree.java:181-182 | `getAnyIntersection` goes right exactly when the left subtree's `max` exceeds `lo`, the reverse of the rule | root `[5, 6]` with left child `[1, 10]`, query `[2, 3]`: nothing found | go left when the left subtree's `max` reaches `lo` | not executed | IntervalSearchTrees.AnyAsWrittenMisses | IntervalSearchTrees.AnyComplete |
| src/main/java/io/github/marioluan/datastructures/symboltable/IntervalSearchTree.java:302-307 | `intersects` follows a single path down the tree | root `[5, 9]` with children `[1, 3]` and `[7, 8]`, query `[2, 7]`: `[7, 8]` is not reported | every stored interval that overlaps the query is reported | not executed | IntervalSearchTrees.IntersectsAsWrittenMisses | IntervalSearchTrees.SearchComplete |
| src/main/java/io/github/marioluan/datastructures/symboltable/IntervalSearchTree.java:222-246 | `delete` and `deleteMin` (lines 257-264) never recompute `max` | root `[30, 31]` whose left child `[5, 6]` has children `[1, 20]` and `[8, 9]`, `delete(5, 6)`: a stale `max` of 9 sits above `[1, 20]`, and the query `[15, 16]` then finds nothing | every node's `max` stays the largest right endpoint below it | not executed | IntervalSearchTrees.DeleteAsWrittenStaleMax | IntervalSearchTrees.DeleteFromExact |

=== FILE: array_resizable.dfy ===
/**
 * `ArrayResizable.resize` and the growth policy shared by the two
 * array-backed containers (`DynamicArray` and `RandomizedQueue`): double the
 * array when it is full, halve it when a removal leaves it a quarter full.
 * Arrays are sequences of nullable slots.
 */
module ArrayResizable {
  import opened Wrappers

  /** Slots `[0, n)` hold items and every later slot is null. */
  predicate Packed<T>(a: seq<Option<T>>, n: int)
  {
    0 <= n <= |a|
    && (forall i :: 0 <= i < n ==> a[i].Some?)
    && (forall i :: n <= i < |a| ==> a[i].None?)
  }

  /** The items of a packed array, from slot 0 up. */
  function Items<T>(a: seq<Option<T>>, n: int): (xs: seq<T>)
    requires Packed(a, n)
    ensures |xs| == n
  {
    seq(n, i requires 0 <= i < n && Packed(a, n) => a[i].value)
  }

  /** A fresh array of length `capacity` holding `a[0..n)` and null beyond. */
  function Resized<T>(a: seq<Option<T>>, n: int, capacity: nat): seq<Option<T>>
    requires n <= |a| && n <= capacity
  {
    seq(capacity, i requires 0 <= i < capacity && n <= |a| => if i < n then a[i] else None)
  }

  /**
   * `resize(a, n, capacity)`: allocate `capacity` null slots, then copy
   * `a[i]` for each `i < n`. A negative capacity fails at the allocation;
   * a copy past the end of either array fails with an index error (the
   * `assert capacity >= n` is not enabled by default).
   */
  method Resize<T>(a: seq<Option<T>>, n: int, capacity: int) returns (r: Result<seq<Option<T>>>)
    ensures capacity < 0 <==> r == Err(NegativeArraySize)
    ensures r.Ok? <==> 0 <= capacity && n <= capacity && n <= |a|
    ensures r.Err? && 0 <= capacity ==> r.error == IndexOutOfBounds
    ensures r.Ok? ==> |r.value| == capacity
    ensures r.Ok? ==> forall i :: 0 <= i < n ==> r.value[i] == a[i]
    ensures r.Ok? ==> forall i :: 0 <= i < capacity && n <= i ==> r.value[i] == None
    ensures r.Ok? ==> r.value == Resized(a, n, capacity)
  {
    if capacity < 0 {
      return Err(NegativeArraySize);
    }
    var temp: seq<Option<T>> := seq(capacity, _ => None);
    var i := 0;
    while i < n
      invariant 0 <= i && (i <= n || i == 0) && i <= |a| && i <= capacity
      invariant |temp| == capacity
      invariant forall j :: 0 <= j < i ==> temp[j] == a[j]
      invariant forall j :: i <= j < capacity ==> temp[j] == None
    {
      if i >= capacity || i >= |a| {
        return Err(IndexOutOfBounds);
      }
      temp := temp[i := a[i]];
      i := i + 1;
    }
    return Ok(temp);
  }

  /** Resizing a packed array to at least its item count keeps the items. */
  lemma ResizedItems<T>(a: seq<Option<T>>, n: int, capacity: nat)
    requires Packed(a, n) && n <= capacity
    ensures Packed(Resized(a, n, capacity), n) && Items(Resized(a, n, capacity), n) == Items(a, n)
  {
  }

  /** 1, 2, 4, 8, ... */
  predicate PowerOfTwo(x: int)
    decreases x
  {
    if x <= 1 then x == 1 else x % 2 == 0 && PowerOfTwo(x / 2)
  }

  /**
   * The growth policy's invariant: the capacity is a power of two, at least
   * the initial 2, and the array is more than a quarter full unless it is
   * the empty initial one.
   */
  predicate Balanced(len: int, n: int)
  {
    PowerOfTwo(len) && 2 <= len && 0 <= n <= len && (n > len / 4 || (n == 0 && len == 2))
  }

  /** The capacity after an insertion: doubled when the array was full. */
  function Grown(len: int, n: int): int
  {
    if n == len then 2 * len else len
  }

  /** The capacity after a removal that leaves `m` items: halved at exactly a quarter. */
  function Shrunk(len: int, m: int): int
  {
    if m > 0 && m == len / 4 then len / 2 else len
  }

  /** An insertion keeps the policy's invariant. */
  lemma GrowBalanced(len: int, n: int)
    requires Balanced(len, n)
    ensures Balanced(Grown(len, n), n + 1)
  {
    if n == len {
      assert (2 * len) / 2 == len;
    }
  }

  /** A removal keeps the policy's invariant. */
  lemma ShrinkBalanced(len: int, n: int)
    requires Balanced(len, n) && n > 0
    ensures Balanced(Shrunk(len, n - 1), n - 1)
  {
    var m := n - 1;
    if m > 0 && m == len / 4 {
      assert len >= 4;
      assert len % 2 == 0 && PowerOfTwo(len / 2);
    }
  }
}

=== FILE: array_symbol_table.dfy ===
/**
 * `ArraySymbolTable`: pairs kept in key order in a prefix of an array,
 * found by binary search, inserted by rotating the new pair down from the
 * end, removed by bubbling the pair to the end. Arrays have one spare slot
 * (`new Comparable[capacity + 1]`), grow when full and shrink when a removal
 * leaves them a quarter full.
 */
module ArraySymbolTables {
  import opened Wrappers
  import opened SymbolTables
  import Util
  import ArrayResizable

  /**
   * The `keys` and `values` arrays as one array of entries: every write in
   * the class touches both at the same index, so they always agree on which
   * slots are in use. `n` is the number of pairs.
   */
  datatype Table<V> = Table(slots: seq<Option<Entry<V>>>, n: int)

  /** Slots `[0, n)` are in use and the rest are null. */
  predicate Valid<V>(t: Table<V>)
  {
    ArrayResizable.Packed(t.slots, t.n)
  }

  /** The pairs, in array order. */
  function Entries<V>(t: Table<V>): seq<Entry<V>>
    requires Valid(t)
  {
    ArrayResizable.Items(t.slots, t.n)
  }

  function KeyAt<V>(t: Table<V>, i: int): int
    requires Valid(t) && 0 <= i < t.n
  {
    t.slots[i].value.key
  }

  /** The keys in use are strictly ascending. */
  predicate Sorted<V>(t: Table<V>)
  {
    Valid(t) && forall i, j :: 0 <= i < j < t.n ==> KeyAt(t, i) < KeyAt(t, j)
  }

  /** No pair holds a null value. */
  predicate NoNulls<V>(t: Table<V>)
  {
    Valid(t) && forall i :: 0 <= i < t.n ==> t.slots[i].value.value.Some?
  }

  lemma SortedDistinct<V>(t: Table<V>)
    requires Sorted(t)
    ensures DistinctKeys(Entries(t))
  {
    forall i, j | 0 <= i < j < t.n ensures Entries(t)[i].key != Entries(t)[j].key {
      assert Entries(t)[i].key == KeyAt(t, i) && Entries(t)[j].key == KeyAt(t, j);
    }
  }

  /** The constructor: both arrays get `capacity + 1` slots, so only `capacity < -1` fails. */
  function New<V>(capacity: int): (r: Result<Table<V>>)
  {
    if capacity + 1 < 0 then Err(NegativeArraySize) else Ok(Table(seq(capacity + 1, _ => None), 0))
  }

  /** The constructor fails exactly when `capacity + 1` is a negative array size; otherwise the table is empty, sorted and has `capacity + 1` null slots. */
  lemma NewSpec<V>(capacity: int)
    ensures var r := New<V>(capacity); capacity + 1 < 0 <==> r == Err(NegativeArraySize)
    ensures var r := New<V>(capacity); r.Ok? ==> Sorted(r.value) && NoNulls(r.value) && Entries(r.value) == [] && |r.value.slots| == capacity + 1
  {
  }

  // ---- rank ----

  /**
   * The loop of `rank`: halve `[lo, hi]` around `mid = lo + (hi - lo) / 2`
   * until the key is met or the range is empty, then answer `lo`. Over
   * sorted keys the answer splits them into those below `k` and the rest.
   */
  function Search<V>(t: Table<V>, k: int, lo: int, hi: int): (r: int)
    requires Valid(t) && 0 <= lo <= hi + 1 <= t.n
    decreases hi - lo + 1
    ensures lo <= r <= hi + 1
  {
    if lo > hi then lo
    else
      var mid := lo + (hi - lo) / 2;
      if KeyAt(t, mid) < k then Search(t, k, mid + 1, hi)
      else if KeyAt(t, mid) > k then Search(t, k, lo, mid - 1)
      else mid
  }

  /**
   * Over sorted keys, when everything left of `lo` is below `k` and
   * everything right of `hi` above it, the search answers the index that
   * splits the keys into those below `k` and the rest.
   */
  lemma {:induction false} SearchSplits<V>(t: Table<V>, k: int, lo: int, hi: int)
    requires Sorted(t) && 0 <= lo <= hi + 1 <= t.n
    requires forall j :: 0 <= j < lo ==> KeyAt(t, j) < k
    requires forall j :: hi < j < t.n ==> k < KeyAt(t, j)
    decreases hi - lo + 1, 1
    ensures Splits(t, k, Search(t, k, lo, hi))
  {
    if lo > hi {
      assert Search(t, k, lo, hi) == lo;
    } else {
      var mid := lo + (hi - lo) / 2;
      if KeyAt(t, mid) < k {
        SearchSplitsRight(t, k, lo, hi, mid);
      } else if KeyAt(t, mid) > k {
        SearchSplitsLeft(t, k, lo, hi, mid);
      } else {
        assert Search(t, k, lo, hi) == mid;
        SortedAt(t, k, mid);
      }
    }
  }

  /** The search goes on to the right of a middle key below `k`. */
  lemma {:induction false} SearchSplitsRight<V>(t: Table<V>, k: int, lo: int, hi: int, mid: int)
    requires Sorted(t) && 0 <= lo <= hi < t.n && mid == lo + (hi - lo) / 2 && KeyAt(t, mid) < k
    requires forall j :: 0 <= j < lo ==> KeyAt(t, j) < k
    requires forall j :: hi < j < t.n ==> k < KeyAt(t, j)
    decreases hi - lo + 1, 0
    ensures Splits(t, k, Search(t, k, lo, hi))
  {
    SortedBelow(t, k, mid);
    SearchSplits(t, k, mid + 1, hi);
    SplitsSame(t, k, Search(t, k, lo, hi), Search(t, k, mid + 1, hi));
  }

  lemma SplitsSame<V>(t: Table<V>, k: int, r: int, rNew: int)
    requires Valid(t) && r == rNew && Splits(t, k, rNew)
    ensures Splits(t, k, r)
  {
  }

  /** The search goes on to the left of a middle key above `k`. */
  lemma {:induction false} SearchSplitsLeft<V>(t: Table<V>, k: int, lo: int, hi: int, mid: int)
    requires Sorted(t) && 0 <= lo <= hi < t.n && mid == lo + (hi - lo) / 2 && k < KeyAt(t, mid)
    requires forall j :: 0 <= j < lo ==> KeyAt(t, j) < k
    requires forall j :: hi < j < t.n ==> k < KeyAt(t, j)
    decreases hi - lo + 1, 0
    ensures Splits(t, k, Search(t, k, lo, hi))
  {
    SortedAbove(t, k, mid);
    SearchSplits(t, k, lo, mid - 1);
    SplitsSame(t, k, Search(t, k, lo, hi), Search(t, k, lo, mid - 1));
  }

  /** Index `r` splits the keys into those below `k` and the rest. */
  ghost predicate Splits<V>(t: Table<V>, k: int, r: int)
    requires Valid(t)
  {
    (forall j :: 0 <= j < r && j < t.n ==> KeyAt(t, j) < k) && (forall j :: r <= j < t.n && 0 <= j ==> k <= KeyAt(t, j))
  }

  /** Every key up to one below `k` is below `k`. */
  lemma SortedBelow<V>(t: Table<V>, k: int, mid: int)
    requires Sorted(t) && 0 <= mid < t.n && KeyAt(t, mid) < k
    ensures forall j :: 0 <= j <= mid ==> KeyAt(t, j) < k
  {
    forall j | 0 <= j < mid ensures KeyAt(t, j) < k {
      assert KeyAt(t, j) < KeyAt(t, mid);
    }
  }

  /** Every key from one above `k` on is above `k`. */
  lemma SortedAbove<V>(t: Table<V>, k: int, mid: int)
    requires Sorted(t) && 0 <= mid < t.n && k < KeyAt(t, mid)
    ensures forall j :: mid <= j < t.n ==> k < KeyAt(t, j)
  {
    forall j | mid < j < t.n ensures k < KeyAt(t, j) {
      assert KeyAt(t, mid) < KeyAt(t, j);
    }
  }

  /** The slot holding `k` splits the keys into those below it and the rest. */
  lemma SortedAt<V>(t: Table<V>, k: int, mid: int)
    requires Sorted(t) && 0 <= mid < t.n && KeyAt(t, mid) == k
    ensures Splits(t, k, mid)
  {
    forall j | mid < j < t.n ensures k < KeyAt(t, j) {
      assert KeyAt(t, mid) < KeyAt(t, j);
    }
    forall j | 0 <= j < mid ensures KeyAt(t, j) < k {
      assert KeyAt(t, j) < KeyAt(t, mid);
    }
  }

  /** `rank(key)`: the index of `key` when present, otherwise the number of keys below it. */
  function Rank<V>(t: Table<V>, k: int): (r: int)
    requires Valid(t)
    ensures 0 <= r <= t.n
    ensures Sorted(t) ==> (forall j :: 0 <= j < r ==> KeyAt(t, j) < k) && (forall j :: r <= j < t.n ==> k <= KeyAt(t, j))
  {
    if Sorted(t) then
      SearchSplits(t, k, 0, t.n - 1);
      assert Splits(t, k, Search(t, k, 0, t.n - 1));
      Search(t, k, 0, t.n - 1)
    else Search(t, k, 0, t.n - 1)
  }

  /** `rank(k)` names a slot holding `k` exactly when `k` is one of the keys. */
  lemma RankFinds<V>(t: Table<V>, k: int)
    requires Sorted(t)
    ensures (Rank(t, k) < t.n && KeyAt(t, Rank(t, k)) == k) <==> k in KeySet(Entries(t))
  {
    var i := Rank(t, k);
    if k in KeySet(Entries(t)) {
      var j :| 0 <= j < t.n && Entries(t)[j].key == k;
      assert KeyAt(t, j) == k;
    }
    if i < t.n && KeyAt(t, i) == k {
      assert Entries(t)[i].key == k;
    }
  }

  // ---- the two shifts ----

  /**
   * `shift(lo, hi)`: while the key at `lo` is greater than the key at `hi`,
   * swap the two slots and move `lo` up; `hi` stays put.
   */
  function ShiftIn<V>(a: seq<Option<Entry<V>>>, lo: int, hi: int): (r: seq<Option<Entry<V>>>)
    requires 0 <= lo <= hi < |a| && forall j :: lo <= j <= hi ==> a[j].Some?
    decreases hi - lo
    ensures |r| == |a|
    ensures forall j :: 0 <= j < |a| && !(lo <= j <= hi) ==> r[j] == a[j]
  {
    if a[lo].value.key > a[hi].value.key then ShiftIn(a[lo := a[hi]][hi := a[lo]], lo + 1, hi)
    else a
  }

  /**
   * When the slots `[lo, hi)` ascend and all lie above the pair at `hi`,
   * `shift(lo, hi)` moves that pair to `lo` and the others up by one.
   */
  lemma {:induction false} ShiftInRotates<V>(a: seq<Option<Entry<V>>>, lo: int, hi: int)
    requires 0 <= lo <= hi < |a| && forall j :: lo <= j <= hi ==> a[j].Some?
    requires forall i, j :: lo <= i < j < hi ==> a[i].value.key < a[j].value.key
    requires forall j :: lo <= j < hi ==> a[hi].value.key < a[j].value.key
    decreases hi - lo
    ensures ShiftIn(a, lo, hi)[lo] == a[hi]
    ensures forall j :: lo < j <= hi ==> ShiftIn(a, lo, hi)[j] == a[j - 1]
  {
    if lo < hi {
      var b := a[lo := a[hi]][hi := a[lo]];
      ShiftInRotates(b, lo + 1, hi);
    }
  }

  /** `shift(i)`: swap slot `i` with its right neighbour while that neighbour is in use. */
  function ShiftOut<V>(a: seq<Option<Entry<V>>>, i: int, n: int): (r: seq<Option<Entry<V>>>)
    requires 0 <= i && n <= |a|
    decreases n - i
    ensures |r| == |a|
    ensures forall j :: 0 <= j < |a| && (j < i || n <= j) ==> r[j] == a[j]
  {
    if i + 1 < n then ShiftOut(a[i := a[i + 1]][i + 1 := a[i]], i + 1, n) else a
  }

  /** `shift(i)` carries the pair at `i` to slot `n - 1` and closes the gap it leaves. */
  lemma {:induction false} ShiftOutMoves<V>(a: seq<Option<Entry<V>>>, i: int, n: int)
    requires 0 <= i < n <= |a|
    decreases n - i
    ensures ShiftOut(a, i, n)[n - 1] == a[i]
    ensures forall j :: i <= j < n - 1 ==> ShiftOut(a, i, n)[j] == a[j + 1]
  {
    if i + 1 < n {
      var b := a[i := a[i + 1]][i + 1 := a[i]];
      ShiftOutMoves(b, i + 1, n);
    }
  }

  // ---- the three kinds of change made by put ----

  /**
   * A new pair: double the array first when it is full (`resize(2 * length)`
   * allocates one slot more), write the pair at slot `n`, rotate it down to `i`.
   */
  function Insert<V>(t: Table<V>, i: int, e: Entry<V>): (r: Table<V>)
    requires Valid(t) && 0 <= i <= t.n
    ensures r.n == t.n + 1 && |r.slots| == if t.n == |t.slots| then 2 * |t.slots| + 1 else |t.slots|
  {
    var a := if t.n == |t.slots| then ArrayResizable.Resized(t.slots, t.n, 2 * |t.slots| + 1) else t.slots;
    Table(ShiftIn(a[t.n := Some(e)], i, t.n), t.n + 1)
  }

  /**
   * Removing pair `i`: bubble it to slot `n - 1`, null that slot, and halve
   * the array (`resize(length / 2)`, one slot more) when the count falls to a
   * quarter of the length.
   */
  function Remove<V>(t: Table<V>, i: int): (r: Table<V>)
    requires Valid(t) && 0 <= i < t.n
    ensures r.n == t.n - 1 && |r.slots| == if 0 < t.n - 1 == |t.slots| / 4 then |t.slots| / 2 + 1 else |t.slots|
  {
    var a := ShiftOut(t.slots, i, t.n)[t.n - 1 := None];
    var m := t.n - 1;
    if m > 0 && m == |a| / 4 then Table(ArrayResizable.Resized(a, m, |a| / 2 + 1), m) else Table(a, m)
  }

  /** Overwriting the value of pair `i` in place. */
  function Update<V>(t: Table<V>, i: int, v: Option<V>): (r: Table<V>)
    requires Valid(t) && 0 <= i < t.n
    ensures r.n == t.n && |r.slots| == |t.slots|
  {
    Table(t.slots[i := Some(Entry(KeyAt(t, i), v))], t.n)
  }

  /** Slot by slot: the pairs before `i` stay, the new pair is at `i`, the rest move up one. */
  lemma InsertSlots<V>(t: Table<V>, i: int, e: Entry<V>)
    requires Sorted(t) && 0 <= i <= t.n
    requires forall j :: 0 <= j < i ==> KeyAt(t, j) < e.key
    requires forall j :: i <= j < t.n ==> e.key < KeyAt(t, j)
    ensures var r := Insert(t, i, e);
      (forall j :: 0 <= j < i ==> r.slots[j] == t.slots[j])
      && r.slots[i] == Some(e)
      && (forall j :: i < j <= t.n ==> r.slots[j] == t.slots[j - 1])
      && (forall j :: t.n < j < |r.slots| ==> r.slots[j] == None)
  {
    var a := if t.n == |t.slots| then ArrayResizable.Resized(t.slots, t.n, 2 * |t.slots| + 1) else t.slots;
    assert forall j :: 0 <= j < t.n ==> a[j] == t.slots[j];
    assert forall j :: t.n <= j < |a| ==> a[j] == None;
    var b := a[t.n := Some(e)];
    assert forall j :: i <= j < t.n ==> b[j].value.key == KeyAt(t, j);
    ShiftInRotates(b, i, t.n);
  }

  lemma InsertSorted<V>(t: Table<V>, i: int, e: Entry<V>)
    requires Sorted(t) && 0 <= i <= t.n
    requires forall j :: 0 <= j < i ==> KeyAt(t, j) < e.key
    requires forall j :: i <= j < t.n ==> e.key < KeyAt(t, j)
    ensures Sorted(Insert(t, i, e))
  {
    InsertSlots(t, i, e);
    var r := Insert(t, i, e);
    assert Valid(r);
    assert forall j :: 0 <= j < i ==> KeyAt(r, j) == KeyAt(t, j);
    assert KeyAt(r, i) == e.key;
    assert forall j :: i < j < r.n ==> KeyAt(r, j) == KeyAt(t, j - 1);
  }

  lemma InsertEntries<V>(t: Table<V>, i: int, e: Entry<V>)
    requires Sorted(t) && 0 <= i <= t.n
    requires forall j :: 0 <= j < i ==> KeyAt(t, j) < e.key
    requires forall j :: i <= j < t.n ==> e.key < KeyAt(t, j)
    ensures Sorted(Insert(t, i, e))
    ensures Entries(Insert(t, i, e)) == Entries(t)[..i] + [e] + Entries(t)[i..]
  {
    InsertSorted(t, i, e);
    InsertSlots(t, i, e);
    var r := Insert(t, i, e);
    var s := Entries(t);
    var want := s[..i] + [e] + s[i..];
    assert forall j :: 0 <= j < i ==> want[j] == s[j];
    assert want[i] == e;
    assert forall j :: i < j <= t.n ==> want[j] == s[j - 1];
    assert Entries(r) == want;
  }

  /** Slot by slot: the pairs before `i` stay, the rest move down one, slot `n - 1` is emptied. */
  lemma RemoveSlots<V>(t: Table<V>, i: int)
    requires Valid(t) && 0 <= i < t.n
    ensures var a := ShiftOut(t.slots, i, t.n)[t.n - 1 := None];
      (forall j :: 0 <= j < i ==> a[j] == t.slots[j])
      && (forall j :: i <= j < t.n - 1 ==> a[j] == t.slots[j + 1])
      && (forall j :: t.n - 1 <= j < |a| ==> a[j] == None)
  {
    ShiftOutMoves(t.slots, i, t.n);
  }

  /** Two tables holding the same pairs are sorted alike, whatever their array lengths. */
  lemma SameEntriesSorted<V>(u: Table<V>, r: Table<V>)
    requires Sorted(u) && Valid(r) && Entries(r) == Entries(u)
    ensures Sorted(r)
  {
    forall j | 0 <= j < r.n ensures KeyAt(r, j) == KeyAt(u, j) {
      assert KeyAt(r, j) == Entries(r)[j].key;
      assert KeyAt(u, j) == Entries(u)[j].key;
    }
  }

  /** The table `remove` leaves before the shrink: slots shifted down and the last pair cleared. */
  lemma RemoveUnshrunk<V>(t: Table<V>, i: int)
    requires Sorted(t) && 0 <= i < t.n
    ensures var u := Table(ShiftOut(t.slots, i, t.n)[t.n - 1 := None], t.n - 1);
      Sorted(u) && Entries(u) == Entries(t)[..i] + Entries(t)[i + 1..]
  {
    RemoveSlots(t, i);
    var a := ShiftOut(t.slots, i, t.n)[t.n - 1 := None];
    var m := t.n - 1;
    var u := Table(a, m);
    assert forall j :: 0 <= j < i ==> a[j].Some? && a[j].value.key == KeyAt(t, j);
    assert forall j :: i <= j < m ==> a[j].Some? && a[j].value.key == KeyAt(t, j + 1);
    assert Valid(u);
    assert Sorted(u);
    var s := Entries(t);
    var want := s[..i] + s[i + 1..];
    assert forall j :: 0 <= j < i ==> want[j] == s[j];
    assert forall j :: i <= j < m ==> want[j] == s[j + 1];
    assert Entries(u) == want;
  }

  lemma RemoveEntries<V>(t: Table<V>, i: int)
    requires Sorted(t) && 0 <= i < t.n
    ensures Sorted(Remove(t, i))
    ensures Entries(Remove(t, i)) == Entries(t)[..i] + Entries(t)[i + 1..]
  {
    RemoveUnshrunk(t, i);
    var a := ShiftOut(t.slots, i, t.n)[t.n - 1 := None];
    var m := t.n - 1;
    if m > 0 && m == |a| / 4 {
      ArrayResizable.ResizedItems(a, m, |a| / 2 + 1);
    }
    SameEntriesSorted(Table(a, m), Remove(t, i));
  }

  lemma UpdateEntries<V>(t: Table<V>, i: int, v: Option<V>)
    requires Sorted(t) && 0 <= i < t.n
    ensures Sorted(Update(t, i, v))
    ensures Entries(Update(t, i, v)) == Entries(t)[i := Entry(Entries(t)[i].key, v)]
  {
    var r := Update(t, i, v);
    assert Valid(r);
    assert forall j :: 0 <= j < t.n ==> KeyAt(r, j) == KeyAt(t, j);
  }

  // ---- put, get, delete ----

  /**
   * `put(key, value)` as written: a present key is overwritten, or removed
   * for a null value; an absent key is inserted at its rank even when the
   * value is null.
   */
  function PutAsWritten<V>(t: Table<V>, key: Option<int>, value: Option<V>): (r: Result<Table<V>>)
    requires Valid(t)
    ensures key.None? <==> r == Err(NullPointer)
    ensures r.Ok? ==> r.value.n == t.n + (if Rank(t, key.value) < t.n && KeyAt(t, Rank(t, key.value)) == key.value then (if value.None? then -1 else 0) else 1)
  {
    match key
    case None => Err(NullPointer)
    case Some(k) =>
      var i := Rank(t, k);
      if i < t.n && KeyAt(t, i) == k then
        if value.Some? then Ok(Update(t, i, value)) else Ok(Remove(t, i))
      else Ok(Insert(t, i, Entry(k, value)))
  }

  /** `put(key, value)` as the interface describes it: a null value removes the key, and leaves an absent key absent. */
  function Put<V>(t: Table<V>, key: Option<int>, value: Option<V>): (r: Result<Table<V>>)
    requires Valid(t)
    ensures key.None? <==> r == Err(NullPointer)
    ensures r.Ok? && value.None? && !(Rank(t, key.value) < t.n && KeyAt(t, Rank(t, key.value)) == key.value) ==> r.value == t
  {
    match key
    case None => Err(NullPointer)
    case Some(k) =>
      var i := Rank(t, k);
      if i < t.n && KeyAt(t, i) == k then
        if value.Some? then Ok(Update(t, i, value)) else Ok(Remove(t, i))
      else if value.None? then Ok(t)
      else Ok(Insert(t, i, Entry(k, value)))
  }

  /**
   * `r` is sorted and differs from `t` exactly at `k`: there `k` finds `v`
   * (a null `v` meaning `k` is gone), every other key finds what it found
   * before, and the count is the number of keys.
   */
  ghost predicate ChangedAt<V>(t: Table<V>, r: Table<V>, k: int, v: Option<V>)
    requires Valid(t)
  {
    Sorted(r)
    && KeySet(Entries(r)) == (if v.Some? then KeySet(Entries(t)) + {k} else KeySet(Entries(t)) - {k})
    && Lookup(Entries(r), k) == v
    && (forall x :: x != k ==> Lookup(Entries(r), x) == Lookup(Entries(t), x))
    && r.n == |KeySet(Entries(r))|
  }

  lemma CountsKeys<V>(r: Table<V>)
    requires Sorted(r)
    ensures r.n == |KeySet(Entries(r))|
  {
    SortedDistinct(r);
    DistinctCard(Entries(r));
  }

  /** `put` on a key already present overwrites its value, or removes it for a null value. */
  lemma PutPresent<V>(t: Table<V>, k: int, value: Option<V>)
    requires Sorted(t) && Rank(t, k) < t.n && KeyAt(t, Rank(t, k)) == k
    ensures Put(t, Some(k), value).Ok? && ChangedAt(t, Put(t, Some(k), value).value, k, value)
  {
    var i := Rank(t, k);
    var s := Entries(t);
    SortedDistinct(t);
    assert s[i].key == k;
    var r := Put(t, Some(k), value).value;
    if value.Some? {
      assert r == Update(t, i, value);
      UpdateEntries(t, i, value);
      LookupUpdate(s, i, value);
      assert Lookup(Entries(r), k) == value;
    } else {
      RemoveEntries(t, i);
      LookupRemove(s, i);
      assert r == Remove(t, i);
      assert Lookup(Entries(r), k) == None;
    }
    CountsKeys(r);
  }

  /** `put` on an absent key inserts it at its rank, or changes nothing for a null value. */
  lemma PutAbsent<V>(t: Table<V>, k: int, value: Option<V>)
    requires Sorted(t) && !(Rank(t, k) < t.n && KeyAt(t, Rank(t, k)) == k)
    ensures Put(t, Some(k), value).Ok? && ChangedAt(t, Put(t, Some(k), value).value, k, value)
  {
    var i := Rank(t, k);
    var s := Entries(t);
    RankFinds(t, k);
    var r := Put(t, Some(k), value).value;
    if value.Some? {
      assert forall j :: i <= j < t.n ==> k < KeyAt(t, j);
      InsertEntries(t, i, Entry(k, value));
      LookupInsert(s, i, Entry(k, value));
    }
    CountsKeys(r);
  }

  /** Where each slot of a rebuilt table was taken from in the old one. */
  type Origin = int -> int

  /** A table holding the same values as `t`, with at most one more that is not null, has no null values. */
  lemma NoNullsFrom<V>(t: Table<V>, r: Table<V>, f: Origin, extra: int)
    requires NoNulls(t) && Valid(r)
    requires forall j :: 0 <= j < r.n && j != extra ==> 0 <= f(j) < t.n && r.slots[j] == t.slots[f(j)]
    requires 0 <= extra < r.n ==> r.slots[extra].value.value.Some?
    ensures NoNulls(r)
  {
  }

  lemma RemoveNoNulls<V>(t: Table<V>, i: int)
    requires Sorted(t) && NoNulls(t) && 0 <= i < t.n
    ensures NoNulls(Remove(t, i))
  {
    var a := ShiftOut(t.slots, i, t.n)[t.n - 1 := None];
    ShiftedNoNulls(t, i);
    if t.n - 1 > 0 && t.n - 1 == |a| / 4 {
      ArrayResizable.ResizedItems(a, t.n - 1, |a| / 2 + 1);
      NoNullsFrom(Table(a, t.n - 1), Remove(t, i), j => j, -1);
    }
  }

  lemma ShiftedNoNulls<V>(t: Table<V>, i: int)
    requires Sorted(t) && NoNulls(t) && 0 <= i < t.n
    ensures NoNulls(Table(ShiftOut(t.slots, i, t.n)[t.n - 1 := None], t.n - 1))
  {
    RemoveSlots(t, i);
    RemoveUnshrunk(t, i);
    var a := ShiftOut(t.slots, i, t.n)[t.n - 1 := None];
    NoNullsFrom(t, Table(a, t.n - 1), j => if j < i then j else j + 1, -1);
  }

  lemma InsertNoNulls<V>(t: Table<V>, i: int, e: Entry<V>)
    requires Sorted(t) && NoNulls(t) && 0 <= i <= t.n && e.value.Some?
    requires forall j :: 0 <= j < i ==> KeyAt(t, j) < e.key
    requires forall j :: i <= j < t.n ==> e.key < KeyAt(t, j)
    ensures NoNulls(Insert(t, i, e))
  {
    InsertSlots(t, i, e);
    InsertEntries(t, i, e);
    NoNullsFrom(t, Insert(t, i, e), j => if j < i then j else j - 1, i);
  }

  /** `put` never stores a null value, so a table free of them stays so. */
  lemma PutNoNulls<V>(t: Table<V>, k: int, value: Option<V>)
    requires Sorted(t) && NoNulls(t)
    ensures Put(t, Some(k), value).Ok? && NoNulls(Put(t, Some(k), value).value)
  {
    var i := Rank(t, k);
    if i < t.n && KeyAt(t, i) == k {
      if value.Some? {
        NoNullsFrom(t, Update(t, i, value), j => j, i);
      } else {
        RemoveNoNulls(t, i);
      }
    } else if value.Some? {
      RankFinds(t, k);
      assert forall j :: i <= j < t.n ==> k < KeyAt(t, j);
      InsertNoNulls(t, i, Entry(k, value));
    }
  }

  /**
   * `put(k, v)` keeps the keys sorted and changes the table exactly at `k`,
   * and stores no null value.
   */
  lemma PutSpec<V>(t: Table<V>, k: int, value: Option<V>)
    requires Sorted(t)
    ensures Put(t, Some(k), value).Ok? && ChangedAt(t, Put(t, Some(k), value).value, k, value)
    ensures NoNulls(t) ==> NoNulls(Put(t, Some(k), value).value)
  {
    if Rank(t, k) < t.n && KeyAt(t, Rank(t, k)) == k {
      PutPresent(t, k, value);
    } else {
      PutAbsent(t, k, value);
    }
    if NoNulls(t) {
      PutNoNulls(t, k, value);
    }
  }

  /** `get(key)`: null keys are refused; an empty table and an absent key give null. */
  function Get<V>(t: Table<V>, key: Option<int>): (r: Result<Option<V>>)
    requires Valid(t)
    ensures key.None? <==> r == Err(NullPointer)
    ensures Sorted(t) && key.Some? ==> r == Ok(Lookup(Entries(t), key.value))
  {
    match key
    case None => Err(NullPointer)
    case Some(k) =>
      if t.n == 0 then Ok(None)
      else
        var i := Rank(t, k);
        assert Sorted(t) ==> Lookup(Entries(t), k) == if i < t.n && KeyAt(t, i) == k then t.slots[i].value.value else None by {
          if Sorted(t) {
            SortedDistinct(t);
            RankFinds(t, k);
            if i < t.n && KeyAt(t, i) == k {
              LookupAt(Entries(t), i);
            }
          }
        }
        if i < t.n && KeyAt(t, i) == k then Ok(t.slots[i].value.value) else Ok(None)
  }

  /** `delete(key)`: `put(key, null)`. */
  function Delete<V>(t: Table<V>, key: Option<int>): (r: Result<Table<V>>)
    requires Valid(t)
    ensures key.None? <==> r == Err(NullPointer)
    ensures Sorted(t) && key.Some? ==> r.Ok? && Sorted(r.value) && KeySet(Entries(r.value)) == KeySet(Entries(t)) - {key.value}
  {
    assert key.Some? && Sorted(t) ==>
      (Put(t, key, None).Ok? && Sorted(Put(t, key, None).value)
       && KeySet(Entries(Put(t, key, None).value)) == KeySet(Entries(t)) - {key.value}) by {
      if key.Some? && Sorted(t) {
        PutSpec(t, key.value, None);
      }
    }
    Put(t, key, None)
  }

  /** `delete(key)` as written, through the as-written `put`. */
  function DeleteAsWritten<V>(t: Table<V>, key: Option<int>): (r: Result<Table<V>>)
    requires Valid(t)
    ensures key.None? <==> r == Err(NullPointer)
  {
    PutAsWritten(t, key, None)
  }

  /** `contains(key)`: `get(key) != null`; with no null values stored, exactly the keys present. */
  function Contains<V>(t: Table<V>, key: Option<int>): (r: Result<bool>)
    requires Valid(t)
    ensures key.None? <==> r == Err(NullPointer)
    ensures Sorted(t) && NoNulls(t) && key.Some? ==> r == Ok(key.value in KeySet(Entries(t)))
  {
    assert Sorted(t) && NoNulls(t) && key.Some? ==> (Lookup(Entries(t), key.value).Some? <==> key.value in KeySet(Entries(t))) by {
      if Sorted(t) && NoNulls(t) && key.Some? && key.value in KeySet(Entries(t)) {
        var j :| 0 <= j < t.n && Entries(t)[j].key == key.value;
        SortedDistinct(t);
        LookupAt(Entries(t), j);
      }
    }
    match Get(t, key)
    case Err(e) => Err(e)
    case Ok(v) => Ok(v.Some?)
  }

  function IsEmpty<V>(t: Table<V>): (b: bool)
    requires Valid(t)
    ensures Sorted(t) ==> (b <==> KeySet(Entries(t)) == {})
  {
    assert Sorted(t) && t.n > 0 ==> Entries(t)[0].key in KeySet(Entries(t));
    t.n == 0
  }

  function Size<V>(t: Table<V>): (s: int)
    requires Valid(t)
    ensures Sorted(t) ==> s == |KeySet(Entries(t))|
  {
    assert Sorted(t) ==> t.n == |KeySet(Entries(t))| by {
      if Sorted(t) {
        SortedDistinct(t);
        DistinctCard(Entries(t));
      }
    }
    t.n
  }

  /**
   * `keys()`: push `keys[n-1]` down to `keys[0]` onto a stack, whose
   * iteration then starts from the last push. Here the stack is a sequence
   * with its top first.
   */
  method Keys<V>(t: Table<V>) returns (stack: seq<int>)
    requires Valid(t)
    ensures |stack| == t.n && forall j :: 0 <= j < t.n ==> stack[j] == Entries(t)[j].key
    ensures Sorted(t) ==> (forall i, j :: 0 <= i < j < |stack| ==> stack[i] < stack[j])
    ensures forall x :: x in stack <==> x in KeySet(Entries(t))
  {
    stack := [];
    var i := t.n - 1;
    while i > -1
      invariant -1 <= i < t.n
      invariant |stack| == t.n - 1 - i
      invariant forall j :: 0 <= j < |stack| ==> stack[j] == KeyAt(t, i + 1 + j)
    {
      stack := [KeyAt(t, i)] + stack;
      i := i - 1;
    }
    forall x | x in KeySet(Entries(t)) ensures x in stack {
      var j :| 0 <= j < t.n && Entries(t)[j].key == x;
      assert stack[j] == x;
    }
  }

  // ---- put(absent, null) ----

  lemma EmptyTable()
    ensures New<int>(1).Ok? && Valid(New<int>(1).value) && Sorted(New<int>(1).value)
  {
  }

  /**
   * As written, deleting a key from an empty table inserts it with a null
   * value: the size becomes 1 and `keys()` lists it, while `get` and
   * `contains` deny it.
   */
  lemma DeleteAsWrittenInserts()
    ensures var t := New<int>(1).value;
      DeleteAsWritten(t, Some(7)).Ok?
      && Size(DeleteAsWritten(t, Some(7)).value) == 1
      && Entries(DeleteAsWritten(t, Some(7)).value) == [Entry(7, None)]
      && Get(DeleteAsWritten(t, Some(7)).value, Some(7)) == Ok(None)
  {
    var t := New<int>(1).value;
    assert Rank(t, 7) == 0;
    var r := DeleteAsWritten(t, Some(7)).value;
    assert r == Table([Some(Entry(7, None)), None], 1);
  }

  /** The corrected `delete` leaves the empty table empty. */
  lemma DeleteLeavesEmpty()
    ensures var t := New<int>(1).value;
      Delete(t, Some(7)) == Ok(t) && Size(t) == 0
  {
  }
}

=== FILE: bags.dfy ===
/**
 * The multiset behind every adjacency list: a singly linked list that only
 * ever grows at its head, with a separate size counter.
 */
module Bags {
  import opened Wrappers
  import LinkedListIterators

  /** `head` is the chain of items from the head node; `size` is the counter field. */
  datatype Bag<T> = Bag(head: seq<T>, size: nat)

  /** The counter agrees with the chain. */
  predicate Consistent<T>(b: Bag<T>)
  {
    b.size == |b.head|
  }

  function New<T>(): (b: Bag<T>)
  {
    Bag([], 0)
  }

  /** A new bag has an empty chain and a zero counter. */
  lemma NewSpec<T>()
    ensures var b := New<T>(); Consistent(b) && b.head == []
  {
  }

  /**
   * `add(item)`: a null item is refused with IllegalArgumentException and the bag
   * is left as it was; otherwise the item becomes the new head and the counter grows.
   */
  function Add<T>(b: Bag<T>, item: Option<T>): (r: Result<Bag<T>>)
    ensures item.None? <==> r == Err(IllegalArgument)
    ensures item.Some? ==> r.Ok? && r.value.size == b.size + 1
    ensures item.Some? ==> r.Ok? && |r.value.head| > 0 && r.value.head[0] == item.value && r.value.head[1..] == b.head
    ensures Consistent(b) && r.Ok? ==> Consistent(r.value)
  {
    match item
    case None => Err(IllegalArgument)
    case Some(x) => Ok(Bag([x] + b.head, b.size + 1))
  }

  function IsEmpty<T>(b: Bag<T>): (e: bool)
    ensures Consistent(b) ==> (e <==> b.head == [])
  {
    b.size == 0
  }

  function Size<T>(b: Bag<T>): (n: nat)
    ensures Consistent(b) ==> n == |b.head|
  {
    b.size
  }

  /** `iterator()`: a linked-list iterator positioned at the head. */
  function Iterator<T>(b: Bag<T>): (c: LinkedListIterators.Cursor<T>)
    ensures c.rest == b.head
  {
    LinkedListIterators.Start(b.head)
  }

  /** Adding every item of `xs`, first to last. */
  function AddAll<T>(b: Bag<T>, xs: seq<T>): Bag<T>
    decreases |xs|
  {
    if xs == [] then b
    else
      match Add(b, Some(xs[0]))
      case Ok(bNew) => AddAll(bNew, xs[1..])
      case Err(_) => b
  }

  /**
   * A bag filled with `xs` iterates them most recent first, keeps every
   * duplicate, and counts every add.
   */
  lemma {:induction false} AddAllIteratesReversed<T>(b: Bag<T>, xs: seq<T>)
    requires Consistent(b)
    ensures Consistent(AddAll(b, xs))
    ensures LinkedListIterators.Drain(Iterator(AddAll(b, xs))) == Reverse(xs) + b.head
    ensures Size(AddAll(b, xs)) == Size(b) + |xs|
  {
    AddAllChain(b, xs);
    LinkedListIterators.DrainYieldsChain(AddAll(b, xs).head);
  }

  /** Each add puts its item in front of the chain, so the chain ends up as the items reversed. */
  lemma {:induction false} AddAllChain<T>(b: Bag<T>, xs: seq<T>)
    requires Consistent(b)
    decreases |xs|
    ensures Consistent(AddAll(b, xs)) && AddAll(b, xs).head == Reverse(xs) + b.head
  {
    if xs != [] {
      var bNew := Add(b, Some(xs[0])).value;
      assert AddAll(b, xs) == AddAll(bNew, xs[1..]);
      AddAllChain(bNew, xs[1..]);
      assert bNew.head == [xs[0]] + b.head;
      assert Reverse(xs) == Reverse(xs[1..]) + [xs[0]];
      assert Reverse(xs[1..]) + bNew.head == Reverse(xs) + b.head;
    }
  }
}

=== FILE: bfs_paths.dfy ===
/**
 * `BFSPaths`: a breadth-first search from `s`, queried with `hasPathTo` and
 * `pathTo`, plus the search's own `getDistTo()` array read at one vertex.
 */
module BreadthFirstPaths {
  import opened Wrappers
  import opened Graphs
  import opened BreadthFirst
  import Paths

  /** The distance of each vertex, as a rank on vertices (0 for the unmarked ones). */
  function DistanceRank(b: Bfs, n: nat): (rank: seq<nat>)
    requires |b.disTo| == n
    ensures |rank| == n
  {
    seq(n, x requires 0 <= x < n => if Level(b, x) >= 0 then Level(b, x) else 0)
  }

  /** The links of a finished search each lead one level up, toward `s`. */
  lemma DistanceRanked(g: Graph, s: int, b: Bfs)
    requires Finished(g, s, b)
    ensures Paths.Ranked(b.edgeTo, DistanceRank(b, g.v)) && Paths.InRange(b.edgeTo)
  {
    var rank := DistanceRank(b, g.v);
    forall w | 0 <= w < g.v && b.edgeTo[w].Some?
      ensures rank[b.edgeTo[w].value] < rank[w]
    {
      var u := b.edgeTo[w].value;
      assert b.marked[u] && b.marked[w];
    }
  }

  /** Along a chain that starts at `s`, the `i`-th vertex lies at distance `i`. */
  lemma ChainLevels(g: Graph, s: int, b: Bfs, p: seq<int>)
    requires Finished(g, s, b) && Paths.Chain(b.edgeTo, p) && p[0] == s
    ensures forall i :: 0 <= i < |p| ==> Level(b, p[i]) == i
  {
    var i := 0;
    while i < |p| - 1
      invariant 0 <= i < |p|
      invariant forall j :: 0 <= j <= i ==> Level(b, p[j]) == j
    {
      assert b.edgeTo[p[i + 1]] == Some(p[i]);
      i := i + 1;
    }
  }

  /** `new BFSPaths(G, s).hasPathTo(v)`: whether `v` is reachable from `s`. */
  method HasPathTo(g: Graph, s: int, v: int) returns (r: Result<bool>)
    requires Valid(g)
    ensures r.Ok? <==> 0 <= s < g.v && 0 <= v < g.v
    ensures r.Err? ==> r.error == IndexOutOfBounds
    ensures r.Ok? ==> (r.value <==> Reach(g, s, v))
  {
    var search := BreadthFirstSearch(g, s);
    if search.Err? {
      return Err(IndexOutOfBounds);
    }
    FinishedSpec(g, s, search.value);
    r := Paths.HasPathTo(search.value.marked, v);
  }

  /**
   * `getDistTo()[v]` after `new BreadthFirstSearch(G, s)`: null for a vertex
   * not reachable from `s`, otherwise the number of edges on a shortest walk
   * from `s` to `v`.
   */
  method DistTo(g: Graph, s: int, v: int) returns (r: Result<Option<int>>)
    requires Valid(g)
    ensures r.Ok? <==> 0 <= s < g.v && 0 <= v < g.v
    ensures r.Err? ==> r.error == IndexOutOfBounds
    ensures r.Ok? ==> (r.value.Some? <==> Reach(g, s, v))
    ensures r.Ok? && r.value.Some? ==> r.value.value >= 0 && ReachIn(g, s, v, r.value.value)
    ensures r.Ok? && r.value.Some? ==> forall k: nat :: ReachIn(g, s, v, k) ==> r.value.value <= k
  {
    var search := BreadthFirstSearch(g, s);
    if search.Err? {
      return Err(IndexOutOfBounds);
    }
    if !(0 <= v < g.v) {
      return Err(IndexOutOfBounds);
    }
    var b := search.value;
    FinishedSpec(g, s, b);
    return Ok(b.disTo[v]);
  }

  /**
   * `new BFSPaths(G, s).pathTo(v)`: null when `v` is unreachable; otherwise a
   * walk in the graph from `s` to `v` of `disTo[v]` edges, so no walk from
   * `s` to `v` is shorter.
   */
  method PathTo(g: Graph, s: int, v: int) returns (r: Result<Option<seq<int>>>)
    requires Valid(g)
    ensures r.Ok? <==> 0 <= s < g.v && 0 <= v < g.v
    ensures r.Err? ==> r.error == IndexOutOfBounds
    ensures r.Ok? ==> (r.value.Some? <==> Reach(g, s, v))
    ensures r.Ok? && r.value.Some? ==>
      var p := r.value.value;
      IsWalk(g, p) && p[0] == s && p[|p| - 1] == v && Distinct(p)
      && forall k: nat :: ReachIn(g, s, v, k) ==> |p| - 1 <= k
  {
    var search := BreadthFirstSearch(g, s);
    if search.Err? {
      return Err(IndexOutOfBounds);
    }
    var b := search.value;
    FinishedSpec(g, s, b);
    DistanceRanked(g, s, b);
    assert Paths.Ranked(b.edgeTo, DistanceRank(b, g.v));
    r := Paths.PathTo(b.marked, b.edgeTo, v);
    if r.Ok? && r.value.Some? {
      var p := r.value.value;
      forall i | 0 <= i < |p| - 1
        ensures p[i + 1] in g.adj[p[i]] && b.marked[p[i]]
      {
        assert b.edgeTo[p[i + 1]] == Some(p[i]);
      }
      assert b.marked[p[0]];
      assert p[0] == s;
      ChainLevels(g, s, b, p);
      assert Level(b, v) == |p| - 1;
    }
  }
}

=== FILE: binary_search_tree.dfy ===
/**
 * `BinarySearchTree`: an unbalanced binary search tree of `Integer` keys. The
 * pointer structure is a value here: every update returns the new tree, which
 * is what the Java code leaves behind `root` after relinking nodes in place.
 * Values are never null inside the tree, because `put(key, null)` deletes.
 */
module BinarySearchTrees {
  import opened Wrappers

  datatype Tree<V> = Leaf | Node(key: int, value: V, left: Tree<V>, right: Tree<V>)

  function Keys<V>(t: Tree<V>): set<int>
  {
    match t
    case Leaf => {}
    case Node(k, _, l, r) => Keys(l) + {k} + Keys(r)
  }

  /** Smaller keys to the left, larger keys to the right, at every node. */
  predicate Ordered<V>(t: Tree<V>)
  {
    match t
    case Leaf => true
    case Node(k, _, l, r) =>
      Ordered(l) && Ordered(r)
      && (forall x :: x in Keys(l) ==> x < k)
      && (forall x :: x in Keys(r) ==> k < x)
  }

  /** The key-to-value table the tree stands for. */
  function Map<V>(t: Tree<V>): (m: map<int, V>)
    ensures m.Keys == Keys(t)
  {
    match t
    case Leaf => map[]
    case Node(k, v, l, r) => Map(l) + Map(r) + map[k := v]
  }

  lemma MapUpdateRight<V>(ml: map<int, V>, mr: map<int, V>, x: int, w: V, k: int, v: V)
    requires k != x
    ensures ml + mr[k := v] + map[x := w] == (ml + mr + map[x := w])[k := v]
  {
  }

  lemma MapUpdateLeft<V>(ml: map<int, V>, mr: map<int, V>, x: int, w: V, k: int, v: V)
    requires k != x && k !in mr
    ensures ml[k := v] + mr + map[x := w] == (ml + mr + map[x := w])[k := v]
  {
  }

  lemma MapMinusLeft<V>(ml: map<int, V>, mr: map<int, V>, x: int, w: V, k: int)
    requires k != x && k !in mr
    ensures (ml - {k}) + mr + map[x := w] == (ml + mr + map[x := w]) - {k}
  {
  }

  lemma MapMinusRight<V>(ml: map<int, V>, mr: map<int, V>, x: int, w: V, k: int)
    requires k != x && k !in ml
    ensures ml + (mr - {k}) + map[x := w] == (ml + mr + map[x := w]) - {k}
  {
  }

  lemma MapMinusRoot<V>(ml: map<int, V>, mr: map<int, V>, x: int, w: V)
    requires x !in ml && x !in mr
    ensures (ml + mr + map[x := w]) - {x} == ml + mr
  {
  }

  lemma MapReplaceRoot<V>(ml: map<int, V>, mr: map<int, V>, x: int, w: V, mk: int, mv: V)
    requires x !in ml && x !in mr && mk in mr && mr[mk] == mv && mk !in ml
    ensures ml + (mr - {mk}) + map[mk := mv] == (ml + mr + map[x := w]) - {x}
  {
  }

  /** The node count that `size()` obtains by a breadth-first walk. */
  function Size<V>(t: Tree<V>): (n: nat)
    ensures Ordered(t) ==> n == |Keys(t)|
    ensures n == 0 <==> t == Leaf
  {
    match t
    case Leaf => 0
    case Node(k, _, l, r) =>
      assert Ordered(t) ==> |Keys(t)| == |Keys(l)| + 1 + |Keys(r)| by {
        if Ordered(t) {
          assert Keys(l) !! Keys(r) by {
            forall y | y in Keys(l) ensures y !in Keys(r) { assert y < k; }
          }
          assert k !in Keys(l) + Keys(r);
        }
      }
      Size(l) + 1 + Size(r)
  }

  function IsEmpty<V>(t: Tree<V>): (b: bool)
    ensures b <==> Keys(t) == {}
  {
    t == Leaf
  }

  // ---- get ----

  /** The search loop of `get`: left when the node's key is greater, right when smaller. */
  function Find<V>(t: Tree<V>, k: int): (r: Option<V>)
    ensures Ordered(t) ==> (r.Some? <==> k in Keys(t))
    ensures Ordered(t) && r.Some? ==> r.value == Map(t)[k]
  {
    match t
    case Leaf => None
    case Node(x, v, l, r) =>
      if x > k then Find(l, k) else if x < k then Find(r, k) else Some(v)
  }

  /** `get(key)`: null keys are refused; an absent key gives null. */
  function Get<V>(t: Tree<V>, key: Option<int>): (r: Result<Option<V>>)
    ensures key.None? <==> r == Err(NullPointer)
    ensures Ordered(t) && key.Some? ==> r == Ok(if key.value in Map(t) then Some(Map(t)[key.value]) else None)
  {
    match key
    case None => Err(NullPointer)
    case Some(k) => Ok(Find(t, k))
  }

  /** `contains(key)`: `get(key) != null`. */
  function Contains<V>(t: Tree<V>, key: Option<int>): (r: Result<bool>)
    ensures key.None? <==> r == Err(NullPointer)
    ensures Ordered(t) && key.Some? ==> r == Ok(key.value in Keys(t))
  {
    match Get(t, key)
    case Err(e) => Err(e)
    case Ok(v) => Ok(v.Some?)
  }

  // ---- put ----

  /**
   * The insertion loop of `put` for a non-null value: descend to the key and
   * overwrite its value, or hang a new leaf where the search fell off.
   */
  function Insert<V>(t: Tree<V>, k: int, v: V): (r: Tree<V>)
    ensures Keys(r) == Keys(t) + {k}
    ensures Ordered(t) ==> Ordered(r) && Map(r) == Map(t)[k := v]
  {
    match t
    case Leaf => Node(k, v, Leaf, Leaf)
    case Node(x, w, l, r) =>
      if k > x then
        var rNew := Insert(r, k, v);
        MapUpdateRight(Map(l), Map(r), x, w, k, v);
        Node(x, w, l, rNew)
      else if k < x then
        var lNew := Insert(l, k, v);
        assert Ordered(t) ==> k !in Map(r);
        if Ordered(t) then
          MapUpdateLeft(Map(l), Map(r), x, w, k, v);
          Node(x, w, lNew, r)
        else Node(x, w, lNew, r)
      else Node(x, v, l, r)
  }

  /**
   * `put(key, value)` as written: a null key is refused and a null value is
   * handed to `delete(key)` as written, with its losses.
   */
  function PutAsWritten<V>(t: Tree<V>, key: Option<int>, value: Option<V>): (r: Result<Tree<V>>)
    ensures key.None? <==> r == Err(NullPointer)
    ensures r.Ok? && value.None? ==> Keys(r.value) <= Keys(t)
    ensures r.Ok? && value.None? && Ordered(t) ==> Ordered(r.value) && key.value !in Keys(r.value)
    ensures r.Ok? && value.Some? && Ordered(t) ==> Ordered(r.value) && Map(r.value) == Map(t)[key.value := value.value]
  {
    match key
    case None => Err(NullPointer)
    case Some(k) =>
      match value
      case None => DeleteAsWritten(t, key)
      case Some(v) => Ok(Insert(t, k, v))
  }

  /**
   * The corrected `put(key, value)`: a null key is refused and a null value
   * deletes exactly that key, through the corrected `delete`.
   */
  function Put<V>(t: Tree<V>, key: Option<int>, value: Option<V>): (r: Result<Tree<V>>)
    ensures key.None? <==> r == Err(NullPointer)
    ensures r.Ok? && Ordered(t) ==> Ordered(r.value)
    ensures r.Ok? && value.Some? && Ordered(t) ==> Map(r.value) == Map(t)[key.value := value.value]
    ensures r.Ok? && value.None? && Ordered(t) ==> Map(r.value) == Map(t) - {key.value}
  {
    match key
    case None => Err(NullPointer)
    case Some(k) =>
      match value
      case None => Delete(t, key)
      case Some(v) => Ok(Insert(t, k, v))
  }

  // ---- min, max, deleteMin, deleteMax ----

  /** The leftmost node's key and value: `min(cursor)`. */
  function Leftmost<V>(t: Tree<V>): (e: Pair<int, V>)
    requires t != Leaf
    ensures e.0 in Keys(t)
    ensures Ordered(t) ==> Map(t)[e.0] == e.1 && forall x :: x in Keys(t) ==> e.0 <= x
  {
    if t.left == Leaf then (t.key, t.value) else Leftmost(t.left)
  }

  /** The rightmost node's key and value: `max(cursor)`. */
  function Rightmost<V>(t: Tree<V>): (e: Pair<int, V>)
    requires t != Leaf
    ensures e.0 in Keys(t)
    ensures Ordered(t) ==> Map(t)[e.0] == e.1 && forall x :: x in Keys(t) ==> x <= e.0
  {
    if t.right == Leaf then (t.key, t.value) else Rightmost(t.right)
  }

  /** `min()`: null on an empty tree, otherwise the least key. */
  function Min<V>(t: Tree<V>): (r: Option<int>)
    ensures r.None? <==> Keys(t) == {}
    ensures r.Some? ==> r.value in Keys(t)
    ensures r.Some? && Ordered(t) ==> forall x :: x in Keys(t) ==> r.value <= x
  {
    if t == Leaf then None else Some(Leftmost(t).0)
  }

  /** `max()`: null on an empty tree, otherwise the greatest key. */
  function Max<V>(t: Tree<V>): (r: Option<int>)
    ensures r.None? <==> Keys(t) == {}
    ensures r.Some? ==> r.value in Keys(t)
    ensures r.Some? && Ordered(t) ==> forall x :: x in Keys(t) ==> x <= r.value
  {
    if t == Leaf then None else Some(Rightmost(t).0)
  }

  /** The leftmost node replaced by its right subtree. */
  function RemoveLeftmost<V>(t: Tree<V>): (r: Tree<V>)
    requires t != Leaf
    ensures Keys(r) <= Keys(t)
    ensures Ordered(t) ==> Ordered(r) && Map(r) == Map(t) - {Leftmost(t).0}
    ensures Ordered(t) ==> forall x :: x in Keys(r) ==> Leftmost(t).0 < x
  {
    if t.left == Leaf then
      if Ordered(t) then
        MapMinusRoot(Map(t.left), Map(t.right), t.key, t.value);
        t.right
      else t.right
    else
      var lNew := RemoveLeftmost(t.left);
      if Ordered(t) then
        MapMinusLeft(Map(t.left), Map(t.right), t.key, t.value, Leftmost(t).0);
        Node(t.key, t.value, lNew, t.right)
      else Node(t.key, t.value, lNew, t.right)
  }

  /** The rightmost node replaced by its left subtree. */
  function RemoveRightmost<V>(t: Tree<V>): (r: Tree<V>)
    requires t != Leaf
    ensures Keys(r) <= Keys(t)
    ensures Ordered(t) ==> Ordered(r) && Map(r) == Map(t) - {Rightmost(t).0}
  {
    if t.right == Leaf then
      if Ordered(t) then
        MapMinusRoot(Map(t.left), Map(t.right), t.key, t.value);
        t.left
      else t.left
    else
      var rNew := RemoveRightmost(t.right);
      if Ordered(t) then
        MapMinusRight(Map(t.left), Map(t.right), t.key, t.value, Rightmost(t).0);
        Node(t.key, t.value, t.left, rNew)
      else Node(t.key, t.value, t.left, rNew)
  }

  /**
   * `deleteMin()`: nothing on an empty tree, an empty tree from a single
   * node, otherwise the leftmost node gives way to its right subtree.
   */
  function DeleteMin<V>(t: Tree<V>): (r: Tree<V>)
    ensures Ordered(t) ==> Ordered(r)
    ensures Ordered(t) && t != Leaf ==> Map(r) == Map(t) - {Min(t).value}
    ensures t == Leaf ==> r == Leaf
  {
    if t == Leaf then Leaf
    else if Size(t) == 1 then Leaf
    else RemoveLeftmost(t)
  }

  /** `deleteMax()`, the mirror image of `deleteMin()`. */
  function DeleteMax<V>(t: Tree<V>): (r: Tree<V>)
    ensures Ordered(t) ==> Ordered(r)
    ensures Ordered(t) && t != Leaf ==> Map(r) == Map(t) - {Max(t).value}
    ensures t == Leaf ==> r == Leaf
  {
    if t == Leaf then Leaf
    else if Size(t) == 1 then Leaf
    else RemoveRightmost(t)
  }

  // ---- delete ----

  /**
   * Unlinking the successor as written: the node whose key is compared is
   * `minParent`, and its link towards the successor is set to null, which
   * drops the successor's right subtree along with it.
   */
  function CutMinAsWritten<V>(t: Tree<V>): (r: Tree<V>)
    requires t != Leaf
    ensures Keys(r) <= Keys(t)
    ensures Ordered(t) ==> Ordered(r) && forall y :: y in Keys(r) ==> Leftmost(t).0 < y
  {
    if t.left == Leaf then Leaf else Node(t.key, t.value, CutMinAsWritten(t.left), t.right)
  }

  /**
   * `delete(parent, cursor)` as written: a node with two children takes its
   * successor's key and value and the successor is cut out with
   * `CutMinAsWritten`; a node with at most one child is replaced by it.
   */
  function RemoveAsWritten<V>(t: Tree<V>): (r: Tree<V>)
    requires t != Leaf
    ensures Keys(r) <= Keys(t)
    ensures Ordered(t) ==> Ordered(r) && t.key !in Keys(r)
  {
    var Node(x, v, l, r) := t;
    if l != Leaf && r != Leaf then
      var (mk, mv) := Leftmost(r);
      var rNew := CutMinAsWritten(r);
      assert Ordered(t) ==> x < mk && forall y :: y in Keys(rNew) ==> mk < y;
      Node(mk, mv, l, rNew)
    else if r != Leaf then r
    else l
  }

  /** The search loop of `delete`, with the removal applied where the key is found. */
  function DeleteFromAsWritten<V>(t: Tree<V>, k: int): (r: Tree<V>)
    ensures Keys(r) <= Keys(t)
    ensures Ordered(t) ==> Ordered(r) && k !in Keys(r)
  {
    match t
    case Leaf => Leaf
    case Node(x, v, l, r) =>
      if x > k then Node(x, v, DeleteFromAsWritten(l, k), r)
      else if x < k then Node(x, v, l, DeleteFromAsWritten(r, k))
      else RemoveAsWritten(t)
  }

  /**
   * `delete(key)` as written: a tree of one node is emptied whatever the key,
   * and a two-child removal loses the successor's right subtree.
   * Search order survives and the key is gone, but other keys can go with it.
   */
  function DeleteAsWritten<V>(t: Tree<V>, key: Option<int>): (r: Result<Tree<V>>)
    ensures key.None? <==> r == Err(NullPointer)
    ensures r.Ok? ==> Keys(r.value) <= Keys(t)
    ensures r.Ok? && Ordered(t) ==> Ordered(r.value) && key.value !in Keys(r.value)
  {
    match key
    case None => Err(NullPointer)
    case Some(k) =>
      if t == Leaf then Ok(Leaf)
      else if Size(t) == 1 then Ok(Leaf)
      else Ok(DeleteFromAsWritten(t, k))
  }

  /** Hibbard deletion: a node with two children takes its successor, which gives way to its right subtree. */
  function Remove<V>(t: Tree<V>): (r: Tree<V>)
    requires t != Leaf
    ensures Keys(r) <= Keys(t)
    ensures Ordered(t) ==> Ordered(r) && Map(r) == Map(t) - {t.key}
  {
    var Node(x, v, l, r) := t;
    if l != Leaf && r != Leaf then
      var (mk, mv) := Leftmost(r);
      var rNew := RemoveLeftmost(r);
      if Ordered(t) then
        MapReplaceRoot(Map(l), Map(r), x, v, mk, mv);
        Node(mk, mv, l, rNew)
      else Node(mk, mv, l, rNew)
    else if Ordered(t) then
      MapMinusRoot(Map(l), Map(r), x, v);
      if r != Leaf then r else l
    else if r != Leaf then r
    else l
  }

  function DeleteFrom<V>(t: Tree<V>, k: int): (r: Tree<V>)
    ensures Keys(r) <= Keys(t)
    ensures Ordered(t) ==> Ordered(r) && Map(r) == Map(t) - {k}
  {
    match t
    case Leaf => Leaf
    case Node(x, v, l, r) =>
      if x > k then
        var lNew := DeleteFrom(l, k);
        if Ordered(t) then
          MapMinusLeft(Map(l), Map(r), x, v, k);
          Node(x, v, lNew, r)
        else Node(x, v, lNew, r)
      else if x < k then
        var rNew := DeleteFrom(r, k);
        if Ordered(t) then
          MapMinusRight(Map(l), Map(r), x, v, k);
          Node(x, v, l, rNew)
        else Node(x, v, l, rNew)
      else Remove(t)
  }

  /** `delete(key)` as intended: only the given key leaves the table. */
  function Delete<V>(t: Tree<V>, key: Option<int>): (r: Result<Tree<V>>)
    ensures key.None? <==> r == Err(NullPointer)
    ensures r.Ok? ==> Keys(r.value) <= Keys(t)
    ensures r.Ok? && Ordered(t) ==> Ordered(r.value) && Map(r.value) == Map(t) - {key.value}
  {
    match key
    case None => Err(NullPointer)
    case Some(k) => Ok(DeleteFrom(t, k))
  }

  /** A non-null value is stored the same way by the as-written and the corrected `put`. */
  lemma PutAsWrittenNonNull<V>(t: Tree<V>, k: int, v: V)
    ensures PutAsWritten(t, Some(k), Some(v)) == Put(t, Some(k), Some(v))
  {
  }

  /** `put(7, null)` on the one-node tree of 5 empties it as written; the corrected `put` leaves it alone. */
  lemma PutAsWrittenNullSingle()
    ensures PutAsWritten(Node(5, 50, Leaf, Leaf), Some(7), None) == Ok(Leaf)
    ensures Put(Node(5, 50, Leaf, Leaf), Some(7), None) == Ok(Node(5, 50, Leaf, Leaf))
  {
    DeleteAsWrittenSingle();
  }

  /** `put(2, null)` on `FourKeys()` loses 4 as well as 2, as `delete(2)` does. */
  lemma PutAsWrittenNullLosesSubtree()
    ensures PutAsWritten(FourKeys(), Some(2), None).Ok? && Keys(PutAsWritten(FourKeys(), Some(2), None).value) == {1, 3}
  {
    DeleteAsWrittenLosesSubtree();
  }

  /** A one-node tree loses its only key to the deletion of a different key. */
  lemma DeleteAsWrittenSingle()
    ensures DeleteAsWritten(Node(5, 50, Leaf, Leaf), Some(7)) == Ok(Leaf)
    ensures Delete(Node(5, 50, Leaf, Leaf), Some(7)) == Ok(Node(5, 50, Leaf, Leaf))
  {
  }

  /** 1 < 2 < 3 < 4, where 3 is 2's right child and 4 is 3's right child. */
  function FourKeys(): Tree<int>
  {
    Node(2, 20, Node(1, 10, Leaf, Leaf), Node(3, 30, Leaf, Node(4, 40, Leaf, Leaf)))
  }

  lemma FourKeysOrdered()
    ensures Ordered(FourKeys()) && Keys(FourKeys()) == {1, 2, 3, 4}
  {
    assert Keys(Node(3, 30, Leaf, Node(4, 40, Leaf, Leaf))) == {3, 4};
  }

  lemma FourKeysSize()
    ensures Size(FourKeys()) > 1
  {
    var t := FourKeys();
    assert t.right != Leaf;
  }

  lemma DeleteAsWrittenFourKeys()
    ensures DeleteAsWritten(FourKeys(), Some(2)) == Ok(Node(3, 30, Node(1, 10, Leaf, Leaf), Leaf))
  {
    FourKeysSize();
    DeleteFromAsWrittenFourKeys();
  }

  /** The search reaches 2 at the root; its successor 3 is cut out together with 4 below it. */
  lemma DeleteFromAsWrittenFourKeys()
    ensures DeleteFromAsWritten(FourKeys(), 2) == Node(3, 30, Node(1, 10, Leaf, Leaf), Leaf)
  {
    assert Leftmost(FourKeys().right) == (3, 30);
    assert CutMinAsWritten(FourKeys().right) == Leaf;
  }

  lemma DeleteFourKeys()
    ensures Delete(FourKeys(), Some(2)) == Ok(Node(3, 30, Node(1, 10, Leaf, Leaf), Node(4, 40, Leaf, Leaf)))
  {
    assert RemoveLeftmost(Node(3, 30, Leaf, Node(4, 40, Leaf, Leaf))) == Node(4, 40, Leaf, Leaf);
  }

  /** Deleting 2 from `FourKeys()` loses 4 along with 2. */
  lemma DeleteAsWrittenLosesSubtree()
    ensures Ordered(FourKeys())
    ensures DeleteAsWritten(FourKeys(), Some(2)).Ok? && Keys(DeleteAsWritten(FourKeys(), Some(2)).value) == {1, 3}
  {
    FourKeysOrdered();
    DeleteAsWrittenFourKeys();
    KeysThreeOne();
  }

  /** The corrected deletion of 2 from `FourKeys()` keeps 4. */
  lemma DeleteKeepsSubtree()
    ensures Delete(FourKeys(), Some(2)).Ok? && Keys(Delete(FourKeys(), Some(2)).value) == {1, 3, 4}
  {
    DeleteFourKeys();
    KeysThreeOne();
  }

  lemma KeysThreeOne()
    ensures Keys(Node(3, 30, Node(1, 10, Leaf, Leaf), Leaf)) == {1, 3}
    ensures Keys(Node(3, 30, Node(1, 10, Leaf, Leaf), Node(4, 40, Leaf, Leaf))) == {1, 3, 4}
  {
    assert Keys(Node(1, 10, Leaf, Leaf)) == {1};
    assert Keys(Node(4, 40, Leaf, Leaf)) == {4};
  }

  // ---- floor, ceiling, rank ----

  /** `r` is the greatest member of `s` not above `k`, or null when there is none. */
  ghost predicate IsFloor(s: set<int>, k: int, r: Option<int>)
  {
    (r.Some? <==> exists x :: x in s && x <= k)
    && (r.Some? ==> r.value in s && r.value <= k && forall x :: x in s && x <= k ==> x <= r.value)
  }

  /** `r` is the least member of `s` not below `k`, or null when there is none. */
  ghost predicate IsCeiling(s: set<int>, k: int, r: Option<int>)
  {
    (r.Some? <==> exists x :: x in s && x >= k)
    && (r.Some? ==> r.value in s && r.value >= k && forall x :: x in s && x >= k ==> r.value <= x)
  }

  /** The loop of `floor`, with `best` the last key passed on the way right. */
  function FloorFrom<V>(t: Tree<V>, k: int, best: Option<int>): (r: Option<int>)
    ensures Ordered(t) && (exists x :: x in Keys(t) && x <= k) ==> IsFloor(Keys(t), k, r)
    ensures !(exists x :: x in Keys(t) && x <= k) ==> r == best
  {
    match t
    case Leaf => best
    case Node(x, _, l, r) =>
      if k > x then
        var res := FloorFrom(r, k, Some(x));
        assert x in Keys(t) && x <= k;
        assert Ordered(t) ==> IsFloor(Keys(t), k, res) by {
          if Ordered(t) {
            if exists y :: y in Keys(r) && y <= k {
              assert res.value in Keys(r);
            }
          }
        }
        res
      else if k < x then
        assert Ordered(t) ==> forall y :: y in Keys(r) ==> y > k;
        assert (exists y :: y in Keys(l) && y <= k) ==> exists y :: y in Keys(t) && y <= k by {
          if exists y :: y in Keys(l) && y <= k {
            var y :| y in Keys(l) && y <= k;
            assert y in Keys(t);
          }
        }
        FloorFrom(l, k, best)
      else
        assert x in Keys(t) && x <= k;
        Some(x)
  }

  /** `floor(key)`: the largest key not above `key`. */
  function Floor<V>(t: Tree<V>, k: int): (r: Option<int>)
    ensures Ordered(t) ==> IsFloor(Keys(t), k, r)
  {
    FloorFrom(t, k, None)
  }

  /** The loop of `ceiling`, with `best` the last key passed on the way left. */
  function CeilingFrom<V>(t: Tree<V>, k: int, best: Option<int>): (r: Option<int>)
    ensures Ordered(t) && (exists x :: x in Keys(t) && x >= k) ==> IsCeiling(Keys(t), k, r)
    ensures !(exists x :: x in Keys(t) && x >= k) ==> r == best
  {
    match t
    case Leaf => best
    case Node(x, _, l, r) =>
      if k > x then
        assert Ordered(t) ==> forall y :: y in Keys(l) ==> y < k;
        assert (exists y :: y in Keys(r) && y >= k) ==> exists y :: y in Keys(t) && y >= k by {
          if exists y :: y in Keys(r) && y >= k {
            var y :| y in Keys(r) && y >= k;
            assert y in Keys(t);
          }
        }
        CeilingFrom(r, k, best)
      else if k < x then
        var res := CeilingFrom(l, k, Some(x));
        assert x in Keys(t) && x >= k;
        assert Ordered(t) ==> IsCeiling(Keys(t), k, res) by {
          if Ordered(t) {
            if exists y :: y in Keys(l) && y >= k {
              assert res.value in Keys(l);
            }
          }
        }
        res
      else
        assert x in Keys(t) && x >= k;
        Some(x)
  }

  /** `ceiling(key)`: the smallest key not below `key`. */
  function Ceiling<V>(t: Tree<V>, k: int): (r: Option<int>)
    ensures Ordered(t) ==> IsCeiling(Keys(t), k, r)
  {
    CeilingFrom(t, k, None)
  }

  /** The keys below `k`. */
  function Below(s: set<int>, k: int): set<int>
  {
    set x | x in s && x < k
  }

  /** How the keys below `k` split at the root of an ordered tree. */
  lemma BelowNode<V>(t: Tree<V>, k: int)
    requires t != Leaf && Ordered(t)
    ensures |Below(Keys(t), k)| ==
      if k < t.key then |Below(Keys(t.left), k)|
      else if k > t.key then |Keys(t.left)| + 1 + |Below(Keys(t.right), k)|
      else |Keys(t.left)|
  {
    var Node(x, _, l, r) := t;
    if k < x {
      assert Below(Keys(t), k) == Below(Keys(l), k);
    } else if k > x {
      var b := Below(Keys(r), k);
      forall y ensures y in Below(Keys(t), k) <==> y in Keys(l) + {x} + b {
        if y in Keys(l) {
          assert y < x;
        }
      }
      assert Below(Keys(t), k) == Keys(l) + {x} + b;
      assert Keys(l) !! b && x !in Keys(l) + b;
    } else {
      assert Below(Keys(t), k) == Keys(l);
    }
  }

  /**
   * `rank(key)`: going right past a node counts it and its left subtree;
   * finding the key counts its left subtree.
   */
  function Rank<V>(t: Tree<V>, k: int): (n: nat)
    ensures Ordered(t) ==> n == |Below(Keys(t), k)|
  {
    match t
    case Leaf => 0
    case Node(x, _, l, r) =>
      var n := if k < x then Rank(l, k) else if k > x then 1 + Size(l) + Rank(r, k) else Size(l);
      if Ordered(t) then
        BelowNode(t, k);
        n
      else n
  }

  // ---- keys ----

  /** Strictly ascending. */
  predicate Increasing(s: seq<int>)
  {
    forall i, j :: 0 <= i < j < |s| ==> s[i] < s[j]
  }

  lemma IncreasingConcat(a: seq<int>, b: seq<int>)
    requires Increasing(a) && Increasing(b)
    requires forall x, y :: x in a && y in b ==> x < y
    ensures Increasing(a + b)
  {
    forall i, j | 0 <= i < j < |a + b|
      ensures (a + b)[i] < (a + b)[j]
    {
      if i < |a| && j >= |a| {
        assert (a + b)[i] in a && (a + b)[j] in b;
      }
    }
  }

  /**
   * `keys(lo, hi)`: the stack-driven in-order walk, which descends left only
   * from nodes not below `lo` and emits the keys within `[lo, hi]`.
   */
  function Range<V>(t: Tree<V>, lo: int, hi: int): (s: seq<int>)
    ensures forall x :: x in s ==> x in Keys(t) && lo <= x <= hi
    ensures Ordered(t) ==> Increasing(s) && forall x :: x in Keys(t) && lo <= x <= hi ==> x in s
  {
    match t
    case Leaf => []
    case Node(k, _, l, r) =>
      var a := if k >= lo then Range(l, lo, hi) else [];
      var b := if lo <= k <= hi then [k] else [];
      var c := Range(r, lo, hi);
      assert Ordered(t) ==> Increasing(a + b + c) by {
        if Ordered(t) {
          IncreasingConcat(a, b);
          IncreasingConcat(a + b, c);
        }
      }
      a + b + c
  }

  /** `keys()`: `keys(min(), max())`, which is every key in ascending order. */
  function AllKeys<V>(t: Tree<V>): (s: seq<int>)
    ensures Ordered(t) ==> Increasing(s) && forall x :: x in s <==> x in Keys(t)
  {
    if t == Leaf then [] else Range(t, Min(t).value, Max(t).value)
  }

  // ---- put/get/delete together ----

  /** After `put(k, v)` with a non-null `v`, `get(k)` is `v`; the size grows exactly when `k` was absent. */
  lemma PutThenGet<V>(t: Tree<V>, k: int, v: V)
    requires Ordered(t)
    ensures Put(t, Some(k), Some(v)).Ok?
    ensures Get(Put(t, Some(k), Some(v)).value, Some(k)) == Ok(Some(v))
    ensures Size(Put(t, Some(k), Some(v)).value) == Size(t) + (if k in Keys(t) then 0 else 1)
  {
    var tNew := Insert(t, k, v);
    assert Keys(tNew) == Keys(t) + {k};
  }

  /** `put(k, null)` and `delete(k)` agree; deleting a present key shrinks the size by one, an absent key leaves it. */
  lemma PutNullDeletes<V>(t: Tree<V>, k: int)
    requires Ordered(t)
    ensures Put(t, Some(k), None) == Delete(t, Some(k))
    ensures Get(Delete(t, Some(k)).value, Some(k)) == Ok(None)
    ensures Size(Delete(t, Some(k)).value) == Size(t) - (if k in Keys(t) then 1 else 0)
  {
    var tNew := DeleteFrom(t, k);
    assert Keys(tNew) == Map(tNew).Keys == Keys(t) - {k};
  }
}

=== FILE: breadth_first.dfy ===
/**
 * `BreadthFirstSearch`: the frontier is a deque fed with `addFirst` and
 * drained with `removeLast`, so vertices are expanded in the order they were
 * discovered. Discovering `v` from `w` sets `marked[v]`, `disTo[v] =
 * disTo[w] + 1` and `edgeTo[v] = w`.
 */
module BreadthFirst {
  import opened Wrappers
  import opened Graphs
  import Deques

  /** The three arrays the search fills, plus the discovery order (every vertex ever enqueued). */
  datatype Bfs = Bfs(marked: seq<bool>, edgeTo: seq<Option<int>>, disTo: seq<Option<int>>, enqueued: seq<int>)

  /** `w` is reached from `s` by a walk of exactly `k` edges. */
  ghost predicate ReachIn(g: Graph, s: int, w: int, k: nat)
    decreases k
  {
    if k == 0 then w == s
    else exists u :: 0 <= u < |g.adj| && w in g.adj[u] && ReachIn(g, s, u, k - 1)
  }

  /** A walk of `k` edges is a walk. */
  lemma {:induction false} ReachInReach(g: Graph, s: int, w: int, k: nat)
    requires Valid(g) && 0 <= s < g.v && ReachIn(g, s, w, k)
    decreases k
    ensures Reach(g, s, w)
  {
    if k == 0 {
      ReachRefl(g, s);
    } else {
      var u :| 0 <= u < |g.adj| && w in g.adj[u] && ReachIn(g, s, u, k - 1);
      ReachInReach(g, s, u, k - 1);
      var i :| 0 <= i < |g.adj[u]| && g.adj[u][i] == w;
      ReachStep(g, s, u, w);
    }
  }

  /** `disTo[x]` read as a number (null as 0). */
  function Level(b: Bfs, x: int): int
    requires 0 <= x < |b.disTo|
  {
    match b.disTo[x]
    case Some(d) => d
    case None => 0
  }

  /** Discovering `v` from `w`: the body of the inner loop when `v` is unmarked. */
  function Discover(b: Bfs, v: int, w: int): (bNew: Bfs)
    requires 0 <= v < |b.marked| == |b.edgeTo| == |b.disTo| && 0 <= w < |b.disTo|
  {
    Bfs(b.marked[v := true], b.edgeTo[v := Some(w)], b.disTo[v := Some(Level(b, w) + 1)], b.enqueued + [v])
  }

  /** Array sizes, and the discovery order: distinct vertices, `s` first, exactly the marked ones. */
  ghost predicate Shape(g: Graph, s: int, b: Bfs)
  {
    Valid(g) && 0 <= s < g.v
    && |b.marked| == g.v && |b.edgeTo| == g.v && |b.disTo| == g.v
    && Distinct(b.enqueued) && |b.enqueued| > 0 && b.enqueued[0] == s
    && (forall i :: 0 <= i < |b.enqueued| ==> 0 <= b.enqueued[i] < g.v)
    && (forall x :: 0 <= x < g.v ==> (b.marked[x] <==> x in b.enqueued))
    && (forall x :: 0 <= x < g.v ==> (b.disTo[x].Some? <==> b.marked[x]))
  }

  /** `edgeTo` is null exactly at `s` and the unmarked vertices, and otherwise an edge one level up. */
  ghost predicate Links(g: Graph, s: int, b: Bfs)
    requires Shape(g, s, b)
  {
    b.disTo[s] == Some(0) && b.edgeTo[s] == None
    && (forall x :: 0 <= x < g.v && x != s && b.marked[x] ==> b.edgeTo[x].Some?)
    && (forall x :: 0 <= x < g.v && !b.marked[x] ==> b.edgeTo[x] == None)
    && (forall x :: 0 <= x < g.v && b.edgeTo[x].Some? ==>
          0 <= b.edgeTo[x].value < g.v && x in g.adj[b.edgeTo[x].value]
          && b.marked[b.edgeTo[x].value] && Level(b, x) == Level(b, b.edgeTo[x].value) + 1)
  }

  /** Each marked vertex lies at its level, and levels never decrease along the discovery order. */
  ghost predicate Levels(g: Graph, s: int, b: Bfs)
    requires Shape(g, s, b)
  {
    (forall x :: 0 <= x < g.v && b.marked[x] ==> Level(b, x) >= 0 && ReachIn(g, s, x, Level(b, x)))
    && (forall i, j :: 0 <= i < j < |b.enqueued| ==> Level(b, b.enqueued[i]) <= Level(b, b.enqueued[j]))
  }

  /** What holds of the arrays at every step of the search from `s`. */
  ghost predicate Discovered(g: Graph, s: int, b: Bfs)
  {
    Shape(g, s, b) && Links(g, s, b) && Levels(g, s, b)
  }

  /** `u` has been expanded: each neighbour is marked, at most one level deeper. */
  ghost predicate Expanded(g: Graph, b: Bfs, u: int)
    requires Valid(g) && |b.marked| == |b.disTo| == g.v && 0 <= u < g.v
  {
    forall w :: w in g.adj[u] ==> b.marked[w] && Level(b, w) <= Level(b, u) + 1
  }

  /** `bNew` only adds marks, and keeps the distance of every vertex already marked. */
  ghost predicate Extends(b: Bfs, bNew: Bfs)
  {
    |b.marked| == |bNew.marked| == |b.disTo| == |bNew.disTo|
    && forall x :: 0 <= x < |b.marked| && b.marked[x] ==> bNew.marked[x] && Level(bNew, x) == Level(b, x)
  }

  lemma ExtendsTrans(b0: Bfs, b1: Bfs, b2: Bfs)
    requires Extends(b0, b1) && Extends(b1, b2)
    ensures Extends(b0, b2)
  {
  }

  lemma ExpandedKept(g: Graph, b: Bfs, bNew: Bfs, u: int)
    requires Valid(g) && |b.marked| == |b.disTo| == g.v && 0 <= u < g.v && b.marked[u]
    requires Extends(b, bNew) && Expanded(g, b, u)
    ensures Expanded(g, bNew, u)
  {
    forall w | w in g.adj[u]
      ensures bNew.marked[w] && Level(bNew, w) <= Level(bNew, u) + 1
    {
      assert 0 <= w < g.v by {
        var i :| 0 <= i < |g.adj[u]| && g.adj[u][i] == w;
      }
    }
  }

  /**
   * Discovering an unmarked neighbour `v` of a marked `w` keeps every fact,
   * provided no discovered vertex is more than one level below `w`.
   */
  lemma DiscoverSound(g: Graph, s: int, b: Bfs, w: int, v: int)
    requires Discovered(g, s, b) && 0 <= w < g.v && b.marked[w] && 0 <= v < g.v && !b.marked[v]
    requires v in g.adj[w]
    requires forall i :: 0 <= i < |b.enqueued| ==> Level(b, b.enqueued[i]) <= Level(b, w) + 1
    ensures Discovered(g, s, Discover(b, v, w)) && Extends(b, Discover(b, v, w))
    ensures Level(Discover(b, v, w), v) == Level(b, w) + 1
  {
    DiscoverShape(g, s, b, w, v);
    DiscoverLinks(g, s, b, w, v);
    DiscoverLevels(g, s, b, w, v);
  }

  lemma DiscoverShape(g: Graph, s: int, b: Bfs, w: int, v: int)
    requires Shape(g, s, b) && 0 <= w < g.v && b.marked[w] && 0 <= v < g.v && !b.marked[v]
    ensures Shape(g, s, Discover(b, v, w)) && Extends(b, Discover(b, v, w))
  {
    var bNew := Discover(b, v, w);
    forall x | 0 <= x < g.v
      ensures bNew.marked[x] <==> x in bNew.enqueued
    {
      assert x in bNew.enqueued <==> x in b.enqueued || x == v;
    }
    assert Distinct(bNew.enqueued) by {
      assert v !in b.enqueued;
    }
  }

  lemma DiscoverLinks(g: Graph, s: int, b: Bfs, w: int, v: int)
    requires Shape(g, s, b) && Links(g, s, b) && 0 <= w < g.v && b.marked[w] && 0 <= v < g.v && !b.marked[v]
    requires v in g.adj[w]
    ensures Shape(g, s, Discover(b, v, w)) && Links(g, s, Discover(b, v, w))
  {
    DiscoverShape(g, s, b, w, v);
    assert v != s;
  }

  lemma DiscoverLevels(g: Graph, s: int, b: Bfs, w: int, v: int)
    requires Shape(g, s, b) && Levels(g, s, b) && 0 <= w < g.v && b.marked[w] && 0 <= v < g.v && !b.marked[v]
    requires v in g.adj[w]
    requires forall i :: 0 <= i < |b.enqueued| ==> Level(b, b.enqueued[i]) <= Level(b, w) + 1
    ensures Shape(g, s, Discover(b, v, w)) && Levels(g, s, Discover(b, v, w))
    ensures Level(Discover(b, v, w), v) == Level(b, w) + 1
  {
    var bNew := Discover(b, v, w);
    DiscoverShape(g, s, b, w, v);
    assert ReachIn(g, s, v, Level(bNew, v)) by {
      assert ReachIn(g, s, w, Level(b, w));
    }
    forall x | 0 <= x < g.v && bNew.marked[x]
      ensures Level(bNew, x) >= 0 && ReachIn(g, s, x, Level(bNew, x))
    {
      if x != v {
        assert b.marked[x];
      }
    }
    forall i, j | 0 <= i < j < |bNew.enqueued|
      ensures Level(bNew, bNew.enqueued[i]) <= Level(bNew, bNew.enqueued[j])
    {
      if j == |b.enqueued| {
        assert b.enqueued[i] in b.enqueued;
      }
    }
  }

  /** The search state when the frontier is the deque `queue` and the first `head` discovered vertices are expanded. */
  ghost predicate Frontier(g: Graph, s: int, b: Bfs, queue: Deques.Deque<int>, head: nat)
  {
    Discovered(g, s, b) && head <= |b.enqueued|
    && queue.items == Reverse(b.enqueued[head..])
    && (forall i :: 0 <= i < head ==> Expanded(g, b, b.enqueued[i]))
    && (head < |b.enqueued| ==>
          forall i :: 0 <= i < |b.enqueued| ==> Level(b, b.enqueued[i]) <= Level(b, b.enqueued[head]) + 1)
  }

  /** The search finished: the marked set is closed, and no edge skips a level. */
  lemma FinishedClosed(g: Graph, s: int, b: Bfs)
    requires Discovered(g, s, b)
    requires forall i :: 0 <= i < |b.enqueued| ==> Expanded(g, b, b.enqueued[i])
    ensures Closed(g, b.marked)
    ensures forall u, w :: 0 <= u < g.v && b.marked[u] && w in g.adj[u] ==>
      0 <= w < g.v && b.marked[w] && Level(b, w) <= Level(b, u) + 1
  {
    forall u, w | 0 <= u < g.v && b.marked[u] && w in g.adj[u]
      ensures 0 <= w < g.v && b.marked[w] && Level(b, w) <= Level(b, u) + 1
    {
      var i :| 0 <= i < |b.enqueued| && b.enqueued[i] == u;
      assert Expanded(g, b, b.enqueued[i]);
      var k :| 0 <= k < |g.adj[u]| && g.adj[u][k] == w;
    }
  }

  /** The first `n` discovered vertices are expanded. */
  ghost predicate ExpandedUpTo(g: Graph, b: Bfs, n: nat)
  {
    Valid(g) && |b.marked| == |b.disTo| == g.v && n <= |b.enqueued|
    && forall k :: 0 <= k < n ==> 0 <= b.enqueued[k] < g.v && Expanded(g, b, b.enqueued[k])
  }

  /** No discovered vertex lies more than one level below `w`. */
  ghost predicate Bounded(b: Bfs, w: int)
  {
    0 <= w < |b.disTo|
    && forall k :: 0 <= k < |b.enqueued| ==> 0 <= b.enqueued[k] < |b.disTo| && Level(b, b.enqueued[k]) <= Level(b, w) + 1
  }

  /** The first `i` neighbours of `w` are marked, at most one level below `w`. */
  ghost predicate Scanned(g: Graph, b: Bfs, w: int, i: nat)
  {
    Valid(g) && |b.marked| == |b.disTo| == g.v && 0 <= w < g.v && i <= |g.adj[w]|
    && forall j :: 0 <= j < i ==> b.marked[g.adj[w][j]] && Level(b, g.adj[w][j]) <= Level(b, w) + 1
  }

  /**
   * The for-each loop over `adj(w)` has looked at its first `i` entries,
   * starting from state `b` and frontier `queue`.
   */
  ghost predicate Scanning(g: Graph, s: int, b: Bfs, queue: Deques.Deque<int>, head: nat, w: int, bNew: Bfs, queueNew: Deques.Deque<int>, i: nat)
  {
    Discovered(g, s, bNew) && Extends(b, bNew) && 0 <= w < g.v
    && 1 <= head <= |bNew.enqueued| && bNew.enqueued[head - 1] == w && bNew.marked[w]
    && queueNew.items == Reverse(bNew.enqueued[head..])
    && ExpandedUpTo(g, bNew, head - 1) && Bounded(bNew, w) && Scanned(g, bNew, w, i)
    && 2 * Unmarked(bNew.marked) + |queueNew.items| <= 2 * Unmarked(b.marked) + |queue.items|
  }

  lemma KeepExpanded(g: Graph, b: Bfs, bNew: Bfs, n: nat)
    requires ExpandedUpTo(g, b, n) && Extends(b, bNew) && b.enqueued <= bNew.enqueued
    requires forall k :: 0 <= k < n ==> b.marked[b.enqueued[k]]
    ensures ExpandedUpTo(g, bNew, n)
  {
    forall k | 0 <= k < n
      ensures Expanded(g, bNew, bNew.enqueued[k])
    {
      ExpandedKept(g, b, bNew, b.enqueued[k]);
    }
  }

  lemma KeepScanned(g: Graph, b: Bfs, bNew: Bfs, w: int, i: nat)
    requires Scanned(g, b, w, i) && Extends(b, bNew) && b.marked[w] && i < |g.adj[w]|
    requires bNew.marked[g.adj[w][i]] && Level(bNew, g.adj[w][i]) <= Level(bNew, w) + 1
    ensures Scanned(g, bNew, w, i + 1)
  {
    forall j | 0 <= j < i + 1
      ensures bNew.marked[g.adj[w][j]] && Level(bNew, g.adj[w][j]) <= Level(bNew, w) + 1
    {
      if j < i {
        assert b.marked[g.adj[w][j]];
      }
    }
  }

  lemma KeepBounded(b: Bfs, bNew: Bfs, w: int, v: int)
    requires Bounded(b, w) && Extends(b, bNew) && bNew.enqueued == b.enqueued + [v] && b.marked[w]
    requires forall k :: 0 <= k < |b.enqueued| ==> b.marked[b.enqueued[k]]
    requires 0 <= v < |bNew.disTo| && Level(bNew, v) <= Level(b, w) + 1
    ensures Bounded(bNew, w)
  {
    forall k | 0 <= k < |bNew.enqueued|
      ensures Level(bNew, bNew.enqueued[k]) <= Level(bNew, w) + 1
    {
      if k < |b.enqueued| {
        assert b.marked[b.enqueued[k]];
      }
    }
  }

  /** In a consistent state every discovered vertex is marked. */
  lemma EnqueuedMarked(g: Graph, s: int, b: Bfs)
    requires Shape(g, s, b)
    ensures forall k :: 0 <= k < |b.enqueued| ==> b.marked[b.enqueued[k]]
  {
    forall k | 0 <= k < |b.enqueued|
      ensures b.marked[b.enqueued[k]]
    {
      assert b.enqueued[k] in b.enqueued;
    }
  }

  /** The loop body when `adj(w)[i]` is unmarked: it is discovered and enqueued. */
  lemma ScanDiscover(g: Graph, s: int, b: Bfs, queue: Deques.Deque<int>, head: nat, w: int, bNew: Bfs, queueNew: Deques.Deque<int>, i: nat)
    requires Scanning(g, s, b, queue, head, w, bNew, queueNew, i) && i < |g.adj[w]|
    requires 0 <= g.adj[w][i] < g.v && !bNew.marked[g.adj[w][i]]
    ensures var v := g.adj[w][i];
      Scanning(g, s, b, queue, head, w, Discover(bNew, v, w), Deques.AddFirst(queueNew, Some(v)).value, i + 1)
  {
    var v := g.adj[w][i];
    var b2 := Discover(bNew, v, w);
    assert v in g.adj[w];
    UnmarkedMark(bNew.marked, v);
    assert Bounded(bNew, w);
    DiscoverSound(g, s, bNew, w, v);
    EnqueuedMarked(g, s, bNew);
    KeepExpanded(g, bNew, b2, head - 1);
    KeepScanned(g, bNew, b2, w, i);
    KeepBounded(bNew, b2, w, v);
    ReverseAppend(bNew.enqueued, head, v);
    ExtendsTrans(b, bNew, b2);
  }

  /** The loop body when `adj(w)[i]` is already marked: nothing changes. */
  lemma ScanSkip(g: Graph, s: int, b: Bfs, queue: Deques.Deque<int>, head: nat, w: int, bNew: Bfs, queueNew: Deques.Deque<int>, i: nat)
    requires Scanning(g, s, b, queue, head, w, bNew, queueNew, i) && i < |g.adj[w]|
    requires 0 <= g.adj[w][i] < g.v && bNew.marked[g.adj[w][i]]
    ensures Scanning(g, s, b, queue, head, w, bNew, queueNew, i + 1)
  {
    assert g.adj[w][i] in bNew.enqueued;
  }

  /** What `w`'s removal from the frontier leaves: the loop over `adj(w)` can start. */
  ghost predicate Removed(g: Graph, s: int, b: Bfs, queue: Deques.Deque<int>, head: nat, w: int)
  {
    Discovered(g, s, b) && 1 <= head <= |b.enqueued| && b.enqueued[head - 1] == w
    && queue.items == Reverse(b.enqueued[head..])
    && (forall k :: 0 <= k < head - 1 ==> Expanded(g, b, b.enqueued[k]))
    && (forall k :: 0 <= k < |b.enqueued| ==> Level(b, b.enqueued[k]) <= Level(b, w) + 1)
  }

  /** What the loop over `adj(w)` leaves: `w` is expanded too. */
  ghost predicate Expanding(g: Graph, s: int, b: Bfs, queue: Deques.Deque<int>, head: nat, w: int, bNew: Bfs, queueNew: Deques.Deque<int>)
  {
    Discovered(g, s, bNew) && Extends(b, bNew) && 1 <= head <= |bNew.enqueued| && bNew.enqueued[head - 1] == w
    && queueNew.items == Reverse(bNew.enqueued[head..])
    && (forall k :: 0 <= k < head ==> Expanded(g, bNew, bNew.enqueued[k]))
    && (forall k :: 0 <= k < |bNew.enqueued| ==> Level(bNew, bNew.enqueued[k]) <= Level(bNew, w) + 1)
    && 2 * Unmarked(bNew.marked) + |queueNew.items| <= 2 * Unmarked(b.marked) + |queue.items|
  }

  lemma ScanStart(g: Graph, s: int, b: Bfs, queue: Deques.Deque<int>, head: nat, w: int)
    requires Removed(g, s, b, queue, head, w)
    ensures Scanning(g, s, b, queue, head, w, b, queue, 0)
  {
    assert w in b.enqueued;
  }

  lemma ScanEnd(g: Graph, s: int, b: Bfs, queue: Deques.Deque<int>, head: nat, w: int, bNew: Bfs, queueNew: Deques.Deque<int>)
    requires 0 <= w < |g.adj| && Scanning(g, s, b, queue, head, w, bNew, queueNew, |g.adj[w]|)
    ensures Expanding(g, s, b, queue, head, w, bNew, queueNew)
  {
    assert Expanded(g, bNew, w);
  }

  /**
   * The for-each loop over `adj(w)` after `w` was removed from the frontier:
   * every unmarked neighbour is discovered one level below `w` and added at
   * the front. Afterwards `w` is expanded.
   */
  method Expand(g: Graph, s: int, b: Bfs, queue: Deques.Deque<int>, head: nat, w: int)
    returns (bNew: Bfs, queueNew: Deques.Deque<int>)
    requires Removed(g, s, b, queue, head, w)
    ensures Expanding(g, s, b, queue, head, w, bNew, queueNew)
  {
    ScanStart(g, s, b, queue, head, w);
    bNew, queueNew := b, queue;
    var i := 0;
    while i < |g.adj[w]|
      invariant Scanning(g, s, b, queue, head, w, bNew, queueNew, i)
    {
      bNew, queueNew := Visit(g, s, b, queue, head, w, bNew, queueNew, i);
      i := i + 1;
    }
    ScanEnd(g, s, b, queue, head, w, bNew, queueNew);
  }

  /** One pass of the loop over `adj(w)`: an unmarked neighbour is discovered and added at the front. */
  method Visit(g: Graph, s: int, b: Bfs, queue: Deques.Deque<int>, head: nat, w: int, bNew: Bfs, queueNew: Deques.Deque<int>, i: nat)
    returns (b2: Bfs, queue2: Deques.Deque<int>)
    requires Scanning(g, s, b, queue, head, w, bNew, queueNew, i) && i < |g.adj[w]|
    ensures Scanning(g, s, b, queue, head, w, b2, queue2, i + 1)
  {
    var v := g.adj[w][i];
    assert 0 <= v < g.v;
    if !bNew.marked[v] {
      ScanDiscover(g, s, b, queue, head, w, bNew, queueNew, i);
      b2 := Discover(bNew, v, w);
      queue2 := Deques.AddFirst(queueNew, Some(v)).value;
    } else {
      ScanSkip(g, s, b, queue, head, w, bNew, queueNew, i);
      b2, queue2 := bNew, queueNew;
    }
  }

  /**
   * The constructor `BreadthFirstSearch(graph, s)`. A source outside `[0, V)`
   * fails at `disTo[s]`.
   */
  method BreadthFirstSearch(g: Graph, s: int) returns (r: Result<Bfs>)
    requires Valid(g)
    ensures r.Ok? <==> 0 <= s < g.v
    ensures r.Err? ==> r.error == IndexOutOfBounds
    ensures r.Ok? ==> Finished(g, s, r.value)
  {
    if !(0 <= s < g.v) {
      return Err(IndexOutOfBounds);
    }
    var queue := Deques.AddFirst(Deques.New(), Some(s)).value;
    var b := Bfs(seq(g.v, _ => false), seq(g.v, _ => None), seq(g.v, _ => None), []);
    b := b.(disTo := b.disTo[s := Some(0)], marked := b.marked[s := true], enqueued := [s]);
    var head := 0;
    assert ReachIn(g, s, s, 0);
    while !Deques.IsEmpty(queue)
      invariant Frontier(g, s, b, queue, head)
      decreases 2 * Unmarked(b.marked) + |queue.items|
    {
      b, queue := Dequeue(g, s, b, queue, head);
      head := head + 1;
    }
    assert b.enqueued[head..] == [];
    FinishedClosed(g, s, b);
    return Ok(b);
  }

  /** One pass of the main loop: the vertex at the end of the deque is removed and expanded. */
  method Dequeue(g: Graph, s: int, b: Bfs, queue: Deques.Deque<int>, head: nat)
    returns (bNew: Bfs, queueNew: Deques.Deque<int>)
    requires Frontier(g, s, b, queue, head) && !Deques.IsEmpty(queue)
    ensures Frontier(g, s, bNew, queueNew, head + 1)
    ensures 2 * Unmarked(bNew.marked) + |queueNew.items| < 2 * Unmarked(b.marked) + |queue.items|
  {
    var removed := Deques.RemoveLast(queue).value;
    var w := removed.0;
    assert b.enqueued[head..] == [w] + b.enqueued[head + 1..];
    bNew, queueNew := Expand(g, s, b, removed.1, head + 1, w);
    assert Frontier(g, s, bNew, queueNew, head + 1) by {
      if head + 1 < |bNew.enqueued| {
        assert Level(bNew, bNew.enqueued[head]) <= Level(bNew, bNew.enqueued[head + 1]);
      }
    }
  }

  /** The state the search ends in: consistent, and no edge out of a marked vertex skips a level. */
  ghost predicate Finished(g: Graph, s: int, b: Bfs)
  {
    Discovered(g, s, b)
    && forall u, w :: 0 <= u < g.v && b.marked[u] && w in g.adj[u] ==>
         0 <= w < g.v && b.marked[w] && Level(b, w) <= Level(b, u) + 1
  }

  /** The part of `Finished` the distance bound needs: `s` at level 0, and no edge skipping a level. */
  ghost predicate Layered(g: Graph, s: int, b: Bfs)
  {
    Valid(g) && |b.marked| == |b.disTo| == g.v && 0 <= s < g.v && b.marked[s] && Level(b, s) == 0
    && forall u, w :: 0 <= u < g.v && b.marked[u] && w in g.adj[u] ==>
         0 <= w < g.v && b.marked[w] && Level(b, w) <= Level(b, u) + 1
  }

  lemma FinishedLayered(g: Graph, s: int, b: Bfs)
    requires Finished(g, s, b)
    ensures Layered(g, s, b)
  {
    assert s in b.enqueued;
  }

  /** A walk of `k` edges from `s` ends at a marked vertex whose distance is at most `k`. */
  lemma {:induction false} ShortestWalk(g: Graph, s: int, b: Bfs, x: int, k: nat)
    requires Layered(g, s, b) && ReachIn(g, s, x, k)
    decreases k
    ensures 0 <= x < g.v && b.marked[x] && Level(b, x) <= k
  {
    if k > 0 {
      var u :| 0 <= u < |g.adj| && x in g.adj[u] && ReachIn(g, s, u, k - 1);
      ShortestWalk(g, s, b, u, k - 1);
    }
  }

  /** A walk with `n` vertices reaches its last vertex in `n - 1` edges. */
  lemma {:induction false} WalkReachIn(g: Graph, p: seq<int>)
    requires IsWalk(g, p)
    decreases |p|
    ensures ReachIn(g, p[0], p[|p| - 1], |p| - 1)
  {
    if |p| > 1 {
      var q := p[..|p| - 1];
      assert IsWalk(g, q);
      WalkReachIn(g, q);
      assert p[|p| - 1] in g.adj[q[|q| - 1]];
    }
  }

  /**
   * What a finished search from `s` means: exactly the vertices reachable
   * from `s` are marked, and `disTo[x]` is the length of a shortest walk from
   * `s` to `x`: one of that length exists, and none is shorter.
   */
  lemma FinishedSpec(g: Graph, s: int, b: Bfs)
    requires Finished(g, s, b)
    ensures forall x :: 0 <= x < g.v ==> (b.marked[x] <==> Reach(g, s, x))
    ensures forall x :: 0 <= x < g.v && b.marked[x] ==>
      b.disTo[x].Some? && b.disTo[x].value >= 0 && ReachIn(g, s, x, b.disTo[x].value)
    ensures forall x, k: nat :: 0 <= x < g.v && ReachIn(g, s, x, k) ==> b.marked[x] && b.disTo[x].value <= k
  {
    FinishedLayered(g, s, b);
    forall x | 0 <= x < g.v
      ensures b.marked[x] <==> Reach(g, s, x)
    {
      if b.marked[x] {
        ReachInReach(g, s, x, Level(b, x));
      }
      if Reach(g, s, x) {
        var p :| IsWalk(g, p) && p[0] == s && p[|p| - 1] == x;
        WalkReachIn(g, p);
        ShortestWalk(g, s, b, x, |p| - 1);
      }
    }
    forall x, k: nat | 0 <= x < g.v && ReachIn(g, s, x, k)
      ensures b.marked[x] && b.disTo[x].value <= k
    {
      ShortestWalk(g, s, b, x, k);
    }
  }

  lemma ReverseAppend(e: seq<int>, head: nat, v: int)
    requires head <= |e|
    ensures [v] + Reverse(e[head..]) == Reverse((e + [v])[head..])
  {
    assert (e + [v])[head..] == e[head..] + [v];
  }
}

=== FILE: connected_components.dfy ===
/**
 * `ConnectedComponents`: the sweep over roots `0, 1, ..., V-1` on an
 * undirected graph, queried with `getCount`, `id` and `connected`.
 */
module ConnectedComponents {
  import opened Wrappers
  import opened Graphs
  import opened DepthFirst
  import opened Sweeps

  /** The constructor: fresh arrays, then the sweep. */
  function Components(g: Graph): (f: Forest)
    requires Valid(g)
    ensures Sized(g, f.st) && |f.id| == g.v
  {
    Sweep(g, Vertices(g.v))
  }

  /** No smaller vertex reaches `x`: it is the smallest vertex of its component. */
  ghost predicate Smallest(g: Graph, x: int)
  {
    forall z :: 0 <= z < x ==> !Reach(g, z, x)
  }

  /** On a symmetric graph a vertex reaches back whatever reaches it, so any root order is valid. */
  lemma SymmetricRootOrder(g: Graph, roots: seq<int>)
    requires Valid(g) && Symmetric(g)
    ensures RootOrder(g, roots)
  {
    forall k, y | 0 <= k < |roots| && Reach(g, roots[k], y)
      ensures Reach(g, y, roots[k])
    {
      SymmetricReach(g, roots[k], y);
    }
  }

  /** The sweep's invariant at its end, for the roots `0, 1, ..., V-1`. */
  lemma ComponentsLabelled(g: Graph)
    requires Valid(g) && Symmetric(g)
    ensures var f := Components(g); Labelled(g, Vertices(g.v), g.v, f.st.marked, f.id, f.count)
  {
    SymmetricRootOrder(g, Vertices(g.v));
    SweepLabelled(g, Vertices(g.v));
  }

  /**
   * On an undirected graph every vertex is labelled with an id in
   * `[0, count)`, `count` is at most V, and every id below `count` is used.
   */
  lemma ComponentsCover(g: Graph)
    requires Valid(g) && Symmetric(g)
    ensures var f := Components(g);
      0 <= f.count <= g.v
      && (forall x :: 0 <= x < g.v ==> f.st.marked[x] && 0 <= f.id[x] < f.count)
      && (forall c :: 0 <= c < f.count ==> Used(g, f.st.marked, f.id, c))
  {
    ComponentsLabelled(g);
    var f := Components(g);
    RootsMarked(g, Vertices(g.v), g.v, f.st.marked);
    forall x | 0 <= x < g.v
      ensures f.st.marked[x]
    {
      assert Vertices(g.v)[x] == x;
    }
  }

  /** On an undirected graph two vertices share an id exactly when one reaches the other. */
  lemma ComponentsConnected(g: Graph)
    requires Valid(g) && Symmetric(g)
    ensures var f := Components(g);
      forall x, y :: 0 <= x < g.v && 0 <= y < g.v ==> (f.id[x] == f.id[y] <==> Reach(g, x, y))
  {
    ComponentsCover(g);
    ComponentsLabelled(g);
    var f := Components(g);
    SymmetricSame(g, f.st.marked, f.id);
  }

  lemma SymmetricSame(g: Graph, marked: seq<bool>, id: seq<int>)
    requires Valid(g) && Symmetric(g) && |marked| == |id| == g.v && SameComponent(g, marked, id)
    requires forall x :: 0 <= x < g.v ==> marked[x]
    ensures forall x, y :: 0 <= x < g.v && 0 <= y < g.v ==> (id[x] == id[y] <==> Reach(g, x, y))
  {
    forall x, y | 0 <= x < g.v && 0 <= y < g.v
      ensures id[x] == id[y] <==> Reach(g, x, y)
    {
      if Reach(g, x, y) {
        SymmetricReach(g, x, y);
      }
    }
  }

  /**
   * Ids are handed out in the order of each component's smallest vertex:
   * the smaller of two such vertices has the smaller id, every id is at most
   * its vertex, and so vertex 0 has id 0.
   */
  lemma ComponentsOrder(g: Graph)
    requires Valid(g) && Symmetric(g)
    ensures var f := Components(g);
      (forall x, y :: 0 <= x < y < g.v && Smallest(g, x) && Smallest(g, y) ==> f.id[x] < f.id[y])
      && (forall x :: 0 <= x < g.v ==> f.id[x] <= x)
      && (g.v > 0 ==> f.id[0] == 0)
  {
    ComponentsLabelled(g);
    var f := Components(g);
    var roots := Vertices(g.v);
    forall x, y | 0 <= x < y < g.v && Smallest(g, x) && Smallest(g, y)
      ensures f.id[x] < f.id[y]
    {
      assert roots[x] == x && roots[y] == y;
      assert Leader(g, roots, x) && Leader(g, roots, y);
      assert LeaderOrder(g, roots, g.v, f.id);
    }
    forall x | 0 <= x < g.v
      ensures f.id[x] <= x
    {
      assert roots[x] == x;
    }
    if g.v > 0 {
      ComponentsCover(g);
    }
  }

  /** `getCount()`. */
  function GetCount(g: Graph): int
    requires Valid(g)
  {
    Components(g).count
  }

  /** `id(v)`: outside `[0, V)` an index error. */
  function Id(g: Graph, v: int): (r: Result<int>)
    requires Valid(g)
    ensures r.Ok? <==> 0 <= v < g.v
    ensures r.Err? ==> r.error == IndexOutOfBounds
  {
    if 0 <= v < g.v then Ok(Components(g).id[v]) else Err(IndexOutOfBounds)
  }

  /** `connected(s, v)`: whether the two ids agree; outside `[0, V)` an index error. */
  function Connected(g: Graph, s: int, v: int): (r: Result<bool>)
    requires Valid(g)
    ensures r.Ok? <==> 0 <= s < g.v && 0 <= v < g.v
    ensures r.Err? ==> r.error == IndexOutOfBounds
  {
    if 0 <= s < g.v && 0 <= v < g.v then Ok(Components(g).id[s] == Components(g).id[v])
    else Err(IndexOutOfBounds)
  }

  /**
   * The queries on an undirected graph: `getCount()` is at most V, `id(v)`
   * lies in `[0, getCount())` and is at most `v`, and `connected(s, v)`
   * holds exactly when `v` is reachable from `s`.
   */
  lemma QueriesSpec(g: Graph, s: int, v: int)
    requires Valid(g) && Symmetric(g)
    ensures 0 <= GetCount(g) <= g.v
    ensures Id(g, v).Ok? ==> 0 <= Id(g, v).value < GetCount(g) && Id(g, v).value <= v
    ensures Connected(g, s, v).Ok? ==> (Connected(g, s, v).value <==> Reach(g, s, v))
  {
    ComponentsCover(g);
    ComponentsConnected(g);
    ComponentsOrder(g);
  }
}

=== FILE: depth_first.dfy ===
/**
 * The recursive depth-first `search(v)` shared by DepthFirstSearch,
 * TopologicalSort, ConnectedComponents and StronglyConnectedComponents: mark
 * `v`, then for each `w` of `adj(v)` in bag order, recurse into `w` if it is
 * unmarked. The state records what those classes keep (`marked`, `edgeTo`,
 * and the finishing order that TopologicalSort pushes) plus the order in which
 * vertices were entered, which the proofs use as a clock.
 */
module DepthFirst {
  import opened Wrappers
  import opened Graphs

  datatype Search = Search(marked: seq<bool>, edgeTo: seq<Option<int>>, pre: seq<int>, post: seq<int>)

  /** Freshly allocated arrays: nothing marked, every `edgeTo` null. */
  function Fresh(n: nat): (st: Search)
    ensures |st.marked| == n && |st.edgeTo| == n && st.pre == [] && st.post == []
    ensures forall x :: 0 <= x < n ==> !st.marked[x] && st.edgeTo[x] == None
  {
    Search(seq(n, _ => false), seq(n, _ => None), [], [])
  }

  /** Arrays sized for the graph, whose lists name only vertices. */
  predicate Sized(g: Graph, st: Search)
  {
    Valid(g) && |st.marked| == g.v && |st.edgeTo| == g.v
  }

  /** `marked[v] = true`, and `v` is entered. */
  function Enter(st: Search, v: nat): Search
    requires v < |st.marked|
  {
    st.(marked := st.marked[v := true], pre := st.pre + [v])
  }

  /** The recursion into `w` has returned and `edgeTo[w] = v` is recorded. */
  function Link(st: Search, w: nat, v: int): Search
    requires w < |st.edgeTo|
  {
    st.(edgeTo := st.edgeTo[w := Some(v)])
  }

  /** `v` is left: the moment TopologicalSort pushes it. */
  function Leave(st: Search, v: int): Search
  {
    st.(post := st.post + [v])
  }

  /**
   * `search(v)` on an unmarked vertex. Every call marks one more vertex, so the
   * recursion enters each vertex at most once.
   */
  function Visit(g: Graph, st: Search, v: int): (r: Search)
    requires Sized(g, st) && 0 <= v < g.v && !st.marked[v]
    decreases Unmarked(st.marked), 0
    ensures Sized(g, r) && r.marked[v]
    ensures forall x :: 0 <= x < g.v && st.marked[x] ==> r.marked[x]
    ensures Unmarked(r.marked) < Unmarked(st.marked)
  {
    UnmarkedMark(st.marked, v);
    var st1 := Enter(st, v);
    assert forall w :: w in g.adj[v] ==> 0 <= w < g.v;
    Leave(VisitAll(g, st1, v, g.adj[v]), v)
  }

  /** The loop of `search(v)` over the neighbours `ws` not yet looked at. */
  function VisitAll(g: Graph, st: Search, v: int, ws: seq<int>): (r: Search)
    requires Sized(g, st) && 0 <= v < g.v && forall w :: w in ws ==> 0 <= w < g.v
    decreases Unmarked(st.marked), |ws|
    ensures Sized(g, r)
    ensures forall x :: 0 <= x < g.v && st.marked[x] ==> r.marked[x]
    ensures forall w :: w in ws ==> r.marked[w]
    ensures Unmarked(r.marked) <= Unmarked(st.marked)
  {
    if ws == [] then st
    else
      var w := ws[0];
      assert w in ws;
      assert forall x :: x in ws[1..] ==> x in ws;
      if st.marked[w] then VisitAll(g, st, v, ws[1..])
      else
        var st1 := Visit(g, st, w);
        VisitAll(g, Link(st1, w, v), v, ws[1..])
  }

  /** Entered but not yet left: on the recursion stack. */
  ghost predicate Gray(st: Search, a: int)
  {
    a in st.pre && a !in st.post
  }

  /**
   * The fact behind Kosaraju-Sharir: whatever a left vertex `x` reaches was
   * left no later than `x`, unless the strong component of `x` holds a vertex
   * that is still on the stack or was left after `x`.
   */
  ghost predicate SettledFrom(g: Graph, st: Search, x: int, z: int)
  {
    x in st.post
    && ((z in st.post && IndexOf(st.post, z) <= IndexOf(st.post, x))
        || exists a :: MutReach(g, x, a) && (Gray(st, a) || (a in st.post && IndexOf(st.post, x) < IndexOf(st.post, a))))
  }

  /** The invariant of every traversal state. */
  ghost predicate Sound(g: Graph, st: Search)
  {
    Sized(g, st)
    && Distinct(st.pre) && Distinct(st.post)
    && (forall x :: x in st.pre ==> 0 <= x < g.v)
    && (forall x :: 0 <= x < g.v ==> (st.marked[x] <==> x in st.pre))
    && (forall x :: x in st.post ==> x in st.pre)
    // a vertex is left only once all its neighbours are marked
    && (forall x, w :: x in st.post && w in g.adj[x] ==> 0 <= w < g.v && st.marked[w])
    // `edgeTo[w] = u` only for a tree edge `u -> w`, with `u` entered first
    && (forall w :: 0 <= w < g.v && st.edgeTo[w].Some? ==>
          var u := st.edgeTo[w].value;
          0 <= u < g.v && w in g.adj[u] && u in st.pre && w in st.pre && IndexOf(st.pre, u) < IndexOf(st.pre, w))
    && (forall x, z :: x in st.post && Reach(g, x, z) ==> SettledFrom(g, st, x, z))
  }

  lemma SoundFresh(g: Graph)
    requires Valid(g)
    ensures Sound(g, Fresh(g.v))
  {
  }

  /** `st` grows into `r`: both orders are extended, never rewritten. */
  ghost predicate Grows(st: Search, r: Search)
  {
    |st.pre| <= |r.pre| && r.pre[..|st.pre|] == st.pre
    && |st.post| <= |r.post| && r.post[..|st.post|] == st.post
    && |st.marked| == |r.marked|
  }

  lemma {:induction false} IndexOfPrefix(s: seq<int>, t: seq<int>, x: int)
    requires x in s
    ensures x in s + t && IndexOf(s + t, x) == IndexOf(s, x)
  {
    if s[0] != x {
      assert (s + t)[1..] == s[1..] + t;
      IndexOfPrefix(s[1..], t, x);
    }
  }

  lemma {:induction false} IndexOfBeyond(s: seq<int>, t: seq<int>, x: int)
    requires x !in s && x in t
    ensures x in s + t && IndexOf(s + t, x) >= |s|
  {
    if s == [] {
      assert s + t == t;
    } else {
      assert (s + t)[1..] == s[1..] + t;
      IndexOfBeyond(s[1..], t, x);
    }
  }

  lemma SettledKept(g: Graph, st: Search, stNew: Search, x: int, z: int)
    requires SettledFrom(g, st, x, z)
    requires |st.post| <= |stNew.post| && stNew.post[..|st.post|] == st.post
    requires forall a :: Gray(st, a) ==> Gray(stNew, a) || (a in stNew.post && a !in st.post)
    ensures SettledFrom(g, stNew, x, z)
  {
    var t := stNew.post[|st.post|..];
    assert stNew.post == st.post + t;
    IndexOfPrefix(st.post, t, x);
    if z in st.post && IndexOf(st.post, z) <= IndexOf(st.post, x) {
      IndexOfPrefix(st.post, t, z);
    } else {
      var a :| MutReach(g, x, a) && (Gray(st, a) || (a in st.post && IndexOf(st.post, x) < IndexOf(st.post, a)));
      if Gray(st, a) {
        if !Gray(stNew, a) {
          IndexOfBeyond(st.post, t, a);
          assert a in stNew.post && IndexOf(stNew.post, x) < IndexOf(stNew.post, a);
        }
      } else {
        IndexOfPrefix(st.post, t, a);
      }
    }
  }

  /** Entering an unmarked vertex keeps the invariant. */
  lemma EnterSound(g: Graph, st: Search, v: int)
    requires Sound(g, st) && 0 <= v < g.v && !st.marked[v]
    ensures Sound(g, Enter(st, v))
  {
    var st1 := Enter(st, v);
    forall w | 0 <= w < g.v && st1.edgeTo[w].Some?
      ensures var u := st1.edgeTo[w].value;
        0 <= u < g.v && w in g.adj[u] && u in st1.pre && w in st1.pre && IndexOf(st1.pre, u) < IndexOf(st1.pre, w)
    {
      var u := st.edgeTo[w].value;
      IndexOfPrefix(st.pre, [v], u);
      IndexOfPrefix(st.pre, [v], w);
    }
    forall x, z | x in st1.post && Reach(g, x, z)
      ensures SettledFrom(g, st1, x, z)
    {
      SettledKept(g, st, st1, x, z);
    }
  }

  /** Recording a tree edge `v -> w` whose ends were entered in that order keeps the invariant. */
  lemma LinkSound(g: Graph, st: Search, w: int, v: int)
    requires Sound(g, st) && 0 <= v < g.v && 0 <= w < g.v && w in g.adj[v]
    requires v in st.pre && w in st.pre && IndexOf(st.pre, v) < IndexOf(st.pre, w)
    ensures Sound(g, Link(st, w, v))
  {
    var st1 := Link(st, w, v);
    forall x, z | x in st1.post && Reach(g, x, z)
      ensures SettledFrom(g, st1, x, z)
    {
      SettledKept(g, st, st1, x, z);
    }
  }

  /**
   * A walk out of a left vertex either stays among left vertices or meets a
   * vertex still on the stack, provided every left vertex has all its
   * neighbours marked.
   */
  lemma WalkFromLeft(g: Graph, st: Search, p: seq<int>) returns (i: nat)
    requires Sized(g, st) && IsWalk(g, p) && p[0] in st.post
    requires forall x :: x in st.post ==> 0 <= x < g.v
    requires forall x :: 0 <= x < g.v ==> (st.marked[x] <==> x in st.pre)
    requires forall x, w :: x in st.post && w in g.adj[x] ==> 0 <= w < g.v && st.marked[w]
    ensures i <= |p|
    ensures forall j :: 0 <= j < i ==> p[j] in st.post
    ensures i < |p| ==> Gray(st, p[i])
  {
    i := 0;
    while i < |p| && p[i] in st.post
      invariant i <= |p|
      invariant forall j :: 0 <= j < i ==> p[j] in st.post
      invariant 0 < i < |p| ==> p[i] in st.pre
    {
      if i + 1 < |p| {
        assert p[i + 1] in g.adj[p[i]];
      }
      i := i + 1;
    }
  }

  lemma WalkPrefix(g: Graph, p: seq<int>, i: nat)
    requires IsWalk(g, p) && i < |p|
    ensures Reach(g, p[0], p[i])
  {
    assert IsWalk(g, p[..i + 1]);
  }

  /**
   * Leaving `v` once all its neighbours are marked keeps the invariant, when
   * every vertex on the stack reaches `v`.
   */
  lemma LeaveSound(g: Graph, st: Search, v: int)
    requires Sound(g, st) && 0 <= v < g.v && Gray(st, v)
    requires forall w :: w in g.adj[v] ==> st.marked[w]
    requires forall a :: Gray(st, a) ==> Reach(g, a, v)
    ensures Sound(g, Leave(st, v))
  {
    var st1 := Leave(st, v);
    forall x, z | x in st1.post && Reach(g, x, z)
      ensures SettledFrom(g, st1, x, z)
    {
      if x in st.post {
        SettledKept(g, st, st1, x, z);
      } else {
        LeaveSettled(g, st, v, z);
      }
    }
  }

  /** What the vertex just left reaches is settled: left before it, or in its strong component on the stack. */
  lemma LeaveSettled(g: Graph, st: Search, v: int, z: int)
    requires Sound(g, st) && 0 <= v < g.v && Gray(st, v)
    requires forall w :: w in g.adj[v] ==> st.marked[w]
    requires forall a :: Gray(st, a) ==> Reach(g, a, v)
    requires Reach(g, v, z)
    ensures SettledFrom(g, Leave(st, v), v, z)
  {
    var st1 := Leave(st, v);
    IndexOfLast(st.post, v);
    var p :| IsWalk(g, p) && p[0] == v && p[|p| - 1] == z;
    var i := WalkFromLeft(g, st1, p);
    if i == |p| {
      assert z in st1.post;
      assert IndexOf(st1.post, z) <= |st.post|;
    } else {
      var a := p[i];
      WalkPrefix(g, p, i);
      assert Gray(st, a);
      assert MutReach(g, v, a);
    }
  }

  /** The vertices entered between `st` and `r`. */
  function Entered(st: Search, r: Search): seq<int>
    requires |st.pre| <= |r.pre|
  {
    r.pre[|st.pre|..]
  }

  /** The vertices left between `st` and `r`. */
  function Left(st: Search, r: Search): seq<int>
    requires |st.post| <= |r.post|
  {
    r.post[|st.post|..]
  }

  /**
   * What a call made from `v` does between `st` and `r`: the stack is as it was,
   * every vertex it entered it also left, all of them are reachable from `v`,
   * and `edgeTo` changed exactly at those of them other than `v`.
   */
  ghost predicate Frame(g: Graph, st: Search, r: Search, v: int)
  {
    Grows(st, r) && |st.edgeTo| == |r.edgeTo| == g.v
    && (forall a :: Gray(r, a) <==> Gray(st, a))
    && (forall x :: x in Entered(st, r) <==> x in Left(st, r))
    && (forall x :: x in Entered(st, r) ==> Reach(g, v, x))
    && (forall x :: 0 <= x < g.v && (x !in Entered(st, r) || x == v) ==> r.edgeTo[x] == st.edgeTo[x])
    && (forall x :: 0 <= x < g.v && x in Entered(st, r) && x != v ==> r.edgeTo[x].Some?)
  }

  /** An empty stretch of the loop. */
  lemma FrameRefl(g: Graph, st: Search, v: int)
    requires |st.edgeTo| == g.v
    ensures Frame(g, st, st, v)
  {
    assert Entered(st, st) == [] && Left(st, st) == [];
  }

  /**
   * One unmarked neighbour `w` of `v`: its call, the tree edge `v -> w`, then
   * the rest of the loop, compose into one stretch of the loop of `v`.
   */
  lemma FrameLinkCompose(g: Graph, st: Search, st1: Search, r: Search, v: int, w: int)
    requires Valid(g) && 0 <= v < g.v && 0 <= w < g.v && w in g.adj[v] && v in st.pre
    requires Frame(g, st, st1, w) && |st1.pre| > |st.pre| && st1.pre[|st.pre|] == w
    requires |st1.edgeTo| == g.v && Frame(g, Link(st1, w, v), r, v)
    requires Distinct(r.pre)
    ensures Frame(g, st, r, v)
  {
    LinkStretch(st, st1, Link(st1, w, v), r, v, w);
    forall x | x in Entered(st, st1)
      ensures Reach(g, v, x)
    {
      ReachEdge(g, v, w);
      ReachTrans(g, v, w, x);
    }
    LinkEdges(g, st, st1, r, v, w);
  }

  /** A stretch that enters `w` first, then one that starts with the same lists: what was entered and left. */
  lemma LinkStretch(st: Search, st1: Search, st2: Search, r: Search, v: int, w: int)
    requires Grows(st, st1) && Grows(st2, r) && st2.pre == st1.pre && st2.post == st1.post && |st2.marked| == |st1.marked|
    requires |st1.pre| > |st.pre| && st1.pre[|st.pre|] == w
    requires v in st.pre && Distinct(r.pre)
    ensures Grows(st, r)
    ensures Entered(st, r) == Entered(st, st1) + Entered(st2, r)
    ensures Left(st, r) == Left(st, st1) + Left(st2, r)
    ensures w in Entered(st, st1) && v != w && v !in Entered(st, r)
  {
    assert Entered(st, r) == Entered(st, st1) + Entered(st2, r);
    assert Left(st, r) == Left(st, st1) + Left(st2, r);
    assert r.pre == st.pre + Entered(st, st1) + Entered(st2, r);
    assert r.pre[..|st.pre|] == st.pre;
    assert r.post[..|st.post|] == st.post;
    assert Entered(st, st1)[0] == w;
    assert v != w && v !in Entered(st, r) by {
      assert r.pre[|st.pre|] == w;
    }
  }

  /** The stretch of the call into `w` followed by the rest of the loop: where `edgeTo` changed. */
  lemma LinkEdges(g: Graph, st: Search, st1: Search, r: Search, v: int, w: int)
    requires Valid(g) && 0 <= v < g.v && 0 <= w < g.v && v in st.pre
    requires Frame(g, st, st1, w) && |st1.pre| > |st.pre| && st1.pre[|st.pre|] == w
    requires |st1.edgeTo| == g.v && Frame(g, Link(st1, w, v), r, v)
    requires Distinct(r.pre)
    ensures forall x :: 0 <= x < g.v && x in Entered(st, r) && x != v ==> r.edgeTo[x].Some?
    ensures forall x :: 0 <= x < g.v && (x !in Entered(st, r) || x == v) ==> r.edgeTo[x] == st.edgeTo[x]
  {
    var st2 := Link(st1, w, v);
    LinkStretch(st, st1, Link(st1, w, v), r, v, w);
    forall x | 0 <= x < g.v && x in Entered(st, r) && x != v
      ensures r.edgeTo[x].Some?
    {
      if x in Entered(st, st1) {
        assert x !in Entered(st2, r);
      }
    }
    forall x | 0 <= x < g.v && (x !in Entered(st, r) || x == v)
      ensures r.edgeTo[x] == st.edgeTo[x]
    {
      assert x !in Entered(st, st1) && x != w;
    }
  }

  /** Two stretches of the same loop compose. */
  lemma FrameCompose(g: Graph, st: Search, st1: Search, r: Search, v: int)
    requires Frame(g, st, st1, v) && Frame(g, st1, r, v)
    ensures Frame(g, st, r, v)
  {
    assert Entered(st, r) == Entered(st, st1) + Entered(st1, r);
    assert Left(st, r) == Left(st, st1) + Left(st1, r);
    assert r.pre[..|st.pre|] == st.pre;
    assert r.post[..|st.post|] == st.post;
  }

  /** Entering `v`, running its loop, and leaving it, form the call `search(v)`. */
  lemma FrameEnterLeave(g: Graph, st: Search, st2: Search, v: int)
    requires |g.adj| == g.v && 0 <= v < g.v == |st.marked| && !(v in st.pre) && v !in st.post
    requires Frame(g, Enter(st, v), st2, v) && Gray(st2, v)
    ensures Frame(g, st, Leave(st2, v), v)
  {
    ReachRefl(g, v);
    EnterLeaveStretch(st, st2, v);
    EnterLeaveGray(st, st2, v);
    EnterLeaveEdges(g, st, st2, v);
  }

  /** Leaving `v` takes it off the stack again: the stack is as before the call. */
  lemma EnterLeaveGray(st: Search, st2: Search, v: int)
    requires 0 <= v < |st.marked| && v !in st.pre && v !in st.post
    requires Grows(Enter(st, v), st2) && forall a :: Gray(st2, a) <==> Gray(Enter(st, v), a)
    ensures forall a :: Gray(Leave(st2, v), a) <==> Gray(st, a)
  {
    var st1 := Enter(st, v);
    var r := Leave(st2, v);
    forall a
      ensures Gray(r, a) <==> Gray(st, a)
    {
      if a == v {
        assert v in r.post;
      } else {
        assert Gray(st1, a) <==> Gray(st, a);
      }
    }
  }

  /** Entering and leaving `v` touch no `edgeTo` entry: the loop's changes are the call's. */
  lemma EnterLeaveEdges(g: Graph, st: Search, st2: Search, v: int)
    requires 0 <= v < g.v == |st.marked| == |st.edgeTo| == |st2.edgeTo| && Grows(Enter(st, v), st2)
    requires forall x :: 0 <= x < g.v && (x !in Entered(Enter(st, v), st2) || x == v) ==>
      st2.edgeTo[x] == Enter(st, v).edgeTo[x]
    requires forall x :: 0 <= x < g.v && x in Entered(Enter(st, v), st2) && x != v ==> st2.edgeTo[x].Some?
    ensures forall x :: 0 <= x < g.v && (x !in Entered(st, Leave(st2, v)) || x == v) ==>
      Leave(st2, v).edgeTo[x] == st.edgeTo[x]
    ensures forall x :: 0 <= x < g.v && x in Entered(st, Leave(st2, v)) && x != v ==> Leave(st2, v).edgeTo[x].Some?
  {
    EnterLeaveStretch(st, st2, v);
  }

  /** Entering `v`, a stretch, then leaving `v`: what was entered and left. */
  lemma EnterLeaveStretch(st: Search, st2: Search, v: int)
    requires 0 <= v < |st.marked| && Grows(Enter(st, v), st2)
    ensures Grows(st, Leave(st2, v))
    ensures Entered(st, Leave(st2, v)) == [v] + Entered(Enter(st, v), st2)
    ensures Left(st, Leave(st2, v)) == Left(Enter(st, v), st2) + [v]
  {
    var r := Leave(st2, v);
    assert r.pre[..|st.pre|] == st.pre;
    assert r.post[..|st.post|] == st.post;
  }

  /**
   * One unmarked neighbour `w` of `v` in the loop of `search(v)`: after its
   * call and the tree edge `v -> w` the state is sound again, the stack is the
   * same, and the neighbours up to `w` are marked.
   */
  lemma VisitStep(g: Graph, st: Search, v: int, k: nat, w: int)
    requires Sound(g, st) && 0 <= v < g.v && Gray(st, v) && k < |g.adj[v]| && w == g.adj[v][k]
    requires !st.marked[w]
    requires forall a :: Gray(st, a) ==> Reach(g, a, v)
    requires forall i :: 0 <= i < k ==> st.marked[g.adj[v][i]]
    decreases Unmarked(st.marked), |g.adj[v]| - k, 1
    ensures var st1 := Visit(g, st, w); var st2 := Link(st1, w, v);
      Sound(g, st1) && Frame(g, st, st1, w) && |st1.pre| > |st.pre| && st1.pre[|st.pre|] == w
      && Sound(g, st2) && Unmarked(st2.marked) < Unmarked(st.marked)
      && (forall a :: Gray(st2, a) <==> Gray(st, a))
      && (forall a :: Gray(st2, a) ==> Reach(g, a, v))
      && (forall i :: 0 <= i < k + 1 ==> st2.marked[g.adj[v][i]])
  {
    assert w in g.adj[v];
    forall a | Gray(st, a) ensures Reach(g, a, w) {
      ReachStep(g, a, v, w);
    }
    VisitSpec(g, st, w);
    LinkStep(g, st, Visit(g, st, w), v, w);
    LinkGray(g, st, Visit(g, st, w), v, k, w);
  }

  /** The tree edge `v -> w` recorded after the call into `w` returned keeps the state sound. */
  lemma LinkStep(g: Graph, st: Search, st1: Search, v: int, w: int)
    requires Sound(g, st) && 0 <= v < g.v && Gray(st, v) && w in g.adj[v]
    requires Sound(g, st1) && Frame(g, st, st1, w) && |st1.pre| > |st.pre| && st1.pre[|st.pre|] == w
    ensures Sound(g, Link(st1, w, v))
  {
    IndexOfPrefix(st.pre, Entered(st, st1), v);
    assert st1.pre == st.pre + Entered(st, st1);
    IndexOfBeyond(st.pre, Entered(st, st1), w);
    LinkSound(g, st1, w, v);
  }

  /** After the call into the `k`-th neighbour the stack is as it was and the first `k + 1` neighbours are marked. */
  lemma LinkGray(g: Graph, st: Search, st1: Search, v: int, k: nat, w: int)
    requires Valid(g) && 0 <= v < g.v && k < |g.adj[v]| && w == g.adj[v][k]
    requires |st.marked| == |st1.marked| == |st1.edgeTo| == g.v
    requires forall a :: Gray(st1, a) <==> Gray(st, a)
    requires forall a :: Gray(st, a) ==> Reach(g, a, v)
    requires forall i :: 0 <= i < k ==> st.marked[g.adj[v][i]]
    requires forall x :: 0 <= x < g.v && st.marked[x] ==> st1.marked[x]
    requires st1.marked[w] && Unmarked(st1.marked) < Unmarked(st.marked)
    ensures var st2 := Link(st1, w, v);
      Unmarked(st2.marked) < Unmarked(st.marked)
      && (forall a :: Gray(st2, a) <==> Gray(st, a))
      && (forall a :: Gray(st2, a) ==> Reach(g, a, v))
      && (forall i :: 0 <= i < k + 1 ==> st2.marked[g.adj[v][i]])
  {
    forall i | 0 <= i < k + 1
      ensures Link(st1, w, v).marked[g.adj[v][i]]
    {
      if i < k {
        assert st.marked[g.adj[v][i]];
      }
    }
  }

  /**
   * The loop of `search(v)` from the `k`-th neighbour on: afterwards every
   * neighbour is marked and the stretch is a frame of `v`.
   */
  lemma {:induction false} VisitAllSpec(g: Graph, st: Search, v: int, k: nat)
    requires Sound(g, st) && 0 <= v < g.v && Gray(st, v) && k <= |g.adj[v]|
    requires forall a :: Gray(st, a) ==> Reach(g, a, v)
    requires forall i :: 0 <= i < k ==> st.marked[g.adj[v][i]]
    decreases Unmarked(st.marked), |g.adj[v]| - k, 2
    ensures Sound(g, VisitAll(g, st, v, g.adj[v][k..]))
    ensures Frame(g, st, VisitAll(g, st, v, g.adj[v][k..]), v)
    ensures forall i :: 0 <= i < |g.adj[v]| ==> VisitAll(g, st, v, g.adj[v][k..]).marked[g.adj[v][i]]
  {
    var ws := g.adj[v][k..];
    var r := VisitAll(g, st, v, ws);
    if k == |g.adj[v]| {
      assert ws == [];
      FrameRefl(g, st, v);
    } else {
      var w := ws[0];
      assert ws[1..] == g.adj[v][k + 1..];
      assert w == g.adj[v][k] && w in g.adj[v];
      if st.marked[w] {
        VisitAllSpec(g, st, v, k + 1);
      } else {
        var st1 := Visit(g, st, w);
        var st2 := Link(st1, w, v);
        VisitStep(g, st, v, k, w);
        VisitAllSpec(g, st2, v, k + 1);
        assert r == VisitAll(g, st2, v, g.adj[v][k + 1..]);
        FrameLinkCompose(g, st, st1, r, v, w);
      }
    }
  }

  /**
   * `search(v)` on an unmarked vertex, when every vertex on the stack reaches
   * `v`: it enters `v` first and leaves it last, marks only vertices reachable
   * from `v`, leaves every vertex it enters, and records a tree edge into every
   * newly marked vertex but `v`.
   */
  lemma {:induction false} VisitSpec(g: Graph, st: Search, v: int)
    requires Sound(g, st) && 0 <= v < g.v && !st.marked[v]
    requires forall a :: Gray(st, a) ==> Reach(g, a, v)
    decreases Unmarked(st.marked), 0, 0
    ensures var r := Visit(g, st, v);
      Sound(g, r) && Frame(g, st, r, v)
      && |r.pre| > |st.pre| && r.pre[|st.pre|] == v && r.post == r.post[..|r.post| - 1] + [v]
  {
    var st1 := Enter(st, v);
    VisitEnter(g, st, v);
    assert g.adj[v][0..] == g.adj[v];
    VisitAllSpec(g, st1, v, 0);
    var st2 := VisitAll(g, st1, v, g.adj[v]);
    VisitDone(g, st, st2, v);
    assert Visit(g, st, v) == Leave(st2, v);
  }

  /** Entering `v`: the state stays sound, and every vertex on the stack, `v` included, reaches `v`. */
  lemma VisitEnter(g: Graph, st: Search, v: int)
    requires Sound(g, st) && 0 <= v < g.v && !st.marked[v]
    requires forall a :: Gray(st, a) ==> Reach(g, a, v)
    ensures Sound(g, Enter(st, v)) && Unmarked(Enter(st, v).marked) < Unmarked(st.marked)
    ensures forall a :: Gray(Enter(st, v), a) ==> Reach(g, a, v)
  {
    UnmarkedMark(st.marked, v);
    EnterSound(g, st, v);
    forall a | Gray(Enter(st, v), a) ensures Reach(g, a, v) {
      if a == v { ReachRefl(g, v); }
    }
  }

  /** After the loop of `search(v)` every neighbour is marked; leaving `v` completes a sound frame. */
  lemma VisitDone(g: Graph, st: Search, st2: Search, v: int)
    requires Sound(g, st) && 0 <= v < g.v && !st.marked[v]
    requires forall a :: Gray(Enter(st, v), a) ==> Reach(g, a, v)
    requires Sound(g, st2) && Frame(g, Enter(st, v), st2, v)
    requires forall i :: 0 <= i < |g.adj[v]| ==> st2.marked[g.adj[v][i]]
    ensures Sound(g, Leave(st2, v)) && Frame(g, st, Leave(st2, v), v)
    ensures |st2.pre| > |st.pre| && st2.pre[|st.pre|] == v
  {
    assert Gray(st2, v);
    forall w | w in g.adj[v] ensures st2.marked[w] {
      var i :| 0 <= i < |g.adj[v]| && g.adj[v][i] == w;
    }
    LeaveSound(g, st2, v);
    FrameEnterLeave(g, st, st2, v);
  }

  /**
   * Nothing is on the stack: every entered vertex has been left. This holds
   * between the top-level calls of every traversal.
   */
  ghost predicate Idle(st: Search)
  {
    forall a :: !Gray(st, a)
  }

  /** Between top-level calls the marked set is closed under edges. */
  lemma IdleClosed(g: Graph, st: Search)
    requires Sound(g, st) && Idle(st)
    ensures Closed(g, st.marked)
  {
    forall x, w | 0 <= x < |st.marked| && st.marked[x] && w in g.adj[x]
      ensures 0 <= w < |st.marked| && st.marked[w]
    {
      assert !Gray(st, x);
    }
  }

  /**
   * The constructor `DepthFirstSearch(graph, s)`: fresh arrays, then
   * `search(s)`. A source outside `[0, V)` fails at `marked[s]`.
   */
  function DepthFirstSearch(g: Graph, s: int): (r: Result<Search>)
    requires Valid(g)
    ensures r.Ok? <==> 0 <= s < g.v
    ensures r.Err? ==> r.error == IndexOutOfBounds
    ensures r.Ok? ==> Sized(g, r.value) && r.value.marked[s]
  {
    if 0 <= s < g.v then Ok(Visit(g, Fresh(g.v), s)) else Err(IndexOutOfBounds)
  }

  /** A finished `DepthFirstSearch(graph, s)` is sound, idle, and entered `s` first. */
  lemma DepthFirstSearchSound(g: Graph, s: int)
    requires Valid(g) && 0 <= s < g.v
    ensures var r := DepthFirstSearch(g, s).value;
      Sound(g, r) && Idle(r) && |r.pre| > 0 && r.pre[0] == s
      && (forall x :: x in r.pre ==> Reach(g, s, x))
      && (forall x :: 0 <= x < g.v && (x !in r.pre || x == s) ==> r.edgeTo[x] == None)
      && (forall x :: 0 <= x < g.v && x in r.pre && x != s ==> r.edgeTo[x].Some?)
  {
    var st := Fresh(g.v);
    SoundFresh(g);
    VisitSpec(g, st, s);
    var r := Visit(g, st, s);
    assert Entered(st, r) == r.pre && Left(st, r) == r.post;
    assert Idle(r) by {
      forall a ensures !Gray(r, a) {
        assert !Gray(st, a);
      }
    }
  }

  /**
   * What `DepthFirstSearch(graph, s)` computes: `marked[x]` exactly when `x`
   * is reachable from `s`; `edgeTo` stays null at `s` and at every unreached
   * vertex and is set at every other reached one, always along an edge
   * between two marked vertices; every vertex is entered at most once, `s`
   * first.
   */
  lemma DepthFirstSearchSpec(g: Graph, s: int)
    requires Valid(g) && 0 <= s < g.v
    ensures var r := DepthFirstSearch(g, s).value;
      && (forall x :: 0 <= x < g.v ==> (r.marked[x] <==> Reach(g, s, x)))
      && r.edgeTo[s] == None
      && (forall x :: 0 <= x < g.v && !r.marked[x] ==> r.edgeTo[x] == None)
      && (forall x :: 0 <= x < g.v && r.marked[x] && x != s ==> r.edgeTo[x].Some?)
      && (forall w :: 0 <= w < g.v && r.edgeTo[w].Some? ==>
            0 <= r.edgeTo[w].value < g.v && w in g.adj[r.edgeTo[w].value]
            && r.marked[r.edgeTo[w].value] && r.marked[w])
      && Distinct(r.pre) && |r.pre| > 0 && r.pre[0] == s
  {
    DepthFirstSearchSound(g, s);
    var r := DepthFirstSearch(g, s).value;
    IdleClosed(g, r);
    forall x | 0 <= x < g.v
      ensures r.marked[x] <==> Reach(g, s, x)
    {
      if Reach(g, s, x) {
        ClosedReach(g, r.marked, s, x);
      }
    }
  }
}

=== FILE: deques.dfy ===
/**
 * The double-ended queue on a doubly linked list. The nodes from `head` to
 * `tail` are the sequence `items`; the size counter always equals its length,
 * since every operation moves both together.
 */
module Deques {
  import opened Wrappers
  import LinkedListIterators

  datatype Deque<T> = Deque(items: seq<T>)

  function New<T>(): (d: Deque<T>)
  {
    Deque([])
  }

  /** A new deque is empty. */
  lemma NewSpec<T>()
    ensures var d := New<T>(); Size(d) == 0 && IsEmpty(d)
  {
  }

  function Size<T>(d: Deque<T>): nat
  {
    |d.items|
  }

  function IsEmpty<T>(d: Deque<T>): (b: bool)
    ensures b <==> Size(d) == 0
  {
    d.items == []
  }

  /** `addFirst(data)`: a null item throws NullPointerException; otherwise it becomes the head. */
  function AddFirst<T>(d: Deque<T>, x: Option<T>): (r: Result<Deque<T>>)
    ensures x.None? <==> r == Err(NullPointer)
    ensures r.Ok? ==> Size(r.value) == Size(d) + 1
    ensures r.Ok? ==> r.value.items[0] == x.value && r.value.items[1..] == d.items
  {
    match x
    case None => Err(NullPointer)
    case Some(v) => Ok(Deque([v] + d.items))
  }

  /** `addLast(data)`: a null item throws NullPointerException; otherwise it becomes the tail. */
  function AddLast<T>(d: Deque<T>, x: Option<T>): (r: Result<Deque<T>>)
    ensures x.None? <==> r == Err(NullPointer)
    ensures r.Ok? ==> Size(r.value) == Size(d) + 1
    ensures r.Ok? ==> r.value.items[Size(d)] == x.value && r.value.items[..Size(d)] == d.items
  {
    match x
    case None => Err(NullPointer)
    case Some(v) => Ok(Deque(d.items + [v]))
  }

  /** `removeFirst()`: the head's item and the rest; on an empty deque NoSuchElementException. */
  function RemoveFirst<T>(d: Deque<T>): (r: Result<Pair<T, Deque<T>>>)
    ensures IsEmpty(d) <==> r == Err(NoSuchElement)
    ensures r.Ok? ==> Size(r.value.1) + 1 == Size(d)
    ensures r.Ok? ==> d.items == [r.value.0] + r.value.1.items
  {
    if d.items == [] then Err(NoSuchElement)
    else Ok((d.items[0], Deque(d.items[1..])))
  }

  /** `removeLast()`: the tail's item and the rest; on an empty deque NoSuchElementException. */
  function RemoveLast<T>(d: Deque<T>): (r: Result<Pair<T, Deque<T>>>)
    ensures IsEmpty(d) <==> r == Err(NoSuchElement)
    ensures r.Ok? ==> Size(r.value.1) + 1 == Size(d)
    ensures r.Ok? ==> d.items == r.value.1.items + [r.value.0]
  {
    if d.items == [] then Err(NoSuchElement)
    else Ok((d.items[|d.items| - 1], Deque(d.items[..|d.items| - 1])))
  }

  /** `iterator()`: from the head to the tail. */
  function Iterator<T>(d: Deque<T>): (c: LinkedListIterators.Cursor<T>)
    ensures LinkedListIterators.Drain(c) == d.items
  {
    LinkedListIterators.DrainYieldsChain(d.items);
    LinkedListIterators.Start(d.items)
  }

  /** `addFirst(x)` then `removeFirst()` returns `x` and the deque as it was. */
  lemma AddFirstRemoveFirst<T>(d: Deque<T>, x: T)
    ensures RemoveFirst(AddFirst(d, Some(x)).value) == Ok((x, d))
  {
  }

  /** `addLast(x)` then `removeLast()` returns `x` and the deque as it was. */
  lemma AddLastRemoveLast<T>(d: Deque<T>, x: T)
    ensures RemoveLast(AddLast(d, Some(x)).value) == Ok((x, d))
  {
    assert (d.items + [x])[..|d.items|] == d.items;
  }

  /** With one item both ends hold it, and removing it from either end empties the deque. */
  lemma Singleton<T>(x: T)
    ensures RemoveFirst(AddFirst(New(), Some(x)).value) == RemoveLast(AddFirst(New(), Some(x)).value)
    ensures RemoveFirst(AddLast(New(), Some(x)).value) == Ok((x, New()))
  {
  }

  /** Adding every item of `xs` at the front, first to last. */
  function AddFirstAll<T>(d: Deque<T>, xs: seq<T>): Deque<T>
    decreases |xs|
  {
    if xs == [] then d else AddFirstAll(AddFirst(d, Some(xs[0])).value, xs[1..])
  }

  /** What `removeLast()` yields until the deque is empty. */
  function DrainLast<T>(d: Deque<T>): seq<T>
    decreases Size(d)
  {
    match RemoveLast(d)
    case Err(_) => []
    case Ok((x, dNew)) => [x] + DrainLast(dNew)
  }

  /**
   * `addFirst` with `removeLast` is a FIFO queue, the frontier discipline of
   * the breadth-first search: the items already held come out first, oldest
   * first, and then the added ones in the order they were added.
   */
  lemma {:induction false} FirstInFirstOut<T>(d: Deque<T>, xs: seq<T>)
    decreases |xs|
    ensures DrainLast(AddFirstAll(d, xs)) == DrainLast(d) + xs
  {
    if xs != [] {
      var d1 := AddFirst(d, Some(xs[0])).value;
      FirstInFirstOut(d1, xs[1..]);
      DrainLastAddFirst(d, xs[0]);
      assert xs == [xs[0]] + xs[1..];
    }
  }

  lemma {:induction false} DrainLastAddFirst<T>(d: Deque<T>, x: T)
    decreases Size(d)
    ensures DrainLast(AddFirst(d, Some(x)).value) == DrainLast(d) + [x]
  {
    var d1 := AddFirst(d, Some(x)).value;
    if d.items == [] {
      assert RemoveLast(d1) == Ok((x, d));
    } else {
      var (y, dNew) := RemoveLast(d).value;
      assert d1.items == [x] + dNew.items + [y];
      assert RemoveLast(d1) == Ok((y, AddFirst(dNew, Some(x)).value));
      DrainLastAddFirst(dNew, x);
    }
  }
}

=== FILE: dfs_paths.dfy ===
/**
 * `DFSPaths`: a depth-first search from `s`, queried with `hasPathTo` and
 * `pathTo`.
 */
module DepthFirstPaths {
  import opened Wrappers
  import opened Graphs
  import opened DepthFirst
  import Paths

  /** The entry order of the search, as a rank on vertices. */
  ghost function EntryRank(st: Search, n: nat): seq<nat>
  {
    seq(n, x => if x in st.pre then IndexOf(st.pre, x) else 0)
  }

  /** The tree links of a finished search point to vertices entered earlier. */
  lemma EntryRanked(g: Graph, s: int)
    requires Valid(g) && 0 <= s < g.v
    ensures var st := DepthFirstSearch(g, s).value;
      Paths.Ranked(st.edgeTo, EntryRank(st, g.v)) && Paths.InRange(st.edgeTo)
  {
    DepthFirstSearchSound(g, s);
  }

  /** `new DFSPaths(G, s).hasPathTo(v)`: whether `v` is reachable from `s`. */
  function HasPathTo(g: Graph, s: int, v: int): (r: Result<bool>)
    requires Valid(g)
    ensures r.Ok? <==> 0 <= s < g.v && 0 <= v < g.v
    ensures r.Err? ==> r.error == IndexOutOfBounds
    ensures r.Ok? ==> (r.value <==> Reach(g, s, v))
  {
    match DepthFirstSearch(g, s)
    case Err(e) => Err(e)
    case Ok(st) =>
      DepthFirstSearchSpec(g, s);
      Paths.HasPathTo(st.marked, v)
  }

  /**
   * `new DFSPaths(G, s).pathTo(v)`: null when `v` is unreachable; otherwise a
   * walk in the graph from `s` to `v` that repeats no vertex.
   */
  method PathTo(g: Graph, s: int, v: int) returns (r: Result<Option<seq<int>>>)
    requires Valid(g)
    ensures r.Ok? <==> 0 <= s < g.v && 0 <= v < g.v
    ensures r.Err? ==> r.error == IndexOutOfBounds
    ensures r.Ok? ==> (r.value.Some? <==> Reach(g, s, v))
    ensures r.Ok? && r.value.Some? ==>
      var p := r.value.value;
      IsWalk(g, p) && p[0] == s && p[|p| - 1] == v && Distinct(p)
  {
    var search := DepthFirstSearch(g, s);
    if search.Err? {
      return Err(IndexOutOfBounds);
    }
    var st := search.value;
    DepthFirstSearchSpec(g, s);
    EntryRanked(g, s);
    assert Paths.Ranked(st.edgeTo, EntryRank(st, g.v));
    r := Paths.PathTo(st.marked, st.edgeTo, v);
    if r.Ok? && r.value.Some? {
      var p := r.value.value;
      forall i | 0 <= i < |p| - 1
        ensures p[i + 1] in g.adj[p[i]] && st.marked[p[i]]
      {
        assert st.edgeTo[p[i + 1]] == Some(p[i]);
      }
      assert st.marked[p[0]];
    }
  }
}

=== FILE: digraphs.dfy ===
/**
 * The directed adjacency-list graph: `addEdge(v, w)` records `w` in `v`'s bag
 * only, without checking `w`, and `reverse()` builds the transpose.
 */
module Digraphs {
  import opened Wrappers
  import opened Graphs

  /** Between calls the counter equals the number of adjacency entries. */
  predicate Directed(g: Graph)
  {
    |g.adj| == g.v && Entries(g.adj) == g.e
  }

  /** The constructor: a negative vertex count fails when the bag array is allocated. */
  function New(n: int): (r: Result<Graph>)
    ensures n < 0 <==> r == Err(NegativeArraySize)
    ensures r.Ok? ==> r.value.v == n && r.value.e == 0 && |r.value.adj| == n
    ensures r.Ok? ==> forall u :: 0 <= u < n ==> r.value.adj[u] == []
    ensures r.Ok? ==> Directed(r.value)
  {
    EntriesEmpty(if n < 0 then 0 else n);
    if n < 0 then Err(NegativeArraySize) else Ok(Empty(n))
  }

  /**
   * `addEdge(v, w)`: `w` goes to the front of `adj(v)` and nothing else changes
   * but the counter. Only `v` is bounds-checked (by the array access).
   */
  function AddEdge(g: Graph, v: int, w: int): (r: Result<Graph>)
    requires |g.adj| == g.v
    ensures r.Ok? <==> 0 <= v < g.v
    ensures r.Err? ==> r.error == IndexOutOfBounds
    ensures r.Ok? ==> r.value.v == g.v && r.value.e == g.e + 1 && |r.value.adj| == g.v
    ensures r.Ok? ==> r.value.adj[v] == [w] + g.adj[v]
    ensures r.Ok? ==> forall x :: 0 <= x < g.v && x != v ==> r.value.adj[x] == g.adj[x]
    ensures r.Ok? && Directed(g) ==> Directed(r.value)
  {
    if !(0 <= v < g.v) then Err(IndexOutOfBounds)
    else
      EntriesPrepend(g.adj, v, w);
      Ok(Graph(g.v, g.e + 1, g.adj[v := [w] + g.adj[v]]))
  }

  /** `adj(v)`: the out-neighbours in bag order; outside `[0, V)` an index error. */
  function Adj(g: Graph, v: int): (r: Result<seq<int>>)
    requires |g.adj| == g.v
    ensures r.Ok? <==> 0 <= v < g.v
    ensures r.Ok? ==> r.value == g.adj[v]
    ensures r.Err? ==> r.error == IndexOutOfBounds
  {
    if 0 <= v < g.v then Ok(g.adj[v]) else Err(IndexOutOfBounds)
  }

  /** The inner loop of `reverse()`: `reversed.addEdge(s, i)` for each `s` of one bag, in order. */
  function AddEdgesTo(r: Graph, ss: seq<int>, i: int): (rNew: Result<Graph>)
    requires |r.adj| == r.v
    decreases |ss|
    ensures rNew.Ok? ==> |rNew.value.adj| == rNew.value.v == r.v
  {
    if ss == [] then Ok(r)
    else
      match AddEdge(r, ss[0], i)
      case Err(e) => Err(e)
      case Ok(r1) => AddEdgesTo(r1, ss[1..], i)
  }

  /** The outer loop of `reverse()`, over vertices `i .. V-1`. */
  function ReverseFrom(g: Graph, r: Graph, i: nat): Result<Graph>
    requires |g.adj| == g.v && |r.adj| == r.v && i <= g.v
    decreases g.v - i
  {
    if i == g.v then Ok(r)
    else
      match AddEdgesTo(r, g.adj[i], i)
      case Err(e) => Err(e)
      case Ok(r1) => ReverseFrom(g, r1, i + 1)
  }

  /** `reverse()`: a fresh digraph with every edge turned around; the receiver is a value and is untouched. */
  function Reverse(g: Graph): Result<Graph>
    requires |g.adj| == g.v
  {
    ReverseFrom(g, Empty(g.v), 0)
  }

  /**
   * Adding the edges `s -> i` for each `s` of `ss` succeeds exactly when
   * every `s` is a vertex, keeps the graph valid, and puts `i` once more
   * into the list of `w` for each occurrence of `w` in `ss`.
   */
  lemma AddEdgesToSpec(r: Graph, ss: seq<int>, i: int)
    requires |r.adj| == r.v && 0 <= i < r.v
    ensures AddEdgesTo(r, ss, i).Ok? <==> forall s :: s in ss ==> 0 <= s < r.v
    ensures AddEdgesTo(r, ss, i).Ok? && Valid(r) ==> Valid(AddEdgesTo(r, ss, i).value)
    ensures AddEdgesTo(r, ss, i).Err? ==> AddEdgesTo(r, ss, i).error == IndexOutOfBounds
    ensures AddEdgesTo(r, ss, i).Ok? ==>
      var rNew := AddEdgesTo(r, ss, i).value;
      rNew.v == r.v && |rNew.adj| == r.v && rNew.e == r.e + |ss| && Entries(rNew.adj) == Entries(r.adj) + |ss|
      && forall w, u :: 0 <= w < r.v && 0 <= u < r.v ==>
           Count(rNew.adj[w], u) == Count(r.adj[w], u) + (if u == i then Count(ss, w) else 0)
  {
    AddEdgesToOk(r, ss, i);
    if AddEdgesTo(r, ss, i).Ok? {
      AddEdgesToCounts(r, ss, i);
      if Valid(r) {
        AddEdgesToValid(r, ss, i);
      }
    }
  }

  /** The edges are added exactly when every source is a vertex; otherwise an index error. */
  lemma {:induction false} AddEdgesToOk(r: Graph, ss: seq<int>, i: int)
    requires |r.adj| == r.v && 0 <= i < r.v
    decreases |ss|
    ensures AddEdgesTo(r, ss, i).Ok? <==> forall s :: s in ss ==> 0 <= s < r.v
    ensures AddEdgesTo(r, ss, i).Err? ==> AddEdgesTo(r, ss, i).error == IndexOutOfBounds
  {
    if ss != [] {
      var s := ss[0];
      assert ss == [s] + ss[1..];
      if 0 <= s < r.v {
        var r1 := AddEdge(r, s, i).value;
        assert AddEdgesTo(r, ss, i) == AddEdgesTo(r1, ss[1..], i);
        AddEdgesToOk(r1, ss[1..], i);
        forall t | t in ss[1..]
          ensures t in ss
        {
          var k :| 0 <= k < |ss[1..]| && ss[1..][k] == t;
          assert ss[k + 1] == t;
        }
        forall t | t in ss
          ensures t == s || t in ss[1..]
        {
          var k :| 0 <= k < |ss| && ss[k] == t;
          if k > 0 { assert ss[1..][k - 1] == t; }
        }
      } else {
        assert ss[0] in ss;
      }
    }
  }

  /** Adding the edges keeps a valid digraph valid. */
  lemma {:induction false} AddEdgesToValid(r: Graph, ss: seq<int>, i: int)
    requires Valid(r) && 0 <= i < r.v && AddEdgesTo(r, ss, i).Ok?
    decreases |ss|
    ensures Valid(AddEdgesTo(r, ss, i).value)
  {
    if ss != [] {
      AddEdgesToValid(AddEdge(r, ss[0], i).value, ss[1..], i);
    }
  }

  /** Adding the edges counts each of them and puts `i` into the list of each source. */
  lemma {:induction false} AddEdgesToCounts(r: Graph, ss: seq<int>, i: int)
    requires |r.adj| == r.v && 0 <= i < r.v && AddEdgesTo(r, ss, i).Ok?
    decreases |ss|
    ensures var rNew := AddEdgesTo(r, ss, i).value;
      rNew.v == r.v && |rNew.adj| == r.v && rNew.e == r.e + |ss| && Entries(rNew.adj) == Entries(r.adj) + |ss|
      && forall w, u :: 0 <= w < r.v && 0 <= u < r.v ==>
           Count(rNew.adj[w], u) == Count(r.adj[w], u) + (if u == i then Count(ss, w) else 0)
  {
    if ss != [] {
      var s := ss[0];
      assert ss == [s] + ss[1..];
      var r1 := AddEdge(r, s, i).value;
      EntriesPrepend(r.adj, s, i);
      AddEdgesToCounts(r1, ss[1..], i);
      var rNew := AddEdgesTo(r, ss, i).value;
      forall w, u | 0 <= w < r.v && 0 <= u < r.v
        ensures Count(rNew.adj[w], u) == Count(r.adj[w], u) + (if u == i then Count(ss, w) else 0)
      {
        if w == s {
          assert r1.adj[w][1..] == r.adj[w];
        }
      }
    }
  }

  /** What `reverse()` has built once it has turned around the edges out of the vertices below `i`. */
  ghost predicate ReversedTo(g: Graph, r: Graph, i: nat)
    requires |g.adj| == g.v
  {
    Valid(r) && r.v == g.v && i <= g.v
    && r.e == Entries(g.adj[..i]) && Entries(r.adj) == r.e
    && (forall w, u :: 0 <= w < g.v && 0 <= u < i ==> Count(r.adj[w], u) == Count(g.adj[u], w))
    && (forall w, u :: 0 <= w < g.v && i <= u < g.v ==> Count(r.adj[w], u) == 0)
  }

  /** Turning around the edges out of vertex `i` extends what has been built by one vertex. */
  lemma ReverseStep(g: Graph, r: Graph, i: nat)
    requires |g.adj| == g.v && ReversedTo(g, r, i) && i < g.v
    requires AddEdgesTo(r, g.adj[i], i).Ok?
    ensures ReversedTo(g, AddEdgesTo(r, g.adj[i], i).value, i + 1)
  {
    AddEdgesToSpec(r, g.adj[i], i);
    var r1 := AddEdgesTo(r, g.adj[i], i).value;
    assert g.adj[..i + 1] == g.adj[..i] + [g.adj[i]];
    EntriesAppend(g.adj[..i], g.adj[i]);
    forall w, u | 0 <= w < g.v && 0 <= u < g.v
      ensures Count(r1.adj[w], u) == Count(r.adj[w], u) + (if u == i then Count(g.adj[i], w) else 0)
    {
    }
  }

  lemma {:induction false} ReverseFromSpec(g: Graph, r: Graph, i: nat)
    requires |g.adj| == g.v && ReversedTo(g, r, i)
    decreases g.v - i
    ensures ReverseFrom(g, r, i).Ok? <==> forall u, s :: i <= u < g.v && s in g.adj[u] ==> 0 <= s < g.v
    ensures ReverseFrom(g, r, i).Err? ==> ReverseFrom(g, r, i).error == IndexOutOfBounds
    ensures ReverseFrom(g, r, i).Ok? ==>
      var rNew := ReverseFrom(g, r, i).value;
      rNew.v == g.v && Valid(rNew) && Directed(rNew) && rNew.e == Entries(g.adj)
      && forall w, u :: 0 <= w < g.v && 0 <= u < g.v ==> Count(rNew.adj[w], u) == Count(g.adj[u], w)
  {
    if i == g.v {
      assert g.adj[..i] == g.adj;
    } else {
      AddEdgesToSpec(r, g.adj[i], i);
      if AddEdgesTo(r, g.adj[i], i).Ok? {
        ReverseStep(g, r, i);
        ReverseFromSpec(g, AddEdgesTo(r, g.adj[i], i).value, i + 1);
      }
    }
  }

  /**
   * `reverse()` succeeds exactly when every stored neighbour is a vertex; then it
   * has the same V, its counter is the receiver's number of edges, and `u` occurs
   * in its `adj(w)` exactly as often as `w` occurs in the receiver's `adj(u)`.
   */
  lemma ReverseSpec(g: Graph)
    requires |g.adj| == g.v
    ensures Reverse(g).Ok? <==> Valid(g)
    ensures Reverse(g).Err? ==> Reverse(g).error == IndexOutOfBounds
    ensures Reverse(g).Ok? ==>
      var r := Reverse(g).value;
      r.v == g.v && Valid(r) && Directed(r) && r.e == Entries(g.adj) && (Directed(g) ==> r.e == g.e)
      && forall w, u :: 0 <= w < g.v && 0 <= u < g.v ==> Count(r.adj[w], u) == Count(g.adj[u], w)
  {
    EntriesEmpty(g.v);
    assert g.adj[..0] == [];
    forall w, u | 0 <= w < g.v && 0 <= u < g.v
      ensures Count(Empty(g.v).adj[w], u) == 0
    {
    }
    ReverseFromSpec(g, Empty(g.v), 0);
    if forall u, s :: 0 <= u < g.v && s in g.adj[u] ==> 0 <= s < g.v {
      forall u, i | 0 <= u < g.v && 0 <= i < |g.adj[u]|
        ensures 0 <= g.adj[u][i] < g.v
      {
        assert g.adj[u][i] in g.adj[u];
      }
    }
  }

  /** In the reverse, `u -> w` is an edge exactly when `w -> u` is one in the receiver. */
  lemma ReverseEdges(g: Graph)
    requires Valid(g)
    ensures Reverse(g).Ok? && Valid(Reverse(g).value) && |Reverse(g).value.adj| == g.v
    ensures forall u, w :: 0 <= u < g.v && 0 <= w < g.v ==> (w in Reverse(g).value.adj[u] <==> u in g.adj[w])
  {
    ReverseSpec(g);
    var r := Reverse(g).value;
    forall u, w | 0 <= u < g.v && 0 <= w < g.v
      ensures w in r.adj[u] <==> u in g.adj[w]
    {
      CountPositive(r.adj[u], w);
      CountPositive(g.adj[w], u);
    }
  }

  /** Reachability in the reverse is reachability in the receiver read backwards. */
  lemma ReverseReach(g: Graph, a: int, b: int)
    requires Valid(g)
    ensures Reverse(g).Ok? && (Reach(Reverse(g).value, a, b) <==> Reach(g, b, a))
  {
    ReverseEdges(g);
    var r := Reverse(g).value;
    if Reach(r, a, b) {
      FlipWalk(r, g, a, b);
    }
    if Reach(g, b, a) {
      FlipWalk(g, r, b, a);
    }
  }

  /** A walk in `h` read backwards is a walk in `k`, when `k` has exactly the flipped edges. */
  lemma FlipWalk(h: Graph, k: Graph, a: int, b: int)
    requires |h.adj| == |k.adj|
    requires forall u, w :: 0 <= u < |h.adj| && 0 <= w < |h.adj| ==> (w in h.adj[u] <==> u in k.adj[w])
    requires Reach(h, a, b)
    ensures Reach(k, b, a)
  {
    var p :| IsWalk(h, p) && p[0] == a && p[|p| - 1] == b;
    var q := seq(|p|, i requires 0 <= i < |p| => p[|p| - 1 - i]);
    assert IsWalk(k, q) by {
      forall i | 0 <= i < |q| - 1
        ensures q[i + 1] in k.adj[q[i]]
      {
        assert p[|p| - 1 - i] in h.adj[p[|p| - 2 - i]];
      }
    }
  }
}

=== FILE: dynamic_array.dfy ===
/**
 * `stack.DynamicArray`: a stack on a resizing array. The items sit in slots
 * `[0, n)`, bottom first; every later slot is null.
 */
module DynamicArrays {
  import opened Wrappers
  import opened ArrayResizable

  datatype DynamicArray<T> = DynamicArray(slots: seq<Option<T>>, n: int)

  /** Between calls: the items are packed and the growth policy holds. */
  predicate Valid<T>(s: DynamicArray<T>)
  {
    Packed(s.slots, s.n) && Balanced(|s.slots|, s.n)
  }

  /** The stack's items, bottom first. */
  function Stacked<T>(s: DynamicArray<T>): seq<T>
    requires Packed(s.slots, s.n)
  {
    Items(s.slots, s.n)
  }

  /** The constructor: two null slots, no items. */
  function New<T>(): (s: DynamicArray<T>)
  {
    DynamicArray([None, None], 0)
  }

  /** A new stack is empty and has two null slots. */
  lemma NewSpec<T>()
    ensures var s := New<T>(); Valid(s) && Stacked(s) == [] && |s.slots| == 2
  {
  }

  function IsEmpty<T>(s: DynamicArray<T>): (b: bool)
    requires Packed(s.slots, s.n)
    ensures b <==> Stacked(s) == []
  {
    s.n == 0
  }

  function Size<T>(s: DynamicArray<T>): (k: int)
    requires Packed(s.slots, s.n)
    ensures k == |Stacked(s)|
  {
    s.n
  }

  /**
   * `push(item)`: a null item throws IllegalArgumentException; a full array
   * is first resized to twice its length; then the item goes into slot `n`.
   * Only a zero-length array (an iterator's copy of an empty stack) cannot
   * take it.
   */
  function Push<T>(s: DynamicArray<T>, x: Option<T>): (r: Result<DynamicArray<T>>)
    requires Packed(s.slots, s.n)
    ensures x.None? <==> r == Err(IllegalArgument)
    ensures r.Err? && x.Some? ==> r.error == IndexOutOfBounds && |s.slots| == 0
    ensures r.Ok? ==> Packed(r.value.slots, r.value.n) && Stacked(r.value) == Stacked(s) + [x.value]
    ensures r.Ok? ==> |r.value.slots| == Grown(|s.slots|, s.n)
    ensures Valid(s) && x.Some? ==> r.Ok? && Valid(r.value)
  {
    match x
    case None => Err(IllegalArgument)
    case Some(v) =>
      var a := if s.n == |s.slots| then Resized(s.slots, s.n, 2 * |s.slots|) else s.slots;
      ResizedItems(s.slots, s.n, |a|);
      if s.n >= |a| then Err(IndexOutOfBounds)
      else
        var r := DynamicArray(a[s.n := Some(v)], s.n + 1);
        assert Stacked(r) == Stacked(s) + [v] by {
          assert forall i :: 0 <= i < s.n ==> Stacked(r)[i] == Items(a, s.n)[i];
        }
        if Valid(s) then GrowBalanced(|s.slots|, s.n); Ok(r) else Ok(r)
  }

  /**
   * `pop()`: an empty stack throws NoSuchElementException; otherwise the top
   * item is returned, its slot is nulled, and a stack left exactly a quarter
   * full (and not empty) is resized to half the length.
   */
  function Pop<T>(s: DynamicArray<T>): (r: Result<Pair<T, DynamicArray<T>>>)
    requires Packed(s.slots, s.n)
    ensures s.n == 0 <==> r == Err(NoSuchElement)
    ensures r.Ok? ==> Packed(r.value.1.slots, r.value.1.n) && Stacked(s) == Stacked(r.value.1) + [r.value.0]
    ensures r.Ok? ==> |r.value.1.slots| == Shrunk(|s.slots|, s.n - 1)
    ensures r.Ok? && Valid(s) ==> Valid(r.value.1)
  {
    if s.n == 0 then Err(NoSuchElement)
    else
      var item := s.slots[s.n - 1].value;
      var m := s.n - 1;
      var a := s.slots[m := None];
      assert Packed(a, m);
      var aNew := if m > 0 && m == |a| / 4 then Resized(a, m, |a| / 2) else a;
      ResizedItems(a, m, |aNew|);
      assert Stacked(s) == Items(a, m) + [item] by {
        assert forall i :: 0 <= i < m ==> Stacked(s)[i] == Items(a, m)[i];
      }
      if Valid(s) then ShrinkBalanced(|s.slots|, s.n); Ok((item, DynamicArray(aNew, m)))
      else Ok((item, DynamicArray(aNew, m)))
  }

  /** `peek()`: the top item, or NoSuchElementException on an empty stack. */
  function Peek<T>(s: DynamicArray<T>): (r: Result<T>)
    requires Packed(s.slots, s.n)
    ensures s.n == 0 <==> r == Err(NoSuchElement)
    ensures r.Ok? ==> r.value == Pop(s).value.0
  {
    if s.n == 0 then Err(NoSuchElement) else Ok(s.slots[s.n - 1].value)
  }

  /**
   * `iterator()`: `Util.copy` of slots `[0, n-1]` into an array of exactly
   * `n` slots, wrapped as a second stack that `next()` pops.
   */
  function Iterator<T>(s: DynamicArray<T>): (c: DynamicArray<T>)
    requires Packed(s.slots, s.n)
    ensures Packed(c.slots, c.n) && Stacked(c) == Stacked(s)
  {
    DynamicArray(s.slots[..s.n], s.n)
  }

  /** What `next()` yields until `hasNext()` is false. */
  function Drain<T>(c: DynamicArray<T>): seq<T>
    requires Packed(c.slots, c.n)
    decreases c.n
  {
    match Pop(c)
    case Err(_) => []
    case Ok((x, cNew)) => [x] + Drain(cNew)
  }

  lemma {:induction false} DrainReversed<T>(c: DynamicArray<T>)
    requires Packed(c.slots, c.n)
    decreases c.n
    ensures Drain(c) == Reverse(Stacked(c))
  {
    if c.n > 0 {
      var cNew := Pop(c).value.1;
      DrainReversed(cNew);
      var xs := Stacked(cNew);
      var x := Pop(c).value.0;
      assert Stacked(c) == xs + [x];
      ReverseSnoc(xs, x);
    }
  }

  lemma ReverseSnoc<T>(xs: seq<T>, x: T)
    ensures Reverse(xs + [x]) == [x] + Reverse(xs)
  {
  }

  /**
   * The iterator yields the items top first, the same order repeated `pop()`
   * would give, and the stack it was taken from is a value, untouched.
   */
  lemma IteratorLastInFirstOut<T>(s: DynamicArray<T>)
    requires Packed(s.slots, s.n)
    ensures Drain(Iterator(s)) == Reverse(Stacked(s))
  {
    DrainReversed(Iterator(s));
  }

  /** Pushing every item of `xs`, first to last. */
  function PushAll<T>(s: DynamicArray<T>, xs: seq<T>): (r: DynamicArray<T>)
    requires Valid(s)
    decreases |xs|
    ensures Valid(r)
  {
    if xs == [] then s else PushAll(Push(s, Some(xs[0])).value, xs[1..])
  }

  /**
   * Pushes alone keep the capacity the least power of two that holds the
   * items (and at least 2): from a new stack 3 items need 4 slots, 5 need 8.
   */
  lemma {:induction false} PushAllCapacity<T>(s: DynamicArray<T>, xs: seq<T>)
    requires Valid(s) && (|s.slots| == 2 || |s.slots| / 2 < s.n)
    decreases |xs|
    ensures var r := PushAll(s, xs);
      Stacked(r) == Stacked(s) + xs && (|r.slots| == 2 || |r.slots| / 2 < r.n)
  {
    if xs != [] {
      var s1 := Push(s, Some(xs[0])).value;
      PushCapacity(s, xs[0]);
      PushAllCapacity(s1, xs[1..]);
      assert Stacked(s) + xs == Stacked(s1) + xs[1..];
    }
  }

  /** One push keeps the capacity the least power of two that holds the items. */
  lemma PushCapacity<T>(s: DynamicArray<T>, x: T)
    requires Valid(s) && (|s.slots| == 2 || |s.slots| / 2 < s.n)
    ensures var r := Push(s, Some(x)).value;
      |r.slots| == 2 || |r.slots| / 2 < r.n
  {
  }
}

=== FILE: graph_processor.dfy ===
/**
 * `GraphProcessor`: degree, maximum degree and self-loop count of a graph,
 * each a loop over the adjacency lists.
 */
module GraphProcessor {
  import opened Wrappers
  import opened Graphs
  import AdjacencyListGraphs

  /** `degree(G, v)`: one step per entry of `adj(v)`; outside `[0, V)` an index error. */
  method Degree(g: Graph, v: int) returns (r: Result<nat>)
    requires |g.adj| == g.v
    ensures r.Ok? <==> 0 <= v < g.v
    ensures r.Err? ==> r.error == IndexOutOfBounds
    ensures r.Ok? ==> r.value == |g.adj[v]|
  {
    if !(0 <= v < g.v) {
      return Err(IndexOutOfBounds);
    }
    var ws := g.adj[v];
    var d := 0;
    var i := 0;
    while i < |ws|
      invariant 0 <= i <= |ws| && d == i
    {
      d := d + 1;
      i := i + 1;
    }
    return Ok(d);
  }

  /** `maxDegree(G)`: the largest degree, 0 when there are no vertices or no edges. */
  method MaxDegree(g: Graph) returns (m: nat)
    requires |g.adj| == g.v
    ensures forall v :: 0 <= v < g.v ==> |g.adj[v]| <= m
    ensures m == 0 || exists v :: 0 <= v < g.v && |g.adj[v]| == m
  {
    m := 0;
    var v := 0;
    while v < g.v
      invariant 0 <= v <= g.v
      invariant forall x :: 0 <= x < v ==> |g.adj[x]| <= m
      invariant m == 0 || exists x :: 0 <= x < v && |g.adj[x]| == m
    {
      var d := Degree(g, v);
      if d.value > m {
        m := d.value;
      }
      v := v + 1;
    }
  }

  /** Entries `v` in `adj(v)`, summed over the vertices below `n`. */
  ghost function SelfEntries(g: Graph, n: nat): nat
    requires n <= |g.adj|
  {
    if n == 0 then 0 else SelfEntries(g, n - 1) + Count(g.adj[n - 1], n - 1)
  }

  /** `numberOfSelfLoops(G)`: the entries `v` of each `adj(v)` counted, then halved. */
  method NumberOfSelfLoops(g: Graph) returns (r: nat)
    requires |g.adj| == g.v
    ensures r == SelfEntries(g, g.v) / 2
  {
    var count := 0;
    var v := 0;
    while v < g.v
      invariant 0 <= v <= g.v && count == SelfEntries(g, v)
    {
      var ws := g.adj[v];
      var j := 0;
      while j < |ws|
        invariant 0 <= j <= |ws| && count == SelfEntries(g, v) + Count(ws[..j], v)
      {
        assert ws[..j + 1] == ws[..j] + [ws[j]];
        CountAppend(ws[..j], [ws[j]], v);
        if ws[j] == v {
          count := count + 1;
        }
        j := j + 1;
      }
      assert ws[..|ws|] == ws;
      v := v + 1;
    }
    r := count / 2;
  }

  /**
   * Adding an undirected edge adds two self entries when it is a self-loop
   * and none otherwise.
   */
  lemma {:induction false} AddEdgeSelfEntries(g: Graph, v: int, w: int, n: nat)
    requires |g.adj| == g.v && AdjacencyListGraphs.AddEdge(g, v, w).Ok? && n <= g.v
    ensures SelfEntries(AdjacencyListGraphs.AddEdge(g, v, w).value, n)
      == SelfEntries(g, n) + (if v == w && v < n then 2 else 0)
  {
    var gNew := AdjacencyListGraphs.AddEdge(g, v, w).value;
    if n > 0 {
      AddEdgeSelfEntries(g, v, w, n - 1);
      var x := n - 1;
      if x == v && v != w {
        assert gNew.adj[x][1..] == g.adj[x];
      } else if x == w && v != w {
        assert gNew.adj[x][1..] == g.adj[x];
      } else if x == v {
        assert gNew.adj[x][1..] == [v] + g.adj[x];
        assert ([v] + g.adj[x])[1..] == g.adj[x];
        assert Count([v] + g.adj[x], x) == 1 + Count(g.adj[x], x);
        assert Count(gNew.adj[x], x) == 2 + Count(g.adj[x], x);
      }
    }
  }

  /** `addEdge` for each pair of `es` in turn; the first failure is the result. */
  function AddEdges(g: Graph, es: seq<Pair<int, int>>): (r: Result<Graph>)
    requires |g.adj| == g.v
    decreases |es|
    ensures r.Ok? ==> |r.value.adj| == r.value.v == g.v
  {
    if es == [] then Ok(g)
    else
      match AdjacencyListGraphs.AddEdge(g, es[0].0, es[0].1)
      case Err(e) => Err(e)
      case Ok(g1) => AddEdges(g1, es[1..])
  }

  /** Number of self-loops `(v, v)` among the pairs. */
  function Loops(es: seq<Pair<int, int>>): nat
  {
    if es == [] then 0 else (if es[0].0 == es[0].1 then 1 else 0) + Loops(es[1..])
  }

  /**
   * Each self-loop puts its vertex twice into its own list, so the self
   * entries of a graph built with `addEdge` are twice its self-loops and
   * halving counts them exactly.
   */
  lemma {:induction false} AddEdgesSelfLoops(g: Graph, es: seq<Pair<int, int>>)
    requires |g.adj| == g.v && AddEdges(g, es).Ok?
    decreases |es|
    ensures SelfEntries(AddEdges(g, es).value, g.v) == SelfEntries(g, g.v) + 2 * Loops(es)
  {
    if es != [] {
      var g1 := AdjacencyListGraphs.AddEdge(g, es[0].0, es[0].1).value;
      AddEdgeSelfEntries(g, es[0].0, es[0].1, g.v);
      AddEdgesSelfLoops(g1, es[1..]);
    }
  }

  /** On a graph built from scratch, the halved count is the number of self-loops added. */
  lemma SelfLoopsFromScratch(n: nat, es: seq<Pair<int, int>>)
    requires AddEdges(Empty(n), es).Ok?
    ensures SelfEntries(AddEdges(Empty(n), es).value, n) / 2 == Loops(es)
  {
    AddEdgesSelfLoops(Empty(n), es);
    EmptySelfEntries(n, n);
  }

  lemma {:induction false} EmptySelfEntries(n: nat, k: nat)
    requires k <= n
    ensures SelfEntries(Empty(n), k) == 0
  {
    if k > 0 {
      EmptySelfEntries(n, k - 1);
    }
  }

  /** Ends of the pairs of `es` at vertex `x`; a self-loop `(x, x)` has two. */
  function Ends(es: seq<Pair<int, int>>, x: int): nat
  {
    if es == [] then 0
    else (if es[0].0 == x then 1 else 0) + (if es[0].1 == x then 1 else 0) + Ends(es[1..], x)
  }

  /** Each `addEdge` lengthens the list of a vertex by the ends it has there. */
  lemma {:induction false} AddEdgesDegree(g: Graph, es: seq<Pair<int, int>>, x: int)
    requires |g.adj| == g.v && AddEdges(g, es).Ok? && 0 <= x < g.v
    decreases |es|
    ensures |AddEdges(g, es).value.adj[x]| == |g.adj[x]| + Ends(es, x)
  {
    if es != [] {
      var g1 := AdjacencyListGraphs.AddEdge(g, es[0].0, es[0].1).value;
      AddEdgesDegree(g1, es[1..], x);
    }
  }

  /**
   * On a graph built from scratch, `degree(G, x)` is the number of edge ends
   * at `x`: the degree counts neighbours with multiplicity and a self-loop
   * twice.
   */
  method DegreeFromScratch(n: nat, es: seq<Pair<int, int>>, x: int) returns (r: Result<nat>)
    requires AddEdges(Empty(n), es).Ok?
    ensures r.Ok? <==> 0 <= x < n
    ensures r.Ok? ==> r.value == Ends(es, x)
  {
    var g := AddEdges(Empty(n), es).value;
    r := Degree(g, x);
    if r.Ok? {
      AddEdgesDegree(Empty(n), es, x);
    }
  }
}

=== FILE: graphs.dfy ===
/**
 * The shape shared by the undirected and the directed adjacency-list graphs:
 * vertex count, edge counter, and one adjacency list per vertex. Each list is
 * given in the order its bag iterates it, most recently added neighbour first.
 * Walks, reachability and closed vertex sets are defined here once and used
 * by every traversal.
 */
module Graphs {
  import opened Wrappers

  datatype Graph = Graph(v: nat, e: nat, adj: seq<seq<int>>)

  /** One list per vertex, and every stored neighbour is a vertex. */
  predicate Valid(g: Graph)
  {
    |g.adj| == g.v && forall u, i :: 0 <= u < g.v && 0 <= i < |g.adj[u]| ==> 0 <= g.adj[u][i] < g.v
  }

  /** `n` isolated vertices and a zero edge counter: what both constructors build. */
  function Empty(n: nat): (g: Graph)
    ensures Valid(g) && g.v == n && g.e == 0 && |g.adj| == n
    ensures forall u :: 0 <= u < n ==> g.adj[u] == []
  {
    Graph(n, 0, seq(n, _ => []))
  }

  /** Total number of adjacency entries over all lists. */
  function Entries(adj: seq<seq<int>>): nat
  {
    if adj == [] then 0 else |adj[0]| + Entries(adj[1..])
  }

  lemma {:induction false} EntriesPrepend(adj: seq<seq<int>>, u: nat, x: int)
    requires u < |adj|
    ensures Entries(adj[u := [x] + adj[u]]) == Entries(adj) + 1
  {
    if u > 0 {
      assert adj[u := [x] + adj[u]][1..] == adj[1..][u - 1 := [x] + adj[u]];
      EntriesPrepend(adj[1..], u - 1, x);
    }
  }

  lemma {:induction false} EntriesAppend(adj: seq<seq<int>>, x: seq<int>)
    ensures Entries(adj + [x]) == Entries(adj) + |x|
  {
    if adj != [] {
      assert (adj + [x])[1..] == adj[1..] + [x];
      EntriesAppend(adj[1..], x);
    }
  }

  lemma {:induction false} EntriesEmpty(n: nat)
    ensures Entries(Empty(n).adj) == 0
  {
    if n > 0 {
      assert Empty(n).adj[1..] == Empty(n - 1).adj;
      EntriesEmpty(n - 1);
    }
  }

  /** A walk: a non-empty vertex sequence in which each vertex lists the next as a neighbour. */
  ghost predicate IsWalk(g: Graph, p: seq<int>)
  {
    |p| > 0
    && (forall i :: 0 <= i < |p| ==> 0 <= p[i] < |g.adj|)
    && (forall i :: 0 <= i < |p| - 1 ==> p[i + 1] in g.adj[p[i]])
  }

  /** `w` can be reached from `u` by following adjacency lists (zero or more steps). */
  ghost predicate Reach(g: Graph, u: int, w: int)
  {
    exists p :: IsWalk(g, p) && p[0] == u && p[|p| - 1] == w
  }

  /** `u` and `w` lie in the same strong component. */
  ghost predicate MutReach(g: Graph, u: int, w: int)
  {
    Reach(g, u, w) && Reach(g, w, u)
  }

  lemma ReachRefl(g: Graph, u: int)
    requires 0 <= u < |g.adj|
    ensures Reach(g, u, u)
  {
    assert IsWalk(g, [u]);
  }

  lemma ReachStep(g: Graph, u: int, x: int, w: int)
    requires Reach(g, u, x) && 0 <= x < |g.adj| && w in g.adj[x] && 0 <= w < |g.adj|
    ensures Reach(g, u, w)
  {
    var p :| IsWalk(g, p) && p[0] == u && p[|p| - 1] == x;
    assert IsWalk(g, p + [w]);
  }

  lemma ReachEdge(g: Graph, u: int, w: int)
    requires 0 <= u < |g.adj| && w in g.adj[u] && 0 <= w < |g.adj|
    ensures Reach(g, u, w)
  {
    ReachRefl(g, u);
    ReachStep(g, u, u, w);
  }

  lemma ReachTrans(g: Graph, u: int, x: int, w: int)
    requires Reach(g, u, x) && Reach(g, x, w)
    ensures Reach(g, u, w)
  {
    var p :| IsWalk(g, p) && p[0] == u && p[|p| - 1] == x;
    var q :| IsWalk(g, q) && q[0] == x && q[|q| - 1] == w;
    var r := p + q[1..];
    assert IsWalk(g, r) by {
      forall i | 0 <= i < |r| - 1
        ensures r[i + 1] in g.adj[r[i]]
      {
        if i < |p| - 1 {
          assert r[i] == p[i] && r[i + 1] == p[i + 1];
        } else {
          assert r[i] == q[i - |p| + 1] && r[i + 1] == q[i - |p| + 2];
        }
      }
    }
  }

  lemma ReachVertex(g: Graph, u: int, w: int)
    requires Reach(g, u, w)
    ensures 0 <= u < |g.adj| && 0 <= w < |g.adj|
  {
  }

  /** Every neighbour of a vertex in the set is in the set. */
  ghost predicate Closed(g: Graph, marked: seq<bool>)
  {
    |marked| == |g.adj|
    && forall x, w :: 0 <= x < |marked| && marked[x] && w in g.adj[x] ==> 0 <= w < |marked| && marked[w]
  }

  /** A closed set holds everything reachable from its members. */
  lemma {:induction false} ClosedReach(g: Graph, marked: seq<bool>, u: int, w: int)
    requires Closed(g, marked) && 0 <= u < |marked| && marked[u] && Reach(g, u, w)
    ensures 0 <= w < |marked| && marked[w]
  {
    var p :| IsWalk(g, p) && p[0] == u && p[|p| - 1] == w;
    var i := 0;
    while i < |p| - 1
      invariant 0 <= i < |p| && marked[p[i]]
    {
      i := i + 1;
    }
  }

  /** Each pair of vertices lists each other equally often: an undirected graph. */
  ghost predicate Symmetric(g: Graph)
  {
    forall u, w :: 0 <= u < |g.adj| && 0 <= w < |g.adj| ==> Count(g.adj[u], w) == Count(g.adj[w], u)
  }

  lemma SymmetricReach(g: Graph, u: int, w: int)
    requires Valid(g) && Symmetric(g) && Reach(g, u, w)
    ensures Reach(g, w, u)
  {
    var p :| IsWalk(g, p) && p[0] == u && p[|p| - 1] == w;
    var q := seq(|p|, i requires 0 <= i < |p| => p[|p| - 1 - i]);
    assert IsWalk(g, q) by {
      forall i | 0 <= i < |q| - 1
        ensures q[i + 1] in g.adj[q[i]]
      {
        var a, b := p[|p| - 2 - i], p[|p| - 1 - i];
        assert b in g.adj[a];
        CountPositive(g.adj[a], b);
        CountPositive(g.adj[b], a);
      }
    }
  }

  /** No edge `u -> w` is closed into a cycle by a way back from `w` to `u`. */
  ghost predicate Acyclic(g: Graph)
  {
    forall u, w :: 0 <= u < |g.adj| && w in g.adj[u] ==> !Reach(g, w, u)
  }

  /** Number of unmarked vertices. */
  function Unmarked(m: seq<bool>): nat
  {
    if m == [] then 0 else (if m[0] then 0 else 1) + Unmarked(m[1..])
  }

  lemma {:induction false} UnmarkedMark(m: seq<bool>, v: nat)
    requires v < |m| && !m[v]
    ensures Unmarked(m[v := true]) + 1 == Unmarked(m)
  {
    if v > 0 {
      assert m[v := true][1..] == m[1..][v - 1 := true];
      UnmarkedMark(m[1..], v - 1);
    }
  }
}

=== FILE: interval_search_tree.dfy ===
/**
 * `IntervalSearchTree`: a binary search tree of closed intervals `[lo, hi]`
 * keyed on `lo` (no two intervals share a left endpoint), each node also
 * keeping `max`, which is meant to be the largest right endpoint in its
 * subtree. As with `BinarySearchTree`, every update returns the new tree.
 * Values may be null: `put` stores whatever value it is given.
 *
 * Four places do not do what the class promises, and each is modelled
 * twice, as written and as evidently intended: `overlaps` misses a query
 * that contains the whole interval, `getAnyIntersection` descends to the
 * wrong side, `intersects` follows a single path, and `delete` never
 * recomputes `max`.
 */
module IntervalSearchTrees {
  import opened Wrappers
  import BinarySearchTrees

  /** The `Interval` inner class: endpoints and the value paired with them. */
  datatype Interval<V> = Interval(lo: int, hi: int, value: Option<V>)

  /** A node's key is the `lo` of its interval. */
  datatype Tree<V> = Leaf | Node(lo: int, hi: int, value: Option<V>, max: int, left: Tree<V>, right: Tree<V>)

  // ---- what the tree stands for ----

  /** The keys: every left endpoint in the tree. */
  function Los<V(==)>(t: Tree<V>): set<int>
  {
    match t
    case Leaf => {}
    case Node(lo, _, _, _, l, r) => Los(l) + {lo} + Los(r)
  }

  /** Smaller left endpoints to the left, larger to the right, at every node. */
  predicate Ordered<V(==)>(t: Tree<V>)
  {
    match t
    case Leaf => true
    case Node(lo, _, _, _, l, r) =>
      Ordered(l) && Ordered(r)
      && (forall x :: x in Los(l) ==> x < lo)
      && (forall x :: x in Los(r) ==> lo < x)
  }

  /** The table the tree stands for: each left endpoint to its right endpoint and value. */
  function Map<V(==)>(t: Tree<V>): (m: map<int, Pair<int, Option<V>>>)
    ensures m.Keys == Los(t)
  {
    match t
    case Leaf => map[]
    case Node(lo, hi, v, _, l, r) => Map(l) + Map(r) + map[lo := (hi, v)]
  }

  /** Interval `i` is held by some node of `t`. */
  predicate Stored<V(==)>(t: Tree<V>, i: Interval<V>)
  {
    match t
    case Leaf => false
    case Node(lo, hi, v, _, l, r) => i == Interval(lo, hi, v) || Stored(l, i) || Stored(r, i)
  }

  function Max(a: int, b: int): int
  {
    if a >= b then a else b
  }

  /** The largest right endpoint in a non-empty tree. */
  function HiMax<V(==)>(t: Tree<V>): int
    requires t.Node?
  {
    var m := if t.left.Node? then Max(t.hi, HiMax(t.left)) else t.hi;
    if t.right.Node? then Max(m, HiMax(t.right)) else m
  }

  /** Every `max` is exactly the largest right endpoint below it: what `put` maintains. */
  predicate Exact<V(==)>(t: Tree<V>)
  {
    match t
    case Leaf => true
    case Node(_, _, _, mx, l, r) => Exact(l) && Exact(r) && mx == HiMax(t)
  }

  /** Every `max` is at least every right endpoint below it: what the searches rely on. */
  predicate Covers<V(==)>(t: Tree<V>)
  {
    match t
    case Leaf => true
    case Node(_, _, _, mx, l, r) => Covers(l) && Covers(r) && mx >= HiMax(t)
  }

  lemma {:induction false} ExactCovers<V>(t: Tree<V>)
    requires Exact(t)
    ensures Covers(t)
  {
    if t.Node? {
      ExactCovers(t.left);
      ExactCovers(t.right);
    }
  }

  /** No stored right endpoint exceeds `HiMax`, and every stored left endpoint is a key. */
  lemma {:induction false} StoredBound<V>(t: Tree<V>, i: Interval<V>)
    requires Stored(t, i)
    ensures t.Node? && i.hi <= HiMax(t) && i.lo in Los(t)
  {
    if i != Interval(t.lo, t.hi, t.value) {
      if Stored(t.left, i) {
        StoredBound(t.left, i);
      } else {
        StoredBound(t.right, i);
      }
    }
  }

  /** Some stored interval reaches `HiMax`. */
  lemma {:induction false} HiMaxWitness<V>(t: Tree<V>) returns (i: Interval<V>)
    requires t.Node?
    ensures Stored(t, i) && i.hi == HiMax(t)
  {
    i := Interval(t.lo, t.hi, t.value);
    if t.left.Node? && HiMax(t.left) > i.hi {
      i := HiMaxWitness(t.left);
    }
    if t.right.Node? && HiMax(t.right) > i.hi {
      i := HiMaxWitness(t.right);
    }
  }

  /** On an ordered tree, the stored intervals are exactly the entries of the table. */
  lemma {:induction false} StoredMap<V>(t: Tree<V>, i: Interval<V>)
    requires Ordered(t)
    ensures Stored(t, i) <==> i.lo in Map(t) && Map(t)[i.lo] == (i.hi, i.value)
  {
    if t.Node? {
      StoredMap(t.left, i);
      StoredMap(t.right, i);
      if Stored(t.left, i) {
        StoredBound(t.left, i);
      }
      if Stored(t.right, i) {
        StoredBound(t.right, i);
      }
    }
  }

  /** `isEmpty()`: the root is null, that is, no interval is stored. */
  function IsEmpty<V(==)>(t: Tree<V>): (b: bool)
    ensures b <==> Los(t) == {}
  {
    assert t.Node? ==> t.lo in Los(t);
    t.Leaf?
  }

  // ---- put ----

  /**
   * The recursive `put`: raise `max` on the way down where `hi` exceeds it,
   * hang a new node where the search falls off, and refuse a left endpoint
   * that is already a key.
   */
  function Insert<V(==)>(t: Tree<V>, lo: int, hi: int, value: Option<V>): (r: Result<Tree<V>>)
    ensures r.Err? ==> r.error == IllegalArgument && lo in Los(t)
    ensures Ordered(t) && lo in Los(t) ==> r.Err?
    ensures r.Ok? ==> r.value.Node? && Los(r.value) == Los(t) + {lo}
  {
    match t
    case Leaf => Ok(Node(lo, hi, value, hi, Leaf, Leaf))
    case Node(k, h, v, mx, l, r) =>
      var mxNew := if hi > mx then hi else mx;
      if k > lo then
        match Insert(l, lo, hi, value)
        case Err(e) => Err(e)
        case Ok(lNew) =>
          assert Ordered(t) ==> lo !in Los(r);
          Ok(Node(k, h, v, mxNew, lNew, r))
      else if k < lo then
        match Insert(r, lo, hi, value)
        case Err(e) => Err(e)
        case Ok(rNew) =>
          assert Ordered(t) ==> lo !in Los(l);
          Ok(Node(k, h, v, mxNew, l, rNew))
      else Err(IllegalArgument)
  }

  /** On an ordered tree, the recursive `put` keeps the order and maps `lo` to `(hi, value)`, all else alike. */
  lemma {:induction false} InsertMap<V>(t: Tree<V>, lo: int, hi: int, value: Option<V>)
    requires Ordered(t) && Insert(t, lo, hi, value).Ok?
    ensures var r := Insert(t, lo, hi, value).value;
      Ordered(r) && Map(r) == Map(t)[lo := (hi, value)]
  {
    if t.Node? {
      var mxNew := if hi > t.max then hi else t.max;
      if t.lo > lo {
        InsertMap(t.left, lo, hi, value);
        InsertedLeft(t, lo, hi, value, mxNew, Insert(t.left, lo, hi, value).value);
      } else if t.lo < lo {
        InsertMap(t.right, lo, hi, value);
        InsertedRight(t, lo, hi, value, mxNew, Insert(t.right, lo, hi, value).value);
      }
    }
  }

  /** A new key below the root, added to the ordered left subtree, leaves the whole tree ordered with the key added. */
  lemma InsertedLeft<V>(t: Tree<V>, lo: int, hi: int, value: Option<V>, mx: int, lNew: Tree<V>)
    requires t.Node? && Ordered(t) && lo < t.lo && Ordered(lNew) && Map(lNew) == Map(t.left)[lo := (hi, value)]
    ensures var u := Node(t.lo, t.hi, t.value, mx, lNew, t.right);
      Ordered(u) && Map(u) == Map(t)[lo := (hi, value)]
  {
    assert Los(lNew) == Map(lNew).Keys;
    assert lo !in Map(t.right);
    BinarySearchTrees.MapUpdateLeft(Map(t.left), Map(t.right), t.lo, (t.hi, t.value), lo, (hi, value));
  }

  /** The mirror image of `InsertedLeft`. */
  lemma InsertedRight<V>(t: Tree<V>, lo: int, hi: int, value: Option<V>, mx: int, rNew: Tree<V>)
    requires t.Node? && Ordered(t) && t.lo < lo && Ordered(rNew) && Map(rNew) == Map(t.right)[lo := (hi, value)]
    ensures var u := Node(t.lo, t.hi, t.value, mx, t.left, rNew);
      Ordered(u) && Map(u) == Map(t)[lo := (hi, value)]
  {
    assert Los(rNew) == Map(rNew).Keys;
    BinarySearchTrees.MapUpdateRight(Map(t.left), Map(t.right), t.lo, (t.hi, t.value), lo, (hi, value));
  }

  /**
   * `put` raises `max` to `hi` along the path it takes, so the largest right
   * endpoint of the tree becomes the larger of the old one and `hi`, and
   * exact (or covering) `max` fields stay exact (or covering).
   */
  lemma {:induction false} InsertMax<V>(t: Tree<V>, lo: int, hi: int, value: Option<V>)
    requires Insert(t, lo, hi, value).Ok?
    ensures var u := Insert(t, lo, hi, value).value;
      HiMax(u) == (if t.Leaf? then hi else Max(HiMax(t), hi))
      && (Exact(t) ==> Exact(u))
      && (Covers(t) ==> Covers(u))
  {
    if t.Node? {
      if t.lo > lo {
        InsertMax(t.left, lo, hi, value);
      } else if t.lo < lo {
        InsertMax(t.right, lo, hi, value);
      }
    }
  }

  /** `put(lo, hi, value)`: null endpoints are refused. */
  function Put<V(==)>(t: Tree<V>, lo: Option<int>, hi: Option<int>, value: Option<V>): (r: Result<Tree<V>>)
    ensures lo.None? || hi.None? <==> r == Err(NullPointer)
    ensures Ordered(t) && lo.Some? && hi.Some? ==> (r == Err(IllegalArgument) <==> lo.value in Los(t))
    ensures r.Ok? && Ordered(t) ==> Ordered(r.value) && Map(r.value) == Map(t)[lo.value := (hi.value, value)]
    ensures r.Ok? && Exact(t) ==> Exact(r.value)
  {
    if lo.None? || hi.None? then Err(NullPointer)
    else
      if Insert(t, lo.value, hi.value, value).Ok? then
        InsertMax(t, lo.value, hi.value, value);
        if Ordered(t) then
          InsertMap(t, lo.value, hi.value, value);
          Insert(t, lo.value, hi.value, value)
        else Insert(t, lo.value, hi.value, value)
      else Insert(t, lo.value, hi.value, value)
  }

  // ---- get ----

  /** `get`'s loop: stop at the exact interval, go by `lo`, and give up at `lo` with another `hi`. */
  function Find<V(==)>(t: Tree<V>, lo: int, hi: int): (r: Option<V>)
    ensures Ordered(t) ==> r == if lo in Map(t) && Map(t)[lo].0 == hi then Map(t)[lo].1 else None
  {
    match t
    case Leaf => None
    case Node(k, h, v, _, l, r) =>
      if k == lo && h == hi then v
      else if k > lo then
        assert Ordered(t) ==> lo !in Map(r);
        Find(l, lo, hi)
      else if k < lo then
        assert Ordered(t) ==> lo !in Map(l);
        Find(r, lo, hi)
      else None
  }

  /** `get(lo, hi)`: the value paired with exactly `[lo, hi]`, or null. */
  function Get<V(==)>(t: Tree<V>, lo: Option<int>, hi: Option<int>): (r: Result<Option<V>>)
    ensures lo.None? || hi.None? <==> r == Err(NullPointer)
    ensures Ordered(t) && lo.Some? && hi.Some? ==>
      r == Ok(if lo.value in Map(t) && Map(t)[lo.value].0 == hi.value then Map(t)[lo.value].1 else None)
  {
    if lo.None? || hi.None? then Err(NullPointer)
    else Ok(Find(t, lo.value, hi.value))
  }

  /** `put` then `get` of the same interval gives back the value. */
  lemma PutThenGet<V>(t: Tree<V>, lo: int, hi: int, value: Option<V>)
    requires Ordered(t) && lo !in Los(t)
    ensures Put(t, Some(lo), Some(hi), value).Ok?
    ensures Get(Put(t, Some(lo), Some(hi), value).value, Some(lo), Some(hi)) == Ok(value)
  {
  }

  // ---- overlaps ----

  /** `Interval.overlaps(thatLo, thatHi)` as written: one endpoint of the query lies in `[lo, hi]`. */
  predicate OverlapsAsWritten(lo: int, hi: int, thatLo: int, thatHi: int)
  {
    (lo <= thatLo && hi >= thatLo) || (lo <= thatHi && hi >= thatHi)
  }

  /** Two closed intervals intersect: they share a point. */
  predicate Intersect(lo: int, hi: int, thatLo: int, thatHi: int)
  {
    lo <= thatHi && thatLo <= hi
  }

  /**
   * For a query with `thatLo <= thatHi`, `overlaps` is intersection except
   * when the query strictly contains the interval.
   */
  lemma OverlapsMissesContainment(lo: int, hi: int, thatLo: int, thatHi: int)
    requires thatLo <= thatHi
    ensures OverlapsAsWritten(lo, hi, thatLo, thatHi) <==> Intersect(lo, hi, thatLo, thatHi) && !(thatLo < lo && hi < thatHi)
  {
  }

  /** `[2, 3]` lies inside `[0, 10]`, yet as written they do not overlap. */
  lemma OverlapsAsWrittenContained()
    ensures !OverlapsAsWritten(2, 3, 0, 10) && Intersect(2, 3, 0, 10)
  {
  }

  // ---- getAnyIntersection ----

  /**
   * `getAnyIntersection(lo, hi)` as written: the first node on its path that
   * overlaps; it goes right when the left subtree's `max` exceeds `lo`.
   */
  function AnyAsWritten<V(==)>(t: Tree<V>, lo: int, hi: int): (r: Option<Interval<V>>)
    ensures r.Some? ==> Stored(t, r.value) && OverlapsAsWritten(r.value.lo, r.value.hi, lo, hi)
  {
    match t
    case Leaf => None
    case Node(k, h, v, _, l, r) =>
      if OverlapsAsWritten(k, h, lo, hi) then Some(Interval(k, h, v))
      else if l.Leaf? then AnyAsWritten(r, lo, hi)
      else if l.max > lo then AnyAsWritten(r, lo, hi)
      else AnyAsWritten(l, lo, hi)
  }

  /**
   * `getAnyIntersection` as evidently intended: test for intersection, and
   * go left exactly when the left subtree reaches `lo`.
   */
  function Any<V(==)>(t: Tree<V>, lo: int, hi: int): (r: Option<Interval<V>>)
    ensures r.Some? ==> Stored(t, r.value) && Intersect(r.value.lo, r.value.hi, lo, hi)
  {
    match t
    case Leaf => None
    case Node(k, h, v, _, l, r) =>
      if Intersect(k, h, lo, hi) then Some(Interval(k, h, v))
      else if l.Node? && l.max >= lo then Any(l, lo, hi)
      else Any(r, lo, hi)
  }

  /** On an ordered tree whose `max` fields are exact, the search misses nothing. */
  lemma {:induction false} AnyComplete<V>(t: Tree<V>, lo: int, hi: int)
    requires Ordered(t) && Exact(t)
    ensures Any(t, lo, hi).None? <==> forall i :: Stored(t, i) ==> !Intersect(i.lo, i.hi, lo, hi)
  {
    if t.Node? && Any(t, lo, hi).None? {
      var Node(k, h, v, _, l, r) := t;
      AnyComplete(l, lo, hi);
      AnyComplete(r, lo, hi);
      if l.Node? && l.max >= lo {
        // the left subtree reaches `lo`, so what it holds beyond `hi` puts the right subtree beyond it too
        var j := HiMaxWitness(l);
        StoredBound(l, j);
        assert hi < j.lo < k;
        forall i | Stored(r, i) ensures !Intersect(i.lo, i.hi, lo, hi) {
          StoredBound(r, i);
        }
      } else {
        forall i | Stored(l, i) ensures !Intersect(i.lo, i.hi, lo, hi) {
          StoredBound(l, i);
        }
      }
      assert forall i :: Stored(t, i) ==> !Intersect(i.lo, i.hi, lo, hi);
    } else if t.Node? {
      var i := Any(t, lo, hi).value;
      assert Stored(t, i) && Intersect(i.lo, i.hi, lo, hi);
    }
  }

  /** `getAnyIntersection(lo, hi)`, corrected: null endpoints are refused. */
  function GetAnyIntersection<V(==)>(t: Tree<V>, lo: Option<int>, hi: Option<int>): (r: Result<Option<Interval<V>>>)
    ensures lo.None? || hi.None? <==> r == Err(NullPointer)
    ensures r.Ok? && r.value.Some? ==> Stored(t, r.value.value) && Intersect(r.value.value.lo, r.value.value.hi, lo.value, hi.value)
  {
    if lo.None? || hi.None? then Err(NullPointer)
    else Ok(Any(t, lo.value, hi.value))
  }

  /** `[5, 6]` with `[1, 10]` on its left: the exact `max` fields of a two-node tree. */
  function TwoNodes(): Tree<int>
  {
    Node(5, 6, Some(50), 10, Node(1, 10, Some(10), 10, Leaf, Leaf), Leaf)
  }

  /** As written, the query `[2, 3]` turns right at `[5, 6]` and misses `[1, 10]`. */
  lemma AnyAsWrittenMisses()
    ensures Ordered(TwoNodes()) && Exact(TwoNodes())
    ensures AnyAsWritten(TwoNodes(), 2, 3).None?
    ensures Stored(TwoNodes(), Interval(1, 10, Some(10))) && Intersect(1, 10, 2, 3)
    ensures Any(TwoNodes(), 2, 3) == Some(Interval(1, 10, Some(10)))
  {
  }

  // ---- intersects ----

  /**
   * `intersects(lo, hi)` as written: collect the overlapping intervals on a
   * single path from the root, going left unless the left `max` is below `lo`.
   */
  function IntersectsAsWritten<V(==)>(t: Tree<V>, lo: int, hi: int): (vs: seq<Option<V>>)
    ensures |vs| <= |AllValues(t)|
  {
    match t
    case Leaf => []
    case Node(k, h, v, _, l, r) =>
      (if OverlapsAsWritten(k, h, lo, hi) then [v] else [])
      + if l.Leaf? then IntersectsAsWritten(r, lo, hi)
        else if l.max < lo then IntersectsAsWritten(r, lo, hi)
        else IntersectsAsWritten(l, lo, hi)
  }

  /** The single-path walk reports only values stored in the tree, each at most as often as it is stored. */
  lemma {:induction false} IntersectsAsWrittenReports<V>(t: Tree<V>, lo: int, hi: int)
    ensures multiset(IntersectsAsWritten(t, lo, hi)) <= multiset(AllValues(t))
  {
    match t
    case Leaf =>
    case Node(_, _, _, _, l, r) =>
      IntersectsAsWrittenReports(l, lo, hi);
      IntersectsAsWrittenReports(r, lo, hi);
  }

  /** Every value in the tree, node first, then the left and right subtrees. */
  function AllValues<V(==)>(t: Tree<V>): seq<Option<V>>
  {
    match t
    case Leaf => []
    case Node(_, _, v, _, l, r) => [v] + AllValues(l) + AllValues(r)
  }

  /** The values of every interval meeting `[lo, hi]`, node first, then the left and right subtrees. */
  function AllIntersecting<V(==)>(t: Tree<V>, lo: int, hi: int): seq<Option<V>>
  {
    match t
    case Leaf => []
    case Node(k, h, v, _, l, r) =>
      (if Intersect(k, h, lo, hi) then [v] else []) + AllIntersecting(l, lo, hi) + AllIntersecting(r, lo, hi)
  }

  /**
   * `intersects` as evidently intended: report the node, search the left
   * subtree when its `max` reaches `lo`, and the right subtree when the
   * node's `lo` is not beyond `hi`.
   */
  function Search<V(==)>(t: Tree<V>, lo: int, hi: int): (vs: seq<Option<V>>)
    ensures multiset(vs) <= multiset(AllIntersecting(t, lo, hi))
  {
    match t
    case Leaf => []
    case Node(k, h, v, _, l, r) =>
      (if Intersect(k, h, lo, hi) then [v] else [])
      + (if l.Node? && l.max >= lo then Search(l, lo, hi) else [])
      + (if k <= hi then Search(r, lo, hi) else [])
  }

  /** A subtree lying wholly left of `lo` or wholly right of `hi` meets nothing. */
  lemma {:induction false} NoneIntersecting<V>(t: Tree<V>, lo: int, hi: int)
    requires (t.Node? && HiMax(t) < lo) || forall x :: x in Los(t) ==> x > hi
    ensures AllIntersecting(t, lo, hi) == []
  {
    if t.Node? {
      assert t.lo in Los(t);
      NoneIntersecting(t.left, lo, hi);
      NoneIntersecting(t.right, lo, hi);
    }
  }

  /** On an ordered tree whose `max` fields cover their subtrees, the pruned search reports every interval meeting the query. */
  lemma {:induction false} SearchComplete<V>(t: Tree<V>, lo: int, hi: int)
    requires Ordered(t) && Covers(t)
    ensures Search(t, lo, hi) == AllIntersecting(t, lo, hi)
  {
    if t.Node? {
      var Node(k, h, v, _, l, r) := t;
      SearchComplete(l, lo, hi);
      SearchComplete(r, lo, hi);
      if l.Node? && l.max < lo {
        NoneIntersecting(l, lo, hi);
      }
      if k > hi {
        NoneIntersecting(r, lo, hi);
      }
    }
  }

  /** `intersects(lo, hi)`, corrected: null endpoints are refused. */
  function Intersects<V(==)>(t: Tree<V>, lo: Option<int>, hi: Option<int>): (r: Result<seq<Option<V>>>)
    ensures lo.None? || hi.None? <==> r == Err(NullPointer)
    ensures Ordered(t) && Covers(t) && r.Ok? ==> r.value == AllIntersecting(t, lo.value, hi.value)
  {
    if lo.None? || hi.None? then Err(NullPointer)
    else
      if Ordered(t) && Covers(t) then
        SearchComplete(t, lo.value, hi.value);
        Ok(Search(t, lo.value, hi.value))
      else Ok(Search(t, lo.value, hi.value))
  }

  /** `[5, 9]` with `[1, 3]` on its left and `[7, 8]` on its right. */
  function ThreeNodes(): Tree<int>
  {
    Node(5, 9, Some(50), 9, Node(1, 3, Some(10), 3, Leaf, Leaf), Node(7, 8, Some(70), 8, Leaf, Leaf))
  }

  /** As written, the query `[2, 7]` goes left at the root and never reports `[7, 8]`. */
  lemma IntersectsAsWrittenMisses()
    ensures Ordered(ThreeNodes()) && Exact(ThreeNodes())
    ensures IntersectsAsWritten(ThreeNodes(), 2, 7) == [Some(50), Some(10)]
    ensures AllIntersecting(ThreeNodes(), 2, 7) == [Some(50), Some(10), Some(70)]
  {
  }

  // ---- min, deleteMin, delete ----

  /** `min(cursor)`: the leftmost node, which holds the smallest key. */
  function MinNode<V(==)>(t: Tree<V>): (m: Tree<V>)
    requires t.Node?
    ensures m.Node? && m.left.Leaf?
    ensures m.lo in Los(t) && Stored(t, Interval(m.lo, m.hi, m.value))
    ensures Ordered(t) ==> forall x :: x in Los(t) ==> m.lo <= x
  {
    if t.left.Leaf? then t else MinNode(t.left)
  }

  /**
   * Node `n` relinked over the children `l` and `r`. The code as written
   * (`fix` false) only reassigns the links, so the node keeps its old `max`;
   * the evidently intended code (`fix` true) recomputes `max` from its own
   * `hi` and the children's `max`, which is exact when theirs are.
   */
  function Relink<V>(fix: bool, n: Tree<V>, l: Tree<V>, r: Tree<V>): (t: Tree<V>)
    requires n.Node?
    ensures t.Node? && t.lo == n.lo && t.hi == n.hi && t.value == n.value && t.left == l && t.right == r
    ensures fix && Exact(l) && Exact(r) ==> Exact(t)
    ensures !fix ==> t.max == n.max
  {
    if fix then
      var m := if l.Node? then Max(n.hi, l.max) else n.hi;
      Node(n.lo, n.hi, n.value, if r.Node? then Max(m, r.max) else m, l, r)
    else n.(left := l, right := r)
  }

  /** `deleteMin(cursor)`: unlink the leftmost node, relinking the nodes above it. */
  function DeleteMinWith<V(==)>(fix: bool, t: Tree<V>): (r: Tree<V>)
    requires t.Node?
    ensures Los(r) <= Los(t)
  {
    if t.left.Leaf? then t.right
    else Relink(fix, t, DeleteMinWith(fix, t.left), t.right)
  }

  /** `deleteMin` removes exactly the smallest key and keeps the tree ordered. */
  lemma {:induction false} DeleteMinMap<V>(fix: bool, t: Tree<V>)
    requires t.Node? && Ordered(t)
    ensures Ordered(DeleteMinWith(fix, t)) && Map(DeleteMinWith(fix, t)) == Map(t) - {MinNode(t).lo}
  {
    if t.left.Leaf? {
      BinarySearchTrees.MapMinusRoot(Map(t.left), Map(t.right), t.lo, (t.hi, t.value));
    } else {
      DeleteMinMap(fix, t.left);
      assert MinNode(t).lo !in Map(t.right);
      BinarySearchTrees.MapMinusLeft(Map(t.left), Map(t.right), t.lo, (t.hi, t.value), MinNode(t).lo);
    }
  }

  /** The evidently intended `deleteMin` keeps every `max` exact. */
  lemma {:induction false} DeleteMinExact<V>(t: Tree<V>)
    requires t.Node? && Exact(t)
    ensures Exact(DeleteMinWith(true, t))
  {
    if t.left.Node? {
      DeleteMinExact(t.left);
    }
  }

  /**
   * Relinking alone is harmless in `deleteMin`: removing an interval can only
   * lower the largest right endpoint, so `max` fields that covered their
   * subtrees still do.
   */
  lemma {:induction false} DeleteMinCovers<V>(t: Tree<V>)
    requires t.Node? && Covers(t)
    ensures var r := DeleteMinWith(false, t); Covers(r) && (r.Node? ==> HiMax(r) <= HiMax(t))
  {
    if t.left.Node? {
      DeleteMinCovers(t.left);
    }
  }

  /**
   * Unlinking the node `t` that `delete` found: a missing child lets the
   * other take its place; otherwise the successor, `min` of the right
   * subtree, takes it over the old left subtree and the right subtree less
   * its minimum. As written the successor keeps its own old `max`.
   */
  function RemoveWith<V(==)>(fix: bool, t: Tree<V>): (r: Tree<V>)
    requires t.Node?
    ensures Los(r) <= Los(t)
  {
    if t.right.Leaf? then t.left
    else if t.left.Leaf? then t.right
    else Relink(fix, MinNode(t.right), t.left, DeleteMinWith(fix, t.right))
  }

  /** Unlinking the node removes exactly its key and keeps the tree ordered. */
  lemma RemoveMap<V>(fix: bool, t: Tree<V>)
    requires t.Node? && Ordered(t)
    ensures Ordered(RemoveWith(fix, t)) && Map(RemoveWith(fix, t)) == Map(t) - {t.lo}
  {
    var Node(k, h, v, _, l, r) := t;
    if r.Leaf? || l.Leaf? {
      BinarySearchTrees.MapMinusRoot(Map(l), Map(r), k, (h, v));
    } else {
      var s := MinNode(r);
      var d := DeleteMinWith(fix, r);
      StoredMap(r, Interval(s.lo, s.hi, s.value));
      DeleteMinMap(fix, r);
      assert Los(d) == Los(r) - {s.lo};
      assert forall x :: x in Los(l) ==> x < s.lo;
      assert Ordered(r);
      forall x | x in Los(d) ensures s.lo < x {
        assert x in Los(r) && x != s.lo;
      }
      assert Ordered(Relink(fix, s, l, d));
      BinarySearchTrees.MapReplaceRoot(Map(l), Map(r), k, (h, v), s.lo, (s.hi, s.value));
    }
  }

  /** The evidently intended unlinking keeps every `max` exact. */
  lemma RemoveExact<V>(t: Tree<V>)
    requires t.Node? && Exact(t)
    ensures Exact(RemoveWith(true, t))
  {
    if t.left.Node? && t.right.Node? {
      DeleteMinExact(t.right);
    }
  }

  /**
   * The recursive `delete`: not found is NoSuchElementException, the node
   * holding exactly `[lo, hi]` is unlinked, and a node with the same `lo` but
   * another `hi` is left as it is.
   */
  function DeleteFromWith<V(==)>(fix: bool, t: Tree<V>, lo: int, hi: int): (r: Result<Tree<V>>)
    ensures r.Err? ==> r.error == NoSuchElement
    ensures r.Ok? ==> Los(r.value) <= Los(t)
  {
    match t
    case Leaf => Err(NoSuchElement)
    case Node(k, h, _, _, l, r) =>
      if k == lo && h == hi then Ok(RemoveWith(fix, t))
      else if k > lo then
        match DeleteFromWith(fix, l, lo, hi)
        case Err(e) => Err(e)
        case Ok(lNew) => Ok(Relink(fix, t, lNew, r))
      else if k < lo then
        match DeleteFromWith(fix, r, lo, hi)
        case Err(e) => Err(e)
        case Ok(rNew) => Ok(Relink(fix, t, l, rNew))
      else Ok(t)
  }

  /**
   * On an ordered tree, `delete` fails exactly when `lo` is not a key,
   * removes the key when it holds `[lo, hi]` and otherwise leaves the table
   * as it is; the code as written then returns the very same tree.
   */
  lemma DeleteFromMap<V>(fix: bool, t: Tree<V>, lo: int, hi: int)
    requires Ordered(t)
    ensures var r := DeleteFromWith(fix, t, lo, hi);
      (r.Err? <==> lo !in Los(t))
      && (r.Ok? ==> Ordered(r.value) && Map(r.value) == if Map(t)[lo].0 == hi then Map(t) - {lo} else Map(t))
      && (!fix && r.Ok? && Map(t)[lo].0 != hi ==> r.value == t)
  {
    DeleteFromFound(fix, t, lo, hi);
    if DeleteFromWith(fix, t, lo, hi).Ok? {
      DeleteFromOk(fix, t, lo, hi);
      if !fix && Map(t)[lo].0 != hi {
        DeleteFromSame(t, lo, hi);
      }
    }
  }

  /** `delete` fails exactly when no node has left endpoint `lo`. */
  lemma {:induction false} DeleteFromFound<V>(fix: bool, t: Tree<V>, lo: int, hi: int)
    requires Ordered(t)
    ensures DeleteFromWith(fix, t, lo, hi).Err? <==> lo !in Los(t)
  {
    if t.Node? {
      if t.lo > lo {
        DeleteFromFound(fix, t.left, lo, hi);
      } else if t.lo < lo {
        DeleteFromFound(fix, t.right, lo, hi);
      }
    }
  }

  /** A successful `delete` removes `lo` when it holds `[lo, hi]` and otherwise keeps the table. */
  lemma {:induction false} DeleteFromOk<V>(fix: bool, t: Tree<V>, lo: int, hi: int)
    requires Ordered(t) && lo in Los(t) && DeleteFromWith(fix, t, lo, hi).Ok?
    decreases t, 1
    ensures var r := DeleteFromWith(fix, t, lo, hi).value;
      Ordered(r) && Map(r) == if Map(t)[lo].0 == hi then Map(t) - {lo} else Map(t)
  {
    if t.lo == lo && t.hi == hi {
      RemoveMap(fix, t);
    } else if t.lo > lo {
      DeleteFromOkLeft(fix, t, lo, hi);
    } else if t.lo < lo {
      DeleteFromOkRight(fix, t, lo, hi);
    }
  }

  /** `DeleteFromOk` when `lo` lies in the left subtree. */
  lemma {:induction false} DeleteFromOkLeft<V>(fix: bool, t: Tree<V>, lo: int, hi: int)
    requires t.Node? && Ordered(t) && lo < t.lo && lo in Los(t) && DeleteFromWith(fix, t, lo, hi).Ok?
    decreases t, 0
    ensures var r := DeleteFromWith(fix, t, lo, hi).value;
      Ordered(r) && Map(r) == if Map(t)[lo].0 == hi then Map(t) - {lo} else Map(t)
  {
    assert lo in Los(t.left);
    DeleteFromOk(fix, t.left, lo, hi);
    DeletedLeft(fix, t, lo, hi, DeleteFromWith(fix, t.left, lo, hi).value);
  }

  /** Relinking the left subtree with `lo` deleted below an ordered node. */
  lemma DeletedLeft<V>(fix: bool, t: Tree<V>, lo: int, hi: int, lNew: Tree<V>)
    requires t.Node? && Ordered(t) && lo < t.lo && lo in Los(t.left)
    requires Ordered(lNew) && Map(lNew) == if Map(t.left)[lo].0 == hi then Map(t.left) - {lo} else Map(t.left)
    ensures var u := Relink(fix, t, lNew, t.right);
      Ordered(u) && Map(u) == if Map(t)[lo].0 == hi then Map(t) - {lo} else Map(t)
  {
    assert Los(lNew) <= Los(t.left) by {
      assert Los(lNew) == Map(lNew).Keys;
    }
    RelinkOrdered(fix, t, lNew, t.right);
    var Node(k, h, v, _, l, r) := t;
    assert lo !in Map(r);
    MapDeletedLeft(Map(l), Map(r), Map(lNew), k, (h, v), lo, hi);
  }

  /** Deleting `lo` from one side of a node's table, when it holds `hi` there, deletes it from the whole. */
  lemma MapDeletedLeft<V>(ml: map<int, Pair<int, V>>, mr: map<int, Pair<int, V>>, mlNew: map<int, Pair<int, V>>, k: int, w: Pair<int, V>, lo: int, hi: int)
    requires lo in ml && lo !in mr && lo != k
    requires mlNew == if ml[lo].0 == hi then ml - {lo} else ml
    ensures var m := ml + mr + map[k := w];
      mlNew + mr + map[k := w] == if m[lo].0 == hi then m - {lo} else m
  {
    if ml[lo].0 == hi {
      BinarySearchTrees.MapMinusLeft(ml, mr, k, w, lo);
    }
  }

  /** Ordered subtrees whose keys come from those of an ordered node's subtrees relink into an ordered tree. */
  lemma RelinkOrdered<V>(fix: bool, t: Tree<V>, l: Tree<V>, r: Tree<V>)
    requires t.Node? && Ordered(t) && Ordered(l) && Ordered(r) && Los(l) <= Los(t.left) && Los(r) <= Los(t.right)
    ensures Ordered(Relink(fix, t, l, r))
  {
  }

  /** `DeleteFromOk` when `lo` lies in the right subtree. */
  lemma {:induction false} DeleteFromOkRight<V>(fix: bool, t: Tree<V>, lo: int, hi: int)
    requires t.Node? && Ordered(t) && t.lo < lo && lo in Los(t) && DeleteFromWith(fix, t, lo, hi).Ok?
    decreases t, 0
    ensures var r := DeleteFromWith(fix, t, lo, hi).value;
      Ordered(r) && Map(r) == if Map(t)[lo].0 == hi then Map(t) - {lo} else Map(t)
  {
    assert lo in Los(t.right);
    DeleteFromOk(fix, t.right, lo, hi);
    DeletedRight(fix, t, lo, hi, DeleteFromWith(fix, t.right, lo, hi).value);
  }

  /** The mirror image of `DeletedLeft`. */
  lemma DeletedRight<V>(fix: bool, t: Tree<V>, lo: int, hi: int, rNew: Tree<V>)
    requires t.Node? && Ordered(t) && t.lo < lo && lo in Los(t.right)
    requires Ordered(rNew) && Map(rNew) == if Map(t.right)[lo].0 == hi then Map(t.right) - {lo} else Map(t.right)
    ensures var u := Relink(fix, t, t.left, rNew);
      Ordered(u) && Map(u) == if Map(t)[lo].0 == hi then Map(t) - {lo} else Map(t)
  {
    assert Los(rNew) <= Los(t.right) by {
      assert Los(rNew) == Map(rNew).Keys;
    }
    RelinkOrdered(fix, t, t.left, rNew);
    var Node(k, h, v, _, l, r) := t;
    assert lo !in Map(l);
    MapDeletedRight(Map(l), Map(r), Map(rNew), k, (h, v), lo, hi);
  }

  /** The mirror image of `MapDeletedLeft`. */
  lemma MapDeletedRight<V>(ml: map<int, Pair<int, V>>, mr: map<int, Pair<int, V>>, mrNew: map<int, Pair<int, V>>, k: int, w: Pair<int, V>, lo: int, hi: int)
    requires lo in mr && lo !in ml && lo != k
    requires mrNew == if mr[lo].0 == hi then mr - {lo} else mr
    ensures var m := ml + mr + map[k := w];
      ml + mrNew + map[k := w] == if m[lo].0 == hi then m - {lo} else m
  {
    if mr[lo].0 == hi {
      BinarySearchTrees.MapMinusRight(ml, mr, k, w, lo);
    }
  }

  /** As written, a `delete` that finds `lo` holding another `hi` hands back the very same tree. */
  lemma {:induction false} DeleteFromSame<V>(t: Tree<V>, lo: int, hi: int)
    requires Ordered(t) && lo in Los(t) && DeleteFromWith(false, t, lo, hi).Ok? && Map(t)[lo].0 != hi
    ensures DeleteFromWith(false, t, lo, hi).value == t
  {
    var Node(k, h, v, _, l, r) := t;
    if k > lo {
      assert lo in Los(l) && Map(l)[lo] == Map(t)[lo];
      DeleteFromSame(l, lo, hi);
    } else if k < lo {
      assert lo in Los(r) && Map(r)[lo] == Map(t)[lo];
      DeleteFromSame(r, lo, hi);
    }
  }

  /** The evidently intended `delete` keeps every `max` exact. */
  lemma {:induction false} DeleteFromExact<V>(t: Tree<V>, lo: int, hi: int)
    ensures Exact(t) && DeleteFromWith(true, t, lo, hi).Ok? ==> Exact(DeleteFromWith(true, t, lo, hi).value)
  {
    if t.Node? && Exact(t) {
      if t.lo == lo && t.hi == hi {
        RemoveExact(t);
      } else if t.lo > lo {
        DeleteFromExact(t.left, lo, hi);
      } else if t.lo < lo {
        DeleteFromExact(t.right, lo, hi);
      }
    }
  }

  /**
   * `delete(lo, hi)`: null endpoints are refused, then an empty tree; `fix`
   * false is the code as written, `fix` true recomputes `max` on the way back.
   */
  function DeleteWith<V(==)>(fix: bool, t: Tree<V>, lo: Option<int>, hi: Option<int>): (r: Result<Tree<V>>)
    ensures lo.None? || hi.None? <==> r == Err(NullPointer)
    ensures r.Err? && lo.Some? && hi.Some? ==> r.error == NoSuchElement
    ensures lo.Some? && hi.Some? && Ordered(t) ==> (r.Err? <==> lo.value !in Los(t))
    ensures r.Ok? && Ordered(t) ==>
      Ordered(r.value) && Map(r.value) == if Map(t)[lo.value].0 == hi.value then Map(t) - {lo.value} else Map(t)
    ensures r.Ok? && fix && Exact(t) ==> Exact(r.value)
  {
    if lo.None? || hi.None? then Err(NullPointer)
    else if IsEmpty(t) then Err(NoSuchElement)
    else
      var r := DeleteFromWith(fix, t, lo.value, hi.value);
      DeleteFromExact(t, lo.value, hi.value);
      if Ordered(t) then
        DeleteFromMap(fix, t, lo.value, hi.value);
        r
      else r
  }

  /** `put` then `delete` of a new interval gives back the table, as written or not. */
  lemma PutThenDelete<V>(fix: bool, t: Tree<V>, lo: int, hi: int, value: Option<V>)
    requires Ordered(t) && lo !in Los(t)
    ensures Put(t, Some(lo), Some(hi), value).Ok?
    ensures var u := Put(t, Some(lo), Some(hi), value).value;
      DeleteWith(fix, u, Some(lo), Some(hi)).Ok? && Map(DeleteWith(fix, u, Some(lo), Some(hi)).value) == Map(t)
  {
    var u := Put(t, Some(lo), Some(hi), value).value;
    assert Ordered(u) && Map(u)[lo] == (hi, value);
    var d := DeleteWith(fix, u, Some(lo), Some(hi));
    assert d.Ok?;
    assert Map(d.value) == Map(u) - {lo};
    assert Map(t)[lo := (hi, value)] - {lo} == Map(t);
  }

  /** `[30, 31]` above `[5, 6]`, whose children are `[1, 20]` and `[8, 9]`. */
  function FourNodes(): Tree<int>
  {
    Node(30, 31, Some(300), 31,
      Node(5, 6, Some(50), 20, Node(1, 20, Some(10), 20, Leaf, Leaf), Node(8, 9, Some(80), 9, Leaf, Leaf)),
      Leaf)
  }

  /**
   * As written, deleting `[5, 6]` moves `[8, 9]` up with its old `max` of 9
   * above `[1, 20]`; the search for `[15, 16]` then turns away from `[1, 20]`.
   */
  lemma DeleteAsWrittenStaleMax()
    ensures Ordered(FourNodes()) && Exact(FourNodes())
    ensures DeleteWith(false, FourNodes(), Some(5), Some(6)).Ok?
    ensures var u := DeleteWith(false, FourNodes(), Some(5), Some(6)).value;
      !Covers(u) && Stored(u, Interval(1, 20, Some(10))) && Intersect(1, 20, 15, 16) && Any(u, 15, 16).None?
  {
    FourNodesExact();
    DeleteAsWrittenFourNodes();
    StaleThreeMisses();
  }

  lemma FourNodesExact()
    ensures Ordered(FourNodes()) && Exact(FourNodes())
  {
    var a := Node(1, 20, Some(10), 20, Leaf, Leaf);
    var b := Node(8, 9, Some(80), 9, Leaf, Leaf);
    assert HiMax(a) == 20 && HiMax(b) == 9;
    assert HiMax(FourNodes().left) == 20;
    assert HiMax(FourNodes()) == 31;
  }

  /** What the code as written leaves after deleting `[5, 6]` from `FourNodes()`. */
  function StaleThree(): Tree<int>
  {
    Node(30, 31, Some(300), 31, Node(8, 9, Some(80), 9, Node(1, 20, Some(10), 20, Leaf, Leaf), Leaf), Leaf)
  }

  lemma DeleteAsWrittenFourNodes()
    ensures DeleteWith(false, FourNodes(), Some(5), Some(6)) == Ok(StaleThree())
  {
  }

  lemma StaleThreeMisses()
    ensures !Covers(StaleThree()) && Stored(StaleThree(), Interval(1, 20, Some(10)))
    ensures Intersect(1, 20, 15, 16) && Any(StaleThree(), 15, 16).None?
  {
    assert !Intersect(8, 9, 15, 16) && !Intersect(30, 31, 15, 16);
  }

  /** The corrected `delete` of `[5, 6]` keeps `max` exact, and `[15, 16]` finds `[1, 20]`. */
  lemma DeleteKeepsMax()
    ensures DeleteWith(true, FourNodes(), Some(5), Some(6)).Ok?
    ensures var u := DeleteWith(true, FourNodes(), Some(5), Some(6)).value;
      Exact(u) && Any(u, 15, 16) == Some(Interval(1, 20, Some(10)))
  {
    var u := DeleteWith(true, FourNodes(), Some(5), Some(6)).value;
    assert u == Node(30, 31, Some(300), 31, Node(8, 9, Some(80), 20, Node(1, 20, Some(10), 20, Leaf, Leaf), Leaf), Leaf);
  }
}

=== FILE: iterators.dfy ===
/**
 * The iterator over a singly linked chain of nodes. The chain from the cursor
 * onwards is represented by the sequence of the nodes' data, in `next`-link
 * order; a null cursor is the empty sequence.
 */
module LinkedListIterators {
  import opened Wrappers

  datatype Cursor<T> = Cursor(rest: seq<T>)

  /** The iterator constructor: the cursor starts at the head node. */
  function Start<T>(chain: seq<T>): (c: Cursor<T>)
    ensures c.rest == chain
  {
    Cursor(chain)
  }

  /** `hasNext()`: the cursor is not null. */
  function HasNext<T>(c: Cursor<T>): (b: bool)
    ensures b <==> |c.rest| > 0
  {
    c.rest != []
  }

  /**
   * `next()`: the current node's data, with the cursor moved along `next`;
   * on an exhausted iterator, NoSuchElementException.
   */
  function Next<T>(c: Cursor<T>): (r: Result<Pair<T, Cursor<T>>>)
    ensures !HasNext(c) <==> r == Err(NoSuchElement)
    ensures r.Ok? ==> [r.value.0] + r.value.1.rest == c.rest
  {
    if !HasNext(c) then Err(NoSuchElement)
    else Ok((c.rest[0], Cursor(c.rest[1..])))
  }

  /** `remove()`: never supported, whatever the cursor. */
  function Remove<T>(c: Cursor<T>): (r: Result<Cursor<T>>)
    ensures r.Err? && r.error == UnsupportedOperation
  {
    Err(UnsupportedOperation)
  }

  /** What a for-each loop collects: `next()` while `hasNext()`. */
  function Drain<T>(c: Cursor<T>): seq<T>
    decreases |c.rest|
  {
    match Next(c)
    case Err(_) => []
    case Ok((x, cNew)) => [x] + Drain(cNew)
  }

  /** Iterating from a head yields every node's data once, in link order. */
  lemma {:induction false} DrainYieldsChain<T>(chain: seq<T>)
    ensures Drain(Start(chain)) == chain
  {
    if chain != [] {
      DrainYieldsChain(chain[1..]);
    }
  }
}

=== FILE: linear_probing_hash_table.dfy ===
/**
 * `LinearProbingHashTable`: parallel `keys` and `values` arrays of length `m`
 * (here one sequence of slots, each null or a key with its value). A key
 * sits at the first slot at or after its hash that is free or already holds
 * it. The table doubles before a put finds it half full and halves after a
 * delete leaves it an eighth full or less; a delete re-inserts the rest of
 * the cluster after the slot it frees.
 *
 * Every probe in the source advances with `i = i + 1 % m`. Java binds `%`
 * tighter than `+`, so this is `i + (1 % m)`: one slot forward with no
 * wrap-around once `m > 1`, and no move at all when `m == 1`. The members
 * whose name ends in `AsWritten` take that step; the others take the
 * evidently intended `(i + 1) % m`. Both share one definition of each
 * operation, selected by the flag `wrap`.
 */
module LinearProbingHashTables {
  import opened Wrappers
  import opened SymbolTables

  /** The two arrays, slot by slot, and the pair count `n`; `m` is the number of slots. */
  datatype Table<V> = Table(slots: seq<Option<Entry<V>>>, n: int)

  // ---- positions on the circle of slots ----

  /** The slot after `i`, wrapping round: `(i + 1) % m`. */
  function Next(m: int, i: int): (j: int)
    requires 0 <= i < m
    ensures 0 <= j < m
  {
    if i + 1 == m then 0 else i + 1
  }

  /** How many wrapped steps lead from slot `a` to slot `b`. */
  function Dist(m: int, a: int, b: int): (d: int)
    requires 0 <= a < m && 0 <= b < m
    ensures 0 <= d < m
    ensures d == 0 <==> a == b
  {
    if a <= b then b - a else b - a + m
  }

  /** The slot `c` wrapped steps after `h`: `(h + c) % m`. */
  function Pos(m: int, h: int, c: int): (i: int)
    requires 0 <= h < m && 0 <= c < m
    ensures 0 <= i < m && Dist(m, h, i) == c
  {
    if h + c < m then h + c else h + c - m
  }

  /** The step as the source writes it, `i + 1 % m`. */
  function StepAsWritten(m: int, i: int): (j: int)
    requires m > 0
    ensures j == if m == 1 then i else i + 1
  {
    assert m > 1 ==> 1 % m == 1;
    i + 1 % m
  }

  /** The step a probe takes: wrapped, or as written. */
  function Step(m: int, i: int, wrap: bool): (j: int)
    requires 0 <= i < m
    ensures 0 <= j
    ensures wrap ==> j == Next(m, i)
    ensures !wrap ==> j == StepAsWritten(m, i)
  {
    if wrap then Next(m, i) else StepAsWritten(m, i)
  }

  // ---- what the slots hold ----

  predicate Holds<V>(s: seq<Option<Entry<V>>>, i: int, k: int)
    requires 0 <= i < |s|
  {
    s[i].Some? && s[i].value.key == k
  }

  /** The first slot at or after `i` holding `k`, or `|s|` when none does. */
  function HolderFrom<V>(s: seq<Option<Entry<V>>>, k: int, i: int): (j: int)
    requires 0 <= i <= |s|
    ensures i <= j <= |s|
    ensures j < |s| ==> Holds(s, j, k)
    ensures forall q :: i <= q < j ==> !Holds(s, q, k)
    decreases |s| - i
  {
    if i == |s| then i else if Holds(s, i, k) then i else HolderFrom(s, k, i + 1)
  }

  /** The slot holding `k`, or `|s|` when no slot does. */
  function Holder<V>(s: seq<Option<Entry<V>>>, k: int): (j: int)
    ensures 0 <= j <= |s|
    ensures j < |s| ==> Holds(s, j, k)
    ensures forall q :: 0 <= q < j ==> !Holds(s, q, k)
  {
    HolderFrom(s, k, 0)
  }

  /** The value stored for `k`, or null when no slot holds `k`: the table as a map. */
  function Val<V>(s: seq<Option<Entry<V>>>, k: int): Option<V>
  {
    var j := Holder(s, k);
    if j < |s| then s[j].value.value else None
  }

  /** Going from `before` to `after`, key `k` comes to find `v` and every other key finds what it found. */
  ghost predicate Changed<V>(before: seq<Option<Entry<V>>>, after: seq<Option<Entry<V>>>, k: int, v: Option<V>)
  {
    forall x {:trigger Val(after, x)} {:trigger Val(before, x)} :: Val(after, x) == if x == k then v else Val(before, x)
  }

  /** The number of occupied slots among the first `j`. */
  function CountTo<V>(s: seq<Option<Entry<V>>>, j: int): int
    requires 0 <= j <= |s|
    decreases j
  {
    if j == 0 then 0 else CountTo(s, j - 1) + (if s[j - 1].Some? then 1 else 0)
  }

  function Occupied<V>(s: seq<Option<Entry<V>>>): int
  {
    CountTo(s, |s|)
  }

  /** No key sits in two slots. */
  predicate Distinct<V>(s: seq<Option<Entry<V>>>)
  {
    forall p, q {:trigger s[p].value.key, s[q].value.key} ::
      0 <= p < |s| && 0 <= q < |s| && p != q && s[p].Some? && s[q].Some? ==> s[p].value.key != s[q].value.key
  }

  /** No slot stores a null value: `put` turns a null value into a delete. */
  predicate Valued<V>(s: seq<Option<Entry<V>>>)
  {
    forall q :: 0 <= q < |s| && s[q].Some? ==> s[q].value.value.Some?
  }

  /**
   * The slots from the hash of the key at `q` up to `q` are all occupied, so
   * a wrapped probe for that key passes nothing but occupied slots before `q`.
   */
  predicate Good<V>(hc: HashCode, s: seq<Option<Entry<V>>>, q: int)
    requires 0 <= q < |s|
  {
    s[q].Some? ==>
      var h := Hash(hc, s[q].value.key, |s|);
      forall r :: 0 <= r < |s| && Dist(|s|, h, r) < Dist(|s|, h, q) ==> s[r].Some?
  }

  predicate AllGood<V>(hc: HashCode, s: seq<Option<Entry<V>>>)
  {
    forall q :: 0 <= q < |s| ==> Good(hc, s, q)
  }

  /** What every operation keeps: at most half full, `n` counting the occupied slots, every key reachable from its hash. */
  predicate Valid<V>(hc: HashCode, t: Table<V>)
  {
    |t.slots| > 0 && 2 * t.n <= |t.slots| && t.n == Occupied(t.slots)
    && Distinct(t.slots) && Valued(t.slots) && AllGood(hc, t.slots)
  }

  // ---- probing ----

  /**
   * The wrapped probe for `k` from slot `h`, `c` slots in: the first slot that
   * is null or holds `k`, or None when every slot holds another key (the
   * source's loop would then never end).
   */
  function ProbeFrom<V>(s: seq<Option<Entry<V>>>, h: int, k: int, c: int): (r: Option<int>)
    requires 0 <= h < |s| && 0 <= c <= |s|
    ensures r.Some? ==> 0 <= r.value < |s| && c <= Dist(|s|, h, r.value) && (s[r.value].None? || s[r.value].value.key == k)
    decreases |s| - c
  {
    if c == |s| then None
    else
      var i := Pos(|s|, h, c);
      if s[i].None? || s[i].value.key == k then Some(i) else ProbeFrom(s, h, k, c + 1)
  }

  /** Every slot the wrapped probe passes holds another key; when it finds nothing, every slot does. */
  lemma {:induction false} ProbeFromSpec<V>(s: seq<Option<Entry<V>>>, h: int, k: int, c: int)
    requires 0 <= h < |s| && 0 <= c <= |s|
    ensures ProbeFrom(s, h, k, c).Some? ==>
      forall q :: 0 <= q < |s| && c <= Dist(|s|, h, q) < Dist(|s|, h, ProbeFrom(s, h, k, c).value) ==> s[q].Some? && s[q].value.key != k
    ensures ProbeFrom(s, h, k, c).None? ==> forall q :: 0 <= q < |s| && c <= Dist(|s|, h, q) ==> s[q].Some? && s[q].value.key != k
    decreases |s| - c
  {
    if c < |s| {
      var i := Pos(|s|, h, c);
      if s[i].Some? && s[i].value.key != k {
        ProbeFromSpec(s, h, k, c + 1);
        forall q | 0 <= q < |s| && Dist(|s|, h, q) == c ensures q == i {
          DistInjective(|s|, h, q, i);
        }
      }
    }
  }

  /**
   * The probe as the source writes it, from slot `i`: it stops at a slot that
   * is null or holds `k`; it reads slot `m` when every slot from `i` to the
   * end holds another key, and never ends when `m == 1` and the slot holds
   * another key.
   */
  function ProbeAsWritten<V>(s: seq<Option<Entry<V>>>, i: int, k: int): (r: Result<int>)
    requires |s| > 0 && 0 <= i
    ensures r.Ok? ==> i <= r.value < |s| && (s[r.value].None? || s[r.value].value.key == k)
    ensures r.Ok? ==> forall q :: i <= q < r.value ==> s[q].Some? && s[q].value.key != k
    ensures r == Err(IndexOutOfBounds) ==> forall q :: i <= q < |s| ==> s[q].Some? && s[q].value.key != k
    ensures r == Err(Diverges) ==> |s| == 1
    ensures r.Err? ==> r.error == IndexOutOfBounds || r.error == Diverges
    decreases |s| - i
  {
    if i >= |s| then Err(IndexOutOfBounds)
    else if s[i].None? || s[i].value.key == k then Ok(i)
    else if |s| == 1 then Err(Diverges)
    else ProbeAsWritten(s, StepAsWritten(|s|, i), k)
  }

  /** The slot a probe for `k` from its hash stops at. */
  function Probe<V>(hc: HashCode, s: seq<Option<Entry<V>>>, k: int, wrap: bool): (r: Result<int>)
    requires |s| > 0
    ensures r.Ok? ==> 0 <= r.value < |s| && (s[r.value].None? || s[r.value].value.key == k)
    ensures wrap && r.Err? ==> r.error == Diverges
  {
    var h := Hash(hc, k, |s|);
    if wrap then
      match ProbeFrom(s, h, k, 0)
      case None => Err(Diverges)
      case Some(p) => Ok(p)
    else ProbeAsWritten(s, h, k)
  }

  /**
   * The wrapped probe passes only slots holding other keys on its way from
   * the hash, and fails only when no slot is null.
   */
  lemma ProbeSpec<V>(hc: HashCode, s: seq<Option<Entry<V>>>, k: int)
    requires |s| > 0
    ensures Probe(hc, s, k, true).Ok? ==> forall q :: 0 <= q < |s| && Dist(|s|, Hash(hc, k, |s|), q) < Dist(|s|, Hash(hc, k, |s|), Probe(hc, s, k, true).value) ==> s[q].Some? && s[q].value.key != k
    ensures Probe(hc, s, k, true).Err? ==> forall q :: 0 <= q < |s| ==> s[q].Some?
  {
    ProbeFromSpec(s, Hash(hc, k, |s|), k, 0);
  }

  // ---- the operations, for either step ----

  /** A table of the given capacity with every slot null. */
  function Fresh<V>(capacity: nat): (t: Table<V>)
  {
    Table(seq(capacity, _ => None), 0)
  }

  /** A fresh table has `capacity` null slots and a zero count. */
  lemma FreshSpec<V>(capacity: nat)
    ensures var t := Fresh<V>(capacity); |t.slots| == capacity && t.n == 0
    ensures var t := Fresh<V>(capacity); forall q :: 0 <= q < capacity ==> t.slots[q].None?
  {
  }

  /** The constructor: `capacity` null slots, or NegativeArraySizeException. */
  function New<V>(capacity: int): (r: Result<Table<V>>)
  {
    if capacity < 0 then Err(NegativeArraySize) else Ok(Fresh(capacity))
  }

  /** The constructor fails exactly on a negative capacity; otherwise the table is fresh. */
  lemma NewSpec<V>(capacity: int)
    ensures var r := New<V>(capacity); capacity < 0 <==> r == Err(NegativeArraySize)
    ensures var r := New<V>(capacity); r.Ok? ==> |r.value.slots| == capacity && r.value.n == 0
  {
  }

  /**
   * The probe-and-store part of `put`: overwrite the value where the key
   * already is, otherwise fill the free slot the probe stops at and count it.
   */
  function Place<V>(hc: HashCode, t: Table<V>, e: Entry<V>, wrap: bool): (r: Result<Table<V>>)
    ensures |t.slots| == 0 <==> r == Err(Arithmetic)
    ensures r.Ok? ==> |r.value.slots| == |t.slots| && t.n <= r.value.n <= t.n + 1
  {
    if |t.slots| == 0 then Err(Arithmetic)
    else
      match Probe(hc, t.slots, e.key, wrap)
      case Err(x) => Err(x)
      case Ok(p) =>
        if t.slots[p].Some? then Ok(Table(t.slots[p := Some(e)], t.n))
        else Ok(Table(t.slots[p := Some(e)], t.n + 1))
  }

  /**
   * `resize`'s loop: re-insert the pairs of `s` from slot `i` on, in slot
   * order, into `u`. Each re-insertion is a `put` without its doubling
   * check, which `ResizeCheckIdle` shows cannot fire here.
   */
  function ResizeFrom<V>(hc: HashCode, s: seq<Option<Entry<V>>>, u: Table<V>, i: int, wrap: bool): (r: Result<Table<V>>)
    requires 0 <= i <= |s|
    ensures r.Ok? ==> |r.value.slots| == |u.slots|
    decreases |s| - i
  {
    if i == |s| then Ok(u)
    else if s[i].None? then ResizeFrom(hc, s, u, i + 1, wrap)
    else
      match Place(hc, u, s[i].value, wrap)
      case Err(x) => Err(x)
      case Ok(uNew) => ResizeFrom(hc, s, uNew, i + 1, wrap)
  }

  /**
   * `resize(capacity)`: a new table of that capacity receives every pair,
   * then takes over the arrays; the count `n` stays what it was.
   */
  function Resize<V>(hc: HashCode, t: Table<V>, capacity: nat, wrap: bool): (r: Result<Table<V>>)
    ensures r.Ok? ==> |r.value.slots| == capacity && r.value.n == t.n
  {
    match ResizeFrom(hc, t.slots, Fresh(capacity), 0, wrap)
    case Err(x) => Err(x)
    case Ok(u) => Ok(Table(u.slots, t.n))
  }

  /**
   * `delete`'s second loop from slot `i`: while the slot is occupied, take
   * its pair out and put it back, then step on. `fuel` bounds the number of
   * rounds; it runs out only if the loop would never end. Each
   * re-insertion is a `put` without its doubling check, which
   * `RehashCheckIdle` shows cannot fire on a table at most half full.
   */
  function Rehash<V>(hc: HashCode, u: Table<V>, i: int, wrap: bool, fuel: nat): (r: Result<Table<V>>)
    requires 0 <= i
    ensures r.Ok? ==> |r.value.slots| == |u.slots|
    decreases fuel
  {
    if i >= |u.slots| then Err(IndexOutOfBounds)
    else if u.slots[i].None? then Ok(u)
    else if fuel == 0 then Err(Diverges)
    else
      match Place(hc, Table(u.slots[i := None], u.n - 1), u.slots[i].value, wrap)
      case Err(x) => Err(x)
      case Ok(v) => Rehash(hc, v, Step(|u.slots|, i, wrap), wrap, fuel - 1)
  }

  /**
   * The largest count `n` that one of `resize`'s re-insertions from slot `i`
   * on sees before it places its pair, or -1 when none does. `put`'s
   * doubling check (`n >= m / 2`) is left out of `ResizeFrom`;
   * `ResizeCheckIdle` shows it would not fire there.
   */
  ghost function ResizePeak<V>(hc: HashCode, s: seq<Option<Entry<V>>>, u: Table<V>, i: int, wrap: bool): (r: int)
    requires 0 <= i <= |s|
    decreases |s| - i
    ensures r <= u.n + (Occupied(s) - CountTo(s, i)) - 1 || r == -1
  {
    if i == |s| then -1
    else if s[i].None? then ResizePeak(hc, s, u, i + 1, wrap)
    else
      CountMono(s, i + 1, |s|);
      match Place(hc, u, s[i].value, wrap)
      case Err(_) => u.n
      case Ok(uNew) => if u.n < ResizePeak(hc, s, uNew, i + 1, wrap) then ResizePeak(hc, s, uNew, i + 1, wrap) else u.n
  }

  /**
   * Both calls of `resize` re-insert into a table at most half full, so the
   * doubling check inside its `put` never fires: growing a table at most
   * half full to twice its size, and shrinking one at most an eighth full
   * to half its size.
   */
  lemma ResizeCheckIdle<V>(hc: HashCode, s: seq<Option<Entry<V>>>, wrap: bool)
    requires |s| > 0 && 2 * Occupied(s) <= |s|
    ensures ResizePeak(hc, s, Fresh<V>(2 * |s|), 0, wrap) < (2 * |s|) / 2
    ensures Occupied(s) <= |s| / 8 ==> ResizePeak(hc, s, Fresh<V>(|s| / 2), 0, wrap) < (|s| / 2) / 2
  {
  }

  /**
   * The largest count `n` that one of `delete`'s re-insertions sees before
   * it places its pair, or -1 when none does. The re-insertion is a `put`
   * whose doubling check is left out of `Rehash`; `RehashCheckIdle` shows
   * it would not fire there.
   */
  ghost function RehashPeak<V>(hc: HashCode, u: Table<V>, i: int, wrap: bool, fuel: nat): (r: int)
    requires 0 <= i
    decreases fuel
    ensures r <= u.n - 1 || r == -1
  {
    if i >= |u.slots| || u.slots[i].None? || fuel == 0 then -1
    else
      match Place(hc, Table(u.slots[i := None], u.n - 1), u.slots[i].value, wrap)
      case Err(_) => u.n - 1
      case Ok(v) =>
        var q := RehashPeak(hc, v, Step(|u.slots|, i, wrap), wrap, fuel - 1);
        if u.n - 1 < q then q else u.n - 1
  }

  /**
   * `delete`'s re-insertions start from a table at most half full, one pair
   * taken out, so each `put` sees a count below half the capacity and its
   * doubling check never fires.
   */
  lemma RehashCheckIdle<V>(hc: HashCode, t: Table<V>, p: int, wrap: bool)
    requires 0 <= p < |t.slots| && 2 * t.n <= |t.slots|
    ensures RehashPeak(hc, Table(t.slots[p := None], t.n), Step(|t.slots|, p, wrap), wrap, |t.slots|) < |t.slots| / 2
  {
  }

  /**
   * `delete(key)`: nothing to do on an empty table or a missing key;
   * otherwise free the key's slot, re-insert the rest of its cluster, count
   * one pair fewer, and halve the arrays when at most an eighth is in use.
   */
  function DeleteWith<V>(hc: HashCode, t: Table<V>, key: Option<int>, wrap: bool): (r: Result<Table<V>>)
    ensures key.None? ==> r == Err(NullPointer)
  {
    match key
    case None => Err(NullPointer)
    case Some(k) =>
      if t.n == 0 then Ok(t)
      else if |t.slots| == 0 then Err(Arithmetic)
      else
        match Probe(hc, t.slots, k, wrap)
        case Err(x) => Err(x)
        case Ok(p) =>
          if t.slots[p].None? then Ok(t)
          else
            match Rehash(hc, Table(t.slots[p := None], t.n), Step(|t.slots|, p, wrap), wrap, |t.slots|)
            case Err(x) => Err(x)
            case Ok(w) =>
              var m := |w.slots|;
              if 0 < w.n - 1 <= m / 8 then Resize(hc, Table(w.slots, w.n - 1), m / 2, wrap)
              else Ok(Table(w.slots, w.n - 1))
  }

  /**
   * `put(key, value)`: a null value deletes the key; otherwise the arrays
   * double when at least half full, and the pair is placed.
   */
  function PutWith<V>(hc: HashCode, t: Table<V>, key: Option<int>, value: Option<V>, wrap: bool): (r: Result<Table<V>>)
    ensures key.None? ==> r == Err(NullPointer)
  {
    match key
    case None => Err(NullPointer)
    case Some(k) =>
      if value.None? then DeleteWith(hc, t, key, wrap)
      else
        var grown := if t.n >= |t.slots| / 2 then Resize(hc, t, 2 * |t.slots|, wrap) else Ok(t);
        match grown
        case Err(x) => Err(x)
        case Ok(u) => Place(hc, u, Entry(k, value), wrap)
  }

  /** `get(key)`: the value at the slot the probe stops at, or null if that slot is free. */
  function GetWith<V>(hc: HashCode, t: Table<V>, key: Option<int>, wrap: bool): (r: Result<Option<V>>)
    ensures key.None? ==> r == Err(NullPointer)
  {
    match key
    case None => Err(NullPointer)
    case Some(k) =>
      if |t.slots| == 0 then Err(Arithmetic)
      else
        match Probe(hc, t.slots, k, wrap)
        case Err(x) => Err(x)
        case Ok(p) => Ok(if t.slots[p].None? then None else t.slots[p].value.value)
  }

  // ---- counting and looking up slots ----

  lemma {:induction false} CountBounds<V>(s: seq<Option<Entry<V>>>, j: int)
    requires 0 <= j <= |s|
    ensures 0 <= CountTo(s, j) <= j
    ensures CountTo(s, j) == j <==> forall q :: 0 <= q < j ==> s[q].Some?
    ensures CountTo(s, j) == 0 <==> forall q :: 0 <= q < j ==> s[q].None?
  {
    if j > 0 {
      CountBounds(s, j - 1);
      if CountTo(s, j) == j {
        assert CountTo(s, j - 1) == j - 1;
      }
    }
  }

  lemma {:induction false} CountMono<V>(s: seq<Option<Entry<V>>>, i: int, j: int)
    requires 0 <= i <= j <= |s|
    ensures CountTo(s, i) <= CountTo(s, j)
    decreases j
  {
    if i < j {
      CountMono(s, i, j - 1);
    }
  }

  /** Overwriting slot `p` changes the count by what leaves and what arrives. */
  lemma {:induction false} CountSet<V>(s: seq<Option<Entry<V>>>, p: int, x: Option<Entry<V>>, j: int)
    requires 0 <= p < |s| && 0 <= j <= |s|
    ensures CountTo(s[p := x], j) == CountTo(s, j) + if p < j then (if x.Some? then 1 else 0) - (if s[p].Some? then 1 else 0) else 0
  {
    if j > 0 {
      CountSet(s, p, x, j - 1);
    }
  }

  lemma {:induction false} CountNone<V>(s: seq<Option<Entry<V>>>, j: int)
    requires 0 <= j <= |s| && forall q :: 0 <= q < |s| ==> s[q].None?
    ensures CountTo(s, j) == 0
  {
    if j > 0 {
      CountNone(s, j - 1);
    }
  }

  /** Two slot sequences where the same slots hold `x` agree on where `x` is found. */
  lemma HolderSame<V>(s: seq<Option<Entry<V>>>, sNew: seq<Option<Entry<V>>>, x: int)
    requires |s| == |sNew| && forall q :: 0 <= q < |s| ==> (Holds(s, q, x) <==> Holds(sNew, q, x))
    ensures Holder(s, x) == Holder(sNew, x)
  {
  }

  /** Without repeated keys, every occupied slot is where its key is found. */
  lemma HolderAt<V>(s: seq<Option<Entry<V>>>, i: int)
    requires Distinct(s) && 0 <= i < |s| && s[i].Some?
    ensures Holder(s, s[i].value.key) == i
    ensures Val(s, s[i].value.key) == s[i].value.value
  {
    var j := Holder(s, s[i].value.key);
    assert Holds(s, i, s[i].value.key);
  }

  /** Storing `e` in a slot that is free or already holds its key, where no other slot holds it. */
  lemma ValSet<V>(s: seq<Option<Entry<V>>>, p: int, e: Entry<V>)
    requires Distinct(s) && 0 <= p < |s| && (s[p].None? || s[p].value.key == e.key)
    requires forall q :: 0 <= q < |s| && q != p ==> !Holds(s, q, e.key)
    ensures Distinct(s[p := Some(e)])
    ensures Changed(s, s[p := Some(e)], e.key, e.value)
  {
    var sNew := s[p := Some(e)];
    forall a, b | 0 <= a < |sNew| && 0 <= b < |sNew| && a != b && sNew[a].Some? && sNew[b].Some?
      ensures sNew[a].value.key != sNew[b].value.key
    {
      if a == p {
        assert !Holds(s, b, e.key);
      } else if b == p {
        assert !Holds(s, a, e.key);
      }
    }
    forall x ensures Val(sNew, x) == if x == e.key then e.value else Val(s, x) {
      if x == e.key {
        HolderAt(sNew, p);
      } else {
        HolderSame(s, sNew, x);
      }
    }
  }

  /** Freeing an occupied slot removes exactly its key. */
  lemma ValClear<V>(s: seq<Option<Entry<V>>>, p: int)
    requires Distinct(s) && 0 <= p < |s| && s[p].Some?
    ensures Distinct(s[p := None])
    ensures Changed(s, s[p := None], s[p].value.key, None)
  {
    var sNew := s[p := None];
    forall x ensures Val(sNew, x) == if x == s[p].value.key then None else Val(s, x) {
      if x == s[p].value.key {
        assert forall q :: 0 <= q < |sNew| ==> !Holds(sNew, q, x);
      } else {
        HolderSame(s, sNew, x);
      }
    }
  }

  // ---- the wrapped probe on a valid table ----

  /**
   * With a free slot somewhere and every key reachable from its hash, the
   * wrapped probe for `k` stops at the slot holding `k` if there is one, and
   * at a free slot otherwise.
   */
  lemma ProbeFinds<V>(hc: HashCode, s: seq<Option<Entry<V>>>, k: int)
    requires |s| > 0 && Distinct(s) && Occupied(s) < |s| && AllGood(hc, s)
    ensures Probe(hc, s, k, true).Ok?
    ensures Holder(s, k) < |s| ==> Probe(hc, s, k, true).value == Holder(s, k)
    ensures Holder(s, k) == |s| ==> s[Probe(hc, s, k, true).value].None?
  {
    CountBounds(s, |s|);
    ProbeSpec(hc, s, k);
    var r := Probe(hc, s, k, true);
    if r.Ok? {
      var p, q := r.value, Holder(s, k);
      if q < |s| {
        var h := Hash(hc, k, |s|);
        assert Good(hc, s, q);
        if Dist(|s|, h, p) < Dist(|s|, h, q) {
          assert s[p].Some?;
        }
      } else {
        assert !Holds(s, p, k);
      }
    }
  }

  /** Filling a free slot with a key no slot holds adds that key and nothing else. */
  lemma Fill<V>(hc: HashCode, s: seq<Option<Entry<V>>>, p: int, e: Entry<V>)
    requires Distinct(s) && 0 <= p < |s| && s[p].None? && Holder(s, e.key) == |s|
    ensures Occupied(s[p := Some(e)]) == Occupied(s) + 1
    ensures Distinct(s[p := Some(e)])
    ensures Changed(s, s[p := Some(e)], e.key, e.value)
    ensures Valued(s) && e.value.Some? ==> Valued(s[p := Some(e)])
    ensures AllGood(hc, s) && Good(hc, s[p := Some(e)], p) ==> AllGood(hc, s[p := Some(e)])
  {
    var sNew := s[p := Some(e)];
    CountSet(s, p, Some(e), |s|);
    ValSet(s, p, e);
    if AllGood(hc, s) && Good(hc, sNew, p) {
      forall q | 0 <= q < |s| ensures Good(hc, sNew, q) {
        if q != p {
          assert Good(hc, s, q);
        }
      }
    }
  }

  /** `put` of a key no slot holds: it lands in a free slot `p` reachable from its hash. */
  lemma PlaceNew<V>(hc: HashCode, t: Table<V>, e: Entry<V>) returns (p: int)
    requires |t.slots| > 0 && Distinct(t.slots) && Occupied(t.slots) < |t.slots| && Holder(t.slots, e.key) == |t.slots|
    ensures 0 <= p < |t.slots| && t.slots[p].None?
    ensures Place(hc, t, e, true) == Ok(Table(t.slots[p := Some(e)], t.n + 1))
    ensures Good(hc, t.slots[p := Some(e)], p)
  {
    var s := t.slots;
    CountBounds(s, |s|);
    ProbeSpec(hc, s, e.key);
    var r := Probe(hc, s, e.key, true);
    assert r.Ok?;
    p := r.value;
    assert !Holds(s, p, e.key);
  }

  /** Overwriting the value of the key at slot `p` changes only what that key finds. */
  lemma Overwrite<V>(hc: HashCode, s: seq<Option<Entry<V>>>, p: int, e: Entry<V>)
    requires Distinct(s) && 0 <= p < |s| && Holds(s, p, e.key)
    ensures Occupied(s[p := Some(e)]) == Occupied(s)
    ensures Distinct(s[p := Some(e)])
    ensures Changed(s, s[p := Some(e)], e.key, e.value)
    ensures AllGood(hc, s) ==> AllGood(hc, s[p := Some(e)])
    ensures Valued(s) && e.value.Some? ==> Valued(s[p := Some(e)])
  {
    var sNew := s[p := Some(e)];
    CountSet(s, p, Some(e), |s|);
    ValSet(s, p, e);
    if AllGood(hc, s) {
      forall q | 0 <= q < |s| ensures Good(hc, sNew, q) {
        assert Good(hc, s, q);
      }
    }
  }

  /** `put` of a key some slot holds: the probe stops at that slot, and the value is overwritten in place. */
  lemma PlaceOld<V>(hc: HashCode, t: Table<V>, e: Entry<V>)
    requires |t.slots| > 0 && Distinct(t.slots) && Occupied(t.slots) < |t.slots| && AllGood(hc, t.slots)
    requires Holder(t.slots, e.key) < |t.slots|
    ensures Place(hc, t, e, true) == Ok(Table(t.slots[Holder(t.slots, e.key) := Some(e)], t.n))
  {
    ProbeFinds(hc, t.slots, e.key);
  }

  // ---- resizing ----

  /** What `resize`'s loop keeps after passing the first `i` slots of `s`: their pairs, and only those, are in `u`. */
  ghost predicate ResizeInv<V>(hc: HashCode, s: seq<Option<Entry<V>>>, u: Table<V>, i: int)
    requires 0 <= i <= |s|
  {
    Distinct(s) && Valued(s) && |u.slots| > Occupied(s)
    && Distinct(u.slots) && Valued(u.slots) && AllGood(hc, u.slots) && Occupied(u.slots) == CountTo(s, i)
    && forall x :: Val(u.slots, x) == if Holder(s, x) < i then Val(s, x) else None
  }

  /** One round of `resize`'s loop keeps its invariant. */
  lemma ResizeStep<V>(hc: HashCode, s: seq<Option<Entry<V>>>, u: Table<V>, i: int)
    requires 0 <= i < |s| && ResizeInv(hc, s, u, i)
    ensures s[i].None? ==> ResizeInv(hc, s, u, i + 1)
    ensures s[i].Some? ==> Place(hc, u, s[i].value, true).Ok? && ResizeInv(hc, s, Place(hc, u, s[i].value, true).value, i + 1)
  {
    if s[i].None? {
      forall x ensures Val(u.slots, x) == if Holder(s, x) < i + 1 then Val(s, x) else None {
        assert Holder(s, x) != i;
      }
    } else {
      var e := s[i].value;
      HolderAt(s, i);
      CountMono(s, i, |s|);
      CountBounds(u.slots, |u.slots|);
      assert Val(u.slots, e.key) == None;
      assert Holder(u.slots, e.key) == |u.slots|;
      var p := PlaceNew(hc, u, e);
      Fill(hc, u.slots, p, e);
      var uNew := Table(u.slots[p := Some(e)], u.n + 1);
      forall x ensures Val(uNew.slots, x) == if Holder(s, x) < i + 1 then Val(s, x) else None {
        if x != e.key {
          assert Holder(s, x) != i;
        }
      }
    }
  }

  /** `resize`'s loop re-inserts, one by one, exactly the pairs it has passed. */
  lemma {:induction false} ResizeFromSpec<V>(hc: HashCode, s: seq<Option<Entry<V>>>, u: Table<V>, i: int)
    requires 0 <= i <= |s| && ResizeInv(hc, s, u, i)
    ensures ResizeFrom(hc, s, u, i, true).Ok?
    ensures var w := ResizeFrom(hc, s, u, i, true).value;
      && |w.slots| == |u.slots| && Distinct(w.slots) && Valued(w.slots) && AllGood(hc, w.slots)
      && Occupied(w.slots) == Occupied(s)
      && forall x :: Val(w.slots, x) == Val(s, x)
    decreases |s| - i
  {
    if i == |s| {
      forall x ensures Val(u.slots, x) == Val(s, x) {
        if Holder(s, x) == |s| {
          assert Val(s, x) == None;
        }
      }
    } else {
      ResizeStep(hc, s, u, i);
      if s[i].None? {
        ResizeFromSpec(hc, s, u, i + 1);
      } else {
        ResizeFromSpec(hc, s, Place(hc, u, s[i].value, true).value, i + 1);
      }
    }
  }

  /** Resizing to a capacity above the pair count keeps every pair and the count, and leaves every key reachable. */
  lemma ResizeSpec<V>(hc: HashCode, t: Table<V>, capacity: nat)
    requires Distinct(t.slots) && Valued(t.slots) && capacity > Occupied(t.slots)
    ensures Resize(hc, t, capacity, true).Ok?
    ensures var r := Resize(hc, t, capacity, true).value;
      && |r.slots| == capacity && r.n == t.n
      && Distinct(r.slots) && Valued(r.slots) && AllGood(hc, r.slots)
      && Occupied(r.slots) == Occupied(t.slots)
      && forall x :: Val(r.slots, x) == Val(t.slots, x)
  {
    var f := Fresh<V>(capacity);
    CountNone(f.slots, |f.slots|);
    forall x ensures Val(f.slots, x) == if Holder(t.slots, x) < 0 then Val(t.slots, x) else None {
      assert Holder(f.slots, x) == |f.slots|;
    }
    ResizeFromSpec(hc, t.slots, f, 0);
  }

  // ---- get ----

  /** On a valid table, `get` returns the value stored for the key, or null when no slot holds it. */
  lemma GetSpec<V>(hc: HashCode, t: Table<V>, k: int)
    requires Valid(hc, t)
    ensures GetWith(hc, t, Some(k), true) == Ok(Val(t.slots, k))
  {
    ProbeFinds(hc, t.slots, k);
  }

  // ---- delete's second loop ----

  /** Stepping past `i` brings every other slot one step nearer. */
  lemma DistNext(m: int, i: int, r: int)
    requires 0 <= i < m && 0 <= r < m && i != r
    ensures Dist(m, Next(m, i), r) == Dist(m, i, r) - 1
  {
  }

  /** Two slots the same distance from one slot are the same slot. */
  lemma DistInjective(m: int, h: int, a: int, b: int)
    requires 0 <= h < m && 0 <= a < m && 0 <= b < m && Dist(m, h, a) == Dist(m, h, b)
    ensures a == b
  {
  }

  /** If `i` lies on the way from `h` to `q`, so does every slot between `i` and `q`. */
  lemma Between(m: int, h: int, i: int, q: int, r: int)
    requires 0 <= h < m && 0 <= i < m && 0 <= q < m && 0 <= r < m
    requires Dist(m, h, i) < Dist(m, h, q) && Dist(m, i, r) <= Dist(m, i, q)
    ensures Dist(m, h, r) <= Dist(m, h, q)
  {
  }

  /**
   * Seen from slot `i`: if `l` lies after `i` but no later than `q`, and `z`
   * lies beyond `q`, then a walk from `h` that meets `i` before `z` cannot
   * meet `l` before `i`.
   */
  lemma ArcOrder(m: int, h: int, i: int, l: int, q: int, z: int)
    requires 0 <= h < m && 0 <= i < m && 0 <= l < m && 0 <= q < m && 0 <= z < m
    requires 0 < Dist(m, i, l) <= Dist(m, i, q) < Dist(m, i, z)
    requires Dist(m, h, i) < Dist(m, h, z)
    ensures Dist(m, h, i) <= Dist(m, h, l)
  {
  }

  /** Every slot from `i` up to `q`, wrapping round, is occupied. */
  predicate InRun<V>(s: seq<Option<Entry<V>>>, i: int, q: int)
    requires 0 <= i < |s| && 0 <= q < |s|
  {
    forall r :: 0 <= r < |s| && Dist(|s|, i, r) <= Dist(|s|, i, q) ==> s[r].Some?
  }

  /**
   * The first part of what `delete`'s second loop keeps at slot `i`: every
   * key outside the run that starts at `i` is reachable from its hash.
   */
  ghost predicate ReachableOutside<V>(hc: HashCode, s: seq<Option<Entry<V>>>, i: int)
    requires 0 <= i < |s|
  {
    forall q {:trigger Good(hc, s, q)} :: 0 <= q < |s| && s[q].Some? && !InRun(s, i, q) ==> Good(hc, s, q)
  }

  /**
   * The second part: `z` is a free slot, and every key in the run from `i`
   * has its hash placed so that a walk from it meets the key before `z`.
   */
  ghost predicate BeforeGap<V>(hc: HashCode, s: seq<Option<Entry<V>>>, i: int, z: int)
    requires 0 <= i < |s| && 0 <= z < |s|
  {
    s[z].None? &&
    forall q {:trigger InRun(s, i, q)} :: 0 <= q < |s| && InRun(s, i, q) ==>
      Dist(|s|, Hash(hc, s[q].value.key, |s|), q) < Dist(|s|, Hash(hc, s[q].value.key, |s|), z)
  }

  ghost predicate RehashInv<V>(hc: HashCode, u: Table<V>, i: int, z: int, fuel: nat)
  {
    match u
    case Table(s, _) =>
      0 <= i < |s| && 0 <= z < |s| && fuel > Dist(|s|, i, z)
      && Distinct(s) && Valued(s)
      && ReachableOutside(hc, s, i) && BeforeGap(hc, s, i, z)
  }

  /** A key that was in the run from `i`, other than the one at `i`, is still in the run from the next slot. */
  lemma StepStaysInRun<V>(s: seq<Option<Entry<V>>>, i: int, z: int, land: int, q: int)
    requires 0 <= i < |s| && 0 <= z < |s| && 0 <= land < |s| && 0 <= q < |s| && s[i].Some? && s[z].None?
    requires land == i || s[land].None?
    requires InRun(s, i, q) && q != i
    ensures InRun(s[i := None][land := s[i]], Next(|s|, i), q)
  {
    var m := |s|;
    var s2 := s[i := None][land := s[i]];
    var i2 := Next(m, i);
    DistNext(m, i, q);
    forall r | 0 <= r < m && Dist(m, i2, r) <= Dist(m, i2, q) ensures s2[r].Some? {
      if r == i {
        DistNext(m, i, z);
      } else {
        DistNext(m, i, r);
      }
    }
  }

  /** A reachable key outside the run from `i` stays reachable when the key at `i` moves to `land`. */
  lemma StepStaysGood<V>(hc: HashCode, s: seq<Option<Entry<V>>>, i: int, land: int, q: int)
    requires 0 <= i < |s| && 0 <= land < |s| && 0 <= q < |s| && s[i].Some? && q != i && q != land
    requires land == i || s[land].None?
    requires !InRun(s, i, q) && Good(hc, s, q)
    ensures Good(hc, s[i := None][land := s[i]], q)
  {
    var m := |s|;
    var s2 := s[i := None][land := s[i]];
    if s[q].Some? {
      var h := Hash(hc, s[q].value.key, m);
      forall r | 0 <= r < m && Dist(m, h, r) < Dist(m, h, q) ensures s2[r].Some? {
        if r == i && land != i {
          forall rNew | 0 <= rNew < m && Dist(m, i, rNew) <= Dist(m, i, q) ensures s[rNew].Some? {
            Between(m, h, i, q, rNew);
          }
        }
      }
    }
  }

  /** After moving the key at `i` to `land`, the keys outside the run from the next slot are reachable. */
  lemma StepReachable<V>(hc: HashCode, s: seq<Option<Entry<V>>>, i: int, z: int, land: int)
    requires 0 <= i < |s| && 0 <= z < |s| && 0 <= land < |s| && s[i].Some? && s[z].None?
    requires ReachableOutside(hc, s, i)
    requires land == i || s[land].None?
    requires Good(hc, s[i := None][land := s[i]], land)
    ensures ReachableOutside(hc, s[i := None][land := s[i]], Next(|s|, i))
  {
    var m := |s|;
    var s2 := s[i := None][land := s[i]];
    var i2 := Next(m, i);
    forall q | 0 <= q < m && s2[q].Some? && !InRun(s2, i2, q) ensures Good(hc, s2, q) {
      if q != land {
        if InRun(s, i, q) {
          StepStaysInRun(s, i, z, land, q);
        } else {
          StepStaysGood(hc, s, i, land, q);
        }
      }
    }
  }

  /** After moving the key at `i` to `land`, the keys in the run from the next slot still meet their hash before `z`. */
  lemma StepBeforeGap<V>(hc: HashCode, s: seq<Option<Entry<V>>>, i: int, z: int, land: int)
    requires 0 <= i < |s| && 0 <= z < |s| && 0 <= land < |s| && s[i].Some?
    requires BeforeGap(hc, s, i, z)
    requires land == i || s[land].None?
    requires Good(hc, s[i := None][land := s[i]], land)
    ensures z != land && z != i
    ensures BeforeGap(hc, s[i := None][land := s[i]], Next(|s|, i), z)
  {
    var m := |s|;
    var s2 := s[i := None][land := s[i]];
    var i2 := Next(m, i);
    assert InRun(s, i, i);
    forall q | 0 <= q < m && InRun(s2, i2, q)
      ensures Dist(m, Hash(hc, s2[q].value.key, m), q) < Dist(m, Hash(hc, s2[q].value.key, m), z)
    {
      StepBeforeGapAt(hc, s, i, z, land, q);
    }
  }

  /** `StepBeforeGap` for the key at slot `q` of the run from the next slot. */
  lemma StepBeforeGapAt<V>(hc: HashCode, s: seq<Option<Entry<V>>>, i: int, z: int, land: int, q: int)
    requires 0 <= i < |s| && 0 <= z < |s| && 0 <= land < |s| && 0 <= q < |s| && s[i].Some?
    requires BeforeGap(hc, s, i, z)
    requires land == i || s[land].None?
    requires Good(hc, s[i := None][land := s[i]], land)
    requires InRun(s[i := None][land := s[i]], Next(|s|, i), q)
    ensures var s2 := s[i := None][land := s[i]];
      Dist(|s|, Hash(hc, s2[q].value.key, |s|), q) < Dist(|s|, Hash(hc, s2[q].value.key, |s|), z)
  {
    var m := |s|;
    var s2 := s[i := None][land := s[i]];
    var i2 := Next(m, i);
    var hy := Hash(hc, s[i].value.key, m);
    assert InRun(s, i, i);
    assert Dist(m, hy, i) < Dist(m, hy, z);
    DistNext(m, i, z);
    DistNext(m, i, q);
    if land != i && 0 < Dist(m, i, land) <= Dist(m, i, q) {
      ArcOrder(m, hy, i, land, q, z);
      DistInjective(m, hy, i, land);
    }
    forall r | 0 <= r < m && Dist(m, i, r) <= Dist(m, i, q) ensures s[r].Some? {
      if r != i {
        DistNext(m, i, r);
        assert s2[r].Some?;
      }
    }
    assert InRun(s, i, q);
  }

  /** One round of `delete`'s second loop: the pair at `i` leaves its slot and lands in the free slot `land` its probe reaches. */
  lemma RehashMove<V>(hc: HashCode, u: Table<V>, i: int) returns (land: int)
    requires 0 <= i < |u.slots| && u.slots[i].Some? && Distinct(u.slots) && Valued(u.slots)
    ensures 0 <= land < |u.slots| && (land == i || u.slots[land].None?)
    ensures Place(hc, Table(u.slots[i := None], u.n - 1), u.slots[i].value, true) == Ok(Table(u.slots[i := None][land := u.slots[i]], u.n))
    ensures Good(hc, u.slots[i := None][land := u.slots[i]], land)
    ensures Distinct(u.slots[i := None][land := u.slots[i]]) && Valued(u.slots[i := None][land := u.slots[i]])
    ensures Occupied(u.slots[i := None][land := u.slots[i]]) == Occupied(u.slots)
    ensures forall x :: Val(u.slots[i := None][land := u.slots[i]], x) == Val(u.slots, x)
  {
    var s := u.slots;
    var m := |s|;
    var y := s[i].value;
    var s1 := s[i := None];
    ValClear(s, i);
    CountSet(s, i, None, m);
    CountBounds(s, m);
    assert Holder(s1, y.key) == m by {
      assert forall q :: 0 <= q < m ==> !Holds(s1, q, y.key);
    }
    assert Valued(s1);
    land := PlaceNew(hc, Table(s1, u.n - 1), y);
    Fill(hc, s1, land, y);
    assert s1[land := Some(y)] == s[i := None][land := s[i]];
    HolderAt(s, i);
  }

  /** One round of `delete`'s second loop keeps its invariant, the count and every stored pair. */
  lemma RehashStep<V>(hc: HashCode, u: Table<V>, i: int, z: int, fuel: nat) returns (v: Table<V>, j: int, f: nat)
    requires RehashInv(hc, u, i, z, fuel) && u.slots[i].Some?
    ensures fuel == f + 1 && j == Next(|u.slots|, i)
    ensures Rehash(hc, u, i, true, fuel) == Rehash(hc, v, j, true, f)
    ensures RehashInv(hc, v, j, z, f)
    ensures Same(u, v)
  {
    var land := RehashMove(hc, u, i);
    v := Table(u.slots[i := None][land := u.slots[i]], u.n);
    StepReachable(hc, u.slots, i, z, land);
    StepBeforeGap(hc, u.slots, i, z, land);
    DistNext(|u.slots|, i, z);
    j, f := Next(|u.slots|, i), fuel - 1;
    assert Rehash(hc, u, i, true, fuel) == Rehash(hc, v, j, true, f);
  }

  /** When `delete`'s second loop reaches a free slot, every key is reachable. */
  lemma RehashDone<V>(hc: HashCode, u: Table<V>, i: int, z: int, fuel: nat)
    requires RehashInv(hc, u, i, z, fuel) && u.slots[i].None?
    ensures Rehash(hc, u, i, true, fuel) == Ok(u)
    ensures AllGood(hc, u.slots)
  {
    var s := u.slots;
    forall q | 0 <= q < |s| ensures Good(hc, s, q) {
      if s[q].Some? {
        assert !InRun(s, i, q);
      }
    }
  }

  /** Two tables of the same capacity and count whose keys find the same values. */
  ghost predicate Same<V>(t: Table<V>, u: Table<V>)
  {
    |u.slots| == |t.slots| && u.n == t.n && Occupied(u.slots) == Occupied(t.slots)
    && forall x :: Val(u.slots, x) == Val(t.slots, x)
  }

  /** The outcome `delete`'s second loop must reach: the pairs of `t`, and every key reachable. */
  ghost predicate Rehashed<V>(hc: HashCode, t: Table<V>, r: Result<Table<V>>)
  {
    r.Ok? && Same(t, r.value) && Distinct(r.value.slots) && Valued(r.value.slots) && AllGood(hc, r.value.slots)
  }

  /**
   * `delete`'s second loop, from any state that keeps its invariant, ends on
   * a table holding the same pairs as `t` in which every key is reachable.
   */
  lemma {:induction false} RehashSpec<V>(hc: HashCode, t: Table<V>, u: Table<V>, i: int, z: int, fuel: nat)
    requires RehashInv(hc, u, i, z, fuel) && Same(t, u)
    ensures Rehashed(hc, t, Rehash(hc, u, i, true, fuel))
    decreases fuel, 2
  {
    if u.slots[i].Some? {
      RehashOn(hc, t, u, i, z, fuel);
    } else {
      RehashDone(hc, u, i, z, fuel);
    }
  }

  /** `RehashSpec` when slot `i` holds a pair: one round, then the rest. */
  lemma {:induction false} RehashOn<V>(hc: HashCode, t: Table<V>, u: Table<V>, i: int, z: int, fuel: nat)
    requires RehashInv(hc, u, i, z, fuel) && Same(t, u) && u.slots[i].Some?
    ensures Rehashed(hc, t, Rehash(hc, u, i, true, fuel))
    decreases fuel, 1
  {
    var v, j, f := RehashStep(hc, u, i, z, fuel);
    SameTrans(t, u, v);
    RehashRest(hc, t, u, v, i, fuel, j, z, f);
  }

  /** The rounds after the first: `u` at `i` ends where `v` at slot `j` with one round less does. */
  lemma {:induction false} RehashRest<V>(hc: HashCode, t: Table<V>, u: Table<V>, v: Table<V>, i: int, g: nat, j: int, z: int, f: nat)
    requires 0 <= i && RehashInv(hc, v, j, z, f) && Same(t, v)
    requires Rehash(hc, u, i, true, g) == Rehash(hc, v, j, true, f)
    ensures Rehashed(hc, t, Rehash(hc, u, i, true, g))
    decreases f + 1, 0
  {
    RehashSpec(hc, t, v, j, z, f);
  }

  lemma SameTrans<V>(t: Table<V>, u: Table<V>, v: Table<V>)
    requires Same(t, u) && Same(u, v)
    ensures Same(t, v)
  {
  }

  lemma RehashedSame<V>(hc: HashCode, t: Table<V>, a: Result<Table<V>>, b: Result<Table<V>>)
    requires a == b && Rehashed(hc, t, b)
    ensures Rehashed(hc, t, a)
  {
  }

  /** Freeing slot `p`: every key outside the run after `p` is still reachable. */
  lemma StartReachable<V>(hc: HashCode, s: seq<Option<Entry<V>>>, p: int)
    requires 0 <= p < |s| && s[p].Some? && AllGood(hc, s)
    ensures ReachableOutside(hc, s[p := None], Next(|s|, p))
  {
    var s1 := s[p := None];
    forall q | 0 <= q < |s| && s1[q].Some? && !InRun(s1, Next(|s|, p), q) ensures Good(hc, s1, q) {
      StartGood(hc, s, p, q);
    }
  }

  /** A key outside the run after the freed slot `p` did not need `p` to be reached. */
  lemma StartGood<V>(hc: HashCode, s: seq<Option<Entry<V>>>, p: int, q: int)
    requires 0 <= p < |s| && 0 <= q < |s| && s[p].Some? && Good(hc, s, q)
    requires s[p := None][q].Some? && !InRun(s[p := None], Next(|s|, p), q)
    ensures Good(hc, s[p := None], q)
  {
    var m := |s|;
    var s1 := s[p := None];
    var i := Next(m, p);
    var h := Hash(hc, s[q].value.key, m);
    if Dist(m, h, p) < Dist(m, h, q) {
      DistNext(m, p, q);
      forall r | 0 <= r < m && Dist(m, i, r) <= Dist(m, i, q) ensures s1[r].Some? {
        if r != p {
          DistNext(m, p, r);
          Between(m, h, p, q, r);
        }
      }
      assert false;
    }
  }

  /** Freeing slot `p`: every key in the run after `p` meets its hash before the free slot `z`. */
  lemma StartBeforeGap<V>(hc: HashCode, s: seq<Option<Entry<V>>>, p: int, z: int)
    requires 0 <= p < |s| && 0 <= z < |s| && s[p].Some? && s[z].None? && AllGood(hc, s)
    ensures BeforeGap(hc, s[p := None], Next(|s|, p), z)
  {
    var m := |s|;
    var s1 := s[p := None];
    forall q | 0 <= q < m && InRun(s1, Next(m, p), q)
      ensures Dist(m, Hash(hc, s1[q].value.key, m), q) < Dist(m, Hash(hc, s1[q].value.key, m), z)
    {
      var h := Hash(hc, s[q].value.key, m);
      assert Good(hc, s, q);
      if Dist(m, h, z) == Dist(m, h, q) {
        DistInjective(m, h, z, q);
      }
    }
  }

  /**
   * `delete(key)` on a valid table: the key no longer finds a value, every
   * other key finds what it found before, the count drops by one exactly
   * when the key was present, and the table stays valid.
   */
  lemma DeleteSpec<V>(hc: HashCode, t: Table<V>, k: int)
    requires Valid(hc, t)
    ensures DeleteWith(hc, t, Some(k), true).Ok?
    ensures var r := DeleteWith(hc, t, Some(k), true).value;
      && Valid(hc, r) && Changed(t.slots, r.slots, k, None)
      && r.n == t.n - (if Val(t.slots, k).Some? then 1 else 0)
  {
    var s := t.slots;
    var m := |s|;
    CountBounds(s, m);
    if t.n == 0 {
      assert Holder(s, k) == m;
    } else {
      ProbeFinds(hc, s, k);
      var p := Probe(hc, s, k, true).value;
      if s[p].None? {
        assert Holder(s, k) == m;
      } else {
        HolderAt(s, p);
        var w := FreeSlot(hc, t, p);
        if 0 < w.n - 1 <= m / 8 {
          ResizeSpec(hc, Table(w.slots, w.n - 1), m / 2);
        }
      }
    }
  }

  /**
   * `delete`'s middle part: freeing the slot of the key at `p` and
   * re-inserting the rest of its cluster removes that key, keeps every other
   * pair, and leaves every key reachable from its hash.
   */
  lemma FreeSlot<V>(hc: HashCode, t: Table<V>, p: int) returns (w: Table<V>)
    requires Valid(hc, t) && 0 <= p < |t.slots| && t.slots[p].Some?
    ensures Rehash(hc, Table(t.slots[p := None], t.n), Next(|t.slots|, p), true, |t.slots|) == Ok(w)
    ensures |w.slots| == |t.slots| && w.n == t.n && Occupied(w.slots) == t.n - 1
    ensures Distinct(w.slots) && Valued(w.slots) && AllGood(hc, w.slots)
    ensures Changed(t.slots, w.slots, t.slots[p].value.key, None)
  {
    var s, m := t.slots, |t.slots|;
    CountBounds(s, m);
    var z :| 0 <= z < m && s[z].None?;
    var s1 := s[p := None];
    ValClear(s, p);
    CountSet(s, p, None, m);
    StartReachable(hc, s, p);
    StartBeforeGap(hc, s, p, z);
    assert Valued(s1);
    var u0 := Table(s1, t.n);
    RehashSpec(hc, u0, u0, Next(m, p), z, m);
    w := Rehash(hc, u0, Next(m, p), true, m).value;
  }

  /**
   * `put(key, value)` on a valid table: afterwards the key finds `value`
   * (null deletes it), every other key finds what it found before, the count
   * grows by one exactly when a new key arrives, and the table stays valid.
   */
  lemma PutSpec<V>(hc: HashCode, t: Table<V>, k: int, value: Option<V>)
    requires Valid(hc, t)
    ensures PutWith(hc, t, Some(k), value, true).Ok?
    ensures var r := PutWith(hc, t, Some(k), value, true).value;
      && Valid(hc, r) && Changed(t.slots, r.slots, k, value)
      && r.n == t.n + (if value.Some? && Val(t.slots, k).None? then 1 else if value.None? && Val(t.slots, k).Some? then -1 else 0)
  {
    if value.None? {
      DeleteSpec(hc, t, k);
    } else {
      var m := |t.slots|;
      var u := t;
      if t.n >= m / 2 {
        ResizeSpec(hc, t, 2 * m);
        u := Resize(hc, t, 2 * m, true).value;
      }
      PlaceSpec(hc, u, Entry(k, value));
      assert forall x :: Val(u.slots, x) == Val(t.slots, x);
    }
  }

  /**
   * `put`'s insertion into a table with room for one more pair: the key
   * lands where it can be found, and nothing else changes.
   */
  lemma PlaceSpec<V>(hc: HashCode, u: Table<V>, e: Entry<V>)
    requires |u.slots| > 0 && 2 * (u.n + 1) <= |u.slots| && u.n == Occupied(u.slots)
    requires Distinct(u.slots) && Valued(u.slots) && AllGood(hc, u.slots) && e.value.Some?
    ensures Place(hc, u, e, true).Ok?
    ensures var r := Place(hc, u, e, true).value;
      && |r.slots| == |u.slots| && r.n == Occupied(r.slots)
      && Distinct(r.slots) && Valued(r.slots) && AllGood(hc, r.slots)
      && Changed(u.slots, r.slots, e.key, e.value)
      && r.n == u.n + (if Val(u.slots, e.key).None? then 1 else 0)
  {
    CountBounds(u.slots, |u.slots|);
    var h := Holder(u.slots, e.key);
    if h < |u.slots| {
      PlaceOld(hc, u, e);
      Overwrite(hc, u.slots, h, e);
    } else {
      var p := PlaceNew(hc, u, e);
      Fill(hc, u.slots, p, e);
    }
  }

  // ---- contains, isEmpty, size, keys ----

  /** `contains(key)`: `get(key) != null`; on a valid table, exactly when some slot holds the key. */
  function Contains<V>(hc: HashCode, t: Table<V>, key: Option<int>): (r: Result<bool>)
    ensures key.None? ==> r == Err(NullPointer)
    ensures Valid(hc, t) && key.Some? ==> r == Ok(Holder(t.slots, key.value) < |t.slots|)
  {
    if Valid(hc, t) && key.Some? then
      GetSpec(hc, t, key.value);
      match GetWith(hc, t, key, true)
      case Err(e) => Err(e)
      case Ok(v) => Ok(v.Some?)
    else
      match GetWith(hc, t, key, true)
      case Err(e) => Err(e)
      case Ok(v) => Ok(v.Some?)
  }

  /** `isEmpty()`: `n == 0`; on a valid table, exactly when no key finds a value. */
  function IsEmpty<V>(hc: HashCode, t: Table<V>): (b: bool)
    ensures Valid(hc, t) ==> (b <==> forall x :: Val(t.slots, x).None?)
  {
    if Valid(hc, t) then
      CountBounds(t.slots, |t.slots|);
      if t.n == 0 then
        assert forall x :: Holder(t.slots, x) == |t.slots|;
        true
      else
        var q :| 0 <= q < |t.slots| && t.slots[q].Some?;
        HolderAt(t.slots, q);
        false
    else t.n == 0
  }

  /** The keys of the occupied slots among the first `j`, in slot order. */
  function KeysTo<V>(s: seq<Option<Entry<V>>>, j: int): (ks: seq<int>)
    requires 0 <= j <= |s|
    ensures |ks| == CountTo(s, j)
    decreases j
  {
    if j == 0 then [] else KeysTo(s, j - 1) + (if s[j - 1].Some? then [s[j - 1].value.key] else [])
  }

  /**
   * A key is listed exactly when one of the first `j` slots holds it, and
   * without repeated keys in the slots no key is listed twice.
   */
  lemma {:induction false} KeysToSpec<V>(s: seq<Option<Entry<V>>>, j: int)
    requires 0 <= j <= |s|
    ensures forall x :: x in KeysTo(s, j) <==> exists q :: 0 <= q < j && Holds(s, q, x)
    ensures Distinct(s) ==> forall a, b :: 0 <= a < b < |KeysTo(s, j)| ==> KeysTo(s, j)[a] != KeysTo(s, j)[b]
    decreases j
  {
    if j > 0 {
      KeysToSpec(s, j - 1);
      var ks := KeysTo(s, j - 1);
      forall x | x in KeysTo(s, j) ensures exists q :: 0 <= q < j && Holds(s, q, x) {
        if x !in ks {
          assert Holds(s, j - 1, x);
        }
      }
      forall x | exists q :: 0 <= q < j && Holds(s, q, x) ensures x in KeysTo(s, j) {
        var q :| 0 <= q < j && Holds(s, q, x);
        if q == j - 1 {
          assert KeysTo(s, j)[|ks|] == x;
        } else {
          assert x in ks;
        }
      }
      if Distinct(s) && s[j - 1].Some? {
        var k := s[j - 1].value.key;
        forall a | 0 <= a < |ks| ensures ks[a] != k {
          assert ks[a] in ks;
          var q :| 0 <= q < j - 1 && Holds(s, q, ks[a]);
        }
      }
    }
  }

  /** `size()`: the count `n`; on a valid table, the number of keys `keys()` lists, each of which it lists once. */
  function Size<V>(hc: HashCode, t: Table<V>): (size: int)
    ensures Valid(hc, t) ==> size == |KeysTo(t.slots, |t.slots|)|
  {
    t.n
  }

  /**
   * `keys()`: walk the slots in order and push each key onto a stack, whose
   * iteration starts from the last push. Here the stack is a sequence with
   * its top first.
   */
  method Keys<V>(t: Table<V>) returns (stack: seq<int>)
    ensures |stack| == Occupied(t.slots)
    ensures forall p :: 0 <= p < |stack| ==> stack[p] == KeysTo(t.slots, |t.slots|)[|stack| - 1 - p]
    ensures forall x :: x in stack <==> Holder(t.slots, x) < |t.slots|
  {
    var s := t.slots;
    stack := [];
    var i := 0;
    while i < |s|
      invariant 0 <= i <= |s|
      invariant |stack| == |KeysTo(s, i)|
      invariant forall p :: 0 <= p < |stack| ==> stack[p] == KeysTo(s, i)[|stack| - 1 - p]
    {
      if s[i].Some? {
        stack := [s[i].value.key] + stack;
      }
      i := i + 1;
    }
    var ks := KeysTo(s, |s|);
    KeysToSpec(s, |s|);
    forall x ensures x in stack <==> x in ks {
      if x in stack {
        var p :| 0 <= p < |stack| && stack[p] == x;
        assert ks[|stack| - 1 - p] == x;
      }
      if x in ks {
        var p :| 0 <= p < |ks| && ks[p] == x;
        assert stack[|stack| - 1 - p] == x;
      }
    }
    forall x ensures x in ks <==> Holder(s, x) < |s| {
      if Holder(s, x) < |s| {
        assert Holds(s, Holder(s, x), x);
      }
    }
  }

  // ---- the step as written ----

  /** Slots 0 to 2 free and key 3 in slot 3: what `new LinearProbingHashTable(4)` then `put(3, 30)` leave, with keys as their own hash codes. */
  lemma ThreeStored()
    ensures New<int>(4).Ok?
    ensures PutWith(Identity, New<int>(4).value, Some(3), Some(30), false) == Ok(Table([None, None, None, Some(Entry(3, Some(30)))], 1))
    ensures PutWith(Identity, New<int>(4).value, Some(3), Some(30), true) == Ok(Table([None, None, None, Some(Entry(3, Some(30)))], 1))
  {
    var t := New<int>(4).value;
    assert t.slots == [None, None, None, None];
    assert Hash(Identity, 3, 4) == 3;
    assert t.slots[3 := Some(Entry(3, Some(30)))] == [None, None, None, Some(Entry(3, Some(30)))];
  }

  /**
   * As written, `put(7, 70)` then hashes to the occupied slot 3, steps to
   * `3 + 1 % 4 == 4` and reads past the end of the arrays.
   */
  lemma PutAsWrittenRunsOff()
    ensures PutWith(Identity, Table([None, None, None, Some(Entry(3, Some(30)))], 1), Some(7), Some(70), false) == Err(IndexOutOfBounds)
  {
    var s: seq<Option<Entry<int>>> := [None, None, None, Some(Entry(3, Some(30)))];
    assert Hash(Identity, 7, 4) == 3;
    assert StepAsWritten(4, 3) == 4;
    assert ProbeAsWritten(s, 3, 7) == Err(IndexOutOfBounds);
  }

  /** With the wrapped step, the same `put(7, 70)` goes round to slot 0. */
  lemma PutWraps()
    ensures PutWith(Identity, Table([None, None, None, Some(Entry(3, Some(30)))], 1), Some(7), Some(70), true)
      == Ok(Table([Some(Entry(7, Some(70))), None, None, Some(Entry(3, Some(30)))], 2))
  {
    var s: seq<Option<Entry<int>>> := [None, None, None, Some(Entry(3, Some(30)))];
    assert Hash(Identity, 7, 4) == 3;
    assert Pos(4, 3, 1) == 0;
    assert ProbeFrom(s, 3, 7, 0) == Some(0);
    assert s[0 := Some(Entry(7, Some(70)))] == [Some(Entry(7, Some(70))), None, None, Some(Entry(3, Some(30)))];
  }

  /** A table of one slot holding another key: as written, the probe for a new key never moves. */
  lemma GetAsWrittenOneSlot()
    ensures GetWith(Identity, Table([Some(Entry(0, Some(5)))], 1), Some(1), false) == Err(Diverges)
    ensures GetWith(Identity, Table([Some(Entry(0, Some(5)))], 1), Some(1), true) == Err(Diverges)
  {
    var s: seq<Option<Entry<int>>> := [Some(Entry(0, Some(5)))];
    assert Hash(Identity, 1, 1) == 0;
    assert ProbeFrom(s, 0, 1, 1) == None;
  }
}

=== FILE: linked_list_symbol_table.dfy ===
/**
 * `LinkedListSymbolTable`: an unordered chain of nodes from `head`, new keys
 * prepended, found by a linear scan, with a separate `size` counter. Nodes
 * carry a `prev` field that nothing ever assigns, so removing a node always
 * takes the `head = cursor.next` branch.
 */
module LinkedListSymbolTables {
  import opened Wrappers
  import opened SymbolTables

  /** The chain from `head` as a sequence, and the counter `size`. */
  datatype Table<V> = Table(chain: seq<Entry<V>>, size: int)

  /** What the class keeps when every mutation goes through the corrected `put`. */
  predicate Valid<V>(t: Table<V>)
  {
    t.size == |t.chain| && DistinctKeys(t.chain) && forall i :: 0 <= i < |t.chain| ==> t.chain[i].value.Some?
  }

  function Empty<V>(): (t: Table<V>)
  {
    Table([], 0)
  }

  /** A new table is valid and holds no key. */
  lemma EmptySpec<V>()
    ensures var t := Empty<V>(); Valid(t) && KeySet(t.chain) == {}
  {
  }

  /**
   * `put(key, value)` as written. On an empty table (`size == 0`) only a
   * non-null value is stored. Otherwise a present key is overwritten, or
   * unlinked for a null value by moving `head` past it, which drops every
   * node in front of it too. An absent key is prepended, even with a null
   * value. When earlier deletions have left `size > 0` with a null `head`,
   * the scan dereferences null.
   */
  function PutAsWritten<V>(t: Table<V>, key: Option<int>, value: Option<V>): (r: Result<Table<V>>)
    ensures key.None? ==> r == Err(NullPointer)
    ensures r.Ok? ==> r.value.size - t.size in {-1, 0, 1}
    ensures r == Err(NullPointer) <==> key.None? || (t.size != 0 && t.chain == [])
  {
    match key
    case None => Err(NullPointer)
    case Some(k) =>
      if t.size == 0 then
        if value.Some? then Ok(Table([Entry(k, value)], t.size + 1)) else Ok(t)
      else if t.chain == [] then Err(NullPointer)
      else
        var i := Find(t.chain, k);
        if i < |t.chain| then
          if value.None? then Ok(Table(t.chain[i + 1..], t.size - 1))
          else Ok(Table(t.chain[i := Entry(k, value)], t.size))
        else Ok(Table([Entry(k, value)] + t.chain, t.size + 1))
  }

  /**
   * `put(key, value)` as the interface describes it: a null value removes
   * only the key's own node, and leaves an absent key absent.
   */
  function Put<V>(t: Table<V>, key: Option<int>, value: Option<V>): (r: Result<Table<V>>)
    ensures key.None? ==> r == Err(NullPointer)
    ensures Valid(t) ==> (r.Ok? <==> key.Some?)
  {
    match key
    case None => Err(NullPointer)
    case Some(k) =>
      if t.size == 0 then
        if value.Some? then Ok(Table([Entry(k, value)], t.size + 1)) else Ok(t)
      else if t.chain == [] then Err(NullPointer)
      else
        var i := Find(t.chain, k);
        if i < |t.chain| then
          if value.None? then Ok(Table(t.chain[..i] + t.chain[i + 1..], t.size - 1))
          else Ok(Table(t.chain[i := Entry(k, value)], t.size))
        else if value.None? then Ok(t)
        else Ok(Table([Entry(k, value)] + t.chain, t.size + 1))
  }

  /**
   * Table `r` is `t` changed exactly at `k`: `r` is valid, `k` finds `value`
   * (a null `value` meaning `k` is gone), and every other key finds what it
   * found in `t`.
   */
  ghost predicate ChangedAt<V>(t: Table<V>, k: int, value: Option<V>, r: Table<V>)
  {
    Valid(r)
    && KeySet(r.chain) == (if value.Some? then KeySet(t.chain) + {k} else KeySet(t.chain) - {k})
    && Lookup(r.chain, k) == value
    && (forall x :: x != k ==> Lookup(r.chain, x) == Lookup(t.chain, x))
  }

  /**
   * `put(k, v)` changes the table exactly at `k`: afterwards `k` finds `v`
   * (a null `v` meaning `k` is gone), every other key finds what it found
   * before, and `size` counts the keys.
   */
  lemma PutSpec<V>(t: Table<V>, k: int, value: Option<V>)
    requires Valid(t)
    ensures Put(t, Some(k), value).Ok?
    ensures var r := Put(t, Some(k), value).value;
      Valid(r)
      && KeySet(r.chain) == (if value.Some? then KeySet(t.chain) + {k} else KeySet(t.chain) - {k})
      && Lookup(r.chain, k) == value
      && (forall x :: x != k ==> Lookup(r.chain, x) == Lookup(t.chain, x))
  {
    var s := t.chain;
    var i := Find(s, k);
    FindLookup(s, k);
    if i < |s| {
      if value.None? {
        PutRemoves(t, k, i);
      } else {
        PutOverwrites(t, k, i, value);
      }
    } else if value.Some? {
      PutPrepends(t, k, value);
    }
    assert ChangedAt(t, k, value, Put(t, Some(k), value).value);
  }

  /** A null value for a present key unlinks exactly its node. */
  lemma PutRemoves<V>(t: Table<V>, k: int, i: int)
    requires Valid(t) && 0 <= i < |t.chain| && t.chain[i].key == k
    ensures ChangedAt(t, k, None, Table(t.chain[..i] + t.chain[i + 1..], t.size - 1))
  {
    var s := t.chain;
    LookupRemove(s, i);
    DistinctRemove(s, i);
    DistinctCard(s[..i] + s[i + 1..]);
    DistinctCard(s);
    var r := s[..i] + s[i + 1..];
    forall j | 0 <= j < |r| ensures r[j].value.Some? {
      if j < i { assert r[j] == s[j]; } else { assert r[j] == s[j + 1]; }
    }
  }

  /** A non-null value for a present key overwrites its node in place. */
  lemma PutOverwrites<V>(t: Table<V>, k: int, i: int, value: Option<V>)
    requires Valid(t) && 0 <= i < |t.chain| && t.chain[i].key == k && value.Some?
    ensures ChangedAt(t, k, value, Table(t.chain[i := Entry(k, value)], t.size))
  {
    LookupUpdate(t.chain, i, value);
    var r := t.chain[i := Entry(k, value)];
    assert DistinctKeys(r) by {
      forall p, q | 0 <= p < q < |r| ensures r[p].key != r[q].key {
        assert r[p].key == t.chain[p].key && r[q].key == t.chain[q].key;
      }
    }
  }

  /** A non-null value for an absent key goes into a new node at the head. */
  lemma PutPrepends<V>(t: Table<V>, k: int, value: Option<V>)
    requires Valid(t) && k !in KeySet(t.chain) && value.Some?
    ensures ChangedAt(t, k, value, Table([Entry(k, value)] + t.chain, t.size + 1))
  {
    var e := Entry(k, value);
    assert [e] + t.chain == [] + [e] + t.chain;
    LookupInsert(t.chain, 0, e);
    DistinctPrepend(e, t.chain);
  }

  /** With a non-null value the as-written `put` is the corrected one. */
  lemma PutAsWrittenNonNull<V>(t: Table<V>, key: Option<int>, value: Option<V>)
    requires value.Some?
    ensures PutAsWritten(t, key, value) == Put(t, key, value)
  {
  }

  /** Deleting the key at the head, the only node the as-written unlinking handles, agrees with the corrected `delete`. */
  lemma DeleteHeadAgrees<V>(t: Table<V>)
    requires Valid(t) && t.chain != []
    ensures PutAsWritten(t, Some(t.chain[0].key), None) == Put(t, Some(t.chain[0].key), None)
  {
    assert Find(t.chain, t.chain[0].key) == 0;
    assert t.chain[..0] + t.chain[1..] == t.chain[1..];
  }

  /** `get(key)`: null on an empty table or for an absent key, otherwise the value of the first node holding it. */
  function Get<V>(t: Table<V>, key: Option<int>): (r: Result<Option<V>>)
    ensures key.None? ==> r == Err(NullPointer)
    ensures Valid(t) && key.Some? ==> r == Ok(Lookup(t.chain, key.value))
  {
    match key
    case None => Err(NullPointer)
    case Some(k) =>
      if t.size == 0 then Ok(None)
      else if t.chain == [] then Err(NullPointer)
      else
        var i := Find(t.chain, k);
        FindLookup(t.chain, k);
        if i < |t.chain| then Ok(t.chain[i].value) else Ok(None)
  }

  /** `delete(key)`: `put(key, null)`. */
  function Delete<V>(t: Table<V>, key: Option<int>): (r: Result<Table<V>>)
    ensures key.None? ==> r == Err(NullPointer)
    ensures Valid(t) && key.Some? ==> r.Ok? && Valid(r.value) && KeySet(r.value.chain) == KeySet(t.chain) - {key.value}
  {
    if Valid(t) && key.Some? then
      PutSpec(t, key.value, None);
      Put(t, key, None)
    else Put(t, key, None)
  }

  function DeleteAsWritten<V>(t: Table<V>, key: Option<int>): (r: Result<Table<V>>)
    ensures key.None? ==> r == Err(NullPointer)
  {
    PutAsWritten(t, key, None)
  }

  /** `contains(key)`: `get(key) != null`; with no null values stored, exactly the keys present. */
  function Contains<V>(t: Table<V>, key: Option<int>): (r: Result<bool>)
    ensures key.None? ==> r == Err(NullPointer)
    ensures Valid(t) && key.Some? ==> r == Ok(key.value in KeySet(t.chain))
  {
    if Valid(t) && key.Some? then
      FindLookup(t.chain, key.value);
      match Get(t, key)
      case Err(e) => Err(e)
      case Ok(v) => Ok(v.Some?)
    else
      match Get(t, key)
      case Err(e) => Err(e)
      case Ok(v) => Ok(v.Some?)
  }

  function IsEmpty<V>(t: Table<V>): (b: bool)
    ensures Valid(t) ==> (b <==> KeySet(t.chain) == {})
  {
    assert Valid(t) && t.size != 0 ==> t.chain[0].key in KeySet(t.chain);
    t.size == 0
  }

  function Size<V>(t: Table<V>): (n: int)
    ensures Valid(t) ==> n == |KeySet(t.chain)|
  {
    if Valid(t) then
      DistinctCard(t.chain);
      t.size
    else t.size
  }

  /** The keys in the order the class's `keys()` yields them: the tail of the chain first. */
  function KeyOrder<V>(t: Table<V>): seq<int>
  {
    Reverse(seq(|t.chain|, i requires 0 <= i < |t.chain| => t.chain[i].key))
  }

  /**
   * `keys()`: an empty stack when `size == 0`; otherwise walk from `head`
   * pushing each key, so that iteration starts from the last push. Here the
   * stack is a sequence with its top first. A null `head` with a non-zero
   * `size` is dereferenced.
   */
  method Keys<V>(t: Table<V>) returns (r: Result<seq<int>>)
    ensures t.size == 0 ==> r == Ok([])
    ensures r == Err(NullPointer) <==> t.size != 0 && t.chain == []
    ensures t.size != 0 && t.chain != [] ==> r.Ok? && r.value == KeyOrder(t)
    ensures t.size != 0 && r.Ok? ==> forall x :: x in r.value <==> x in KeySet(t.chain)
  {
    if t.size == 0 {
      return Ok([]);
    }
    if t.chain == [] {
      return Err(NullPointer);
    }
    var stack := [t.chain[0].key];
    var i := 1;
    while i < |t.chain|
      invariant 1 <= i <= |t.chain|
      invariant |stack| == i
      invariant forall j :: 0 <= j < i ==> stack[j] == t.chain[i - 1 - j].key
    {
      stack := [t.chain[i].key] + stack;
      i := i + 1;
    }
    forall x | x in KeySet(t.chain) ensures x in stack {
      var j :| 0 <= j < |t.chain| && t.chain[j].key == x;
      assert stack[|t.chain| - 1 - j] == x;
    }
    return Ok(stack);
  }

  /** A new key joins the end of `keys()`: iteration lists keys oldest first. */
  lemma PutNewKeyLast<V>(t: Table<V>, k: int, value: Option<V>)
    requires Valid(t) && k !in KeySet(t.chain) && value.Some?
    ensures Put(t, Some(k), value).Ok? && KeyOrder(Put(t, Some(k), value).value) == KeyOrder(t) + [k]
  {
    FindLookup(t.chain, k);
    var r := Put(t, Some(k), value).value;
    assert r.chain == [Entry(k, value)] + t.chain;
    var a := seq(|r.chain|, i requires 0 <= i < |r.chain| => r.chain[i].key);
    var b := seq(|t.chain|, i requires 0 <= i < |t.chain| => t.chain[i].key);
    assert a == [k] + b;
    assert Reverse(a) == Reverse(b) + [k] by {
      assert a[1..] == b;
    }
  }

  // ---- the unlinking of a deleted key ----

  /** The puts 1, 2, 3 with values 10, 20, 30: the chain runs 3, 2, 1. */
  function ThreeKeys(): Table<int>
  {
    Table([Entry(3, Some(30)), Entry(2, Some(20)), Entry(1, Some(10))], 3)
  }

  lemma ThreeKeysBuilt()
    ensures Put(Empty(), Some(1), Some(10)).Ok?
    ensures Put(Put(Empty(), Some(1), Some(10)).value, Some(2), Some(20)).Ok?
    ensures Put(Put(Put(Empty(), Some(1), Some(10)).value, Some(2), Some(20)).value, Some(3), Some(30)) == Ok(ThreeKeys())
    ensures Valid(ThreeKeys())
  {
    var one := Table([Entry(1, Some(10))], 1);
    var two := Table([Entry(2, Some(20)), Entry(1, Some(10))], 2);
    assert Put(Empty(), Some(1), Some(10)) == Ok(one);
    assert Find(one.chain, 2) == 1;
    assert [Entry(2, Some(20))] + one.chain == two.chain;
    assert Put(one, Some(2), Some(20)) == Ok(two);
    assert Find(two.chain, 3) == 2;
    assert [Entry(3, Some(30))] + two.chain == ThreeKeys().chain;
    assert Put(two, Some(3), Some(30)) == Ok(ThreeKeys());
  }

  /**
   * As written, deleting 2 moves `head` past it and so also drops 3: the
   * count says two keys remain, but `get(3)` finds nothing.
   */
  lemma DeleteAsWrittenDropsPrefix()
    ensures DeleteAsWritten(ThreeKeys(), Some(2)) == Ok(Table([Entry(1, Some(10))], 2))
    ensures Get(DeleteAsWritten(ThreeKeys(), Some(2)).value, Some(3)) == Ok(None)
  {
    assert Find(ThreeKeys().chain, 2) == 1;
    assert Find([Entry(1, Some(10))], 3) == 1;
  }

  /** The corrected `delete` of 2 keeps 3 and 1. */
  lemma DeleteKeepsOthers()
    ensures Delete(ThreeKeys(), Some(2)) == Ok(Table([Entry(3, Some(30)), Entry(1, Some(10))], 2))
    ensures Get(Delete(ThreeKeys(), Some(2)).value, Some(3)) == Ok(Some(30))
  {
    assert Find(ThreeKeys().chain, 2) == 1;
    assert ThreeKeys().chain[..1] + ThreeKeys().chain[2..] == [Entry(3, Some(30)), Entry(1, Some(10))];
  }

  // ---- put(absent, null) ----

  /** As written, deleting an absent key from a non-empty table prepends it with a null value and counts it. */
  lemma DeleteAsWrittenInserts()
    ensures DeleteAsWritten(ThreeKeys(), Some(7)) == Ok(Table([Entry(7, None)] + ThreeKeys().chain, 4))
  {
    assert Find(ThreeKeys().chain, 7) == 3;
  }

  /** The corrected `delete` of an absent key changes nothing. */
  lemma DeleteAbsentUnchanged<V>(t: Table<V>, k: int)
    requires Valid(t) && k !in KeySet(t.chain)
    ensures Delete(t, Some(k)) == Ok(t)
  {
    FindLookup(t.chain, k);
  }
}

=== FILE: max_binary_heap.dfy ===
/**
 * `MaxBinaryHeap`: a fixed-capacity binary max-heap of `Integer` keys in
 * slots `1..n` of an array of `capacity + 1` slots; slot 0 is never used and
 * every slot past `n` is null. The parent of slot `i` is slot `i / 2`.
 */
module MaxBinaryHeaps {
  import opened Wrappers
  import Util

  datatype Heap = Heap(keys: seq<Option<int>>, n: int)

  /**
   * A key in each of slots `1..n`. A heap of capacity -1 has no slots at all,
   * not even slot 0, and stays empty.
   */
  predicate Shaped(a: seq<Option<int>>, n: int)
  {
    0 <= n && (n < |a| || n == 0) && forall i :: 1 <= i <= n ==> a[i].Some?
  }

  /** Slot 0 and every slot past `n` null: no stale references are kept. */
  predicate Tidy(a: seq<Option<int>>, n: int)
  {
    (|a| > 0 ==> a[0].None?) && forall i :: 0 <= i < |a| && n < i ==> a[i].None?
  }

  /** Heap order: no key is greater than its parent's. */
  predicate Ordered(a: seq<Option<int>>, n: int)
  {
    Shaped(a, n) && forall i :: 2 <= i <= n ==> a[i / 2].value >= a[i].value
  }

  /** The keys in slots `1..n`, in slot order. */
  function Vals(a: seq<Option<int>>, n: int): (vs: seq<int>)
    requires Shaped(a, n)
    ensures |vs| == n && forall j :: 0 <= j < n ==> a[j + 1] == Some(vs[j])
  {
    seq(n, j requires 0 <= j < n && Shaped(a, n) => a[j + 1].value)
  }

  /** The multiset of stored keys. */
  function Contents(h: Heap): multiset<int>
    requires Shaped(h.keys, h.n)
  {
    multiset(Vals(h.keys, h.n))
  }

  /** `swap` of two occupied slots permutes the stored keys. */
  function Exchange(a: seq<Option<int>>, n: int, i: int, j: int): (r: seq<Option<int>>)
    requires Shaped(a, n) && 1 <= i <= n && 1 <= j <= n
    ensures Shaped(r, n) && |r| == |a| && r[i] == a[j] && r[j] == a[i]
    ensures forall k {:trigger r[k]} :: 0 <= k < |a| && k != i && k != j ==> r[k] == a[k]
    ensures multiset(Vals(r, n)) == multiset(Vals(a, n))
  {
    var r := Util.Swap(a, i, j).value;
    assert Vals(r, n) == Util.Swap(Vals(a, n), i - 1, j - 1).value;
    r
  }

  /** The constructor: `capacity + 1` null slots; a capacity below -1 fails at the allocation. */
  function New(capacity: int): (r: Result<Heap>)
    ensures capacity + 1 < 0 <==> r == Err(NegativeArraySize)
    ensures r.Ok? ==> Ordered(r.value.keys, r.value.n) && Tidy(r.value.keys, r.value.n) && Contents(r.value) == multiset{}
    ensures r.Ok? ==> |r.value.keys| == capacity + 1
  {
    if capacity + 1 < 0 then Err(NegativeArraySize) else Ok(Heap(seq(capacity + 1, _ => None), 0))
  }

  function IsEmpty(h: Heap): (b: bool)
    requires Shaped(h.keys, h.n)
    ensures b <==> Contents(h) == multiset{}
  {
    h.n == 0
  }

  function Size(h: Heap): (k: int)
    requires Shaped(h.keys, h.n)
    ensures k == |Contents(h)|
  {
    h.n
  }

  /**
   * `max()`: slot 1, which is null on an empty heap and out of bounds when the
   * capacity is 0; on an ordered heap it is the greatest key.
   */
  function Max(h: Heap): (r: Result<Option<int>>)
    requires Shaped(h.keys, h.n)
    ensures r.Ok? <==> |h.keys| >= 2
    ensures r.Err? ==> r.error == IndexOutOfBounds
    ensures r.Ok? && h.n > 0 ==> r.value.Some?
    ensures r.Ok? && h.n == 0 && Tidy(h.keys, h.n) ==> r.value.None?
    ensures r.Ok? && h.n > 0 ==> r.value.value in Contents(h)
    ensures r.Ok? && h.n > 0 && Ordered(h.keys, h.n) ==> forall x :: x in Contents(h) ==> x <= r.value.value
  {
    if |h.keys| < 2 then Err(IndexOutOfBounds)
    else
      RootIsMax(h);
      Ok(h.keys[1])
  }

  /** On an ordered, non-empty heap slot 1 holds a stored key that no other key exceeds. */
  lemma RootIsMax(h: Heap)
    requires Shaped(h.keys, h.n) && 2 <= |h.keys|
    ensures h.n > 0 ==> h.keys[1].value in Contents(h)
    ensures h.n > 0 && Ordered(h.keys, h.n) ==> forall x :: x in Contents(h) ==> x <= h.keys[1].value
  {
    if h.n > 0 {
      assert Vals(h.keys, h.n)[0] == h.keys[1].value;
      if Ordered(h.keys, h.n) {
        forall x | x in Contents(h)
          ensures x <= h.keys[1].value
        {
          var j :| 0 <= j < h.n && Vals(h.keys, h.n)[j] == x;
          RootGreatest(h.keys, h.n, j + 1);
        }
      }
    }
  }

  /** In an ordered heap slot 1 holds a key at least as great as every other. */
  lemma {:induction false} RootGreatest(a: seq<Option<int>>, n: int, i: int)
    requires Ordered(a, n) && 1 <= i <= n
    decreases i
    ensures a[1].value >= a[i].value
  {
    if i > 1 {
      RootGreatest(a, n, i / 2);
    }
  }

  // ---- swim ----

  /**
   * The loop of `swim(k)` as written: `parent` is computed once, before the
   * loop, so after the first exchange `child == parent` and the test compares
   * a key with itself. The key rises at most one level.
   */
  function SwimAsWritten(a: seq<Option<int>>, n: int, child: int, parent: int): (r: seq<Option<int>>)
    requires Shaped(a, n) && 1 <= child <= n && (parent == child / 2 || parent == child)
    decreases child
    ensures Shaped(r, n) && multiset(Vals(r, n)) == multiset(Vals(a, n))
    ensures |r| == |a| && forall i {:trigger r[i]} :: 0 <= i < |a| && !(1 <= i <= n) ==> r[i] == a[i]
  {
    if child > 1 && Util.Less(a[parent].value, a[child].value) then
      SwimAsWritten(Exchange(a, n, child, parent), n, parent, parent)
    else a
  }

  /** `swim(k)` as intended: exchange with the parent while the parent is smaller. */
  function Swim(a: seq<Option<int>>, n: int, k: int): (r: seq<Option<int>>)
    requires Shaped(a, n) && 1 <= k <= n
    decreases k
    ensures Shaped(r, n) && multiset(Vals(r, n)) == multiset(Vals(a, n))
    ensures |r| == |a| && forall i {:trigger r[i]} :: 0 <= i < |a| && !(1 <= i <= n) ==> r[i] == a[i]
    ensures Tidy(a, n) ==> Tidy(r, n)
  {
    if k > 1 && Util.Less(a[k / 2].value, a[k].value) then Swim(Exchange(a, n, k, k / 2), n, k / 2)
    else a
  }

  /** Heap order everywhere but between `k` and its parent, and `k`'s parent dominates `k`'s children. */
  predicate OrderedAbove(a: seq<Option<int>>, n: int, k: int)
  {
    Shaped(a, n) && 1 <= k <= n
    && (forall i :: 2 <= i <= n && i != k ==> a[i / 2].value >= a[i].value)
    && (k > 1 ==> forall c :: 2 <= c <= n && c / 2 == k ==> a[k / 2].value >= a[c].value)
  }

  /** `swim(k)` as intended restores heap order when `k` is the only slot out of place. */
  lemma {:induction false} SwimOrdered(a: seq<Option<int>>, n: int, k: int)
    requires OrderedAbove(a, n, k)
    decreases k
    ensures Ordered(Swim(a, n, k), n)
  {
    if k > 1 && Util.Less(a[k / 2].value, a[k].value) {
      var p := k / 2;
      var b := Exchange(a, n, k, p);
      forall i | 2 <= i <= n && i != p
        ensures b[i / 2].value >= b[i].value
      {
        if i == k {
        } else if i / 2 == k {
        } else if i / 2 == p {
          assert a[p].value >= a[i].value;
        }
      }
      if p > 1 {
        forall c | 2 <= c <= n && c / 2 == p
          ensures b[p / 2].value >= b[c].value
        {
          assert a[p / 2].value >= a[p].value;
          if c != k {
            assert a[p].value >= a[c].value;
          }
        }
      }
      SwimOrdered(b, n, p);
    }
  }

  // ---- sink ----

  /**
   * `sink(k)`: while slot `k` has a child, pick the left child unless a right
   * child exists and is greater; stop when the parent is not less than it,
   * otherwise exchange and continue from the child.
   */
  function Sink(a: seq<Option<int>>, n: int, k: int): (r: seq<Option<int>>)
    requires Shaped(a, n) && 1 <= k
    decreases n - k
    ensures Shaped(r, n) && multiset(Vals(r, n)) == multiset(Vals(a, n))
    ensures |r| == |a| && forall i {:trigger r[i]} :: 0 <= i < |a| && !(1 <= i <= n) ==> r[i] == a[i]
    ensures Tidy(a, n) ==> Tidy(r, n)
  {
    var left := 2 * k;
    if left <= n then
      var greater := if left < n && Util.Less(a[left].value, a[left + 1].value) then left + 1 else left;
      if !Util.Less(a[k].value, a[greater].value) then a
      else Sink(Exchange(a, n, k, greater), n, greater)
    else a
  }

  /** Heap order everywhere but below `k`, and `k`'s parent dominates `k`'s children. */
  predicate OrderedBelow(a: seq<Option<int>>, n: int, k: int)
  {
    Shaped(a, n) && 1 <= k
    && (forall i :: 2 <= i <= n && i / 2 != k ==> a[i / 2].value >= a[i].value)
    && (k > 1 ==> forall c :: 2 <= c <= n && c / 2 == k ==> a[k / 2].value >= a[c].value)
  }

  /** The child `sink` compares with: the right one only when it exists and is greater. */
  function GreaterChild(a: seq<Option<int>>, n: int, k: int): (g: int)
    requires Shaped(a, n) && 1 <= k && 2 * k <= n
    ensures g == 2 * k || g == 2 * k + 1
    ensures g <= n && g / 2 == k
    ensures forall c :: 2 <= c <= n && c / 2 == k ==> a[g].value >= a[c].value
  {
    var left := 2 * k;
    assert forall c :: 2 <= c <= n && c / 2 == k ==> c == left || c == left + 1;
    if left < n && Util.Less(a[left].value, a[left + 1].value) then left + 1 else left
  }

  /** `sink(k)` restores heap order when `k` is the only slot out of place. */
  lemma {:induction false} SinkOrdered(a: seq<Option<int>>, n: int, k: int)
    requires OrderedBelow(a, n, k)
    decreases n - k
    ensures Ordered(Sink(a, n, k), n)
  {
    if 2 * k <= n {
      var g := GreaterChild(a, n, k);
      if Util.Less(a[k].value, a[g].value) {
        SinkStep(a, n, k, g);
        SinkOrdered(Exchange(a, n, k, g), n, g);
      } else {
        assert forall c :: 2 <= c <= n && c / 2 == k ==> a[k].value >= a[c].value;
      }
    }
  }

  /** One exchange of `sink` moves the only misplaced slot one level down. */
  lemma SinkStep(a: seq<Option<int>>, n: int, k: int, g: int)
    requires OrderedBelow(a, n, k) && 2 * k <= n && g == GreaterChild(a, n, k)
    requires a[k].value < a[g].value
    ensures OrderedBelow(Exchange(a, n, k, g), n, g)
  {
    var b := Exchange(a, n, k, g);
    forall i | 2 <= i <= n && i / 2 != g
      ensures b[i / 2].value >= b[i].value
    {
      if i == k {
        assert a[k / 2].value >= a[g].value;
      } else if i / 2 == k {
        assert b[k] == a[g];
        if i != g {
          assert b[i] == a[i];
        }
      } else if i != g {
        assert b[i] == a[i] && b[i / 2] == a[i / 2];
      }
    }
    forall c | 2 <= c <= n && c / 2 == g
      ensures b[g / 2].value >= b[c].value
    {
      assert a[g].value >= a[c].value;
      assert b[c] == a[c];
    }
  }

  // ---- insert and delMax ----

  /** Slot `n + 1` takes the key; shape and contents follow. */
  function Place(h: Heap, key: int): (a: seq<Option<int>>)
    requires Shaped(h.keys, h.n) && h.n + 1 < |h.keys|
    ensures Shaped(a, h.n + 1) && multiset(Vals(a, h.n + 1)) == Contents(h) + multiset{key}
  {
    var a := h.keys[h.n + 1 := Some(key)];
    assert Vals(a, h.n + 1) == Vals(h.keys, h.n) + [key];
    a
  }

  /** Placing a key after an ordered heap leaves only the new slot out of place. */
  lemma PlaceOrdered(h: Heap, key: int)
    requires Shaped(h.keys, h.n) && h.n + 1 < |h.keys|
    ensures Ordered(h.keys, h.n) ==> Ordered(Swim(Place(h, key), h.n + 1, h.n + 1), h.n + 1)
  {
    if Ordered(h.keys, h.n) {
      SwimOrdered(Place(h, key), h.n + 1, h.n + 1);
    }
  }

  /** `keys[++n] = key; swim(n)` with the one-step swim as written. */
  function PushAsWritten(h: Heap, key: int): (g: Heap)
    requires Shaped(h.keys, h.n) && h.n + 1 < |h.keys|
    ensures Shaped(g.keys, g.n) && g.n == h.n + 1 && |g.keys| == |h.keys|
  {
    Heap(SwimAsWritten(Place(h, key), h.n + 1, h.n + 1, (h.n + 1) / 2), h.n + 1)
  }

  /** Even the one-step swim only rearranges: one more copy of the key is stored. */
  lemma PushAsWrittenContents(h: Heap, key: int)
    requires Shaped(h.keys, h.n) && h.n + 1 < |h.keys|
    ensures Contents(PushAsWritten(h, key)) == Contents(h) + multiset{key}
  {
  }

  /** `keys[++n] = key; swim(n)` with the intended swim. */
  function Push(h: Heap, key: int): (g: Heap)
    requires Shaped(h.keys, h.n) && h.n + 1 < |h.keys|
    ensures Shaped(g.keys, g.n) && g.n == h.n + 1 && |g.keys| == |h.keys|
  {
    Heap(Swim(Place(h, key), h.n + 1, h.n + 1), h.n + 1)
  }

  /** The intended push stores exactly one more copy of the key. */
  lemma PushContents(h: Heap, key: int)
    requires Shaped(h.keys, h.n) && h.n + 1 < |h.keys|
    ensures Contents(Push(h, key)) == Contents(h) + multiset{key}
  {
  }

  /** The intended push keeps heap order. */
  lemma PushOrdered(h: Heap, key: int)
    requires Shaped(h.keys, h.n) && h.n + 1 < |h.keys|
    ensures Ordered(h.keys, h.n) ==> Ordered(Push(h, key).keys, h.n + 1)
  {
    assert Push(h, key).keys == Swim(Place(h, key), h.n + 1, h.n + 1);
    PlaceOrdered(h, key);
  }

  /** The intended push keeps slot 0 and the slots past the new last one null. */
  lemma PushTidy(h: Heap, key: int)
    requires Shaped(h.keys, h.n) && h.n + 1 < |h.keys|
    ensures Tidy(h.keys, h.n) ==> Tidy(Push(h, key).keys, h.n + 1)
  {
    assert Push(h, key).keys == Swim(Place(h, key), h.n + 1, h.n + 1);
    assert Tidy(h.keys, h.n) ==> Tidy(Place(h, key), h.n + 1);
  }

  /**
   * `insert(key)` as written: a null key throws NullPointerException, a full
   * array fails at `keys[++n]`, then the one-step swim.
   */
  function InsertAsWritten(h: Heap, key: Option<int>): (r: Result<Heap>)
    requires Shaped(h.keys, h.n)
    ensures key.None? <==> r == Err(NullPointer)
    ensures r.Err? && key.Some? ==> r.error == IndexOutOfBounds && h.n + 1 >= |h.keys|
    ensures r.Ok? ==> Shaped(r.value.keys, r.value.n) && Contents(r.value) == Contents(h) + multiset{key.value}
  {
    match key
    case None => Err(NullPointer)
    case Some(k) =>
      if h.n + 1 >= |h.keys| then Err(IndexOutOfBounds)
      else
        PushAsWrittenContents(h, k);
        Ok(PushAsWritten(h, k))
  }

  /** `insert(key)` with the intended swim: the same failures, and heap order is kept. */
  function Insert(h: Heap, key: Option<int>): (r: Result<Heap>)
    requires Shaped(h.keys, h.n)
    ensures key.None? <==> r == Err(NullPointer)
    ensures r.Err? && key.Some? ==> r.error == IndexOutOfBounds && h.n + 1 >= |h.keys|
    ensures r.Ok? ==> Shaped(r.value.keys, r.value.n) && Contents(r.value) == Contents(h) + multiset{key.value}
    ensures r.Ok? ==> r.value.n == h.n + 1
    ensures r.Ok? && Ordered(h.keys, h.n) ==> Ordered(r.value.keys, r.value.n)
    ensures r.Ok? && Tidy(h.keys, h.n) ==> Tidy(r.value.keys, r.value.n)
  {
    match key
    case None => Err(NullPointer)
    case Some(k) =>
      if h.n + 1 >= |h.keys| then Err(IndexOutOfBounds)
      else
        PushContents(h, k);
        PushOrdered(h, k);
        PushTidy(h, k);
        Ok(Push(h, k))
  }

  /**
   * `delMax()`: an empty heap throws NoSuchElementException; otherwise slot 1
   * is exchanged with slot `n`, `n` shrinks, slot 1 sinks, and the vacated
   * slot is nulled. On an ordered heap it returns the greatest key, removes
   * exactly one copy of it, and keeps heap order.
   */
  function DelMax(h: Heap): (r: Result<Pair<int, Heap>>)
    requires Shaped(h.keys, h.n)
    ensures h.n == 0 <==> r == Err(NoSuchElement)
    ensures r.Ok? ==> Shaped(r.value.1.keys, r.value.1.n) && r.value.1.n == h.n - 1
    ensures r.Ok? ==> Contents(r.value.1) + multiset{r.value.0} == Contents(h)
    ensures r.Ok? ==> r == Ok((h.keys[1].value, r.value.1))
    ensures r.Ok? && Ordered(h.keys, h.n) ==> Ordered(r.value.1.keys, r.value.1.n)
    ensures r.Ok? && Ordered(h.keys, h.n) ==> forall x :: x in Contents(h) ==> x <= r.value.0
    ensures r.Ok? && Tidy(h.keys, h.n) ==> Tidy(r.value.1.keys, r.value.1.n)
  {
    if h.n == 0 then Err(NoSuchElement)
    else
      var b := Detach(h);
      RootIsMax(h);
      RemoveRootOrdered(h, b);
      DetachSink(h);
      Ok((h.keys[1].value, Heap(Sink(b, h.n - 1, 1), h.n - 1)))
  }

  /** Slot 1 exchanged with slot `n`, and slot `n` nulled: the root is out. */
  function Detach(h: Heap): (b: seq<Option<int>>)
    requires Shaped(h.keys, h.n) && h.n > 0
    ensures b == Exchange(h.keys, h.n, 1, h.n)[h.n := None]
    ensures Shaped(b, h.n - 1) && multiset(Vals(b, h.n - 1)) + multiset{h.keys[1].value} == Contents(h)
    ensures Tidy(h.keys, h.n) ==> Tidy(b, h.n - 1)
  {
    var a := Exchange(h.keys, h.n, 1, h.n);
    var b := a[h.n := None];
    assert Vals(a, h.n) == Vals(b, h.n - 1) + [h.keys[1].value];
    b
  }

  /** Sinking slot 1 after the root is out keeps the remaining keys and the null slots. */
  lemma DetachSink(h: Heap)
    requires Shaped(h.keys, h.n) && h.n > 0
    ensures Contents(Heap(Sink(Detach(h), h.n - 1, 1), h.n - 1)) + multiset{h.keys[1].value} == Contents(h)
    ensures Tidy(h.keys, h.n) ==> Tidy(Sink(Detach(h), h.n - 1, 1), h.n - 1)
  {
  }

  /** Moving the last key to slot 1 of an ordered heap leaves only slot 1 out of place. */
  lemma RemoveRootOrdered(h: Heap, b: seq<Option<int>>)
    requires Shaped(h.keys, h.n) && h.n > 0
    requires b == Detach(h)
    ensures Ordered(h.keys, h.n) ==> Ordered(Sink(b, h.n - 1, 1), h.n - 1)
  {
    if Ordered(h.keys, h.n) {
      SinkOrdered(b, h.n - 1, 1);
    }
  }

  // ---- iteration ----

  /** What repeated `delMax()` yields until the heap is empty. */
  function Drain(h: Heap): seq<int>
    requires Shaped(h.keys, h.n)
    decreases h.n
  {
    match DelMax(h)
    case Err(_) => []
    case Ok((x, hNew)) => [x] + Drain(hNew)
  }

  /** Greatest first. */
  predicate Descending(s: seq<int>)
  {
    forall i, j :: 0 <= i < j < |s| ==> s[i] >= s[j]
  }

  /** Draining an ordered heap yields every key once, greatest first. */
  lemma {:induction false} DrainSorted(h: Heap)
    requires Ordered(h.keys, h.n)
    decreases h.n
    ensures multiset(Drain(h)) == Contents(h)
    ensures Descending(Drain(h))
  {
    if h.n > 0 {
      var r := DelMax(h);
      var x, hNew := r.value.0, r.value.1;
      assert Drain(h) == [x] + Drain(hNew);
      DrainSorted(hNew);
      RestBelowMax(Contents(h), Contents(hNew), x);
      DescendingCons(x, Drain(hNew), Contents(hNew));
    }
  }

  lemma RestBelowMax(m: multiset<int>, mNew: multiset<int>, x: int)
    requires mNew + multiset{x} == m && forall y :: y in m ==> y <= x
    ensures forall y :: y in mNew ==> y <= x
  {
    forall y | y in mNew
      ensures y <= x
    {
      assert y in m;
    }
  }

  lemma DescendingCons(x: int, d: seq<int>, m: multiset<int>)
    requires Descending(d) && multiset(d) == m && forall y :: y in m ==> y <= x
    ensures Descending([x] + d)
  {
    forall j | 0 <= j < |d|
      ensures x >= d[j]
    {
      assert d[j] in multiset(d);
    }
  }

  /**
   * The iterator as written: a heap of capacity `size()` whose slots
   * `0..size()` receive a copy of the keys, but whose `n` stays 0. Copying
   * slot 0 fails on a heap that has no slots.
   */
  function IteratorAsWritten(h: Heap): (r: Result<Heap>)
    requires Shaped(h.keys, h.n)
    ensures r.Ok? <==> |h.keys| > 0
    ensures r.Err? ==> r.error == IndexOutOfBounds
    ensures r.Ok? ==> Shaped(r.value.keys, r.value.n) && r.value.n == 0
  {
    if |h.keys| == 0 then Err(IndexOutOfBounds) else Ok(Heap(h.keys[..h.n + 1], 0))
  }

  /** The same copy with its size set: the iterator as intended. */
  function Iterator(h: Heap): (r: Result<Heap>)
    requires Shaped(h.keys, h.n)
    ensures r.Ok? <==> |h.keys| > 0
    ensures r.Err? ==> r.error == IndexOutOfBounds
    ensures r.Ok? ==> Shaped(r.value.keys, r.value.n) && Contents(r.value) == Contents(h)
    ensures r.Ok? && Ordered(h.keys, h.n) ==> Ordered(r.value.keys, r.value.n)
  {
    if |h.keys| == 0 then Err(IndexOutOfBounds)
    else
      assert Vals(h.keys[..h.n + 1], h.n) == Vals(h.keys, h.n);
      Ok(Heap(h.keys[..h.n + 1], h.n))
  }

  /** The iterator as written yields nothing, however many keys the heap holds. */
  lemma IteratorAsWrittenEmpty(h: Heap)
    requires Shaped(h.keys, h.n) && |h.keys| > 0
    ensures Drain(IteratorAsWritten(h).value) == []
    ensures h.n > 0 ==> Contents(h) != multiset{}
  {
    if h.n > 0 {
      assert Vals(h.keys, h.n)[0] in Contents(h);
    }
  }

  /** The intended iterator yields every key once, in descending order. */
  lemma IteratorDescending(h: Heap)
    requires Ordered(h.keys, h.n) && |h.keys| > 0
    ensures multiset(Drain(Iterator(h).value)) == Contents(h)
    ensures Descending(Drain(Iterator(h).value))
  {
    DrainSorted(Iterator(h).value);
  }

  /** The heap built by inserting 3, 2 and 1 into a heap of capacity 4; neither swim moves anything. */
  function ThreeTwoOne(): (h: Heap)
    ensures Ordered(h.keys, h.n) && Tidy(h.keys, h.n)
  {
    var h := Heap([None, Some(3), Some(2), Some(1), None], 3);
    assert h.keys[2 / 2].value >= h.keys[2].value && h.keys[3 / 2].value >= h.keys[3].value;
    h
  }

  lemma ThreeTwoOneBuilt()
    ensures InsertAsWritten(New(4).value, Some(3)).value == Heap([None, Some(3), None, None, None], 1)
    ensures InsertAsWritten(Heap([None, Some(3), None, None, None], 1), Some(2)).value
      == Heap([None, Some(3), Some(2), None, None], 2)
    ensures InsertAsWritten(Heap([None, Some(3), Some(2), None, None], 2), Some(1)).value == ThreeTwoOne()
  {
    assert New(4).value.keys == [None, None, None, None, None];
  }

  /**
   * Inserting 4 after 3, 2, 1: the one-step swim leaves 4 below 3, so heap
   * order is broken and `max()` reports 3 although 4 is stored.
   */
  lemma SwimCounterexample()
    ensures var h := InsertAsWritten(ThreeTwoOne(), Some(4)).value;
      h == Heap([None, Some(3), Some(4), Some(1), Some(2)], 4)
      && !Ordered(h.keys, h.n) && Max(h) == Ok(Some(3)) && 4 in Contents(h)
  {
    var a := ThreeTwoOne().keys[4 := Some(4)];
    assert Place(ThreeTwoOne(), 4) == a;
    var b := Exchange(a, 4, 4, 2);
    assert b == [None, Some(3), Some(4), Some(1), Some(2)];
    assert SwimAsWritten(b, 4, 2, 2) == b;
    var h := Heap(b, 4);
    assert h.keys[2 / 2].value < h.keys[2].value;
    assert Vals(h.keys, 4)[1] == 4;
  }

  /** The intended swim lifts the same 4 to the top. */
  lemma SwimLiftsFour()
    ensures Insert(ThreeTwoOne(), Some(4)).value.keys == [None, Some(4), Some(3), Some(1), Some(2)]
    ensures Max(Insert(ThreeTwoOne(), Some(4)).value) == Ok(Some(4))
  {
    var a := ThreeTwoOne().keys[4 := Some(4)];
    assert Place(ThreeTwoOne(), 4) == a;
    SwimTwice(a);
  }

  lemma SwimTwice(a: seq<Option<int>>)
    requires a == [None, Some(3), Some(2), Some(1), Some(4)]
    ensures Swim(a, 4, 4) == [None, Some(4), Some(3), Some(1), Some(2)]
  {
    var b := Exchange(a, 4, 4, 2);
    assert b == [None, Some(3), Some(4), Some(1), Some(2)];
    assert Swim(a, 4, 4) == Swim(b, 4, 2);
    SwimToRoot(b);
  }

  lemma SwimToRoot(b: seq<Option<int>>)
    requires b == [None, Some(3), Some(4), Some(1), Some(2)]
    ensures Swim(b, 4, 2) == [None, Some(4), Some(3), Some(1), Some(2)]
  {
    var c := Exchange(b, 4, 2, 1);
    assert c == [None, Some(4), Some(3), Some(1), Some(2)];
    assert Swim(c, 4, 1) == c;
  }
}

=== FILE: one_d_range_count.dfy ===
/**
 * `OneDRangeCount`: a binary search tree that answers how many keys, and
 * which, lie between two bounds, using `rank`, `contains` and `keys(lo, hi)`.
 */
module OneDRangeCounts {
  import opened Wrappers
  import opened BinarySearchTrees

  /** The keys of `s` within `[lo, hi]`. */
  function Within(s: set<int>, lo: int, hi: int): set<int>
  {
    set x | x in s && lo <= x <= hi
  }

  /**
   * `count(lo, hi)`: `rank(hi) - rank(lo)`, plus one when `hi` itself is a key.
   * For `lo <= hi` this is the number of keys in `[lo, hi]`. For `hi < lo`
   * nothing guards the bounds, and the answer is minus the number of keys
   * strictly between `hi` and `lo`.
   */
  function Count<V>(t: Tree<V>, lo: int, hi: int): (c: int)
    ensures Ordered(t) && lo <= hi ==> c == |Within(Keys(t), lo, hi)|
    ensures Ordered(t) && hi < lo ==> c == -|Within(Keys(t), hi + 1, lo - 1)|
  {
    var c := if Find(t, hi).Some? then Rank(t, hi) - Rank(t, lo) + 1 else Rank(t, hi) - Rank(t, lo);
    assert Ordered(t) && lo <= hi ==> c == |Within(Keys(t), lo, hi)| by {
      if Ordered(t) && lo <= hi {
        WithinByRank(Keys(t), lo, hi);
      }
    }
    assert Ordered(t) && hi < lo ==> c == -|Within(Keys(t), hi + 1, lo - 1)| by {
      if Ordered(t) && hi < lo {
        WithinByRankReversed(Keys(t), lo, hi);
      }
    }
    c
  }

  /** The keys in `[lo, hi]` are those below `hi` but not below `lo`, and `hi` if present. */
  lemma WithinByRank(s: set<int>, lo: int, hi: int)
    requires lo <= hi
    ensures |Within(s, lo, hi)| == |Below(s, hi)| - |Below(s, lo)| + (if hi in s then 1 else 0)
  {
    var a, b := Below(s, hi), Below(s, lo);
    assert b <= a;
    assert |a - b| == |a| - |b| by {
      assert a == (a - b) + b;
      assert (a - b) !! b;
    }
    var top: set<int> := if hi in s then {hi} else {};
    assert Within(s, lo, hi) == (a - b) + top;
    assert (a - b) !! top;
  }

  /** With the bounds swapped, the keys strictly between `hi` and `lo` are those below `lo` but not below `hi`, less `hi` itself if present. */
  lemma WithinByRankReversed(s: set<int>, lo: int, hi: int)
    requires hi < lo
    ensures |Within(s, hi + 1, lo - 1)| == |Below(s, lo)| - |Below(s, hi)| - (if hi in s then 1 else 0)
  {
    var a, b := Below(s, lo), Below(s, hi);
    assert b <= a;
    assert |a - b| == |a| - |b| by {
      assert a == (a - b) + b;
      assert (a - b) !! b;
    }
    var bottom: set<int> := if hi in s then {hi} else {};
    assert a - b == Within(s, hi + 1, lo - 1) + bottom;
    assert Within(s, hi + 1, lo - 1) !! bottom;
  }

  /** `count(3, 1)` over the keys 1, 2 and 3 is -1: the one key strictly between the swapped bounds, negated. */
  lemma CountSwappedNegative()
    ensures Count(Node(2, 0, Node(1, 0, Leaf, Leaf), Node(3, 0, Leaf, Leaf)), 3, 1) == -1
  {
  }

  /** `range(lo, hi)`: `keys(lo, hi)`, the keys within the bounds in ascending order. */
  function RangeOf<V>(t: Tree<V>, lo: int, hi: int): (s: seq<int>)
    ensures forall x :: x in s ==> x in Within(Keys(t), lo, hi)
    ensures Ordered(t) ==> Increasing(s) && forall x :: x in Within(Keys(t), lo, hi) ==> x in s
  {
    Range(t, lo, hi)
  }

  /** An ascending sequence lists each of its members once. */
  lemma {:induction false} IncreasingCard(s: seq<int>)
    requires Increasing(s)
    ensures |set x | x in s| == |s|
  {
    if s != [] {
      var rest := s[1..];
      IncreasingCard(rest);
      assert (set x | x in s) == {s[0]} + (set x | x in rest);
      assert forall j :: 0 <= j < |rest| ==> s[0] < rest[j];
    }
  }

  /** For `lo <= hi`, `count(lo, hi)` is the number of keys `range(lo, hi)` yields. */
  lemma CountMatchesRange<V>(t: Tree<V>, lo: int, hi: int)
    requires Ordered(t) && lo <= hi
    ensures Count(t, lo, hi) == |RangeOf(t, lo, hi)|
  {
    var s := RangeOf(t, lo, hi);
    IncreasingCard(s);
    assert (set x | x in s) == Within(Keys(t), lo, hi);
  }

  // ---- the scenario of the tests, each letter standing for its character code ----

  /** The puts S, X, E, R, A, C, H, M, L, P on an empty tree, in that order. */
  function Letters(): Tree<int>
  {
    Insert(Insert(Insert(Insert(Insert(Insert(Insert(Insert(Insert(Insert(Leaf, 83, 0), 88, 0), 69, 0), 82, 0), 65, 0), 67, 0), 72, 0), 77, 0), 76, 0), 80, 0)
  }

  lemma LettersStep1()
    ensures Insert(Leaf, 83, 0)
      == Node(83, 0, Leaf, Leaf)
  {
  }

  lemma LettersStep2()
    ensures Insert(Node(83, 0, Leaf, Leaf), 88, 0)
      == Node(83, 0, Leaf, Node(88, 0, Leaf, Leaf))
  {
  }

  lemma LettersStep3()
    ensures Insert(Node(83, 0, Leaf, Node(88, 0, Leaf, Leaf)), 69, 0)
      == Node(83, 0, Node(69, 0, Leaf, Leaf), Node(88, 0, Leaf, Leaf))
  {
  }

  lemma LettersStep4()
    ensures Insert(Node(83, 0, Node(69, 0, Leaf, Leaf), Node(88, 0, Leaf, Leaf)), 82, 0)
      == Node(83, 0, Node(69, 0, Leaf, Node(82, 0, Leaf, Leaf)), Node(88, 0, Leaf, Leaf))
  {
  }

  lemma LettersStep5()
    ensures Insert(Node(83, 0, Node(69, 0, Leaf, Node(82, 0, Leaf, Leaf)), Node(88, 0, Leaf, Leaf)), 65, 0)
      == Node(83, 0, Node(69, 0, Node(65, 0, Leaf, Leaf), Node(82, 0, Leaf, Leaf)), Node(88, 0, Leaf, Leaf))
  {
  }

  lemma LettersStep6()
    ensures Insert(Node(83, 0, Node(69, 0, Node(65, 0, Leaf, Leaf), Node(82, 0, Leaf, Leaf)), Node(88, 0, Leaf, Leaf)), 67, 0)
      == Node(83, 0, Node(69, 0, Node(65, 0, Leaf, Node(67, 0, Leaf, Leaf)), Node(82, 0, Leaf, Leaf)), Node(88, 0, Leaf, Leaf))
  {
  }

  lemma LettersStep7()
    ensures Insert(Node(83, 0, Node(69, 0, Node(65, 0, Leaf, Node(67, 0, Leaf, Leaf)), Node(82, 0, Leaf, Leaf)), Node(88, 0, Leaf, Leaf)), 72, 0)
      == Node(83, 0, Node(69, 0, Node(65, 0, Leaf, Node(67, 0, Leaf, Leaf)), Node(82, 0, Node(72, 0, Leaf, Leaf), Leaf)), Node(88, 0, Leaf, Leaf))
  {
  }

  lemma LettersStep8()
    ensures Insert(Node(83, 0, Node(69, 0, Node(65, 0, Leaf, Node(67, 0, Leaf, Leaf)), Node(82, 0, Node(72, 0, Leaf, Leaf), Leaf)), Node(88, 0, Leaf, Leaf)), 77, 0)
      == Node(83, 0, Node(69, 0, Node(65, 0, Leaf, Node(67, 0, Leaf, Leaf)), Node(82, 0, Node(72, 0, Leaf, Node(77, 0, Leaf, Leaf)), Leaf)), Node(88, 0, Leaf, Leaf))
  {
  }

  lemma LettersStep9()
    ensures Insert(Node(83, 0, Node(69, 0, Node(65, 0, Leaf, Node(67, 0, Leaf, Leaf)), Node(82, 0, Node(72, 0, Leaf, Node(77, 0, Leaf, Leaf)), Leaf)), Node(88, 0, Leaf, Leaf)), 76, 0)
      == Node(83, 0, Node(69, 0, Node(65, 0, Leaf, Node(67, 0, Leaf, Leaf)), Node(82, 0, Node(72, 0, Leaf, Node(77, 0, Node(76, 0, Leaf, Leaf), Leaf)), Leaf)), Node(88, 0, Leaf, Leaf))
  {
  }

  lemma LettersStep10()
    ensures Insert(Node(83, 0, Node(69, 0, Node(65, 0, Leaf, Node(67, 0, Leaf, Leaf)), Node(82, 0, Node(72, 0, Leaf, Node(77, 0, Node(76, 0, Leaf, Leaf), Leaf)), Leaf)), Node(88, 0, Leaf, Leaf)), 80, 0)
      == Node(83, 0, Node(69, 0, Node(65, 0, Leaf, Node(67, 0, Leaf, Leaf)), Node(82, 0, Node(72, 0, Leaf, Node(77, 0, Node(76, 0, Leaf, Leaf), Node(80, 0, Leaf, Leaf))), Leaf)), Node(88, 0, Leaf, Leaf))
  {
  }

  /** The shape the ten puts build: S at the root, E and X below it, and so on. */
  lemma LettersBuilt()
    ensures Ordered(Letters())
    ensures Letters() == Node(83, 0, Node(69, 0, Node(65, 0, Leaf, Node(67, 0, Leaf, Leaf)), Node(82, 0, Node(72, 0, Leaf, Node(77, 0, Node(76, 0, Leaf, Leaf), Node(80, 0, Leaf, Leaf))), Leaf)), Node(88, 0, Leaf, Leaf))
  {
    LettersStep1();
    LettersStep2();
    LettersStep3();
    LettersStep4();
    LettersStep5();
    LettersStep6();
    LettersStep7();
    LettersStep8();
    LettersStep9();
    LettersStep10();
  }

  lemma RangeUnderR()
    ensures Range(Node(82, 0, Node(72, 0, Leaf, Node(77, 0, Node(76, 0, Leaf, Leaf), Node(80, 0, Leaf, Leaf))), Leaf), 70, 84)
      == [72, 76, 77, 80, 82]
  {
    var m := Node(77, 0, Node(76, 0, Leaf, Leaf), Node(80, 0, Leaf, Leaf));
    assert Range(m, 70, 84) == [76, 77, 80];
    assert Range(Node(72, 0, Leaf, m), 70, 84) == [72, 76, 77, 80];
  }

  lemma RangeUnderE()
    ensures Range(Node(69, 0, Node(65, 0, Leaf, Node(67, 0, Leaf, Leaf)), Node(82, 0, Node(72, 0, Leaf, Node(77, 0, Node(76, 0, Leaf, Leaf), Node(80, 0, Leaf, Leaf))), Leaf)), 70, 84)
      == [72, 76, 77, 80, 82]
  {
    RangeUnderR();
  }

  /** Only H, L, M, P, R and S of the ten keys lie between F and T, and range lists them in that order. */
  lemma LettersRange()
    ensures RangeOf(Letters(), 'F' as int, 'T' as int) == ['H' as int, 'L' as int, 'M' as int, 'P' as int, 'R' as int, 'S' as int]
  {
    LettersBuilt();
    RangeLetters();
  }

  lemma RangeLetters()
    ensures Range(Node(83, 0, Node(69, 0, Node(65, 0, Leaf, Node(67, 0, Leaf, Leaf)), Node(82, 0, Node(72, 0, Leaf, Node(77, 0, Node(76, 0, Leaf, Leaf), Node(80, 0, Leaf, Leaf))), Leaf)), Node(88, 0, Leaf, Leaf)), 70, 84)
      == [72, 76, 77, 80, 82, 83]
  {
    RangeUnderE();
  }

  /** The tests' count: six keys between F and T. */
  lemma LettersCount()
    ensures Count(Letters(), 'F' as int, 'T' as int) == 6
  {
    LettersBuilt();
    LettersRange();
    CountMatchesRange(Letters(), 'F' as int, 'T' as int);
  }
}

=== FILE: paths.dfy ===
/**
 * Path reconstruction from the `marked`/`edgeTo` arrays a search leaves
 * behind (`PathDecorator`, and the identical loops of `DFSPaths` and
 * `BFSPaths`): push `v`, then follow `edgeTo` back, pushing each vertex,
 * until a null entry. The path is the stack, read top down.
 */
module Paths {
  import opened Wrappers
  import LinkedStacks

  /**
   * `p` follows the links: consecutive vertices are joined by `edgeTo`, read
   * from the later one back to the earlier.
   */
  predicate Chain(edgeTo: seq<Option<int>>, p: seq<int>)
  {
    |p| > 0
    && (forall i :: 0 <= i < |p| ==> 0 <= p[i] < |edgeTo|)
    && (forall i :: 0 <= i < |p| - 1 ==> edgeTo[p[i + 1]] == Some(p[i]))
  }

  /** Every link points to a vertex. */
  predicate InRange(edgeTo: seq<Option<int>>)
  {
    forall w :: 0 <= w < |edgeTo| && edgeTo[w].Some? ==> 0 <= edgeTo[w].value < |edgeTo|
  }

  /**
   * The links strictly increase `rank`, so they form a forest and following
   * them back terminates. Both searches supply such a rank: the entry order
   * for depth-first search and the distance for breadth-first search.
   */
  ghost predicate Ranked(edgeTo: seq<Option<int>>, rank: seq<nat>)
  {
    |rank| == |edgeTo|
    && forall w :: 0 <= w < |edgeTo| && edgeTo[w].Some? && 0 <= edgeTo[w].value < |edgeTo| ==>
         rank[edgeTo[w].value] < rank[w]
  }

  /** `hasPathTo(v)`: `marked[v]`, with an index error outside the array. */
  function HasPathTo(marked: seq<bool>, v: int): (r: Result<bool>)
    ensures r.Ok? <==> 0 <= v < |marked|
    ensures r.Ok? ==> r.value == marked[v]
    ensures r.Err? ==> r.error == IndexOutOfBounds
  {
    if 0 <= v < |marked| then Ok(marked[v]) else Err(IndexOutOfBounds)
  }

  /**
   * `pathTo(v)`: null (`None`) for an unmarked `v`; otherwise the vertices
   * from the root of `v`'s tree (the first one with a null link) down to `v`,
   * each linked to the one before, none twice. An index error arises only
   * from `v` itself or from a link that leaves the array.
   */
  method PathTo(marked: seq<bool>, edgeTo: seq<Option<int>>, v: int)
    returns (r: Result<Option<seq<int>>>)
    requires |marked| == |edgeTo| && exists rank :: Ranked(edgeTo, rank)
    ensures r.Err? ==> r.error == IndexOutOfBounds
    ensures r.Err? ==> !(0 <= v < |marked|) || !InRange(edgeTo)
    ensures 0 <= v < |marked| && InRange(edgeTo) ==> r.Ok?
    ensures r.Ok? ==> 0 <= v < |marked| && (r.value.Some? <==> marked[v])
    ensures r.Ok? && r.value.Some? ==>
      var p := r.value.value;
      Chain(edgeTo, p) && p[|p| - 1] == v && edgeTo[p[0]] == None && Distinct(p)
  {
    ghost var rank :| Ranked(edgeTo, rank);
    var has := HasPathTo(marked, v);
    if has.Err? {
      return Err(IndexOutOfBounds);
    }
    if !has.value {
      return Ok(None);
    }
    var path := LinkedStacks.Push(LinkedStacks.New(), Some(v)).value;
    var x := v;
    while edgeTo[x].Some?
      invariant Chain(edgeTo, path.items) && path.items[|path.items| - 1] == v
      invariant 0 <= x < |edgeTo| && path.items[0] == x
      invariant forall i, j :: 0 <= i < j < |path.items| ==> rank[path.items[i]] < rank[path.items[j]]
      decreases rank[x]
    {
      var u := edgeTo[x].value;
      if !(0 <= u < |edgeTo|) {
        return Err(IndexOutOfBounds);
      }
      path := LinkedStacks.Push(path, Some(u)).value;
      x := u;
    }
    return Ok(Some(LinkedStacks.Iterator(path).rest));
  }

  /**
   * A chain that starts at a root and ends at `v` is unique: `pathTo(v)`
   * returns the only path the links describe.
   */
  lemma {:induction false} ChainUnique(edgeTo: seq<Option<int>>, p: seq<int>, q: seq<int>)
    requires Chain(edgeTo, p) && Chain(edgeTo, q)
    requires p[|p| - 1] == q[|q| - 1] && edgeTo[p[0]] == None && edgeTo[q[0]] == None
    decreases |p|
    ensures p == q
  {
    if |p| == 1 {
      if |q| > 1 {
        ChainLast(edgeTo, q);
        assert false;
      }
    } else if |q| == 1 {
      ChainLast(edgeTo, p);
      assert false;
    } else {
      var pNew, qNew := p[..|p| - 1], q[..|q| - 1];
      assert Chain(edgeTo, pNew) && Chain(edgeTo, qNew);
      assert p[|p| - 2] == q[|q| - 2];
      ChainUnique(edgeTo, pNew, qNew);
      assert p == pNew + [p[|p| - 1]] && q == qNew + [q[|q| - 1]];
    }
  }

  /** The last vertex of a chain of two or more is linked back to the one before it. */
  lemma ChainLast(edgeTo: seq<Option<int>>, p: seq<int>)
    requires Chain(edgeTo, p) && |p| > 1
    ensures edgeTo[p[|p| - 1]] == Some(p[|p| - 2])
  {
  }
}

=== FILE: randomized_queue.dfy ===
/**
 * `queue.RandomizedQueue`: a bag on a resizing array whose removals take a
 * uniformly random slot. The random index is a parameter here, constrained
 * to the range `StdRandom.uniform(n)` draws from.
 */
module RandomizedQueues {
  import opened Wrappers
  import opened ArrayResizable
  import Util

  datatype RandomizedQueue<T> = RandomizedQueue(slots: seq<Option<T>>, n: int)

  /** Between calls: the items are packed and the growth policy holds. */
  predicate Valid<T>(q: RandomizedQueue<T>)
  {
    Packed(q.slots, q.n) && Balanced(|q.slots|, q.n)
  }

  /** The stored items, in slot order. */
  function Queued<T>(q: RandomizedQueue<T>): seq<T>
    requires Packed(q.slots, q.n)
  {
    Items(q.slots, q.n)
  }

  /** The constructor: two null slots, no items. */
  function New<T>(): (q: RandomizedQueue<T>)
  {
    RandomizedQueue([None, None], 0)
  }

  /** A new queue is empty and has two null slots. */
  lemma NewSpec<T>()
    ensures var q := New<T>(); Valid(q) && Queued(q) == [] && |q.slots| == 2
  {
  }

  function IsEmpty<T>(q: RandomizedQueue<T>): (b: bool)
    requires Packed(q.slots, q.n)
    ensures b <==> Queued(q) == []
  {
    q.n == 0
  }

  function Size<T>(q: RandomizedQueue<T>): (k: int)
    requires Packed(q.slots, q.n)
    ensures k == |Queued(q)|
  {
    q.n
  }

  /**
   * `enqueue(item)`: a null item throws NullPointerException; a full array
   * is first resized to twice its length; the item goes into slot `n`.
   */
  function Enqueue<T>(q: RandomizedQueue<T>, x: Option<T>): (r: Result<RandomizedQueue<T>>)
    requires Valid(q)
    ensures x.None? <==> r == Err(NullPointer)
    ensures r.Ok? ==> Valid(r.value) && Queued(r.value) == Queued(q) + [x.value]
    ensures r.Ok? ==> |r.value.slots| == Grown(|q.slots|, q.n)
  {
    match x
    case None => Err(NullPointer)
    case Some(v) =>
      var a := if q.n == |q.slots| then Resized(q.slots, q.n, 2 * |q.slots|) else q.slots;
      ResizedItems(q.slots, q.n, |a|);
      GrowBalanced(|q.slots|, q.n);
      var r := RandomizedQueue(a[q.n := Some(v)], q.n + 1);
      assert Queued(r) == Queued(q) + [v] by {
        assert forall i :: 0 <= i < q.n ==> Queued(r)[i] == Items(a, q.n)[i];
      }
      Ok(r)
  }

  /**
   * `dequeue()` with `k` the index `StdRandom.uniform(n)` drew: an empty
   * queue throws NoSuchElementException; otherwise `a[k]` is returned, the
   * last item moves into slot `k`, the last slot is nulled, and a queue left
   * exactly a quarter full (and not empty) is resized to half the length.
   */
  function Dequeue<T>(q: RandomizedQueue<T>, k: int): (r: Result<Pair<T, RandomizedQueue<T>>>)
    requires Valid(q) && (q.n > 0 ==> 0 <= k < q.n)
    ensures q.n == 0 <==> r == Err(NoSuchElement)
    ensures r.Ok? ==> Valid(r.value.1) && r.value.0 == Queued(q)[k]
    ensures r.Ok? ==> Queued(r.value.1) == Queued(q)[k := Queued(q)[q.n - 1]][..q.n - 1]
    ensures r.Ok? ==> |r.value.1.slots| == Shrunk(|q.slots|, q.n - 1)
  {
    if q.n == 0 then Err(NoSuchElement)
    else
      var a := Unlink(q.slots, q.n, k);
      Ok((Queued(q)[k], RandomizedQueue(a, q.n - 1)))
  }

  /** `dequeue()` takes out exactly the item it returns and leaves every other item in the queue. */
  lemma DequeueRemovesOne<T>(q: RandomizedQueue<T>, k: int)
    requires Valid(q) && 0 <= k < q.n
    ensures Dequeue(q, k).Ok?
    ensures var (x, qNew) := Dequeue(q, k).value; multiset(Queued(qNew)) + multiset{x} == multiset(Queued(q))
  {
    DequeueMultiset(Queued(q), k);
  }

  /**
   * The array left by `dequeue()`: the last item moved into slot `k`, the
   * last slot nulled, then halved when a quarter full and not empty.
   */
  function Unlink<T>(slots: seq<Option<T>>, n: int, k: int): (a: seq<Option<T>>)
    requires Packed(slots, n) && Balanced(|slots|, n) && 0 <= k < n
    ensures Packed(a, n - 1) && Balanced(|a|, n - 1) && |a| == Shrunk(|slots|, n - 1)
    ensures Items(a, n - 1) == Items(slots, n)[k := Items(slots, n)[n - 1]][..n - 1]
  {
    var m := n - 1;
    var a := slots[k := slots[m]][m := None];
    MoveLast(slots, n, k);
    ShrinkBalanced(|slots|, n);
    if m > 0 && m == |a| / 4 then
      ResizedItems(a, m, |a| / 2);
      Resized(a, m, |a| / 2)
    else a
  }

  /** Moving slot `n - 1` into slot `k` and nulling slot `n - 1` leaves the other items packed. */
  lemma MoveLast<T>(a: seq<Option<T>>, n: int, k: int)
    requires Packed(a, n) && 0 <= k < n
    ensures Packed(a[k := a[n - 1]][n - 1 := None], n - 1)
    ensures Items(a[k := a[n - 1]][n - 1 := None], n - 1) == Items(a, n)[k := Items(a, n)[n - 1]][..n - 1]
  {
    var b := a[k := a[n - 1]][n - 1 := None];
    var xs := Items(a, n);
    var ys := xs[k := xs[n - 1]][..n - 1];
    assert Packed(b, n - 1);
    forall i | 0 <= i < n - 1
      ensures Items(b, n - 1)[i] == ys[i]
    {
    }
  }

  /** Moving the last item into slot `k` and dropping the last slot removes exactly `xs[k]`. */
  lemma DequeueMultiset<T>(xs: seq<T>, k: int)
    requires 0 <= k < |xs|
    ensures multiset(xs[k := xs[|xs| - 1]][..|xs| - 1]) + multiset{xs[k]} == multiset(xs)
  {
    var m := |xs| - 1;
    var ys := xs[k := xs[m]];
    assert xs == xs[..m] + [xs[m]];
    if k == m {
      assert ys[..m] == xs[..m];
    } else {
      assert ys[..m] == xs[..k] + [xs[m]] + xs[k + 1..m];
      assert xs[..m] == xs[..k] + [xs[k]] + xs[k + 1..m];
    }
  }

  /** `sample()` with `k` the drawn index: `a[k]`, or NoSuchElementException on an empty queue. */
  function Sample<T>(q: RandomizedQueue<T>, k: int): (r: Result<T>)
    requires Valid(q) && (q.n > 0 ==> 0 <= k < q.n)
    ensures q.n == 0 <==> r == Err(NoSuchElement)
    ensures r.Ok? ==> r.value in multiset(Queued(q)) && r == Ok(Dequeue(q, k).value.0)
  {
    if q.n == 0 then Err(NoSuchElement)
    else
      assert Queued(q)[k] == q.slots[k].value && Queued(q)[k] in Queued(q);
      Ok(q.slots[k].value)
  }

  /**
   * The shuffle of the iterator's copy: for each position `i` in turn, swap
   * it with the position `rs[i]` drawn from `[i, n)`.
   */
  function Shuffle<T>(xs: seq<T>, rs: seq<int>, i: nat): (ys: seq<T>)
    requires |rs| == |xs| && i <= |xs|
    requires forall j :: 0 <= j < |rs| ==> j <= rs[j] < |xs|
    decreases |xs| - i
    ensures |ys| == |xs| && multiset(ys) == multiset(xs)
  {
    if i == |xs| then xs else Shuffle(Util.Swap(xs, i, rs[i]).value, rs, i + 1)
  }

  /**
   * `iterator()`: a copy of the `n` items, shuffled with the draws `rs`, then
   * yielded one by one. It yields every item exactly as often as it is
   * stored, and leaves the queue as it was.
   */
  function Iterator<T>(q: RandomizedQueue<T>, rs: seq<int>): (ys: seq<T>)
    requires Valid(q) && |rs| == q.n
    requires forall j :: 0 <= j < |rs| ==> j <= rs[j] < q.n
    ensures |ys| == q.n && multiset(ys) == multiset(Queued(q))
  {
    Shuffle(Queued(q), rs, 0)
  }
}

=== FILE: separate_chaining_hash_table.dfy ===
/**
 * `SeparateChainingHashTable`: an array of chains, a key living in the chain
 * its hash selects. Only the first `m = ceil(length / 5)` chains are ever
 * used. The table doubles when the count reaches the array length, and
 * halves when a deletion leaves it a quarter full. Java's `hashCode` is the
 * parameter `hc`; `hash` clears its sign bit, which for a 32-bit value is
 * reduction modulo 2^31.
 */
module SeparateChainingHashTables {
  import opened Wrappers
  import opened SymbolTables

  /** The `buckets` array, each chain read from its first node, and the pair count `n`. */
  datatype Table<V> = Table(buckets: seq<seq<Entry<V>>>, n: int)

  /** `computeM`: the length divided by five, rounded up. */
  function ComputeM(len: nat): (m: nat)
    ensures 5 * (m - 1) < len <= 5 * m
  {
    (len + 4) / 5
  }

  /** The chain `k` belongs to. */
  function Slot<V>(hc: HashCode, t: Table<V>, k: int): (i: int)
    requires |t.buckets| > 0
    ensures 0 <= i < |t.buckets|
  {
    Hash(hc, k, ComputeM(|t.buckets|))
  }

  /** The first `j` chains one after another. */
  function FlattenTo<V>(b: seq<seq<Entry<V>>>, j: int): seq<Entry<V>>
    requires 0 <= j <= |b|
    decreases j
  {
    if j == 0 then [] else FlattenTo(b, j - 1) + b[j - 1]
  }

  /** Every pair in the table, chain by chain: the order `resize` re-inserts them in. */
  function Flatten<V>(b: seq<seq<Entry<V>>>): seq<Entry<V>>
  {
    FlattenTo(b, |b|)
  }

  /** Every pair sits in the chain its key hashes to. */
  predicate Hashed<V>(hc: HashCode, b: seq<seq<Entry<V>>>)
  {
    |b| > 0 && forall i, p :: 0 <= i < |b| && 0 <= p < |b[i]| ==> Hash(hc, b[i][p].key, ComputeM(|b|)) == i
  }

  /** No chain repeats a key or holds a null value. */
  predicate Chains<V>(b: seq<seq<Entry<V>>>)
  {
    forall i :: 0 <= i < |b| ==> DistinctKeys(b[i]) && forall p :: 0 <= p < |b[i]| ==> b[i][p].value.Some?
  }

  predicate Valid<V>(hc: HashCode, t: Table<V>)
  {
    Hashed(hc, t.buckets) && Chains(t.buckets) && t.n == |Flatten(t.buckets)|
  }

  /** The value `k` finds: the first pair holding `k` in its chain. */
  function At<V>(hc: HashCode, t: Table<V>, k: int): Option<V>
    requires |t.buckets| > 0
  {
    Lookup(t.buckets[Slot(hc, t, k)], k)
  }

  // ---- the chains taken together ----

  lemma {:induction false} FlattenHashes<V>(hc: HashCode, b: seq<seq<Entry<V>>>, j: int)
    requires Hashed(hc, b) && 0 <= j <= |b|
    ensures forall y :: y in KeySet(FlattenTo(b, j)) ==> Hash(hc, y, ComputeM(|b|)) < j
  {
    if j > 0 {
      FlattenHashes(hc, b, j - 1);
      KeySetConcat(FlattenTo(b, j - 1), b[j - 1]);
      forall y | y in KeySet(b[j - 1]) ensures Hash(hc, y, ComputeM(|b|)) == j - 1 {
        var p :| 0 <= p < |b[j - 1]| && b[j - 1][p].key == y;
      }
    }
  }

  lemma {:induction false} FlattenDistinct<V>(hc: HashCode, b: seq<seq<Entry<V>>>, j: int)
    requires Hashed(hc, b) && Chains(b) && 0 <= j <= |b|
    ensures DistinctKeys(FlattenTo(b, j))
    ensures forall p :: 0 <= p < |FlattenTo(b, j)| ==> FlattenTo(b, j)[p].value.Some?
  {
    if j > 0 {
      var a := FlattenTo(b, j - 1);
      FlattenDistinct(hc, b, j - 1);
      FlattenHashes(hc, b, j - 1);
      forall y | y in KeySet(b[j - 1]) ensures Hash(hc, y, ComputeM(|b|)) == j - 1 {
        var p :| 0 <= p < |b[j - 1]| && b[j - 1][p].key == y;
      }
      DistinctConcat(a, b[j - 1]);
      var ab := a + b[j - 1];
      forall p | 0 <= p < |ab| ensures ab[p].value.Some? {
        if p >= |a| {
          assert ab[p] == b[j - 1][p - |a|];
        }
      }
    }
  }

  /** Looking `x` up among all pairs finds what its own chain gives. */
  lemma {:induction false} FlattenLookup<V>(hc: HashCode, b: seq<seq<Entry<V>>>, j: int, x: int)
    requires Hashed(hc, b) && 0 <= j <= |b|
    ensures Lookup(FlattenTo(b, j), x) == if Hash(hc, x, ComputeM(|b|)) < j then Lookup(b[Hash(hc, x, ComputeM(|b|))], x) else None
  {
    if j > 0 {
      var h := Hash(hc, x, ComputeM(|b|));
      FlattenLookup(hc, b, j - 1, x);
      FlattenHashes(hc, b, j - 1);
      LookupConcat(FlattenTo(b, j - 1), b[j - 1], x);
      if h != j - 1 {
        assert x !in KeySet(b[j - 1]);
      }
    }
  }

  lemma {:induction false} FlattenUpdateLength<V>(b: seq<seq<Entry<V>>>, i: int, c: seq<Entry<V>>, j: int)
    requires 0 <= i < |b| && 0 <= j <= |b|
    ensures |FlattenTo(b[i := c], j)| == |FlattenTo(b, j)| + (if i < j then |c| - |b[i]| else 0)
  {
    if j > 0 {
      FlattenUpdateLength(b, i, c, j - 1);
    }
  }

  lemma {:induction false} FlattenEmpty<V>(len: nat, j: int)
    requires 0 <= j <= len
    ensures FlattenTo(seq<seq<Entry<V>>>(len, _ => []), j) == []
  {
    if j > 0 {
      FlattenEmpty<V>(len, j - 1);
    }
  }

  /** An array of `len` empty chains. */
  function Fresh<V>(len: nat): (t: Table<V>)
  {
    Table(seq(len, _ => []), 0)
  }

  /** A fresh table has `len` empty chains and a zero count. */
  lemma FreshSpec<V>(len: nat)
    ensures var t := Fresh<V>(len); |t.buckets| == len && t.n == 0
  {
  }

  lemma FreshValid<V>(hc: HashCode, len: nat)
    requires len > 0
    ensures Valid(hc, Fresh<V>(len)) && forall x :: At(hc, Fresh<V>(len), x) == None
  {
    FlattenEmpty<V>(len, len);
  }

  /** The constructor: `capacity + 1` empty chains, so only `capacity < -1` fails. */
  function New<V>(capacity: int): (r: Result<Table<V>>)
  {
    if capacity + 1 < 0 then Err(NegativeArraySize) else Ok(Fresh(capacity + 1))
  }

  /** The constructor fails exactly when `capacity + 1` is a negative array size; otherwise the table is fresh. */
  lemma NewSpec<V>(capacity: int)
    ensures var r := New<V>(capacity); capacity + 1 < 0 <==> r == Err(NegativeArraySize)
    ensures var r := New<V>(capacity); r.Ok? ==> |r.value.buckets| == capacity + 1 && r.value.n == 0
  {
  }

  // ---- the insertion step ----

  /**
   * The insertion part of `put`: overwrite the value of the pair holding the
   * key in its chain, or push a new pair on top of the chain and count it.
   */
  function Place<V>(hc: HashCode, u: Table<V>, e: Entry<V>): (r: Table<V>)
    requires |u.buckets| > 0
    ensures |r.buckets| == |u.buckets| && u.n <= r.n <= u.n + 1
  {
    var i := Slot(hc, u, e.key);
    var b := u.buckets[i];
    var j := Find(b, e.key);
    if j < |b| then Table(u.buckets[i := b[j := e]], u.n)
    else Table(u.buckets[i := [e] + b], u.n + 1)
  }

  /** A pair with a non-null value placed into the table: it is what its key finds, and nothing else changes. */
  lemma PlaceSpec<V>(hc: HashCode, u: Table<V>, e: Entry<V>)
    requires Valid(hc, u) && e.value.Some?
    ensures Valid(hc, Place(hc, u, e))
    ensures forall x :: At(hc, Place(hc, u, e), x) == if x == e.key then e.value else At(hc, u, x)
    ensures Place(hc, u, e).n == u.n + (if At(hc, u, e.key).None? then 1 else 0)
  {
    var i := Slot(hc, u, e.key);
    var b := u.buckets[i];
    var j := Find(b, e.key);
    FindLookup(b, e.key);
    if j < |b| {
      PlaceUpdate(hc, u, e, j);
    } else {
      PlacePush(hc, u, e);
    }
  }

  /** A key already in its chain: the value of its pair is overwritten in place. */
  lemma PlaceUpdate<V>(hc: HashCode, u: Table<V>, e: Entry<V>, j: int)
    requires Valid(hc, u) && e.value.Some?
    requires 0 <= j < |u.buckets[Slot(hc, u, e.key)]| && u.buckets[Slot(hc, u, e.key)][j].key == e.key
    ensures var i := Slot(hc, u, e.key); var r := Table(u.buckets[i := u.buckets[i][j := e]], u.n);
      Valid(hc, r) && forall x :: At(hc, r, x) == if x == e.key then e.value else At(hc, u, x)
  {
    var i := Slot(hc, u, e.key);
    var b := u.buckets[i];
    var c := b[j := e];
    assert c == b[j := Entry(b[j].key, e.value)];
    LookupUpdate(b, j, e.value);
    assert DistinctKeys(c) by {
      forall p, q | 0 <= p < q < |c| ensures c[p].key != c[q].key {
        assert c[p].key == b[p].key && c[q].key == b[q].key;
      }
    }
    ReplaceChain(hc, u, i, c, u.n);
  }

  /** A key not yet in its chain: a new pair goes on top of the chain. */
  lemma PlacePush<V>(hc: HashCode, u: Table<V>, e: Entry<V>)
    requires Valid(hc, u) && e.value.Some? && e.key !in KeySet(u.buckets[Slot(hc, u, e.key)])
    ensures var i := Slot(hc, u, e.key); var r := Table(u.buckets[i := [e] + u.buckets[i]], u.n + 1);
      Valid(hc, r) && forall x :: At(hc, r, x) == if x == e.key then e.value else At(hc, u, x)
  {
    var i := Slot(hc, u, e.key);
    var b := u.buckets[i];
    var c := [e] + b;
    assert c == b[..0] + [e] + b[0..];
    LookupInsert(b, 0, e);
    DistinctPrepend(e, b);
    assert forall p :: 0 < p < |c| ==> c[p] == b[p - 1];
    ReplaceChain(hc, u, i, c, u.n + 1);
  }

  /**
   * Chain `i` replaced by a chain that repeats no key, holds no null value
   * and only keys hashing to `i`, with the count moved by the change in
   * length: the table stays valid, and a key answers from the new chain when
   * it hashes to `i` and as before otherwise.
   */
  lemma ReplaceChain<V>(hc: HashCode, u: Table<V>, i: int, c: seq<Entry<V>>, n: int)
    requires Valid(hc, u) && 0 <= i < |u.buckets| && DistinctKeys(c)
    requires forall p :: 0 <= p < |c| ==> c[p].value.Some? && Hash(hc, c[p].key, ComputeM(|u.buckets|)) == i
    requires n == u.n + |c| - |u.buckets[i]|
    ensures Valid(hc, Table(u.buckets[i := c], n))
    ensures forall x :: At(hc, Table(u.buckets[i := c], n), x) == if Slot(hc, u, x) == i then Lookup(c, x) else At(hc, u, x)
  {
    FlattenUpdateLength(u.buckets, i, c, |u.buckets|);
    ReplaceHashed(hc, u.buckets, i, c);
    ReplaceChains(u.buckets, i, c);
  }

  lemma ReplaceHashed<V>(hc: HashCode, b: seq<seq<Entry<V>>>, i: int, c: seq<Entry<V>>)
    requires Hashed(hc, b) && 0 <= i < |b|
    requires forall p :: 0 <= p < |c| ==> Hash(hc, c[p].key, ComputeM(|b|)) == i
    ensures Hashed(hc, b[i := c])
  {
    var r: seq<seq<Entry<V>>> := b[i := c];
    forall q, p | 0 <= q < |r| && 0 <= p < |r[q]|
      ensures Hash(hc, r[q][p].key, ComputeM(|r|)) == q
    {
      if q != i {
        assert r[q] == b[q];
      }
    }
  }

  lemma ReplaceChains<V>(b: seq<seq<Entry<V>>>, i: int, c: seq<Entry<V>>)
    requires Chains(b) && 0 <= i < |b| && DistinctKeys(c)
    requires forall p :: 0 <= p < |c| ==> c[p].value.Some?
    ensures Chains(b[i := c])
  {
    var r: seq<seq<Entry<V>>> := b[i := c];
    forall q | 0 <= q < |r|
      ensures DistinctKeys(r[q]) && forall p :: 0 <= p < |r[q]| ==> r[q][p].value.Some?
    {
      if q != i {
        assert r[q] == b[q];
      }
    }
  }

  /**
   * `put` of each pair of `s` in turn, leaving out `put`'s doubling check:
   * `ResizeCheckIdle` shows it never fires while `resize` re-inserts.
   */
  function InsertAll<V>(hc: HashCode, u: Table<V>, s: seq<Entry<V>>): (r: Table<V>)
    requires |u.buckets| > 0
    decreases |s|
    ensures |r.buckets| == |u.buckets| && u.n <= r.n <= u.n + |s|
  {
    if s == [] then u else InsertAll(hc, Place(hc, u, s[0]), s[1..])
  }

  /**
   * While `resize(capacity)` re-inserts the pairs of a table holding at most
   * `capacity + 1` of them, the count before each `put` is below the new
   * array's length, so `put`'s `size() == buckets.length` test is false
   * every time. Both callers meet the bound: the doubling runs at
   * `n == length` with `capacity = 2 * length`, the halving at
   * `n == length / 4` with `capacity = length / 2`.
   */
  lemma ResizeCheckIdle<V>(hc: HashCode, t: Table<V>, capacity: nat, p: int)
    requires Valid(hc, t) && t.n <= capacity + 1 && 0 <= p < t.n
    ensures InsertAll(hc, Fresh<V>(capacity + 1), Flatten(t.buckets)[..p]).n < |Fresh<V>(capacity + 1).buckets|
  {
  }

  lemma {:induction false} InsertAllSpec<V>(hc: HashCode, u: Table<V>, s: seq<Entry<V>>)
    requires Valid(hc, u) && DistinctKeys(s)
    requires forall p :: 0 <= p < |s| ==> s[p].value.Some?
    requires forall x :: x in KeySet(s) ==> At(hc, u, x).None?
    decreases |s|
    ensures Valid(hc, InsertAll(hc, u, s)) && InsertAll(hc, u, s).n == u.n + |s|
    ensures forall x :: At(hc, InsertAll(hc, u, s), x) == if x in KeySet(s) then Lookup(s, x) else At(hc, u, x)
  {
    if s != [] {
      var e := s[0];
      var rest := s[1..];
      assert s == [e] + rest;
      KeySetConcat([e], rest);
      KeySetSingle(e);
      PlaceSpec(hc, u, e);
      var uNew := Place(hc, u, e);
      assert e.key !in KeySet(rest);
      assert DistinctKeys(rest);
      InsertAllSpec(hc, uNew, rest);
      forall x ensures At(hc, InsertAll(hc, u, s), x) == if x in KeySet(s) then Lookup(s, x) else At(hc, u, x) {
        LookupConcat([e], rest, x);
      }
    }
  }

  /**
   * `resize(capacity)`: a fresh array of `capacity + 1` chains, then every
   * pair re-inserted chain by chain.
   */
  function Resize<V>(hc: HashCode, t: Table<V>, capacity: nat): (r: Table<V>)
    ensures |r.buckets| == capacity + 1
  {
    InsertAll(hc, Fresh(capacity + 1), Flatten(t.buckets))
  }

  /** Resizing keeps every pair and the count, whatever the new length. */
  lemma ResizeSpec<V>(hc: HashCode, t: Table<V>, capacity: nat)
    requires Valid(hc, t)
    ensures Valid(hc, Resize(hc, t, capacity)) && Resize(hc, t, capacity).n == t.n
    ensures forall x :: At(hc, Resize(hc, t, capacity), x) == At(hc, t, x)
  {
    var s := Flatten(t.buckets);
    FreshValid<V>(hc, capacity + 1);
    FlattenDistinct(hc, t.buckets, |t.buckets|);
    InsertAllSpec(hc, Fresh(capacity + 1), s);
    forall x ensures At(hc, Resize(hc, t, capacity), x) == At(hc, t, x) {
      FlattenLookup(hc, t.buckets, |t.buckets|, x);
    }
  }

  // ---- put, delete, get ----

  /** The non-null part of `put`: double a full table, then place the pair. */
  function Store<V>(hc: HashCode, t: Table<V>, k: int, v: V): (r: Result<Table<V>>)
    ensures r.Ok? || r == Err(Arithmetic)
    ensures Valid(hc, t) ==> r.Ok?
  {
    var u := if t.n == |t.buckets| then Resize(hc, t, 2 * |t.buckets|) else t;
    if |u.buckets| == 0 then Err(Arithmetic) else Ok(Place(hc, u, Entry(k, Some(v))))
  }

  lemma StoreSpec<V>(hc: HashCode, t: Table<V>, k: int, v: V)
    requires Valid(hc, t)
    ensures Store(hc, t, k, v).Ok? && Valid(hc, Store(hc, t, k, v).value)
    ensures forall x :: At(hc, Store(hc, t, k, v).value, x) == if x == k then Some(v) else At(hc, t, x)
    ensures Store(hc, t, k, v).value.n == t.n + (if At(hc, t, k).None? then 1 else 0)
  {
    var u := if t.n == |t.buckets| then Resize(hc, t, 2 * |t.buckets|) else t;
    if t.n == |t.buckets| {
      ResizeSpec(hc, t, 2 * |t.buckets|);
    }
    PlaceSpec(hc, u, Entry(k, Some(v)));
  }

  /**
   * Unlinking pair `j` of chain `i` once found: the count drops; a pair at
   * the top of its chain is simply popped, any other is spliced out and may
   * trigger the shrink to half the length.
   */
  function Unlink<V>(hc: HashCode, t: Table<V>, i: int, j: int): (r: Table<V>)
    requires 0 <= i < |t.buckets| && 0 <= j < |t.buckets[i]|
  {
    var b := t.buckets[i];
    if b[j].key == b[0].key then Table(t.buckets[i := b[j + 1..]], t.n - 1)
    else
      var u := Table(t.buckets[i := b[..j] + b[j + 1..]], t.n - 1);
      if u.n > 0 && u.n == |u.buckets| / 4 then Resize(hc, u, |u.buckets| / 2) else u
  }

  /** Splicing pair `j` out of the chain of `k`, before any shrink: `k` is gone and nothing else changes. */
  lemma SpliceSpec<V>(hc: HashCode, t: Table<V>, k: int)
    requires Valid(hc, t) && At(hc, t, k).Some?
    ensures var i := Slot(hc, t, k);
      var b := t.buckets[i];
      var j := Find(b, k);
      j < |b|
      && var u := Table(t.buckets[i := b[..j] + b[j + 1..]], t.n - 1);
      Valid(hc, u) && forall x :: At(hc, u, x) == if x == k then None else At(hc, t, x)
  {
    var i := Slot(hc, t, k);
    FindLookup(t.buckets[i], k);
    SpliceAt(hc, t, i, Find(t.buckets[i], k));
  }

  /** Pair `j` spliced out of chain `i`: its key is gone and nothing else changes. */
  lemma SpliceAt<V>(hc: HashCode, t: Table<V>, i: int, j: int)
    requires Valid(hc, t) && 0 <= i < |t.buckets| && 0 <= j < |t.buckets[i]|
    ensures var b := t.buckets[i]; var u := Table(t.buckets[i := b[..j] + b[j + 1..]], t.n - 1);
      Valid(hc, u) && forall x :: At(hc, u, x) == if x == b[j].key then None else At(hc, t, x)
  {
    var b := t.buckets[i];
    var c := b[..j] + b[j + 1..];
    LookupRemove(b, j);
    DistinctRemove(b, j);
    assert forall p :: 0 <= p < |c| ==> c[p] == if p < j then b[p] else b[p + 1];
    ReplaceChain(hc, t, i, c, t.n - 1);
    var u := Table(t.buckets[i := c], t.n - 1);
    assert Slot(hc, t, b[j].key) == i;
    forall x ensures At(hc, u, x) == if x == b[j].key then None else At(hc, t, x) {
      if Slot(hc, t, x) != i {
        assert x != b[j].key;
      }
    }
  }

  lemma UnlinkSpec<V>(hc: HashCode, t: Table<V>, k: int)
    requires Valid(hc, t) && At(hc, t, k).Some?
    ensures var i := Slot(hc, t, k);
      Find(t.buckets[i], k) < |t.buckets[i]|
      && Valid(hc, Unlink(hc, t, i, Find(t.buckets[i], k)))
      && Unlink(hc, t, i, Find(t.buckets[i], k)).n == t.n - 1
      && forall x :: At(hc, Unlink(hc, t, i, Find(t.buckets[i], k)), x) == if x == k then None else At(hc, t, x)
  {
    SpliceSpec(hc, t, k);
    var i := Slot(hc, t, k);
    var b := t.buckets[i];
    var j := Find(b, k);
    var u := Table(t.buckets[i := b[..j] + b[j + 1..]], t.n - 1);
    if j == 0 {
      assert b[j + 1..] == b[..j] + b[j + 1..];
    } else {
      assert b[0].key != k;
      if u.n > 0 && u.n == |u.buckets| / 4 {
        ResizeSpec(hc, u, |u.buckets| / 2);
      }
    }
  }

  /**
   * `delete(key)` as written: nothing happens to an empty table; otherwise
   * the scan tests `cursor.key` before `cursor != null`, so a key missing
   * from its chain dereferences null.
   */
  function DeleteAsWritten<V>(hc: HashCode, t: Table<V>, key: Option<int>): (r: Result<Table<V>>)
    ensures key.None? ==> r == Err(NullPointer)
    ensures key.Some? && t.n == 0 ==> r == Ok(t)
    ensures Valid(hc, t) && key.Some? && t.n != 0 ==> (r == Err(NullPointer) <==> At(hc, t, key.value).None?)
  {
    match key
    case None => Err(NullPointer)
    case Some(k) =>
      if t.n == 0 then Ok(t)
      else if |t.buckets| == 0 then Err(Arithmetic)
      else
        var i := Slot(hc, t, k);
        var j := Find(t.buckets[i], k);
        FindLookup(t.buckets[i], k);
        if j == |t.buckets[i]| then Err(NullPointer) else Ok(Unlink(hc, t, i, j))
  }

  /** `delete(key)` with the scan's two tests in the safe order: a missing key changes nothing. */
  function Delete<V>(hc: HashCode, t: Table<V>, key: Option<int>): (r: Result<Table<V>>)
    ensures key.None? ==> r == Err(NullPointer)
    ensures Valid(hc, t) && key.Some? ==>
      (r.Ok? && Valid(hc, r.value)
       && r.value.n == t.n - (if At(hc, t, key.value).Some? then 1 else 0)
       && forall x :: At(hc, r.value, x) == if x == key.value then None else At(hc, t, x))
  {
    match key
    case None => Err(NullPointer)
    case Some(k) =>
      if t.n == 0 then
        assert Valid(hc, t) ==> forall x :: At(hc, t, x).None? by {
          if Valid(hc, t) {
            forall x ensures At(hc, t, x).None? {
              FlattenUpdateLength(t.buckets, Slot(hc, t, x), [], |t.buckets|);
            }
          }
        }
        Ok(t)
      else if |t.buckets| == 0 then Err(Arithmetic)
      else
        var i := Slot(hc, t, k);
        var j := Find(t.buckets[i], k);
        FindLookup(t.buckets[i], k);
        if j == |t.buckets[i]| then Ok(t)
        else
          assert Valid(hc, t) ==> (Valid(hc, Unlink(hc, t, i, j)) && Unlink(hc, t, i, j).n == t.n - 1
            && forall x :: At(hc, Unlink(hc, t, i, j), x) == if x == k then None else At(hc, t, x)) by {
            if Valid(hc, t) {
              UnlinkSpec(hc, t, k);
            }
          }
          Ok(Unlink(hc, t, i, j))
  }

  /** `put(key, value)` as written: a null value goes to the as-written `delete`. */
  function PutAsWritten<V>(hc: HashCode, t: Table<V>, key: Option<int>, value: Option<V>): (r: Result<Table<V>>)
    ensures key.None? ==> r == Err(NullPointer)
  {
    match key
    case None => Err(NullPointer)
    case Some(k) => if value.None? then DeleteAsWritten(hc, t, key) else Store(hc, t, k, value.value)
  }

  /** `put(key, value)` over the corrected `delete`. */
  function Put<V>(hc: HashCode, t: Table<V>, key: Option<int>, value: Option<V>): (r: Result<Table<V>>)
    ensures key.None? ==> r == Err(NullPointer)
  {
    match key
    case None => Err(NullPointer)
    case Some(k) => if value.None? then Delete(hc, t, key) else Store(hc, t, k, value.value)
  }

  /**
   * `put(k, v)` changes the table exactly at `k`: afterwards `k` finds `v`
   * (a null `v` meaning `k` is gone), every other key finds what it found
   * before, and the count follows the keys present.
   */
  lemma PutSpec<V>(hc: HashCode, t: Table<V>, k: int, value: Option<V>)
    requires Valid(hc, t)
    ensures Put(hc, t, Some(k), value).Ok? && Valid(hc, Put(hc, t, Some(k), value).value)
    ensures forall x :: At(hc, Put(hc, t, Some(k), value).value, x) == if x == k then value else At(hc, t, x)
    ensures Put(hc, t, Some(k), value).value.n
      == t.n + (if value.Some? && At(hc, t, k).None? then 1 else if value.None? && At(hc, t, k).Some? then -1 else 0)
  {
    if value.Some? {
      StoreSpec(hc, t, k, value.value);
    }
  }

  /** With a non-null value the as-written `put` is the corrected one. */
  lemma PutAsWrittenNonNull<V>(hc: HashCode, t: Table<V>, key: Option<int>, value: Option<V>)
    requires value.Some?
    ensures PutAsWritten(hc, t, key, value) == Put(hc, t, key, value)
  {
  }

  /** `get(key)`: the key's chain is scanned; every pair with the key lies in that chain. */
  function Get<V>(hc: HashCode, t: Table<V>, key: Option<int>): (r: Result<Option<V>>)
    ensures key.None? ==> r == Err(NullPointer)
    ensures key.Some? && |t.buckets| == 0 ==> r == Err(Arithmetic)
    ensures Valid(hc, t) && key.Some? ==> r == Ok(Lookup(Flatten(t.buckets), key.value))
  {
    match key
    case None => Err(NullPointer)
    case Some(k) =>
      if |t.buckets| == 0 then Err(Arithmetic)
      else
        assert Valid(hc, t) ==> Lookup(Flatten(t.buckets), k) == At(hc, t, k) by {
          if Valid(hc, t) {
            FlattenLookup(hc, t.buckets, |t.buckets|, k);
          }
        }
        Ok(At(hc, t, k))
  }

  /** After `put(k, v)`, `get(k)` gives `v`. */
  lemma PutThenGet<V>(hc: HashCode, t: Table<V>, k: int, value: Option<V>)
    requires Valid(hc, t)
    ensures Put(hc, t, Some(k), value).Ok? && Get(hc, Put(hc, t, Some(k), value).value, Some(k)) == Ok(value)
  {
    PutSpec(hc, t, k, value);
    var r := Put(hc, t, Some(k), value).value;
    FlattenLookup(hc, r.buckets, |r.buckets|, k);
  }

  /** `contains(key)`: `get(key) != null`; with no null values stored, exactly the keys present. */
  function Contains<V>(hc: HashCode, t: Table<V>, key: Option<int>): (r: Result<bool>)
    ensures key.None? ==> r == Err(NullPointer)
    ensures Valid(hc, t) && key.Some? ==> r == Ok(key.value in KeySet(Flatten(t.buckets)))
  {
    assert Valid(hc, t) && key.Some? ==> (Lookup(Flatten(t.buckets), key.value).Some? <==> key.value in KeySet(Flatten(t.buckets))) by {
      if Valid(hc, t) && key.Some? {
        var s := Flatten(t.buckets);
        FlattenDistinct(hc, t.buckets, |t.buckets|);
        if key.value in KeySet(s) {
          var j :| 0 <= j < |s| && s[j].key == key.value;
          LookupAt(s, j);
        }
      }
    }
    match Get(hc, t, key)
    case Err(e) => Err(e)
    case Ok(v) => Ok(v.Some?)
  }

  function IsEmpty<V>(hc: HashCode, t: Table<V>): (b: bool)
    ensures Valid(hc, t) ==> (b <==> KeySet(Flatten(t.buckets)) == {})
  {
    assert Valid(hc, t) && t.n > 0 ==> Flatten(t.buckets)[0].key in KeySet(Flatten(t.buckets));
    t.n == 0
  }

  function Size<V>(hc: HashCode, t: Table<V>): (s: int)
    ensures Valid(hc, t) ==> s == |KeySet(Flatten(t.buckets))|
  {
    if Valid(hc, t) then
      FlattenDistinct(hc, t.buckets, |t.buckets|);
      DistinctCard(Flatten(t.buckets));
      t.n
    else t.n
  }

  /**
   * `keys()`: walk every chain of the array in order and push each key onto
   * a stack, whose iteration starts from the last push. Here the stack is a
   * sequence with its top first.
   */
  method Keys<V>(t: Table<V>) returns (stack: seq<int>)
    ensures |stack| == |Flatten(t.buckets)|
    ensures forall p :: 0 <= p < |stack| ==> stack[p] == Flatten(t.buckets)[|stack| - 1 - p].key
    ensures forall x :: x in stack <==> x in KeySet(Flatten(t.buckets))
  {
    stack := [];
    var i := 0;
    while i < |t.buckets|
      invariant 0 <= i <= |t.buckets|
      invariant |stack| == |FlattenTo(t.buckets, i)|
      invariant forall p :: 0 <= p < |stack| ==> stack[p] == FlattenTo(t.buckets, i)[|stack| - 1 - p].key
    {
      var bucket := t.buckets[i];
      var j := 0;
      while j < |bucket|
        invariant 0 <= j <= |bucket|
        invariant |stack| == |FlattenTo(t.buckets, i) + bucket[..j]|
        invariant forall p :: 0 <= p < |stack| ==> stack[p] == (FlattenTo(t.buckets, i) + bucket[..j])[|stack| - 1 - p].key
      {
        assert FlattenTo(t.buckets, i) + bucket[..j + 1] == (FlattenTo(t.buckets, i) + bucket[..j]) + [bucket[j]];
        stack := [bucket[j].key] + stack;
        j := j + 1;
      }
      assert bucket[..j] == bucket;
      i := i + 1;
    }
    var s := Flatten(t.buckets);
    forall x | x in KeySet(s) ensures x in stack {
      var j :| 0 <= j < |s| && s[j].key == x;
      assert stack[|s| - 1 - j] == x;
    }
  }

  // ---- delete of a missing key ----

  /** Four empty chains plus one; with `m = 1` every key hashes to chain 0. */
  lemma OneKeyBuilt()
    ensures New<int>(4).Ok?
    ensures Put(Identity, New<int>(4).value, Some(1), Some(10)) == Ok(Table([[Entry(1, Some(10))], [], [], [], []], 1))
  {
    var t := New<int>(4).value;
    assert t.buckets == [[], [], [], [], []];
    assert Slot(Identity, t, 1) == 0;
    assert Find<int>([], 1) == 0;
    assert [Entry(1, Some(10))] + [] == [Entry(1, Some(10))];
    assert t.buckets[0 := [Entry(1, Some(10))]] == [[Entry(1, Some(10))], [], [], [], []];
  }

  /** As written, deleting the absent key 2 walks off the end of chain 0 and dereferences null. */
  lemma DeleteAsWrittenMissing()
    ensures DeleteAsWritten(Identity, Table([[Entry(1, Some(10))], [], [], [], []], 1), Some(2)) == Err(NullPointer)
  {
    var t := Table([[Entry(1, Some(10))], [], [], [], []], 1);
    assert Slot(Identity, t, 2) == 0;
    assert Find(t.buckets[0], 2) == 1;
  }

  /** The corrected `delete` of the absent key 2 changes nothing. */
  lemma DeleteMissingUnchanged()
    ensures var t := Table([[Entry(1, Some(10))], [], [], [], []], 1);
      Delete(Identity, t, Some(2)) == Ok(t)
  {
    var t := Table([[Entry(1, Some(10))], [], [], [], []], 1);
    assert Slot(Identity, t, 2) == 0;
    assert Find(t.buckets[0], 2) == 1;
  }
}

=== FILE: stacks.dfy ===
/**
 * The stack on a singly linked list (`stack.LinkedList`). The chain from
 * `head` is the sequence `items`, top first; the counter `n` always equals its
 * length, since `push` and `pop` move both together.
 */
module LinkedStacks {
  import opened Wrappers
  import LinkedListIterators

  datatype Stack<T> = Stack(items: seq<T>)

  function New<T>(): (s: Stack<T>)
  {
    Stack([])
  }

  /** A new stack is empty. */
  lemma NewSpec<T>()
    ensures var s := New<T>(); Size(s) == 0 && IsEmpty(s)
  {
  }

  function Size<T>(s: Stack<T>): nat
  {
    |s.items|
  }

  function IsEmpty<T>(s: Stack<T>): (b: bool)
    ensures b <==> Size(s) == 0
  {
    s.items == []
  }

  /** `push(item)`: a null item throws IllegalArgumentException; otherwise it goes on top. */
  function Push<T>(s: Stack<T>, x: Option<T>): (r: Result<Stack<T>>)
    ensures x.None? <==> r == Err(IllegalArgument)
    ensures r.Ok? ==> Size(r.value) == Size(s) + 1 && Peek(r.value) == Ok(x.value)
  {
    match x
    case None => Err(IllegalArgument)
    case Some(v) => Ok(Stack([v] + s.items))
  }

  /** `pop()`: the top item and the rest, in order; on an empty stack NoSuchElementException. */
  function Pop<T>(s: Stack<T>): (r: Result<Pair<T, Stack<T>>>)
    ensures IsEmpty(s) <==> r == Err(NoSuchElement)
    ensures r.Ok? ==> Size(r.value.1) + 1 == Size(s) && s.items == [r.value.0] + r.value.1.items
  {
    if s.items == [] then Err(NoSuchElement) else Ok((s.items[0], Stack(s.items[1..])))
  }

  /** `peek()`: what `pop()` would return, without removing it. */
  function Peek<T>(s: Stack<T>): (r: Result<T>)
    ensures IsEmpty(s) <==> r == Err(NoSuchElement)
    ensures r.Ok? ==> |s.items| > 0 && r.value == s.items[0]
  {
    if s.items == [] then Err(NoSuchElement) else Ok(s.items[0])
  }

  /** `iterator()`: from the top down. */
  function Iterator<T>(s: Stack<T>): (c: LinkedListIterators.Cursor<T>)
    ensures LinkedListIterators.Drain(c) == s.items
  {
    LinkedListIterators.DrainYieldsChain(s.items);
    LinkedListIterators.Start(s.items)
  }

  /** `pop()` undoes `push(x)`: it returns `x` and the stack as it was. */
  lemma PushPop<T>(s: Stack<T>, x: T)
    ensures Pop(Push(s, Some(x)).value) == Ok((x, s))
  {
  }

  /** `peek()` agrees with `pop()` on every stack. */
  lemma PeekPop<T>(s: Stack<T>)
    ensures Peek(s).Ok? <==> Pop(s).Ok?
    ensures Peek(s).Ok? ==> Peek(s).value == Pop(s).value.0
  {
  }

  /** Pushing every item of `xs`, first to last. */
  function PushAll<T>(s: Stack<T>, xs: seq<T>): Stack<T>
    decreases |xs|
  {
    if xs == [] then s else PushAll(Push(s, Some(xs[0])).value, xs[1..])
  }

  /** What `pop()` yields until the stack is empty. */
  function PopAll<T>(s: Stack<T>): seq<T>
    decreases Size(s)
  {
    match Pop(s)
    case Err(_) => []
    case Ok((x, sNew)) => [x] + PopAll(sNew)
  }

  /**
   * Last in, first out: after pushing `xs`, popping (or iterating, which
   * yields the same order) gives `xs` backwards, then what was there before.
   */
  lemma {:induction false} LastInFirstOut<T>(s: Stack<T>, xs: seq<T>)
    decreases |xs|
    ensures (PushAll(s, xs)).items == Reverse(xs) + s.items
    ensures PopAll(PushAll(s, xs)) == Reverse(xs) + s.items
  {
    if xs != [] {
      LastInFirstOut(Push(s, Some(xs[0])).value, xs[1..]);
      assert Reverse(xs) == Reverse(xs[1..]) + [xs[0]];
    }
    PopAllItems(PushAll(s, xs));
  }

  lemma {:induction false} PopAllItems<T>(s: Stack<T>)
    decreases Size(s)
    ensures PopAll(s) == s.items
  {
    if s.items != [] {
      PopAllItems(Stack(s.items[1..]));
    }
  }
}

=== FILE: strongly_connected.dfy ===
/**
 * `StronglyConnectedComponents` (Kosaraju-Sharir): reverse the digraph, take
 * the reverse postorder of a topological-sort sweep over the reverse, and
 * sweep the digraph itself over roots in that order, labelling each search.
 */
module StronglyConnectedComponents {
  import opened Wrappers
  import opened Graphs
  import opened DepthFirst
  import opened Sweeps
  import Digraphs
  import TopologicalSort

  /** The roots of the second pass: `new TopologicalSort(graph.reverse()).reversePost()`. */
  function Order(g: Graph): (roots: seq<int>)
    requires Valid(g)
    ensures |roots| == g.v && Roots(g, roots)
  {
    Digraphs.ReverseSpec(g);
    var gr := Digraphs.Reverse(g).value;
    TopologicalSort.ReversePostVertices(gr);
    TopologicalSort.ReversePost(gr)
  }

  /**
   * The constructor. `reverse()` throws when some stored neighbour is not a
   * vertex (`Digraph.addEdge` never checks it); otherwise the second pass runs.
   */
  function Kosaraju(g: Graph): (r: Result<Forest>)
    requires |g.adj| == g.v
    ensures r.Ok? <==> Valid(g)
    ensures r.Err? ==> r.error == IndexOutOfBounds
    ensures r.Ok? ==> Sized(g, r.value.st) && |r.value.id| == g.v
  {
    Digraphs.ReverseSpec(g);
    if Digraphs.Reverse(g).Err? then Err(IndexOutOfBounds) else Ok(Sweep(g, Order(g)))
  }

  /**
   * The fact the second pass rests on, in the reverse graph `gr` after its
   * sweep: when `y` reaches `x` but not back, some vertex in the strong
   * component of `y` was left after `x`. Starting from any `w` in that
   * component, each step moves to a vertex of it left later still.
   */
  lemma {:induction false} LeftAfter(gr: Graph, st: Search, y: int, x: int, w: int) returns (z: int)
    requires Sound(gr, st) && Idle(st) && x in st.post && w in st.post
    requires MutReach(gr, y, w) && Reach(gr, y, x) && !Reach(gr, x, y)
    decreases |st.post| - IndexOf(st.post, w)
    ensures MutReach(gr, y, z) && z in st.post && IndexOf(st.post, x) < IndexOf(st.post, z)
  {
    ReachTrans(gr, w, y, x);
    assert SettledFrom(gr, st, w, x);
    if x in st.post && IndexOf(st.post, x) <= IndexOf(st.post, w) && x != w {
      z := w;
    } else if x == w {
      ReachTrans(gr, x, w, y);
      assert false;
    } else {
      var a :| MutReach(gr, w, a) && (Gray(st, a) || (a in st.post && IndexOf(st.post, w) < IndexOf(st.post, a)));
      assert !Gray(st, a);
      ReachTrans(gr, y, w, a);
      ReachTrans(gr, a, w, y);
      z := LeftAfter(gr, st, y, x, a);
    }
  }

  /** The roots of the second pass meet the order condition of the sweep. */
  lemma OrderRootOrder(g: Graph)
    requires Valid(g)
    ensures RootOrder(g, Order(g))
  {
    Digraphs.ReverseSpec(g);
    var gr := Digraphs.Reverse(g).value;
    var roots := Order(g);
    TopologicalSort.SweepDone(gr);
    var st := Sweep(gr, Vertices(gr.v)).st;
    assert roots == Reverse(st.post);
    forall k, y | 0 <= k < |roots| && Reach(g, roots[k], y) && !Reach(g, y, roots[k])
      ensures exists j :: 0 <= j < k && Reach(g, roots[j], y)
    {
      var x := roots[k];
      ReachVertex(g, x, y);
      Digraphs.ReverseReach(g, y, x);
      Digraphs.ReverseReach(g, x, y);
      ReachRefl(gr, y);
      var z := LeftAfter(gr, st, y, x, y);
      TopologicalSort.ReverseIndexOf(st.post, x);
      TopologicalSort.ReverseIndexOf(st.post, z);
      IndexOfDistinct(roots, k);
      var j := IndexOf(roots, z);
      Digraphs.ReverseReach(g, y, z);
      assert 0 <= j < k && Reach(g, roots[j], y);
    }
  }

  /** The sweep's invariant at the end of the second pass. */
  lemma KosarajuLabelled(g: Graph)
    requires Valid(g)
    ensures var f := Kosaraju(g).value; Labelled(g, Order(g), g.v, f.st.marked, f.id, f.count)
  {
    OrderRootOrder(g);
    SweepLabelled(g, Order(g));
  }

  /**
   * Every vertex is labelled with an id in `[0, count)`, `count` is at most
   * V, and every id below `count` is used.
   */
  lemma KosarajuCover(g: Graph)
    requires Valid(g)
    ensures var f := Kosaraju(g).value;
      0 <= f.count <= g.v
      && (forall x :: 0 <= x < g.v ==> f.st.marked[x] && 0 <= f.id[x] < f.count)
      && (forall c :: 0 <= c < f.count ==> Used(g, f.st.marked, f.id, c))
  {
    KosarajuLabelled(g);
    var f := Kosaraju(g).value;
    var roots := Order(g);
    RootsMarked(g, roots, g.v, f.st.marked);
    Digraphs.ReverseSpec(g);
    TopologicalSort.ReversePostVertices(Digraphs.Reverse(g).value);
    forall x | 0 <= x < g.v
      ensures f.st.marked[x]
    {
      assert roots[IndexOf(roots, x)] == x;
    }
  }

  /** Two vertices share an id exactly when each reaches the other. */
  lemma KosarajuComponents(g: Graph)
    requires Valid(g)
    ensures var f := Kosaraju(g).value;
      forall x, y :: 0 <= x < g.v && 0 <= y < g.v ==> (f.id[x] == f.id[y] <==> MutReach(g, x, y))
  {
    KosarajuCover(g);
    KosarajuLabelled(g);
  }

  /** `getCount()`. */
  function GetCount(g: Graph): int
    requires Valid(g)
  {
    Kosaraju(g).value.count
  }

  /** `id(v)`: outside `[0, V)` an index error. */
  function Id(g: Graph, v: int): (r: Result<int>)
    requires Valid(g)
    ensures r.Ok? <==> 0 <= v < g.v
    ensures r.Err? ==> r.error == IndexOutOfBounds
  {
    if 0 <= v < g.v then Ok(Kosaraju(g).value.id[v]) else Err(IndexOutOfBounds)
  }

  /** `stronglyConnected(s, v)`: whether the two ids agree; outside `[0, V)` an index error. */
  function StronglyConnected(g: Graph, s: int, v: int): (r: Result<bool>)
    requires Valid(g)
    ensures r.Ok? <==> 0 <= s < g.v && 0 <= v < g.v
    ensures r.Err? ==> r.error == IndexOutOfBounds
  {
    if 0 <= s < g.v && 0 <= v < g.v then Ok(Kosaraju(g).value.id[s] == Kosaraju(g).value.id[v])
    else Err(IndexOutOfBounds)
  }

  /**
   * The queries: `getCount()` is at most V, `id(v)` lies in
   * `[0, getCount())`, and `stronglyConnected(s, v)` holds exactly when `s`
   * and `v` reach each other.
   */
  lemma QueriesSpec(g: Graph, s: int, v: int)
    requires Valid(g)
    ensures 0 <= GetCount(g) <= g.v
    ensures Id(g, v).Ok? ==> 0 <= Id(g, v).value < GetCount(g)
    ensures StronglyConnected(g, s, v).Ok? ==> (StronglyConnected(g, s, v).value <==> MutReach(g, s, v))
  {
    KosarajuCover(g);
    KosarajuComponents(g);
  }
}

=== FILE: sweeps.dfy ===
/**
 * The outer loop shared by ConnectedComponents, TopologicalSort and
 * StronglyConnectedComponents: for each root in a given order, if it is
 * unmarked, run `search(root)`, label every vertex that search marks with
 * `count`, and then increment `count`. ConnectedComponents and
 * TopologicalSort take the roots `0, 1, ..., V-1`;
 * StronglyConnectedComponents takes a reverse postorder of the reverse graph.
 */
module Sweeps {
  import opened Wrappers
  import opened Graphs
  import opened DepthFirst

  /** The traversal state, the `id` array and the `count` field. */
  datatype Forest = Forest(st: Search, id: seq<int>, count: int)

  /** Fresh arrays: nothing marked, every `id` 0, `count` 0. */
  function Start(g: Graph): (f: Forest)
    ensures |f.st.marked| == g.v && |f.id| == g.v && f.count == 0
    ensures forall x :: 0 <= x < g.v ==> !f.st.marked[x] && f.id[x] == 0
  {
    Forest(Fresh(g.v), seq(g.v, _ => 0), 0)
  }

  /** `id[x] = c` for every vertex marked in `after` but not in `before`. */
  function Label(before: seq<bool>, after: seq<bool>, id: seq<int>, c: int): (r: seq<int>)
    requires |before| == |after| == |id|
    ensures |r| == |id|
  {
    seq(|id|, x requires 0 <= x < |id| => if !before[x] && after[x] then c else id[x])
  }

  /** The roots `0, 1, ..., n-1`: the order of `for (int i = 0; i < graph.V(); i++)`. */
  function Vertices(n: nat): (r: seq<int>)
    ensures |r| == n
  {
    seq(n, i => i)
  }

  /** Every root is a vertex. */
  predicate Roots(g: Graph, roots: seq<int>)
  {
    forall k :: 0 <= k < |roots| ==> 0 <= roots[k] < g.v
  }

  /** One turn of the loop: `if (!marked[r]) { search(r); count++; }`. */
  function Step(g: Graph, f: Forest, r: int): (fNew: Forest)
    requires Sized(g, f.st) && |f.id| == g.v && 0 <= r < g.v
    ensures Sized(g, fNew.st) && |fNew.id| == g.v && fNew.st.marked[r]
  {
    if f.st.marked[r] then f
    else
      var st := Visit(g, f.st, r);
      Forest(st, Label(f.st.marked, st.marked, f.id, f.count), f.count + 1)
  }

  /** The loop from the `i`-th root on. */
  function SweepFrom(g: Graph, roots: seq<int>, i: nat, f: Forest): (r: Forest)
    requires Sized(g, f.st) && |f.id| == g.v && Roots(g, roots) && i <= |roots|
    decreases |roots| - i
    ensures Sized(g, r.st) && |r.id| == g.v
  {
    if i == |roots| then f else SweepFrom(g, roots, i + 1, Step(g, f, roots[i]))
  }

  /** The whole loop, from fresh arrays. */
  function Sweep(g: Graph, roots: seq<int>): (r: Forest)
    requires Valid(g) && Roots(g, roots)
    ensures Sized(g, r.st) && |r.id| == g.v
  {
    SweepFrom(g, roots, 0, Start(g))
  }

  /**
   * The order condition a root sequence must meet for the labels to be
   * strong components: whatever a root reaches without reaching back is
   * reached by an earlier root.
   */
  ghost predicate RootOrder(g: Graph, roots: seq<int>)
  {
    forall k, y :: 0 <= k < |roots| && Reach(g, roots[k], y) && !Reach(g, y, roots[k]) ==>
      exists j :: 0 <= j < k && Reach(g, roots[j], y)
  }

  /** No root before the `j`-th reaches it: the sweep starts a new search there. */
  ghost predicate Leader(g: Graph, roots: seq<int>, j: int)
    requires 0 <= j < |roots|
  {
    forall k :: 0 <= k < j ==> !Reach(g, roots[k], roots[j])
  }

  /** The marked vertices are those reachable from the first `i` roots. */
  ghost predicate MarksReached(g: Graph, roots: seq<int>, i: nat, marked: seq<bool>)
    requires |marked| == g.v && Roots(g, roots) && i <= |roots|
  {
    forall x :: 0 <= x < g.v ==> (marked[x] <==> exists j :: 0 <= j < i && Reach(g, roots[j], x))
  }

  /** Two marked vertices share a label exactly when they lie in one strong component. */
  ghost predicate SameComponent(g: Graph, marked: seq<bool>, id: seq<int>)
    requires |marked| == |id| == g.v
  {
    forall x, y :: 0 <= x < g.v && 0 <= y < g.v && marked[x] && marked[y] ==>
      (id[x] == id[y] <==> MutReach(g, x, y))
  }

  /** Among the first `i` roots, those that start a search get increasing labels. */
  ghost predicate LeaderOrder(g: Graph, roots: seq<int>, i: nat, id: seq<int>)
    requires |id| == g.v && Roots(g, roots) && i <= |roots|
  {
    forall j, k :: 0 <= j < k < i && Leader(g, roots, j) && Leader(g, roots, k) ==> id[roots[j]] < id[roots[k]]
  }

  /** Some marked vertex carries label `c`. */
  ghost predicate Used(g: Graph, marked: seq<bool>, id: seq<int>, c: int)
    requires |marked| == |id| == g.v
  {
    exists x :: 0 <= x < g.v && marked[x] && id[x] == c
  }

  /** Every label below `count` is carried by some marked vertex. */
  ghost predicate LabelsUsed(g: Graph, marked: seq<bool>, id: seq<int>, count: int)
    requires |marked| == |id| == g.v
  {
    forall c :: 0 <= c < count ==> Used(g, marked, id, c)
  }

  /** What the labels mean after the first `i` roots. */
  ghost predicate Labelled(g: Graph, roots: seq<int>, i: nat, marked: seq<bool>, id: seq<int>, count: int)
  {
    Valid(g) && Roots(g, roots) && i <= |roots| && |marked| == |id| == g.v && Closed(g, marked)
    && MarksReached(g, roots, i, marked)
    && 0 <= count <= i
    && (forall x :: 0 <= x < g.v && marked[x] ==> 0 <= id[x] < count)
    && LabelsUsed(g, marked, id, count)
    && SameComponent(g, marked, id)
    && LeaderOrder(g, roots, i, id)
    && (forall j :: 0 <= j < i ==> id[roots[j]] <= j)
  }

  /** The loop invariant: a sound idle traversal whose labels mean what `Labelled` says. */
  ghost predicate SweepInv(g: Graph, roots: seq<int>, i: nat, f: Forest)
  {
    Sound(g, f.st) && Idle(f.st) && Labelled(g, roots, i, f.st.marked, f.id, f.count)
  }

  /**
   * `search(r)` between top-level calls: it stays sound and idle and marks
   * exactly the vertices reachable from `r` that were not marked.
   */
  lemma VisitMarks(g: Graph, st: Search, r: int)
    requires Sound(g, st) && Idle(st) && 0 <= r < g.v && !st.marked[r]
    ensures var stNew := Visit(g, st, r);
      Sound(g, stNew) && Idle(stNew) && forall x :: 0 <= x < g.v ==> (stNew.marked[x] <==> st.marked[x] || Reach(g, r, x))
  {
    VisitSpec(g, st, r);
    var stNew := Visit(g, st, r);
    assert Idle(stNew) by {
      forall a ensures !Gray(stNew, a) {
        assert !Gray(st, a);
      }
    }
    IdleClosed(g, stNew);
    forall x | 0 <= x < g.v
      ensures stNew.marked[x] <==> st.marked[x] || Reach(g, r, x)
    {
      if stNew.marked[x] && !st.marked[x] {
        assert stNew.pre == st.pre + Entered(st, stNew);
        assert x in Entered(st, stNew);
      }
      if Reach(g, r, x) {
        ClosedReach(g, stNew.marked, r, x);
      }
    }
  }

  /** A sound idle state has a closed marked set. */
  lemma SweepInvClosed(g: Graph, st: Search)
    requires Sound(g, st) && Idle(st)
    ensures Closed(g, st.marked)
  {
    IdleClosed(g, st);
  }

  /** The labels after a root that was already marked: nothing changes. */
  lemma LabelSkip(g: Graph, roots: seq<int>, i: nat, marked: seq<bool>, id: seq<int>, count: int)
    requires Labelled(g, roots, i, marked, id, count) && i < |roots| && marked[roots[i]]
    ensures Labelled(g, roots, i + 1, marked, id, count)
  {
    var r := roots[i];
    var j0 :| 0 <= j0 < i && Reach(g, roots[j0], r);
    SkipLeaderOrder(g, roots, i, id, j0);
    SkipLabelBound(g, roots, i, id);
    forall x | 0 <= x < g.v
      ensures marked[x] <==> exists j :: 0 <= j < i + 1 && Reach(g, roots[j], x)
    {
      if exists j :: 0 <= j < i + 1 && Reach(g, roots[j], x) {
        var j :| 0 <= j < i + 1 && Reach(g, roots[j], x);
        if j == i {
          ClosedReach(g, marked, r, x);
        }
      }
    }
  }

  /** A root that starts no search adds no pair to the label order. */
  lemma SkipLeaderOrder(g: Graph, roots: seq<int>, i: nat, id: seq<int>, j0: int)
    requires |id| == g.v && Roots(g, roots) && i < |roots| && 0 <= j0 < i && Reach(g, roots[j0], roots[i])
    requires LeaderOrder(g, roots, i, id)
    ensures LeaderOrder(g, roots, i + 1, id)
  {
    forall j, k | 0 <= j < k < i + 1 && Leader(g, roots, j) && Leader(g, roots, k)
      ensures id[roots[j]] < id[roots[k]]
    {
      LeaderAfter(g, roots, i, j0, k);
      LeaderOrderAt(g, roots, i, id, j, k);
    }
  }

  /** Each root's label stays at most its position when the next root's label is. */
  lemma SkipLabelBound(g: Graph, roots: seq<int>, i: nat, id: seq<int>)
    requires |id| == g.v && Roots(g, roots) && i < |roots|
    requires (forall j :: 0 <= j < i ==> id[roots[j]] <= j) && id[roots[i]] <= i
    ensures forall j :: 0 <= j < i + 1 ==> id[roots[j]] <= j
  {
    forall j | 0 <= j < i + 1
      ensures id[roots[j]] <= j
    {
      if j < i {
        assert id[roots[j]] <= j;
      }
    }
  }

  lemma LeaderOrderAt(g: Graph, roots: seq<int>, i: nat, id: seq<int>, j: int, k: int)
    requires |id| == g.v && Roots(g, roots) && i <= |roots| && LeaderOrder(g, roots, i, id)
    requires 0 <= j < k < i && Leader(g, roots, j) && Leader(g, roots, k)
    ensures id[roots[j]] < id[roots[k]]
  {
  }

  /** A root reached by an earlier one is not a leader. */
  lemma LeaderAfter(g: Graph, roots: seq<int>, i: nat, j0: int, k: int)
    requires i < |roots| && 0 <= j0 < i && Reach(g, roots[j0], roots[i])
    requires 0 <= k < |roots| && Leader(g, roots, k)
    ensures k != i
  {
  }

  /** A root after which every unreached vertex it reaches reaches back. */
  lemma LabelRootOK(g: Graph, roots: seq<int>, i: nat, marked: seq<bool>, id: seq<int>, count: int, y: int)
    requires Labelled(g, roots, i, marked, id, count) && i < |roots| && RootOrder(g, roots)
    requires 0 <= y < g.v && !marked[y] && Reach(g, roots[i], y)
    ensures Reach(g, y, roots[i])
  {
  }

  /** The roots already looked at are marked. */
  lemma RootsMarked(g: Graph, roots: seq<int>, i: nat, marked: seq<bool>)
    requires Valid(g) && |marked| == g.v && Roots(g, roots) && i <= |roots| && MarksReached(g, roots, i, marked)
    ensures forall j :: 0 <= j < i ==> marked[roots[j]]
  {
    forall j | 0 <= j < i
      ensures marked[roots[j]]
    {
      ReachRefl(g, roots[j]);
    }
  }

  lemma VisitReached(g: Graph, roots: seq<int>, i: nat, marked: seq<bool>, markedNew: seq<bool>)
    requires |marked| == |markedNew| == g.v && Roots(g, roots) && i < |roots|
    requires MarksReached(g, roots, i, marked)
    requires forall x :: 0 <= x < g.v ==> (markedNew[x] <==> marked[x] || Reach(g, roots[i], x))
    ensures MarksReached(g, roots, i + 1, markedNew)
  {
    forall x | 0 <= x < g.v
      ensures markedNew[x] <==> exists j :: 0 <= j < i + 1 && Reach(g, roots[j], x)
    {
      if markedNew[x] && !marked[x] {
        assert Reach(g, roots[i], x);
      }
    }
  }

  lemma VisitSameComponent(g: Graph, roots: seq<int>, i: nat, marked: seq<bool>, id: seq<int>, count: int, markedNew: seq<bool>)
    requires Labelled(g, roots, i, marked, id, count) && i < |roots| && RootOrder(g, roots)
    requires |markedNew| == g.v
    requires forall x :: 0 <= x < g.v ==> (markedNew[x] <==> marked[x] || Reach(g, roots[i], x))
    ensures SameComponent(g, markedNew, Label(marked, markedNew, id, count))
  {
    var r := roots[i];
    var idNew := Label(marked, markedNew, id, count);
    forall x, y | 0 <= x < g.v && 0 <= y < g.v && markedNew[x] && markedNew[y]
      ensures idNew[x] == idNew[y] <==> MutReach(g, x, y)
    {
      if !marked[x] && !marked[y] {
        LabelRootOK(g, roots, i, marked, id, count, x);
        LabelRootOK(g, roots, i, marked, id, count, y);
        ReachTrans(g, x, r, y);
        ReachTrans(g, y, r, x);
      } else if !marked[x] && marked[y] {
        if Reach(g, y, x) {
          ClosedReach(g, marked, y, x);
        }
      } else if marked[x] && !marked[y] {
        if Reach(g, x, y) {
          ClosedReach(g, marked, x, y);
        }
      }
    }
  }

  lemma VisitLeaderOrder(g: Graph, roots: seq<int>, i: nat, marked: seq<bool>, id: seq<int>, count: int, markedNew: seq<bool>)
    requires |marked| == |id| == g.v && Roots(g, roots) && i < |roots| && !marked[roots[i]]
    requires forall j :: 0 <= j < i ==> marked[roots[j]]
    requires 0 <= count <= i && forall x :: 0 <= x < g.v && marked[x] ==> 0 <= id[x] < count
    requires LeaderOrder(g, roots, i, id) && forall j :: 0 <= j < i ==> id[roots[j]] <= j
    requires |markedNew| == g.v && markedNew[roots[i]]
    requires forall x :: 0 <= x < g.v && marked[x] ==> markedNew[x]
    ensures LeaderOrder(g, roots, i + 1, Label(marked, markedNew, id, count))
    ensures forall j :: 0 <= j < i + 1 ==> Label(marked, markedNew, id, count)[roots[j]] <= j
  {
    var idNew := Label(marked, markedNew, id, count);
    assert idNew[roots[i]] == count;
    forall j | 0 <= j < i
      ensures idNew[roots[j]] == id[roots[j]] < count
    {
      assert marked[roots[j]];
    }
    forall j, k | 0 <= j < k < i + 1 && Leader(g, roots, j) && Leader(g, roots, k)
      ensures idNew[roots[j]] < idNew[roots[k]]
    {
      if k < i {
        assert id[roots[j]] < id[roots[k]];
      }
    }
  }

  /**
   * The labels after `search(roots[i])` from an unmarked root: the newly
   * marked vertices, those reachable from it, form one new strong component.
   */
  lemma LabelVisit(g: Graph, roots: seq<int>, i: nat, marked: seq<bool>, id: seq<int>, count: int, markedNew: seq<bool>)
    requires Labelled(g, roots, i, marked, id, count) && i < |roots| && !marked[roots[i]] && RootOrder(g, roots)
    requires |markedNew| == g.v && Closed(g, markedNew)
    requires forall x :: 0 <= x < g.v ==> (markedNew[x] <==> marked[x] || Reach(g, roots[i], x))
    ensures Labelled(g, roots, i + 1, markedNew, Label(marked, markedNew, id, count), count + 1)
  {
    ReachRefl(g, roots[i]);
    RootsMarked(g, roots, i, marked);
    VisitReached(g, roots, i, marked, markedNew);
    VisitSameComponent(g, roots, i, marked, id, count, markedNew);
    VisitLeaderOrder(g, roots, i, marked, id, count, markedNew);
    VisitLabelsUsed(g, roots, i, marked, id, count, markedNew);
  }

  lemma VisitLabelsUsed(g: Graph, roots: seq<int>, i: nat, marked: seq<bool>, id: seq<int>, count: int, markedNew: seq<bool>)
    requires |marked| == |markedNew| == |id| == g.v && Roots(g, roots) && i < |roots|
    requires LabelsUsed(g, marked, id, count) && !marked[roots[i]] && markedNew[roots[i]]
    requires forall x :: 0 <= x < g.v && marked[x] ==> markedNew[x]
    ensures LabelsUsed(g, markedNew, Label(marked, markedNew, id, count), count + 1)
  {
    var idNew := Label(marked, markedNew, id, count);
    forall c | 0 <= c < count + 1
      ensures Used(g, markedNew, idNew, c)
    {
      if c < count {
        assert Used(g, marked, id, c);
        var x :| 0 <= x < g.v && marked[x] && id[x] == c;
        assert idNew[x] == c;
      } else {
        assert idNew[roots[i]] == c;
      }
    }
  }

  /** One turn of the loop keeps the invariant. */
  lemma SweepStep(g: Graph, roots: seq<int>, i: nat, f: Forest)
    requires SweepInv(g, roots, i, f) && i < |roots| && RootOrder(g, roots)
    ensures SweepInv(g, roots, i + 1, Step(g, f, roots[i]))
  {
    var r := roots[i];
    if f.st.marked[r] {
      LabelSkip(g, roots, i, f.st.marked, f.id, f.count);
    } else {
      VisitMarks(g, f.st, r);
      var st := Visit(g, f.st, r);
      SweepInvClosed(g, st);
      LabelVisit(g, roots, i, f.st.marked, f.id, f.count, st.marked);
    }
  }

  /** The rest of the loop keeps the invariant. */
  lemma {:induction false} SweepFromSpec(g: Graph, roots: seq<int>, i: nat, f: Forest)
    requires SweepInv(g, roots, i, f) && RootOrder(g, roots)
    decreases |roots| - i
    ensures SweepInv(g, roots, |roots|, SweepFrom(g, roots, i, f))
  {
    if i < |roots| {
      SweepStep(g, roots, i, f);
      SweepFromSpec(g, roots, i + 1, Step(g, f, roots[i]));
    }
  }

  lemma StartInv(g: Graph, roots: seq<int>)
    requires Valid(g) && Roots(g, roots)
    ensures SweepInv(g, roots, 0, Start(g))
  {
    SoundFresh(g);
  }

  /**
   * After a sweep over roots in a valid order: the traversal is sound and
   * idle, the marked vertices are those some root reaches, labels lie in
   * `[0, count)`, two marked vertices share a label exactly when they lie in
   * one strong component, the roots that start a search get increasing
   * labels, and the `j`-th root's label is at most `j`.
   */
  lemma SweepSpec(g: Graph, roots: seq<int>)
    requires Valid(g) && Roots(g, roots) && RootOrder(g, roots)
    ensures SweepInv(g, roots, |roots|, Sweep(g, roots))
  {
    StartInv(g, roots);
    SweepFromSpec(g, roots, 0, Start(g));
  }

  /**
   * Whatever the root order, the loop keeps the traversal sound and idle and
   * leaves every root it has passed marked.
   */
  lemma {:induction false} SweepFromSound(g: Graph, roots: seq<int>, i: nat, f: Forest)
    requires Sound(g, f.st) && Idle(f.st) && |f.id| == g.v && Roots(g, roots) && i <= |roots|
    requires forall j :: 0 <= j < i ==> f.st.marked[roots[j]]
    decreases |roots| - i
    ensures var r := SweepFrom(g, roots, i, f);
      Sound(g, r.st) && Idle(r.st) && forall j :: 0 <= j < |roots| ==> r.st.marked[roots[j]]
  {
    if i < |roots| {
      StepSound(g, roots, i, f);
      SweepFromSound(g, roots, i + 1, Step(g, f, roots[i]));
    }
  }

  lemma StepSound(g: Graph, roots: seq<int>, i: nat, f: Forest)
    requires Sound(g, f.st) && Idle(f.st) && |f.id| == g.v && Roots(g, roots) && i < |roots|
    requires forall j :: 0 <= j < i ==> f.st.marked[roots[j]]
    ensures var fNew := Step(g, f, roots[i]);
      Sound(g, fNew.st) && Idle(fNew.st) && forall j :: 0 <= j < i + 1 ==> fNew.st.marked[roots[j]]
  {
    if !f.st.marked[roots[i]] {
      VisitMarks(g, f.st, roots[i]);
    }
  }

  /** The whole loop, over roots in any order: sound, idle, every root marked. */
  lemma SweepSound(g: Graph, roots: seq<int>)
    requires Valid(g) && Roots(g, roots)
    ensures var r := Sweep(g, roots);
      Sound(g, r.st) && Idle(r.st) && forall j :: 0 <= j < |roots| ==> r.st.marked[roots[j]]
  {
    SoundFresh(g);
    SweepFromSound(g, roots, 0, Start(g));
  }

  lemma SweepLabelled(g: Graph, roots: seq<int>)
    requires Valid(g) && Roots(g, roots) && RootOrder(g, roots)
    ensures var f := Sweep(g, roots); Labelled(g, roots, |roots|, f.st.marked, f.id, f.count)
  {
    SweepSpec(g, roots);
  }
}

=== FILE: symbol_tables.dfy ===
/**
 * What the `SymbolTable` interface promises, read off a sequence of
 * key-value entries: which keys are present, and the value `get` finds for
 * each (null when the key is absent). The sorted array, the linked list and
 * both hash tables are all interpreted through this view.
 */
module SymbolTables {
  import opened Wrappers

  /** A stored pair; the value can be null only where an implementation lets a null in. */
  datatype Entry<V> = Entry(key: int, value: Option<V>)

  function KeySet<V>(s: seq<Entry<V>>): set<int>
  {
    set i | 0 <= i < |s| :: s[i].key
  }

  /** The value of the first entry holding `k`, or null when none does. */
  function Lookup<V>(s: seq<Entry<V>>, k: int): (r: Option<V>)
    ensures k !in KeySet(s) ==> r.None?
  {
    if s == [] then None
    else if s[0].key == k then s[0].value
    else
      assert KeySet(s[1..]) <= KeySet(s) by {
        forall x | x in KeySet(s[1..]) ensures x in KeySet(s) {
          var i :| 0 <= i < |s[1..]| && s[1..][i].key == x;
          assert s[i + 1].key == x;
        }
      }
      Lookup(s[1..], k)
  }

  /** No key is stored twice. */
  predicate DistinctKeys<V>(s: seq<Entry<V>>)
  {
    forall i, j :: 0 <= i < j < |s| ==> s[i].key != s[j].key
  }

  lemma KeySetConcat<V>(a: seq<Entry<V>>, b: seq<Entry<V>>)
    ensures KeySet(a + b) == KeySet(a) + KeySet(b)
  {
    forall x | x in KeySet(a + b) ensures x in KeySet(a) + KeySet(b) {
      var i :| 0 <= i < |a + b| && (a + b)[i].key == x;
      if i >= |a| {
        assert b[i - |a|].key == x;
      }
    }
    forall x | x in KeySet(a) + KeySet(b) ensures x in KeySet(a + b) {
      if x in KeySet(a) {
        var i :| 0 <= i < |a| && a[i].key == x;
        assert (a + b)[i].key == x;
      } else {
        var i :| 0 <= i < |b| && b[i].key == x;
        assert (a + b)[i + |a|].key == x;
      }
    }
  }

  lemma KeySetSingle<V>(e: Entry<V>)
    ensures KeySet([e]) == {e.key}
  {
    assert [e][0].key == e.key;
  }

  /** Looking a key up in `a + b` finds it in `a` if `a` holds it, otherwise in `b`. */
  lemma {:induction false} LookupConcat<V>(a: seq<Entry<V>>, b: seq<Entry<V>>, k: int)
    ensures Lookup(a + b, k) == if k in KeySet(a) then Lookup(a, k) else Lookup(b, k)
  {
    if a == [] {
      assert a + b == b;
    } else {
      assert (a + b)[1..] == a[1..] + b;
      LookupConcat(a[1..], b, k);
      if a[0].key != k {
        KeySetConcat([a[0]], a[1..]);
        KeySetSingle(a[0]);
        assert a == [a[0]] + a[1..];
      } else {
        assert a[0].key in KeySet(a);
      }
    }
  }

  /** In a table without repeated keys, each entry is the one found for its key. */
  lemma LookupAt<V>(s: seq<Entry<V>>, i: int)
    requires DistinctKeys(s) && 0 <= i < |s|
    ensures Lookup(s, s[i].key) == s[i].value
  {
    assert s == s[..i] + s[i..];
    LookupConcat(s[..i], s[i..], s[i].key);
    assert s[i].key !in KeySet(s[..i]);
  }

  /** Entry `e` with a new key, placed anywhere: its key joins, and nothing else changes. */
  lemma LookupInsert<V>(s: seq<Entry<V>>, i: int, e: Entry<V>)
    requires 0 <= i <= |s| && e.key !in KeySet(s)
    ensures KeySet(s[..i] + [e] + s[i..]) == KeySet(s) + {e.key}
    ensures forall x :: Lookup(s[..i] + [e] + s[i..], x) == if x == e.key then e.value else Lookup(s, x)
  {
    assert s == s[..i] + s[i..];
    KeySetConcat(s[..i], s[i..]);
    KeySetConcat(s[..i], [e]);
    KeySetConcat(s[..i] + [e], s[i..]);
    KeySetSingle(e);
    forall x
      ensures Lookup(s[..i] + [e] + s[i..], x) == if x == e.key then e.value else Lookup(s, x)
    {
      LookupConcat(s[..i] + [e], s[i..], x);
      LookupConcat(s[..i], [e], x);
      LookupConcat(s[..i], s[i..], x);
    }
  }

  /** Removing entry `i` of a table without repeated keys removes exactly its key. */
  lemma LookupRemove<V>(s: seq<Entry<V>>, i: int)
    requires DistinctKeys(s) && 0 <= i < |s|
    ensures KeySet(s[..i] + s[i + 1..]) == KeySet(s) - {s[i].key}
    ensures forall x :: Lookup(s[..i] + s[i + 1..], x) == if x == s[i].key then None else Lookup(s, x)
  {
    var a, b := s[..i], s[i + 1..];
    assert s == a + [s[i]] + b;
    KeySetConcat(a, b);
    KeySetConcat(a, [s[i]]);
    KeySetConcat(a + [s[i]], b);
    KeySetSingle(s[i]);
    assert s[i].key !in KeySet(a) && s[i].key !in KeySet(b);
    forall x
      ensures Lookup(a + b, x) == if x == s[i].key then None else Lookup(s, x)
    {
      LookupConcat(a, b, x);
      LookupConcat(a + [s[i]], b, x);
      LookupConcat(a, [s[i]], x);
    }
  }

  /** Overwriting the value of entry `i` keeps the keys and changes only what its key finds. */
  lemma LookupUpdate<V>(s: seq<Entry<V>>, i: int, v: Option<V>)
    requires DistinctKeys(s) && 0 <= i < |s|
    ensures KeySet(s[i := Entry(s[i].key, v)]) == KeySet(s)
    ensures Lookup(s[i := Entry(s[i].key, v)], s[i].key) == v
    ensures forall x :: Lookup(s[i := Entry(s[i].key, v)], x) == if x == s[i].key then v else Lookup(s, x)
  {
    var e := Entry(s[i].key, v);
    var a, b := s[..i], s[i + 1..];
    assert s == a + [s[i]] + b;
    assert s[i := e] == a + [e] + b;
    KeySetConcat(a, [s[i]]);
    KeySetConcat(a + [s[i]], b);
    KeySetConcat(a, [e]);
    KeySetConcat(a + [e], b);
    KeySetSingle(s[i]);
    KeySetSingle(e);
    assert s[i].key !in KeySet(a);
    forall x
      ensures Lookup(a + [e] + b, x) == if x == s[i].key then v else Lookup(s, x)
    {
      LookupConcat(a + [e], b, x);
      LookupConcat(a, [e], x);
      LookupConcat(a + [s[i]], b, x);
      LookupConcat(a, [s[i]], x);
      assert x in KeySet(a + [e]) <==> x in KeySet(a + [s[i]]);
      if x == s[i].key {
        assert Lookup([e], x) == v;
      } else {
        assert Lookup([e], x) == None == Lookup([s[i]], x);
        assert Lookup(s, x) == Lookup(a + [s[i]] + b, x);
      }
    }
  }

  /** Without repeated keys, the number of entries is the number of keys. */
  lemma {:induction false} DistinctCard<V>(s: seq<Entry<V>>)
    requires DistinctKeys(s)
    ensures |KeySet(s)| == |s|
  {
    if s != [] {
      var rest := s[1..];
      assert s == [s[0]] + rest;
      DistinctCard(rest);
      KeySetConcat([s[0]], rest);
      KeySetSingle(s[0]);
      assert s[0].key !in KeySet(rest);
    }
  }

  /** A linear scan of a chain: the index of the first entry holding `k`, or the length when none does. */
  function Find<V>(s: seq<Entry<V>>, k: int): (i: int)
    ensures 0 <= i <= |s|
    ensures i < |s| ==> s[i].key == k
    ensures forall j :: 0 <= j < i ==> s[j].key != k
  {
    if s == [] then 0
    else if s[0].key == k then 0
    else 1 + Find(s[1..], k)
  }

  /** The scan stops at a node exactly when the key is in the chain, and that node is what `k` finds. */
  lemma FindLookup<V>(s: seq<Entry<V>>, k: int)
    ensures Find(s, k) < |s| <==> k in KeySet(s)
    ensures Find(s, k) < |s| ==> Lookup(s, k) == s[Find(s, k)].value
  {
    var i := Find(s, k);
    if k in KeySet(s) {
      var j :| 0 <= j < |s| && s[j].key == k;
      assert i <= j;
    }
    if i < |s| {
      assert s == s[..i] + s[i..];
      LookupConcat(s[..i], s[i..], k);
      assert k !in KeySet(s[..i]);
    }
  }

  /** A distinct chain with one entry left out is still distinct. */
  lemma DistinctRemove<V>(s: seq<Entry<V>>, i: int)
    requires DistinctKeys(s) && 0 <= i < |s|
    ensures DistinctKeys(s[..i] + s[i + 1..])
  {
    var r := s[..i] + s[i + 1..];
    forall p, q | 0 <= p < q < |r| ensures r[p].key != r[q].key {
      var pNew := if p < i then p else p + 1;
      var qNew := if q < i then q else q + 1;
      assert r[p] == s[pNew] && r[q] == s[qNew];
    }
  }

  /** An entry whose key is new, put in front of a table without repeated keys, repeats none. */
  lemma DistinctPrepend<V>(e: Entry<V>, s: seq<Entry<V>>)
    requires DistinctKeys(s) && e.key !in KeySet(s)
    ensures DistinctKeys([e] + s)
  {
    var r := [e] + s;
    forall p, q | 0 <= p < q < |r| ensures r[p].key != r[q].key {
      assert r[q] == s[q - 1];
      if p > 0 {
        assert r[p] == s[p - 1];
      }
    }
  }

  /** Two tables without repeated keys and with no key in common make one without repeated keys. */
  lemma DistinctConcat<V>(a: seq<Entry<V>>, b: seq<Entry<V>>)
    requires DistinctKeys(a) && DistinctKeys(b) && KeySet(a) !! KeySet(b)
    ensures DistinctKeys(a + b)
  {
    forall p, q | 0 <= p < q < |a + b| ensures (a + b)[p].key != (a + b)[q].key {
      if p < |a| && q >= |a| {
        assert (a + b)[p].key in KeySet(a);
        assert (a + b)[q] == b[q - |a|];
        assert (a + b)[q].key in KeySet(b);
      } else if p >= |a| {
        assert (a + b)[p] == b[p - |a|] && (a + b)[q] == b[q - |a|];
      }
    }
  }

  /** `key.hashCode()` of an integer key, as a total function of the key. */
  type HashCode = int -> int

  /**
   * `hash(key)` of both hash tables: `(key.hashCode() & 0x7fffffff) % m`.
   * Clearing the sign bit of a 32-bit value is reduction modulo 2^31, so the
   * result is an index below `m`; `hc` stands for `hashCode`.
   */
  function Hash(hc: HashCode, k: int, m: int): (h: int)
    requires m > 0
    ensures 0 <= h < m
  {
    (hc(k) % 0x8000_0000) % m
  }

  /** Hash codes equal to the keys themselves, as `Integer.hashCode` gives. */
  function Identity(x: int): int
  {
    x
  }
}

=== FILE: topological_sort.dfy ===
/**
 * `TopologicalSort`: the sweep over roots `0, 1, ..., V-1` in which every
 * vertex is pushed onto the `reversePost` stack as `search` leaves it. The
 * stack, read from the top, is the reverse of the finishing order.
 */
module TopologicalSort {
  import opened Wrappers
  import opened Graphs
  import opened DepthFirst
  import opened Sweeps
  import LinkedStacks

  /** The constructor: the sweep, pushing each vertex when it is left. */
  function New(g: Graph): (s: LinkedStacks.Stack<int>)
    requires Valid(g)
  {
    LinkedStacks.PushAll(LinkedStacks.New(), Sweep(g, Vertices(g.v)).st.post)
  }

  /** `reversePost()`: what iterating the stack yields, the last vertex left first. */
  function ReversePost(g: Graph): (r: seq<int>)
    requires Valid(g)
    ensures r == Reverse(Sweep(g, Vertices(g.v)).st.post)
  {
    LinkedStacks.LastInFirstOut(LinkedStacks.New(), Sweep(g, Vertices(g.v)).st.post);
    New(g).items
  }

  /** The finished sweep: sound, idle, every vertex marked. */
  lemma SweepDone(g: Graph)
    requires Valid(g)
    ensures var st := Sweep(g, Vertices(g.v)).st;
      Sound(g, st) && Idle(st) && forall x :: 0 <= x < g.v ==> x in st.post
  {
    SweepSound(g, Vertices(g.v));
    var st := Sweep(g, Vertices(g.v)).st;
    forall x | 0 <= x < g.v
      ensures x in st.post
    {
      assert Vertices(g.v)[x] == x;
      assert !Gray(st, x);
    }
  }

  /** A repetition-free sequence of numbers from `[0, n)` holding all of them has length `n`. */
  lemma {:induction false} DistinctCover(s: seq<int>, n: nat)
    requires Distinct(s)
    requires forall i :: 0 <= i < |s| ==> 0 <= s[i] < n
    requires forall x :: 0 <= x < n ==> x in s
    ensures |s| == n
  {
    if n > 0 {
      var k := IndexOf(s, n - 1);
      var t := s[..k] + s[k + 1..];
      assert |t| == |s| - 1;
      forall i, j | 0 <= i < j < |t|
        ensures t[i] != t[j]
      {
        var iNew := if i < k then i else i + 1;
        var jNew := if j < k then j else j + 1;
        assert t[i] == s[iNew] && t[j] == s[jNew];
      }
      forall i | 0 <= i < |t|
        ensures 0 <= t[i] < n - 1
      {
        var iNew := if i < k then i else i + 1;
        assert t[i] == s[iNew] && iNew != k;
      }
      forall x | 0 <= x < n - 1
        ensures x in t
      {
        var i := IndexOf(s, x);
        assert i != k;
        if i < k {
          assert t[i] == x;
        } else {
          assert t[i - 1] == x;
        }
      }
      DistinctCover(t, n - 1);
    }
  }

  /** Reading a repetition-free sequence backwards turns position `i` into `|s| - 1 - i`. */
  lemma ReverseIndexOf(s: seq<int>, x: int)
    requires Distinct(s) && x in s
    ensures Distinct(Reverse(s)) && x in Reverse(s)
    ensures IndexOf(Reverse(s), x) == |s| - 1 - IndexOf(s, x)
  {
    var r := Reverse(s);
    var i := IndexOf(s, x);
    assert r[|s| - 1 - i] == x;
    assert Distinct(r) by {
      forall a, b | 0 <= a < b < |r|
        ensures r[a] != r[b]
      {
        assert r[a] == s[|s| - 1 - a] && r[b] == s[|s| - 1 - b];
      }
    }
    IndexOfDistinct(r, |s| - 1 - i);
  }

  /**
   * `reversePost()` holds every vertex exactly once: it has V entries, all
   * vertices, none repeated.
   */
  lemma ReversePostVertices(g: Graph)
    requires Valid(g)
    ensures var r := ReversePost(g);
      |r| == g.v && Distinct(r)
      && (forall i :: 0 <= i < |r| ==> 0 <= r[i] < g.v)
      && (forall x :: 0 <= x < g.v ==> x in r)
  {
    SweepDone(g);
    var post := Sweep(g, Vertices(g.v)).st.post;
    var r := ReversePost(g);
    forall i | 0 <= i < |post|
      ensures 0 <= post[i] < g.v
    {
      assert post[i] in post;
    }
    DistinctCover(post, g.v);
    forall x | 0 <= x < g.v
      ensures x in r
    {
      ReverseIndexOf(post, x);
    }
    if post != [] {
      ReverseIndexOf(post, post[0]);
    }
  }

  /** In an acyclic graph a vertex shares its strong component with nobody. */
  lemma AcyclicMutReach(g: Graph, u: int, a: int)
    requires Acyclic(g) && MutReach(g, u, a)
    ensures a == u
  {
    if a != u {
      var p :| IsWalk(g, p) && p[0] == u && p[|p| - 1] == a;
      var x := p[1];
      assert IsWalk(g, p[1..]);
      assert Reach(g, x, a);
      assert x in g.adj[u];
      ReachTrans(g, x, a, u);
    }
  }

  /**
   * On an acyclic graph `reversePost()` is a topological order: for every
   * edge `u -> w`, `u` comes before `w`.
   */
  lemma ReversePostTopological(g: Graph, u: int, w: int)
    requires Valid(g) && Acyclic(g) && 0 <= u < g.v && w in g.adj[u]
    ensures u in ReversePost(g) && w in ReversePost(g)
    ensures IndexOf(ReversePost(g), u) < IndexOf(ReversePost(g), w)
  {
    var post := Sweep(g, Vertices(g.v)).st.post;
    PostOrderEdge(g, u, w);
    ReverseIndexOf(post, u);
    ReverseIndexOf(post, w);
  }

  /** On an acyclic graph the sweep finishes the head of every edge before its tail. */
  lemma PostOrderEdge(g: Graph, u: int, w: int)
    requires Valid(g) && Acyclic(g) && 0 <= u < g.v && w in g.adj[u]
    ensures var post := Sweep(g, Vertices(g.v)).st.post;
      Distinct(post) && u in post && w in post && IndexOf(post, w) < IndexOf(post, u)
  {
    PostSettled(g, u, w);
    var post := Sweep(g, Vertices(g.v)).st.post;
    IndexBefore(post, w, u);
  }

  lemma PostSettled(g: Graph, u: int, w: int)
    requires Valid(g) && Acyclic(g) && 0 <= u < g.v && w in g.adj[u]
    ensures var post := Sweep(g, Vertices(g.v)).st.post;
      Distinct(post) && u in post && w in post && w != u && IndexOf(post, w) <= IndexOf(post, u)
  {
    SweepDone(g);
    var st := Sweep(g, Vertices(g.v)).st;
    assert 0 <= w < g.v;
    ReachEdge(g, u, w);
    assert SettledFrom(g, st, u, w);
    if w == u {
      ReachRefl(g, u);
      assert false;
    }
    NoLaterMate(g, st, u);
  }

  /** In an acyclic graph a finished vertex is its own strong component, so nothing in it is on the stack or finished later. */
  lemma NoLaterMate(g: Graph, st: Search, u: int)
    requires Acyclic(g) && u in st.post
    ensures !exists a :: MutReach(g, u, a) && (Gray(st, a) || (a in st.post && IndexOf(st.post, u) < IndexOf(st.post, a)))
  {
    if exists a :: MutReach(g, u, a) && (Gray(st, a) || (a in st.post && IndexOf(st.post, u) < IndexOf(st.post, a))) {
      var a :| MutReach(g, u, a) && (Gray(st, a) || (a in st.post && IndexOf(st.post, u) < IndexOf(st.post, a)));
      AcyclicMutReach(g, u, a);
      assert false;
    }
  }

  lemma IndexBefore(s: seq<int>, x: int, y: int)
    requires x in s && y in s && x != y && IndexOf(s, x) <= IndexOf(s, y)
    ensures IndexOf(s, x) < IndexOf(s, y)
  {
  }
}

=== FILE: undirected_graphs.dfy ===
/**
 * The undirected adjacency-list graph: `addEdge(v, w)` records the edge in
 * both endpoints' bags and counts it once.
 */
module AdjacencyListGraphs {
  import opened Wrappers
  import opened Graphs

  /**
   * What the object guarantees between calls: every neighbour is a vertex,
   * each edge is listed from both ends, and the counter is half the entries.
   */
  ghost predicate Undirected(g: Graph)
  {
    Valid(g) && Symmetric(g) && Entries(g.adj) == 2 * g.e
  }

  /** The constructor: a negative vertex count fails when the bag array is allocated. */
  function New(n: int): (r: Result<Graph>)
    ensures n < 0 <==> r == Err(NegativeArraySize)
    ensures r.Ok? ==> r.value.v == n && r.value.e == 0 && |r.value.adj| == n
    ensures r.Ok? ==> forall u :: 0 <= u < n ==> r.value.adj[u] == []
  {
    if n < 0 then Err(NegativeArraySize) else Ok(Empty(n))
  }

  lemma NewUndirected(n: nat)
    ensures Undirected(New(n).value)
  {
    EntriesEmpty(n);
  }

  /**
   * `addEdge(v, w)`: `w` goes to the front of `adj(v)`, then `v` to the front
   * of `adj(w)`; an endpoint outside `[0, V)` fails with an index error.
   */
  function AddEdge(g: Graph, v: int, w: int): (r: Result<Graph>)
    requires |g.adj| == g.v
    ensures r.Ok? <==> 0 <= v < g.v && 0 <= w < g.v
    ensures r.Err? ==> r.error == IndexOutOfBounds
    ensures r.Ok? ==> r.value.v == g.v && r.value.e == g.e + 1 && |r.value.adj| == g.v
    ensures r.Ok? && v != w ==> r.value.adj[v] == [w] + g.adj[v] && r.value.adj[w] == [v] + g.adj[w]
    ensures r.Ok? && v == w ==> r.value.adj[v] == [v, v] + g.adj[v]
    ensures r.Ok? ==> forall x :: 0 <= x < g.v && x != v && x != w ==> r.value.adj[x] == g.adj[x]
  {
    if !(0 <= v < g.v) || !(0 <= w < g.v) then Err(IndexOutOfBounds)
    else
      var adj1 := g.adj[v := [w] + g.adj[v]];
      Ok(Graph(g.v, g.e + 1, adj1[w := [v] + adj1[w]]))
  }

  /** `adj(v)`: the neighbours in bag order; outside `[0, V)` an index error. */
  function Adj(g: Graph, v: int): (r: Result<seq<int>>)
    requires |g.adj| == g.v
    ensures r.Ok? <==> 0 <= v < g.v
    ensures r.Ok? ==> r.value == g.adj[v]
    ensures r.Err? ==> r.error == IndexOutOfBounds
  {
    if 0 <= v < g.v then Ok(g.adj[v]) else Err(IndexOutOfBounds)
  }

  /**
   * Adding an edge keeps the graph undirected: both endpoints gain one entry
   * for each other (a self-loop gives its vertex two), and the counter, which
   * grows by one, stays half the number of entries.
   */
  lemma AddEdgeUndirected(g: Graph, v: int, w: int)
    requires Undirected(g) && AddEdge(g, v, w).Ok?
    ensures Undirected(AddEdge(g, v, w).value)
  {
    var r := AddEdge(g, v, w).value;
    var adj1 := g.adj[v := [w] + g.adj[v]];
    AddEdgeValid(g, v, w);
    EntriesPrepend(g.adj, v, w);
    EntriesPrepend(adj1, w, v);
    assert r.adj == adj1[w := [v] + adj1[w]];
    forall a, b | 0 <= a < |r.adj| && 0 <= b < |r.adj|
      ensures Count(r.adj[a], b) == Count(r.adj[b], a)
    {
      AddEdgeCount(g, v, w, a, b);
    }
  }

  /** `addEdge` only ever stores vertices that were range-checked, so every neighbour stays a vertex. */
  lemma AddEdgeValid(g: Graph, v: int, w: int)
    requires Valid(g) && AddEdge(g, v, w).Ok?
    ensures Valid(AddEdge(g, v, w).value)
  {
    var r := AddEdge(g, v, w).value;
    forall u, i | 0 <= u < r.v && 0 <= i < |r.adj[u]| ensures 0 <= r.adj[u][i] < r.v {
      if u == v || u == w {
        if i > 0 && v == w {
          assert r.adj[u][i] == ([v] + g.adj[v])[i - 1];
        } else if i > 0 {
          assert r.adj[u][i] == g.adj[u][i - 1];
        }
      }
    }
  }

  /** After `addEdge(v, w)` the count of `b` in `adj(a)` is symmetric again. */
  lemma AddEdgeCount(g: Graph, v: int, w: int, a: int, b: int)
    requires Valid(g) && Symmetric(g) && AddEdge(g, v, w).Ok? && 0 <= a < g.v && 0 <= b < g.v
    ensures Count(AddEdge(g, v, w).value.adj[a], b) == Count(AddEdge(g, v, w).value.adj[b], a)
  {
    AddEdgeCountOne(g, v, w, a, b);
    AddEdgeCountOne(g, v, w, b, a);
    assert Count(g.adj[a], b) == Count(g.adj[b], a);
  }

  /** How often `b` appears in `adj(a)` after `addEdge(v, w)`: once more for each of `v -> w` and `w -> v` it matches. */
  lemma AddEdgeCountOne(g: Graph, v: int, w: int, a: int, b: int)
    requires Valid(g) && AddEdge(g, v, w).Ok? && 0 <= a < g.v
    ensures Count(AddEdge(g, v, w).value.adj[a], b)
         == Count(g.adj[a], b) + (if a == v && b == w then 1 else 0) + (if a == w && b == v then 1 else 0)
  {
    var r := AddEdge(g, v, w).value;
    if a == v && v == w {
      assert r.adj[a][1..] == [v] + g.adj[v];
    } else if a == v || a == w {
      assert r.adj[a][1..] == g.adj[a];
    }
  }

  /** A self-loop `addEdge(v, v)` puts `v` twice into its own list: degree 2. */
  lemma SelfLoopDegree(g: Graph, v: int)
    requires |g.adj| == g.v && 0 <= v < g.v
    ensures |AddEdge(g, v, v).value.adj[v]| == |g.adj[v]| + 2
    ensures Count(AddEdge(g, v, v).value.adj[v], v) == Count(g.adj[v], v) + 2
  {
    var r := AddEdge(g, v, v).value;
    assert r.adj[v][1..] == [v] + g.adj[v];
  }
}

=== FILE: util.dfy ===
/**
 * `Util`: comparisons and array helpers shared by the sorted structures.
 * Keys are Java `Integer`s, whose `compareTo` returns -1, 0 or 1; arrays are
 * sequences.
 */
module Util {
  import opened Wrappers

  /** `Integer.compareTo`: the sign of the comparison, as -1, 0 or 1. */
  function CompareTo(a: int, b: int): (r: int)
    ensures -1 <= r <= 1
    ensures r < 0 <==> a < b
    ensures r == 0 <==> a == b
  {
    if a < b then -1 else if a == b then 0 else 1
  }

  /** `less(a, b)`: `a.compareTo(b) < 0`. */
  function Less(a: int, b: int): (r: bool)
    ensures r <==> a < b
  {
    CompareTo(a, b) < 0
  }

  /** `lessOrEqual(a, b)`: `a.compareTo(b) < 1`. */
  function LessOrEqual(a: int, b: int): (r: bool)
    ensures r <==> a <= b
    ensures r <==> !Less(b, a)
  {
    CompareTo(a, b) < 1
  }

  /**
   * `swap(a, i, j)`: exchanges two slots and nothing else; an index outside
   * the array fails before anything is written.
   */
  function Swap<T>(a: seq<T>, i: int, j: int): (r: Result<seq<T>>)
    ensures r.Ok? <==> 0 <= i < |a| && 0 <= j < |a|
    ensures r.Err? ==> r.error == IndexOutOfBounds
    ensures r.Ok? ==> |r.value| == |a| && r.value[i] == a[j] && r.value[j] == a[i]
    ensures r.Ok? ==> forall k :: 0 <= k < |a| && k != i && k != j ==> r.value[k] == a[k]
    ensures r.Ok? ==> multiset(r.value) == multiset(a)
  {
    if 0 <= i < |a| && 0 <= j < |a| then Ok(a[i := a[j]][j := a[i]]) else Err(IndexOutOfBounds)
  }

  /**
   * `findMin(a, lowerBound, upperBound)`: the first index of a least key in
   * `[lo, hi)`, or `lo` itself when the range has at most one slot (nothing
   * is read then). Reading outside the array fails.
   */
  method FindMin(a: seq<int>, lo: int, hi: int) returns (r: Result<int>)
    ensures r.Ok? <==> hi <= lo + 1 || (0 <= lo && hi <= |a|)
    ensures r.Err? ==> r.error == IndexOutOfBounds
    ensures r.Ok? && hi <= lo + 1 ==> r.value == lo
    ensures r.Ok? && hi > lo + 1 ==> lo <= r.value < hi
    ensures r.Ok? && hi > lo + 1 ==> forall j :: lo <= j < hi ==> a[r.value] <= a[j]
    ensures r.Ok? && hi > lo + 1 ==> forall j :: lo <= j < r.value ==> a[r.value] < a[j]
  {
    var min := lo;
    var i := lo + 1;
    while i < hi
      invariant lo + 1 <= i && (i <= hi || i == lo + 1) && lo <= min < i
      invariant i > lo + 1 ==> 0 <= lo && i <= |a|
      invariant i > lo + 1 ==> forall j :: lo <= j < i ==> a[min] <= a[j]
      invariant i > lo + 1 ==> forall j :: lo <= j < min ==> a[min] < a[j]
    {
      if !(0 <= i < |a|) || !(0 <= min < |a|) {
        return Err(IndexOutOfBounds);
      }
      if Less(a[i], a[min]) {
        min := i;
      }
      i := i + 1;
    }
    return Ok(min);
  }

  /**
   * `copy(a, aux, lo, hi)`: `aux[i] = a[i]` for every `i` from `lo` to `hi`
   * inclusive; the rest of `aux` is kept. A slot outside either array fails.
   */
  method Copy<T>(a: seq<T>, aux: seq<T>, lo: int, hi: int) returns (r: Result<seq<T>>)
    ensures r.Ok? <==> hi < lo || (0 <= lo && hi < |a| && hi < |aux|)
    ensures r.Err? ==> r.error == IndexOutOfBounds
    ensures r.Ok? ==> |r.value| == |aux|
    ensures r.Ok? ==> forall i :: 0 <= i < |aux| ==> r.value[i] == if lo <= i <= hi then a[i] else aux[i]
  {
    var b := aux;
    var i := lo;
    while i <= hi
      invariant lo <= i && (i <= hi + 1 || i == lo) && |b| == |aux|
      invariant i > lo ==> 0 <= lo && i <= |a| && i <= |aux|
      invariant forall k :: 0 <= k < |aux| ==> b[k] == if lo <= k < i then a[k] else aux[k]
    {
      if !(0 <= i < |a|) || !(0 <= i < |aux|) {
        return Err(IndexOutOfBounds);
      }
      b := b[i := a[i]];
      i := i + 1;
    }
    return Ok(b);
  }
}

=== FILE: wrappers.dfy ===
/** Null references and the unchecked exceptions the library throws, as values. */
module Wrappers {

  /** A Java reference that may be null: `None` stands for null. */
  datatype Option<+T> = None | Some(value: T)

  /** The exceptions thrown by the library's operations. */
  datatype Error =
    | NullPointer          // NullPointerException
    | IllegalArgument      // IllegalArgumentException
    | NoSuchElement        // java.util.NoSuchElementException
    | IndexOutOfBounds     // ArrayIndexOutOfBoundsException
    | UnsupportedOperation // UnsupportedOperationException
    | NegativeArraySize    // NegativeArraySizeException
    | Arithmetic           // ArithmeticException (a remainder by zero)
    | Diverges             // the call never returns: a loop that cannot make progress

  /** The outcome of an operation that either returns normally or throws. */
  datatype Result<+T> = Ok(value: T) | Err(error: Error)

  /** Two values returned together, such as a removed item and what remains. */
  type Pair<A, B> = (A, B)

  /** Number of occurrences of `x` in `s`. */
  function Count<T(==)>(s: seq<T>, x: T): nat
  {
    if s == [] then 0 else (if s[0] == x then 1 else 0) + Count(s[1..], x)
  }

  lemma {:induction false} CountAppend<T>(a: seq<T>, b: seq<T>, x: T)
    ensures Count(a + b, x) == Count(a, x) + Count(b, x)
  {
    if a == [] {
      assert a + b == b;
    } else {
      assert (a + b)[1..] == a[1..] + b;
      CountAppend(a[1..], b, x);
    }
  }

  lemma CountPositive<T>(s: seq<T>, x: T)
    ensures Count(s, x) > 0 <==> x in s
  {
  }

  /** Multiset of a sequence: every element counted with multiplicity. */
  lemma {:induction false} CountMultiset<T>(s: seq<T>, x: T)
    ensures Count(s, x) == multiset(s)[x]
  {
    if s != [] {
      assert s == [s[0]] + s[1..];
      CountMultiset(s[1..], x);
    }
  }

  /** Index of the first occurrence of `x` in `s`. */
  function IndexOf<T(==)>(s: seq<T>, x: T): (i: nat)
    requires x in s
    ensures i < |s| && s[i] == x
    ensures forall j :: 0 <= j < i ==> s[j] != x
  {
    if s[0] == x then 0 else 1 + IndexOf(s[1..], x)
  }

  /** No element occurs twice. */
  predicate Distinct<T(==)>(s: seq<T>)
  {
    forall i, j :: 0 <= i < j < |s| ==> s[i] != s[j]
  }

  lemma IndexOfAppend<T>(s: seq<T>, y: T, x: T)
    requires x in s
    ensures IndexOf(s + [y], x) == IndexOf(s, x)
  {
    if s[0] != x {
      assert (s + [y])[1..] == s[1..] + [y];
      IndexOfAppend(s[1..], y, x);
    }
  }

  lemma IndexOfLast<T>(s: seq<T>, y: T)
    requires y !in s
    ensures IndexOf(s + [y], y) == |s|
  {
    if s != [] {
      assert (s + [y])[1..] == s[1..] + [y];
      IndexOfLast(s[1..], y);
    }
  }

  lemma IndexOfDistinct<T>(s: seq<T>, i: nat)
    requires Distinct(s) && i < |s|
    ensures IndexOf(s, s[i]) == i
  {
  }

  /** `xs` backwards. */
  function Reverse<T>(xs: seq<T>): (r: seq<T>)
    ensures |r| == |xs| && forall i :: 0 <= i < |xs| ==> r[i] == xs[|xs| - 1 - i]
  {
    if xs == [] then [] else Reverse(xs[1..]) + [xs[0]]
  }
}
